=== FILE: README.md ===
# Demolab exchange and governance games in Dafny

This project models two parts of the Demolab repository.

- **The multi-tenant trading simulator.** Covers store.js, engine.js and ledger.js.
  - Each tenant is an agency. An agency holds users, one order book per listed symbol (AAPL, MSFT, TSLA), orders, trades, a queue of trades awaiting settlement, and per-symbol circuit-breaker state.
  - Limit orders reserve cash or tokens and rest in price-time order. `match` then trades the heads of the book while it is crossed.
  - A market order estimates its cost from the book, reserves it, sweeps the book and hands back what it did not use.
  - Every trade updates the parties' risk flags and runs the circuit breaker. It is then settled at once or queued for a later netting sweep.
  - A separate hash-chained ledger signs each block with every validator's HMAC. `verifyChain` reports the first block whose link, hash or quorum fails.
- **The two governance games.** Covers public/app.js and its older variant game.js.
  - These are turn-based state machines over five metrics in [0, 100].
  - Each turn the player approves, overrides or audits an AI recommendation. Hidden risks penalise unaudited decisions.
  - In public/app.js, audits cost credits that regenerate, and a high-risk decision without an audit is a policy breach.
  - Every turn is appended to a "|"-joined, hash-linked decision ledger.
  - game.js hashes that ledger with SHA-256, falling back on FNV-1a when Web Crypto is missing.

How the source maps onto Dafny:

- **Agencies are values.** An agency is a datatype held in a map by the `Store.Registry` class.
- **Objects the source shares are identified by key.** An order book holds order ids, and the settlement queue holds positions in the trade history.
- **Per-agency operations are functions or methods on agency values.** These are checks, reservation, matching, market execution, cancellation and netting.
- **State that changes in place is a class.**
  - The process-wide state, meaning the registry and the order and trade counters, is the `Exchange.Venue` class.
  - The audit chain is the `AuditLedger.Ledger` class.
  - The game state is `GovernanceGame.Game` and `LegacyGame.Game`.
  - The decision ledger is `GameChain.Chain`.
  - Each class method is proved against a specification function of its old state.
- **Outside inputs are parameters.**
  - The clock is the parameter `now`.
  - The random draw of the next game event is the parameter `next`.
  - SHA-256 and HMAC-SHA-256 are the function-valued parameters `digest`, `mac` and `sha`.

## Model

| member | source | states |
|---|---|---|
| Store.AllSymbolsListed | store.js:2 | Every symbol of the model is one of the three listed symbols. |
| Store.ParseSymbol | store.js:2 | A request names a known symbol exactly when it is "AAPL", "MSFT" or "TSLA", and the parsed symbol prints back as that name. |
| Store.DefaultRefPrice | store.js:76-81 | The reference price is 150, 320 or 220 for AAPL, MSFT or TSLA, 100 for any other name, and always positive. |
| Store.NewAgency | store.js:4-26 | A new agency has INSTANT settlement, a 30 s delay, a 10 % breaker for 30 s, and the name defaulting to the id. It has no users, orders or trades, an empty book per symbol, and a halt record at the default reference price per symbol. |
| Store.NewUser | store.js:41-58 | A new user is unverified, unfrozen and unflagged, with no cash, zero tokens of every symbol and an empty velocity window. |
| Store.TrimNoSurroundingSpace | store.js:84 | The trimmed agency id neither starts nor ends with white space. |
| Store.TrimIdempotent | store.js:84 | Trimming twice is trimming once. |
| Store.TrimIsSubstring | store.js:84 | The trimmed id is a contiguous piece of the original. |
| Store.LookupUser | store.js:104-109 | The user is found exactly when the agency has the id; otherwise "User not found". |
| Store.LookupBook | store.js:111-116 | The book is found exactly when the agency has the symbol; otherwise UNKNOWN_SYMBOL. |
| Store.StripOrder | store.js:150-164 | The public view carries the eleven public fields of the order unchanged and never the reservation. |
| Store.NewAgencyValid | store.js:4-26 | A new agency is well formed and solvent. |
| Store.AddUserKeepsWellFormed | store.js:96-102 | Adding a user under a fresh id keeps the agency well formed. |
| Store.AddUserKeepsSolvent | store.js:96-102 | Adding a user with empty balances keeps the agency solvent. |
| Store.Registry.EnsureAgency | store.js:83-90 | An empty trimmed id is refused with "agencyId required" and changes nothing. Otherwise the trimmed id is registered: an existing agency is kept as it is, and a missing one is created with the given name. |
| Store.Registry.CreateUser | store.js:96-102 | An empty trimmed agency id is refused. Otherwise the agency is ensured; an id it already has is refused with "User already exists in this agency", and a fresh id adds `NewUser` to that agency alone. |
| Store.Registry.GetUser | store.js:104-109 | A blank agency id is refused and changes nothing. Otherwise the registry changes only by `ensureAgency`: the trimmed id maps to the agency it held, or to a new one. The user is then looked up as `LookupUser` says. |
| Store.Registry.GetBook | store.js:111-116 | A blank agency id is refused and changes nothing. Otherwise the registry changes only by `ensureAgency`: the trimmed id maps to the agency it held, or to a new one. The book is then looked up as `LookupBook` says. |
| Store.EnsureAgencyTwice | store.js:83-90 | A second `ensureAgency` with the same id yields the same agency, changes nothing and ignores the second name. |
| OrderBook.Insert | engine.js:10-13 | Inserting into a sorted side keeps it sorted and adds exactly the one id. |
| OrderBook.Sort | engine.js:10-13 | `sortBooks` on one side returns a permutation of it in priority order: bids by price descending, asks ascending, then earlier `ts` first. |
| OrderBook.SortSortedUnchanged | engine.js:10-13 | Sorting a side that is already in priority order leaves it unchanged. |
| OrderBook.SortedHeadBest | engine.js:10-13 | The head of a sorted side has the best price, and the earliest time among equal prices. |
| OrderBook.SortedRemove | engine.js:416 | Removing any one order keeps a side sorted. |
| Accounts.Holding | engine.js:43 | A missing token entry reads as zero. |
| Accounts.CanPlace | engine.js:36-45 | The checks run in order: KYC_REQUIRED iff unverified; ACCOUNT_FROZEN iff verified and frozen; INVALID_PARAMS iff the quantity or price is not positive; then INSUFFICIENT_USD only for a buy and INSUFFICIENT_TOKENS only for a sell. The order passes iff every check holds. |
| Accounts.Reserve | engine.js:47-56 | Balance plus reservation is conserved. A buy reserves qty*price cash and a sell reserves qty tokens of the symbol; nothing else changes. |
| Accounts.Release | engine.js:58-68 | A remainder that is not positive changes nothing. Otherwise the remainder's worth moves from the reservation back to the balance, conserving their sum. |
| Accounts.ReserveReleaseRoundTrip | engine.js:47-68 | Releasing a whole unfilled order right after reserving it restores the user and empties the reservation. |
| Accounts.ReserveKeepsSolvent | engine.js:36-56 | An order `canPlace` accepts can be reserved without any balance or reservation going negative. |
| Accounts.Recent | engine.js:25 | The velocity window never grows when filtered, and every timestamp it keeps is less than 60 000 ms old. |
| Accounts.RecentIsFilter | engine.js:25 | A timestamp is in the filtered window exactly when it was in the window and is less than 60 000 ms old. |
| Accounts.ApplyRiskSignals | engine.js:22-34 | The window is filtered and `now` appended. highVelocity is set iff it already was or the window holds more than 6 entries; oversized iff it was or qty*price > 250 000; suspicious iff it was or either signal is set. Nothing else changes. |
| Accounts.RiskHistorySnoc | engine.js:22-34 | Running one more order is one more risk-signal step. |
| Accounts.VelocityBurst | engine.js:24-33 | Seven orders within one minute raise the high-velocity and suspicious flags. |
| Accounts.ParseFlag | engine.js:216 | Exactly the three flag names are known. |
| Accounts.SetFlag | engine.js:214-224 | An unknown flag is refused. Otherwise only the flags change. Clearing highVelocity or oversizedOrders recomputes suspicious as the OR of the other two; setting a signal leaves suspicious alone. |
| Accounts.ClearingSignalsClearsSuspicious | engine.js:218-221 | Clearing both risk signals, in either order, clears suspicious. |
| Accounts.CreditUsd | engine.js:225-231 | Only the cash changes, by exactly the amount. |
| Accounts.Mint | engine.js:232-239 | Only the tokens of the symbol change, by exactly the quantity. |
| Breaker.AssertTradable | engine.js:15-20 | Trading is refused iff `now` is before `haltedUntil`, with TRADING_HALTED naming the symbol and the end of the halt. |
| Breaker.RefPrice | engine.js:72 | The stored reference, or the default reference price when it is 0. |
| Breaker.MovedAtLeastIsPercent | engine.js:73-75 | The integer test used is equivalent to the engine's `abs((p - ref) / ref) * 100 >= cbPct` evaluated exactly over the reals. |
| Breaker.CircuitBreakerCheck | engine.js:70-84 | Only the symbol's halt record changes. A move of at least `cbPct` %, measured exactly, halts until `now + cbHaltSeconds*1000` with the reference kept; a smaller move makes the trade price the reference. |
| Breaker.HaltBlocksTrading | engine.js:70-84 | After a large move, trading the symbol is refused until the halt ends. |
| Breaker.TradeAtReferenceKeepsTrading | engine.js:75-83 | With a positive threshold, a trade at the reference price changes nothing. |
| Settlement.Credit | engine.js:89-92 | Instant settlement credits the buyer `qty` tokens of the symbol and the seller `qty*price` cash, and nobody else. |
| Settlement.SettleOrQueue | engine.js:86-101 | INSTANT credits both parties and marks the trade SETTLED. T_PLUS_1 marks it PENDING due at `now + tPlusDelaySeconds*1000` and appends it to the queue. No other trade changes. |
| Settlement.Due | engine.js:459 | The due positions are exactly the queued trades that are PENDING with `settleAt <= now`. |
| Settlement.NettingIsSequentialSettlement | engine.js:462-483 | Applying the per-user nets equals settling the due trades one by one as instant settlement would. |
| Settlement.SettleDueOutcome | engine.js:469-486 | After the sweep every due trade is SETTLED and off the queue; every other queued trade stays queued and unchanged. |
| Settlement.NetDue | engine.js:463-476 | The netting loop leaves each party's entry equal to their net over the due trades, no entry for anyone else, and the due trades marked settled. |
| Settlement.ApplyNets | engine.js:479-483 | The apply loop gives every user exactly their net. |
| Settlement.NetIsCredit | engine.js:463-476 | Over trades of positive size and price, nobody's net cash or tokens is negative. |
| Settlement.SettleDueOnlyCredits | engine.js:457-489 | Netting trades of positive size and price keeps every user and order, takes nothing from anyone, and keeps a solvent agency solvent. |
| Settlement.ProcessAgency | engine.js:457-489 | An agency changes iff it is T_PLUS_1 with trades due, and then becomes `SettleDue`; otherwise it is left alone. When its trades are all of positive size and price, nobody loses anything and a solvent agency stays solvent. |
| Matching.Refund | engine.js:122-127 | A buyer whose bid is above the trade price gets `(bid - price) * fill` back, moved out of the bid's reservation; otherwise nothing changes. |
| Matching.SortBook | engine.js:10-13 | `sortBooks` permutes each side of the symbol's book into priority order and touches no other book. |
| Matching.HeadTradeOk | engine.js:114-139 | The heads' trade is between two users of the agency and two different orders. It takes no head beyond its remainder and exhausts at least one of them. |
| Matching.Step | engine.js:110-169 | One loop pass keeps the agency well formed and appends exactly the heads' trade. The breaker sees its price, the book shrinks, and no other book changes. |
| Matching.StepIsStepped | engine.js:110-169 | One pass, whole: the heads trade at the maker's price for the smaller remainder. The buyer gets `(bid - price) * fill` back out of the bid's reservation. Both parties get their risk signals. INSTANT credits the buyer the tokens and the seller the proceeds; T_PLUS_1 appends the trade PENDING and queues it. Both heads are filled, and a head with nothing left is FILLED and leaves the book, which is in priority order again. The breaker sees the price. Every other user, order and book is unchanged. Proved in three parts: `StepLedger`, `StepFills`, `StepSorts`. |
| Matching.StepLedger | engine.js:119-153 | After a pass the settings are unchanged, the users are paid as `StepUsers` says, the stamped trade is appended, it is queued under T_PLUS_1 only, and the halts are the breaker's verdict on the price. |
| Matching.StepFills | engine.js:122-127 | After a pass the bid is drawn by the refund and then filled, the ask is filled, and every other order is unchanged. |
| Matching.StepSorts | engine.js:155-169 | After a pass each side of the book loses exactly its exhausted head and is in priority order; no other book changes. |
| Matching.PaidOnlyParties | engine.js:119-153 | A user who took neither side of the trade is left exactly as they were. |
| Matching.FillKeepsReserve | engine.js:155-167 | A fill of at most an order's remainder keeps its reservation covering what is left. |
| Matching.RefundedFillKeepsReserve | engine.js:123-167 | After the refund and the fill, a bid's reservation still covers its remainder at its own price. |
| Matching.SteppedKeepsSolvent | engine.js:110-169 | A pass of the loop keeps a solvent agency solvent. |
| Matching.StepKeepsSolvent | engine.js:110-169 | `Step` keeps a solvent agency solvent. |
| Matching.SteppedOnlyCredits | engine.js:119-153 | A pass takes nothing from any user: reservations were taken when the orders were placed. |
| Matching.StepOnlyCredits | engine.js:119-153 | `Step` keeps every user and takes nothing from any of them. |
| Matching.ImprovementSplits | engine.js:123-124 | At or below the bid's price the refund is not negative, and the refund plus the price paid make up the bid's price on the fill. |
| Matching.StepUsersNoLess | engine.js:119-153 | Every user paid for a trade of positive size and price loses nothing. |
| Matching.StepUsersKeepSolvent | engine.js:119-153 | Every user paid for such a trade keeps non-negative balances. |
| Matching.SteppedSplitsReservation | engine.js:89-127 | Under INSTANT, when buyer and seller differ, the buyer's refund and the seller's proceeds add up to the bid's price on the filled quantity. |
| Matching.StepRecords | engine.js:130-148 | A pass records trade `tseq`, a trade of the symbol at `now` of positive size and price. |
| Matching.StepSafe | engine.js:110-169 | A pass keeps every user, takes nothing from any of them, and keeps a solvent agency solvent. |
| Matching.TradeHeads | engine.js:110-169 | The loop body is exactly `Step`, and it is one trade (`OneTrade`). The book of `s` is the only one that may change. Trade `tseq`, of `s` at `now`, is appended. Orders and settings are kept, and the pass is `Safe` for every user. |
| Matching.Match | engine.js:103-176 | The loop computes `MatchResult`, the recursion that sorts, steps while crossed and stops right after a step that halted the symbol. What it returns meets `MatchFacts`. The book ends uncrossed or halted, and the agency stays well formed. The trades appended are numbered on from the first trade number, one per number, each a trade of the symbol at `now` of positive size and price. Only the symbol's book changes. Every user is kept, nobody holds less, and a solvent agency stays solvent. |
| Matching.OutcomeSteps | engine.js:109-112 | A crossed book, not halted by a step of this run, takes one more `Step`. |
| Matching.OutcomeStops | engine.js:109-112 | Matching stops where the book is not crossed, or a step of this run halted the symbol. |
| Matching.AfterStepUnfolds | engine.js:169-173 | After a step, matching carries on from the stepped book with the next trade number. |
| Matching.MatchSteps | engine.js:109-173 | Matching from a crossed book not halted by this run is matching from its `Step`, which is well formed and has a halt record for the symbol. |
| Matching.OutcomeFacts | engine.js:103-176 | Whatever the recursion computes meets `MatchFacts`: uncrossed or halted, the trades logged in order, only the symbol's book changed, `Kept` and `Safe`. Proved by induction on the book's size. |
| Matching.MatchEnds | engine.js:109-176 | Where the loop stops, it holds exactly `MatchResult`, and that meets `MatchFacts`. |
| Matching.StepOneTrade | engine.js:110-169 | A `Step` is one trade: trade `tseq` of `s` at `now` is appended, only the book of `s` changes, and it is `Kept` and `Safe`. |
| Matching.FactsCons | engine.js:148-149 | One more trade in front of a run that meets `MatchFacts` gives a run that meets it. |
| Liquidity.LiquidityIsDepth | engine.js:286-297 | The estimate's leftover is the quantity beyond the depth of the opposite side. |
| Liquidity.CostPositive | engine.js:291-296 | Over positive levels the estimated cost is never negative, and positive iff something is taken. |
| Liquidity.SortBookSorted | engine.js:284 | `sortBooks` on a book in priority order leaves it unchanged. |
| Market.Estimate | engine.js:286-297 | The estimate loop computes the leftover and the cost of the walk over the opposite side. |
| Market.TakeIsTaken | engine.js:334-380 | One pass, whole: the top trades at its own price for the smaller remainder, with the taker on the order's side. Both parties get their risk signals, and the trade is settled or queued. The top is filled and leaves its side when nothing is left. The breaker sees the price. Every other user, order and book is unchanged. |
| Market.TakeCosts | engine.js:286-380 | A take spends exactly what the walk charges for its quantity: the walk cost before equals the trade's value plus the walk cost of the rest afterwards. |
| Market.TakeSafe | engine.js:334-380 | A take keeps every user, takes nothing from any of them and keeps a solvent agency solvent. It records trade `tseq`, a trade of the symbol at `now`. |
| Market.TakenIsSafe | engine.js:334-380 | What one pass does is safe for every user. |
| Market.PaidAndFilledIsSafe | engine.js:359-379 | Users paid for a trade with no refund, and one order filled by at most its remainder: nobody holds less, and a solvent agency stays solvent. |
| Market.Advance | engine.js:342-380 | One take is exactly `Take`, and what is still wanted is `Rest`. It keeps the loop's accounting (`Progress`) and is safe. It appends trade `n`, of `s` at `now`, and shortens the opposite side or fills the order. |
| Market.Sweep | engine.js:333-382 | The loop computes `SweepResult`: it stops exactly where the recursion does, when filled, when the opposite side is empty or when the symbol is halted. Its trades add up to the quantity filled, are taken by the user on the order's side and are numbered on from `tseq`. Their value plus the walk cost of what is still wanted equals the estimate. It keeps every user, takes nothing from any of them and keeps a solvent agency solvent. |
| Market.Round | engine.js:342-380 | A take where the opposite side has a top and the symbol is not halted keeps `Progress`, leaves what `SweepResult` computes unchanged, and shortens the opposite side or fills the order. |
| Market.OutcomeTakes | engine.js:334-340 | Where something is wanted, the opposite side has a top and the symbol is not halted, execution takes the top. |
| Market.AfterTakeUnfolds | engine.js:342-382 | After a take, execution carries on from the taken agency with `Rest` still wanted and the next trade number. |
| Market.SweepTakes | engine.js:334-382 | Execution from an agency where it may go on is execution from its `Take`. |
| Market.TakeStep | engine.js:334-382 | After the loop's take, execution from the new state computes what it computed from the old one. |
| Market.SweepStops | engine.js:334-340 | Execution stops, and computes its own input, where nothing is wanted, the opposite side is empty or the symbol is halted. |
| Market.TakeOneTrade | engine.js:342-380 | A `Take` is one trade: trade `tseq` of `s` at `now` is appended, only the book of `s` changes, and it is `Kept` and `Safe`. |
| Market.TakeOnce | engine.js:342-382 | Where execution may go on, one take gives an agency one trade on, which is still well formed, and from which execution computes the same result with less work left. |
| Market.OutcomeSweepFacts | engine.js:333-382 | Whatever execution computes meets `SweepFacts`: the trades are appended, of `s` at `now` and numbered on from `tseq`, and it is `Kept` and `Safe`. Proved by induction on the work left. |
| Market.SweepFactsCons | engine.js:365-366 | One more trade in front of a run that meets `SweepFacts` gives a run that meets it. |
| Market.SweepEnds | engine.js:334-382 | Where the loop stops, it holds exactly `SweepResult`, logged, `Kept` and `Safe`. |
| Market.TakeShrinks | engine.js:372-379 | A take fills the order or removes the top, so the work left goes down, and the agency stays well formed with the book sorted. |
| Market.FillTopCost | engine.js:342-379 | Filling the top for the smaller remainder: the fill at the top's price plus the walk cost of the rest afterwards is the walk cost before. |
| Market.MarketCheckAsWritten | engine.js:280-307 | The checks run in source order, each error exactly when it applies: halt, INSUFFICIENT_LIQUIDITY, user, KYC, frozen, cash or tokens. A buy passes with any quantity. |
| Market.MarketCheck | engine.js:280-307 | The corrected checks: the same verdicts, except that a market order for no positive quantity is refused as INVALID_PARAMS. |
| Market.MarketBuyOfNothingAccepted | engine.js:302-304 | A market buy of zero or a negative quantity passes every check as written, and the corrected checks refuse it. |
| Market.Unreserve | engine.js:384-398 | A buy gets back the unspent part of its estimate and a sell its unfilled tokens. Balance plus reservation is conserved, and the user never ends with less. |
| Market.MarketReserve | engine.js:311-313 | A buy reserves the estimated cost in cash and no tokens; a sell reserves the quantity in tokens and no cash. |
| Market.Held | engine.js:311-313 | Taking the reservation off changes no token key. |
| Market.Admit | engine.js:282-313 | The checks in the engine's order, refusing exactly as the corrected checks do; an accepted order takes `MarketReserve` off the user's balances. |
| Market.HeldSolvent | engine.js:299-313 | The checks make sure a solvent taker can spare the reservation. |
| Market.UpdatedSolvent | engine.js:311-313 | Replacing one user of a solvent agency by a solvent user keeps it solvent. |
| Market.Settles | engine.js:309-398 | The pieces of an accepted order make up `MarketSettled`: the reservation comes off, execution is `SweepResult`, and the unused part is released. A solvent agency stays solvent. |
| Market.WithUser | engine.js:311-313 | Replacing one user's balances keeps the agency well formed and changes nothing else. |
| Market.ReleaseUnused | engine.js:384-398 | Only the taker changes, to the first half of `Unreserve`. |
| Market.Finish | engine.js:384-404 | The order reports as `MarketPlaced` says. Its trades are the ones appended, and the agency is the swept one with the taker's unused reservation released. |
| Market.PlaceMarket | engine.js:280-404 | A refusal is exactly the corrected check's error. An accepted order stays well formed and reports a MARKET order at the placeholder price, FILLED iff nothing remains, else PARTIAL. Its trades are appended, numbered, and add up to the filled quantity; they cost at most the estimate, and exactly the estimate when filled. On the agency (`MarketSettled`): the reservation comes off the taker, and execution is exactly `SweepResult` from there, which takes nothing from anyone. The result is the swept agency with the taker's unused reservation released through `Unreserve`. A solvent agency stays solvent. |
| Market.Execute | engine.js:309-404 | Once the checks passed and the reservation is off the taker, execution and release report the order as `MarketPlaced` and `MarketSettled` say, and a solvent agency stays solvent. |
| Engine.ParseMode | engine.js:180 | Only "INSTANT" and "T_PLUS_1" are modes. |
| Engine.SetSettlementMode | engine.js:178-185 | An unknown mode is refused and changes nothing. Otherwise the mode is set, and the delay changes only to a positive value. |
| Engine.SetCircuitBreakerParams | engine.js:187-193 | Each parameter changes only to a given positive value; nothing else changes. |
| Engine.SettingsStayPositive | engine.js:182-190 | A new agency's delay and breaker parameters are positive, and neither setter can make them zero or negative. |
| Engine.QueuedTradeWaits | engine.js:96-97 | A queued trade is not due now but is due after the delay. |
| Engine.VerifyKyc | engine.js:196-201 | After verification no order is refused for KYC. |
| Engine.RevokeKyc | engine.js:202-207 | After revocation every order is refused for KYC. |
| Engine.Freeze | engine.js:208-213 | A frozen verified user has every order refused as ACCOUNT_FROZEN; an unfrozen one never does. |
| Engine.AdminPrecheck | engine.js:225-234 | Crediting a non-positive amount, or minting a non-positive quantity, is INVALID_PARAMS; minting an unknown symbol is UNKNOWN_SYMBOL. These checks come before the user lookup. |
| Engine.Administer | engine.js:196-239 | Each regulator operation changes only what it names, and its result is stated per operation: verify and revoke are `VerifyKyc` and `RevokeKyc`, freeze is `Freeze` with the requested value, a flag is `SetFlag` (refused iff the flag is unknown), credit is `CreditUsd` and mint is `Mint`. No operation takes anything from the user, and a solvent user stays solvent. |
| Engine.LimitCheck | engine.js:242-247 | A limit order is refused for a halt, then an unknown user, then the `canPlace` verdict, and passes exactly when none applies. |
| Engine.Enter | engine.js:249-271 | Before matching, the user carries the order's risk signals and the reservation; the order is OPEN with nothing filled, at the back of its side and in the order map. Nothing else changes. |
| Engine.EnterKeepsSolvent | engine.js:247-271 | Entering an order `canPlace` accepts keeps a solvent agency solvent: the reservation covers the new order. |
| Engine.EnterAndMatch | engine.js:249-278 | The order is entered with the user's reservation, OPEN under id `oseq`, and the book is matched: the result is exactly `MatchResult` from the entered agency, as `LimitPlaced` says. |
| Engine.EnterKeepsWellFormed | engine.js:249-274 | An accepted order entered under a fresh id keeps the agency well formed. |
| Engine.PlaceLimit | engine.js:242-278 | A refusal is the check's error and changes nothing. An accepted order is entered with the user's risk signals and reservation, OPEN with nothing filled, under id `oseq`. Matching is then exactly `MatchResult` from the entered agency, which takes nothing from any user. The book ends uncrossed or halted, the new trades are appended and numbered, and the public view is returned. A solvent agency stays solvent. |
| Engine.IndexOf | engine.js:415 | `findIndex`: -1 iff absent, otherwise the first position of the id. |
| Engine.Without | engine.js:416 | Splicing removes exactly one occurrence of the id. |
| Engine.CancelOrder | engine.js:406-426 | Refusals come in order: ORDER_NOT_FOUND, then FORBIDDEN for another user's order, then NOT_OPEN. Otherwise the order leaves its book and is CANCELED, its remainder's reservation goes back to the owner, and the book is sorted again. In a solvent agency the owner loses nothing and the agency stays solvent. |
| Engine.WithdrawnReleases | engine.js:413-421 | In a solvent agency, a cancellation leaves the owner with no less and the agency solvent. |
| Engine.ReleaseCovered | engine.js:419 | Releasing a covered open remainder: the owner loses nothing, stays solvent if they were, and the canceled order's reservation stays non-negative. |
| Engine.Unbook | engine.js:413-416 | The order is taken off its side of its book; every other book and side is unchanged. |
| Exchange.SideOf | engine.js:268 | Only "BUY" is the buy side; any other string sells. |
| Exchange.Venue.constructor | engine.js:5-6 | An empty registry with both counters at 1. |
| Exchange.Venue.SetSettlementMode | engine.js:178-185 | The agency is ensured, even when the mode is then refused, and updated as `Engine.SetSettlementMode` says. |
| Exchange.Venue.SetCircuitBreakerParams | engine.js:187-193 | The agency is ensured and updated as `Engine.SetCircuitBreakerParams` says. |
| Exchange.Venue.Admin | engine.js:196-239 | Argument checks come first, then the user lookup, then the change to that one user. |
| Exchange.Venue.PlaceLimitOrder | engine.js:242-278 | The agency is answered as `LimitAnswered` says: an unknown symbol or a failed check changes nothing in it. An accepted order is `LimitPlaced`, so matching is exactly `MatchResult` from the entered agency. It takes the next order id, and its trades take the next trade ids. A refusal changes only the agency registry, by `ensureAgency`. |
| Exchange.Venue.PlaceMarketOrder | engine.js:280-404 | The agency is answered as `MarketAnswered` says. It applies the corrected check `Market.MarketCheck`: a market BUY of zero or a negative quantity, which engine.js:302-304 accepts, is refused here (see Findings). A halted symbol is refused before the book is sorted. Past that check the sorted book stays even when the order is refused. An accepted order is `MarketPlaced` and `MarketSettled`, so execution is exactly `SweepResult` after the reservation. It consumes one order id, and one trade id per trade. |
| Exchange.Venue.CancelOrder | engine.js:406-426 | `cancelOrder` on the addressed agency; the counters do not move. |
| Exchange.Venue.ProcessAllAgencies | engine.js:445-491 | Every agency is swept once, and the result is true iff some T_PLUS_1 agency had trades due. |
| AuditLedger.Find | ledger.js:81 | `find` returns a validator with the id that no earlier validator shares, so the first one; none iff no validator has it. |
| AuditLedger.Ledger.constructor | ledger.js:4-12 | An empty chain with three validators and a quorum of two. |
| AuditLedger.Ledger.SignBlockHash | ledger.js:22-30 | One signature per validator, in order, each the validator's HMAC of the hash. |
| AuditLedger.Ledger.Genesis | ledger.js:33-44 | The genesis block has index 0, type GENESIS, the fixed message, a previous hash of 64 zeros, its own hash and all signatures. |
| AuditLedger.Ledger.InitLedger | ledger.js:32-46 | An empty chain gets the genesis block; any other chain is left alone. |
| AuditLedger.Ledger.AddBlock | ledger.js:48-63 | The new block is numbered after and linked to the last block, hashed over its own header, fully signed and appended. The chain stays valid. |
| AuditLedger.Ledger.Fault | ledger.js:67-86 | The checks run in order: prevHash mismatch, then hash mismatch, then fewer counted signatures than the quorum. |
| AuditLedger.Ledger.CountValid | ledger.js:79-85 | The inner loop counts the signatures that name a known validator and carry its HMAC. |
| AuditLedger.Ledger.VerifyChain | ledger.js:65-89 | The loop reports the first faulty block after genesis and its reason, or ok. |
| AuditLedger.Ledger.ValidChainVerifies | ledger.js:32-89 | Round trip: a chain built only by `initLedger` and `addBlock` verifies. |
| AuditLedger.Ledger.SignedBlockMeetsQuorum | ledger.js:22-30 | All three signatures of a signed block count, so it meets the quorum. |
| AuditLedger.Ledger.DuplicateSignatureCounts | ledger.js:78-86 | The quorum counts signatures, not validators: one validator's signature given twice meets it. |
| AuditLedger.Ledger.IgnoredSignature | ledger.js:78-86 | A signature naming no known validator, or not carrying its HMAC of the hash, adds nothing to the count wherever it stands. |
| AuditLedger.Ledger.ValidSigsAppend | ledger.js:80-85 | Signature counts add up over concatenation. |
| AuditLedger.Ledger.GenesisUnchecked | ledger.js:67 | Only the genesis block's hash matters to `verifyChain`; its content is never checked. |
| AuditLedger.Ledger.ChangedDataBreaksChain | ledger.js:72-76 | Changing the data of a block after it was hashed makes it the first block rejected, with a hash mismatch. |
| AuditLedger.Ledger.SettledTradeBreaksChain | engine.js:93-94 | A logged trade later marked SETTLED through the shared object makes `verifyChain` reject its block. |
| Fnv.Fnv1a32 | public/app.js:15-22 | The loop computes FNV-1a over the UTF-16 code units, with offset basis 0x811c9dc5 and prime 0x01000193, as an unsigned 32-bit number. |
| Fnv.FnvFromAppend | public/app.js:17-20 | Hashing runs left to right: hashing `a + b` continues the hash of `a`. |
| Fnv.KnownVectors | public/app.js:15-22 | FNV-1a of "" is 0x811c9dc5 and of "a" is 0xe40c292c. |
| Fnv.Hex8 | game.js:21 | Exactly 8 lower-case hex digits that read back as the number. |
| Fnv.FallbackDigest | game.js:14-22 | The fallback digest is 64 hex digits, the 8 of the FNV-1a value repeated 8 times. |
| Fnv.FallbackSha256Hex | game.js:14-22 | The fallback loop and formatting compute `FallbackDigest`. |
| GameRules.Clamp | public/app.js:2 | The result lies in [lo, hi], equals n when n is inside, and is the nearer bound otherwise. |
| GameRules.MetricFailReason | public/app.js:204-210 | The message is non-empty iff trust, fairness, safety or compliance is at most 0; profit is never looked at. |
| GameRules.HiddenPenalty | public/app.js:366-376 | There is never a penalty on trust, profit or safety, and none at all after an audit this turn or for an Audit. |
| GameRules.HiddenPenaltyFloors | public/app.js:370-373 | Otherwise the penalty is floor(bias/35) off fairness and floor(compliance risk/40) off compliance, at most 2 each for risks in [0, 100]. |
| GameRules.AuditFindings | public/app.js:451-453 | The findings text is non-empty iff the action is an Audit. |
| GameChain.Chain.Genesis | public/app.js:213-233 | The genesis block has index 0, GENESIS, previous hash "0", and its own hash. |
| GameChain.Chain.InitGenesis | public/app.js:213-233 | An empty ledger gets the genesis block; any other is left alone. |
| GameChain.Chain.Stamped | public/app.js:243-252 | `addBlock` numbers the record after the last block, stamps the time, links it to the last hash and hashes it; the other fields are the record's. |
| GameChain.Chain.AddBlock | public/app.js:243-252 | The stamped block is appended and the chain stays valid. |
| GameChain.Chain.FirstBreak | public/app.js:254-265 | -1 iff no block from the start has a link or hash mismatch; otherwise the first such block. |
| GameChain.Chain.ValidateChain | public/app.js:254-265 | The loop returns the first broken block, or ok with -1. |
| GameChain.Chain.ValidChainValidates | public/app.js:213-265 | Round trip: a chain built only by `initGenesis` and `addBlock` validates. |
| GameChain.Chain.EditedBlockBreaks | public/app.js:254-265 | With a collision-free hash, editing a block's serialized fields makes it the first broken block. |
| GameChain.Chain.SeparatorShiftUndetected | public/app.js:235-241 | "|" is not escaped: moving text across a "|" between the rationale and the audit findings changes the block but still validates. |
| GameChain.Serialize | public/app.js:235-241 | `serializeForHash` is the fields' lengths plus 14 separators long, starts with the index and ends with "|" and the previous hash. |
| GameChain.JoinLength | public/app.js:235-241 | `join` with a one-character separator adds exactly one character between each two parts. |
| GameChain.JoinStarts | public/app.js:235-241 | A join starts with its first part. |
| GameChain.SameSerialization | public/app.js:235-241 | Such a shift leaves the serialization unchanged. |
| GovernanceGame.HighRiskMonotone | public/app.js:352-355 | `isHighRisk` only grows with the compliance risk, the bias risk and the confidence, and a safe event has all three below 70, 80 and 92. |
| GovernanceGame.PolicyFor | public/app.js:385-402 | A breach happens iff the event is high risk, the action is not an Audit and there was no audit this turn. A breach costs 2 trust and 8 compliance; otherwise there is no cost. |
| GovernanceGame.Applied | public/app.js:357-364 | Every metric ends in [0, 100]. |
| GovernanceGame.AppliedExact | public/app.js:357-364 | A metric that stays within [0, 100] moves by exactly its impact less its penalty. |
| GovernanceGame.Regenerated | public/app.js:378-383 | Credits change only on even days after day 1, by one, and never above 5. |
| GovernanceGame.Entry | public/app.js:455-474 | The recorded deltas are pre-clamp: trust less the policy penalty; fairness less the hidden penalty; compliance less both. |
| GovernanceGame.Step | public/app.js:413-508 | A turn that is not taken (game over, or an Audit without credit) changes nothing. |
| GovernanceGame.StepKeepsMetricsInRange | public/app.js:357-364 | Metrics stay in [0, 100] across every turn. |
| GovernanceGame.AuditSpendsCredit | public/app.js:423-428 | An Audit spends exactly one credit and marks the turn audited; regeneration follows when the game goes on. |
| GovernanceGame.StepCountsBreach | public/app.js:431-443 | A turn adds one breach exactly when a high-risk event is decided without an audit, and a breach costs 2 trust and 8 compliance on top of the hidden penalty. |
| GovernanceGame.StepEnds | public/app.js:482-503 | The game ends iff breaches reach 3 or a metric has failed, and the day stays. Otherwise the day advances by one, bestDay follows it and the next event is drawn, unaudited. |
| GovernanceGame.StepKeepsLive | public/app.js:413-508 | Every turn keeps metrics in range, credits within [0, 5], days consistent, and the audit flag only on a finished game. |
| GovernanceGame.HighRiskDecisionBreaches | public/app.js:385-410 | An audit ends the turn, so in a running game every high-risk Approve or Override is a breach. |
| GovernanceGame.ThirdBreachEndsGame | public/app.js:482-488 | The third breach ends the game whatever the metrics, and the day does not advance. |
| GovernanceGame.Game.constructor | public/app.js:178-202 | The initial state is day 1, best day 0, 3 credits, no breaches and metrics 70/70/55/70/70, with the genesis block and the first event. |
| GovernanceGame.Game.ApplyCompliancePolicy | public/app.js:385-402 | Returns `PolicyFor` and adds exactly one breach on a breach. |
| GovernanceGame.Game.ApplyAuditCreditRegen | public/app.js:378-383 | Credits become `Regenerated`. |
| GovernanceGame.Game.PickNextEvent | public/app.js:404-410 | The audit flag is cleared and the drawn event becomes current. |
| GovernanceGame.Game.ApplyImpact | public/app.js:357-364 | The metrics become `Applied` of the impact and the penalty; nothing else changes. |
| GovernanceGame.Game.Charge | public/app.js:416-443 | The audit credit, audit flag, breach count and metrics move as `Played` says, and the hidden and policy penalties are those of the event, action and audit flag. |
| GovernanceGame.Game.Record | public/app.js:451-474 | The turn's record is stamped and appended to the ledger, which stays valid. |
| GovernanceGame.Game.CloseTurn | public/app.js:482-508 | The game ends on the last breach or a failed metric; otherwise the day advances, credits regenerate and the next event is drawn, as `Closed` says. |
| GovernanceGame.Game.TakeAction | public/app.js:413-508 | The state moves as `Step` says and the game stays live. A taken turn appends exactly its stamped record to the ledger; a turn not taken leaves the ledger alone. |
| LegacyGame.Sha256Hex | game.js:7-23 | The result is Web Crypto's digest when it exists; otherwise 64 hex digits whose first 8 read as the FNV-1a value. |
| LegacyGame.FallbackRepeats | game.js:21 | The fallback digest is one block of 8 hex digits written 8 times. |
| LegacyGame.ClassicPenalty | game.js:332-342 | The penalty is nothing after an audit or for an Audit. Its fairness and compliance parts are those of public/app.js: floor(bias/35) and floor(compliance risk/40). |
| LegacyGame.ClassicApplied | game.js:323-330 | Every metric ends in [0, 100]. |
| LegacyGame.PenaltyOnlyFairnessAndCompliance | game.js:323-330 | Trust, profit and safety are the same whatever the penalty, and a larger penalty never leaves fairness or compliance higher. |
| LegacyGame.ClassicAppliedExact | game.js:323-330 | A metric that stays within [0, 100] moves by exactly its impact, less the penalty for fairness and compliance. |
| LegacyGame.ClassicEntry | game.js:363-380 | The recorded deltas are pre-clamp: trust, profit and safety are the impact's, fairness and compliance the impact less the penalty. There are audit findings iff the action is an Audit. |
| LegacyGame.Step | game.js:344-404 | A finished game does not change. |
| LegacyGame.StepEnds | game.js:387-400 | In a running game the turn ends the game iff a metric has failed, and the day stays. Otherwise the day advances by one, bestDay follows it and the next event is drawn, unaudited; metrics stay in [0, 100]. |
| LegacyGame.StartIsLive | game.js:170-178 | The initial state is live and running. |
| LegacyGame.StepKeepsLive | game.js:344-404 | Every turn keeps metrics in range, days consistent, and the audit flag only on a finished game. |
| LegacyGame.LiveDecisionPaysHiddenPenalty | game.js:353-356 | The audit flag is set only after the penalty and cleared with the next event. So in a running game every Approve or Override pays floor(bias/35) and floor(compliance risk/40). |
| LegacyGame.Game.constructor | game.js:170-178 | The initial state is day 1, best day 0 and metrics 70/70/55/70/70, with the genesis block hashed by `sha256Hex`. |
| LegacyGame.Game.ComputeHiddenPenalty | game.js:332-342 | Returns `ClassicPenalty` for the current audit flag. |
| LegacyGame.Game.ApplyImpact | game.js:323-330 | The metrics become `ClassicApplied`; nothing else changes. |
| LegacyGame.Game.PickNextEvent | game.js:317-321 | The audit flag is cleared and the drawn event becomes current. |
| LegacyGame.Game.Play | game.js:347-361 | The metrics and audit flag move as `Played` says, and the penalty is `ClassicPenalty` of the event, action and earlier audit flag. |
| LegacyGame.Game.Record | game.js:357-381 | The turn's record is stamped and appended to the ledger, which stays valid. |
| LegacyGame.Game.CloseTurn | game.js:389-405 | The game ends on a failed metric; otherwise the day advances and the next event is drawn, as `Closed` says. |
| LegacyGame.Game.TakeAction | game.js:344-404 | The state moves as `Step` says and the game stays live. A running game appends exactly its stamped record to the ledger; a finished game leaves it alone. |

## Left out

- The event log that engine.js writes through `addBlock` on every state change is not modelled. It is an effect that no engine property reads: no check, balance or book depends on it. The ledger is modelled on its own in `AuditLedger`, and `AuditLedger.Ledger.SettledTradeBreaksChain` covers the one way the engine touches logged data afterwards.
- Engine operations do not return the ledger blocks they would write.
- `Date.now()` and `new Date().toISOString()` are the parameter `now`, constant during one call.
- `Math.random()` and the daily-challenge generator `mulberry32` choose the next game event. That choice is the parameter `next`.
- The generated scenario library (public/app.js:150-175, game.js:142-167) is not modelled. Events are arbitrary values.
- Real SHA-256, HMAC-SHA-256 and Web Crypto are not modelled. They are function parameters. Collision freedom is a stated assumption, used only where a lemma needs it.
- JSON.stringify of block headers is not modelled. A block's data is its list of fields with their JSON texts, already encoded.
- Breaker.CircuitBreakerCheck: compares the move with `cbPct` exactly, over the rationals (`Breaker.MovedAtLeast`). engine.js:73 computes `Math.abs((tradePrice - ref) / ref) * 100` in IEEE doubles, where rounding can put a move of exactly `cbPct` percent just below it. With ref 100, trade price 129 and cbPct 29, the double is 28.999999999999996: the source does not halt, and the model does. The same holds for 100, 157 and 57. Double rounding is not modelled.
- JavaScript numbers are modelled as unbounded integers. Fractional prices, quantities and settings are not modelled.
- The `Number.isFinite` tests of the setters are modelled by `Option<int>`, where None stands for a missing or non-finite value.
- Messages built with `toFixed` are not modelled; nor are the halt reason text and the policy-breach note.
- A halt is identified by its error; the time formatting in the message is not kept.
- `snapshot`, `getAgency`, the `public()` views, server.js, aging.js, the database scripts, storage/store.js and the top-level app.js are not part of this model.
- The games' UI is not part of this model. That covers rendering, buttons, the leaderboard and score submission, export, `restartGame`, the daily mode and `auditOnly`, which only forwards to `takeAction`.
- The `validateChain` result that `takeAction` only displays is not modelled.
- GovernanceGame.Game.TakeAction, LegacyGame.Game.TakeAction and GameChain.Chain.AddBlock are modelled as atomic. In the source, `addBlock` reads the last block before awaiting `sha256Hex` (public/app.js:243-252, game.js:219-228), and the action buttons stay enabled meanwhile (public/app.js:677-679, game.js:522-524). Two overlapping turns can then append two blocks with the same index and previous hash, which `validateChain` rejects. Interleaved turns are not modelled, so `GameChain.Chain.ValidChainValidates` holds only for turns taken one at a time.
- Market.PlaceMarket: requires the book to be in priority order on entry. Every operation re-sorts the book, and the entry point `Exchange.Venue.PlaceMarketOrder` establishes it.
- Engine.PlaceLimit: requires the new order id to be fresh in the agency. `Exchange.Venue` keeps every stored id below its counter.
- Market.PlaceMarket: the market order is not stored in `a.orders`. The source never stores it either.
- Exchange.Venue.ProcessAllAgencies: agencies are visited as a set, not in Map insertion order. Each agency's sweep reads only that agency, so the result is the same.
- Exchange.SideOf: only the buy/sell distinction of the raw `side` string is kept. The source stores the string itself in the order and returns it through `scrub` (engine.js:242-270), so an order placed with "sell" reports "sell" there and `Sell` here.
- Settlement.SettleDueOnlyCredits and Settlement.ProcessAgency: solvency is proved for trades of positive size and price. Matching and market execution record only such trades (`Matching.Logged`), but the agency's well-formedness does not carry that fact from one call to the next.
- Engine.CancelOrder: promises that the owner loses nothing only in a solvent agency. Without a covering reservation, the release of a remainder at a negative price could take cash.
- Engine.CancelOrder: splices the first occurrence of the id found by `findIndex`. Since a book never holds an id twice, this is the only occurrence.
- Settlement.SettleOrQueue and Settlement.ProcessAgency: the trade object shared between `a.trades` and the settlement queue is modelled by positions in `a.trades`.
- The unknown-symbol TypeError that `assertTradable` raises through `a.halts[symbol]` is modelled as the UNKNOWN_SYMBOL refusal of `Store.ParseSymbol`.
- public/app.js:1 begins with a lone "/" rather than "//". This file-level syntax slip is not modelled; the functions are modelled as written.

## Findings

| source | as written | input that shows it | evidently intended | confidence | as-written member | corrected member |
|---|---|---|---|---|---|---|
| engine.js:86-101,148-153 | The trade object handed to `addBlock("TRADE_MATCHED", trade)` is the same object `settleOrQueue` then marks with `status` (and `settleAt`). `processAllAgencies` later marks it SETTLED (engine.js:474). | Any trade. Once the block is logged, the status field is added to its data, so `verifyChain` recomputes a different hash and reports "hash mismatch" at that block. | Each block's data is a snapshot taken when it is logged, so a chain built by `addBlock` alone keeps verifying. | high, not executed | AuditLedger.Ledger.SettledTradeBreaksChain | AuditLedger.Ledger.ValidChainVerifies |
| engine.js:302-304 | A market BUY calls `canPlace(u, "BUY", symbol, 1, 1)`, so the quantity is never checked. | A market BUY with `qty = 0` or `qty = -5` passes the checks when the user is verified, unfrozen and has at least 1 USD. It reserves nothing and returns an order with a remainder that is not positive. | A market order for no positive quantity is refused with INVALID_PARAMS, as a market SELL and a limit order are. | high, not executed | Market.MarketBuyOfNothingAccepted | Market.MarketCheck |

=== FILE: accounts.dfy ===
/**
 * Per-user checks and balance movements of the engine (engine.js): the
 * pre-trade checks of `canPlace`, the reservation taken by `reserve` and given
 * back by `release`, the risk signals of `applyUserRiskSignals` and the
 * regulator's user setters.
 */
module Accounts {
  import opened Wrappers
  import opened Store

  /** Width of the order-velocity window, in milliseconds. */
  const VELOCITY_WINDOW := 60000
  /** More than this many orders inside the window flags high velocity. */
  const VELOCITY_LIMIT := 6
  /** A trade value above this flags an oversized order. */
  const OVERSIZED_VALUE := 250000

  /** `u.tokens[symbol] || 0`: a missing holding reads as zero. */
  function Holding(u: User, s: Symbol): (n: int)
    ensures s in u.tokens ==> n == u.tokens[s]
    ensures s !in u.tokens ==> n == 0
  {
    if s in u.tokens then u.tokens[s] else 0
  }

  /** The order checks of `canPlace`, in the order the engine makes them. */
  function CanPlace(u: User, side: Side, s: Symbol, qty: int, price: int): (r: Outcome<Error>)
    ensures r.Pass? <==>
              u.verified && !u.frozen && qty > 0 && price > 0
              && (side.Buy? ==> u.usd >= qty * price)
              && (side.Sell? ==> Holding(u, s) >= qty)
    ensures r == Fail(KycRequired) <==> !u.verified
    ensures r == Fail(AccountFrozen) <==> u.verified && u.frozen
    ensures r == Fail(InvalidParams) <==> u.verified && !u.frozen && (qty <= 0 || price <= 0)
    ensures r.Fail? ==> r.error in {KycRequired, AccountFrozen, InvalidParams, InsufficientUsd, InsufficientTokens}
    ensures r == Fail(InsufficientUsd) ==> side.Buy?
    ensures r == Fail(InsufficientTokens) ==> side.Sell?
  {
    if !u.verified then Fail(KycRequired)
    else if u.frozen then Fail(AccountFrozen)
    else if qty <= 0 || price <= 0 then Fail(InvalidParams)
    else if side.Buy? then
      if u.usd < qty * price then Fail(InsufficientUsd) else Pass
    else
      if Holding(u, s) < qty then Fail(InsufficientTokens) else Pass
  }

  /** Moves the order's worth out of the user's spendable balance (`reserve`). */
  function Reserve(u: User, side: Side, s: Symbol, qty: int, price: int): (r: (User, ReserveInfo))
    requires s in u.tokens
    ensures r.0 == u.(usd := r.0.usd, tokens := r.0.tokens)
    ensures r.0.tokens.Keys == u.tokens.Keys
    ensures r.0.usd + r.1.usdReserved == u.usd
    ensures forall t :: t in u.tokens && t != s ==> r.0.tokens[t] == u.tokens[t]
    ensures r.0.tokens[s] + r.1.tokensReserved == u.tokens[s]
    ensures side.Buy? ==> r.1 == ReserveInfo(qty * price, 0)
    ensures side.Sell? ==> r.1 == ReserveInfo(0, qty)
  {
    if side.Buy? then
      var amt := qty * price;
      (u.(usd := u.usd - amt), ReserveInfo(amt, 0))
    else
      (u.(tokens := u.tokens[s := u.tokens[s] - qty]), ReserveInfo(0, qty))
  }

  /** Gives back what an unfilled remainder still holds (`release`); nothing when it is not positive. */
  function Release(u: User, side: Side, s: Symbol, leftover: int, price: int, ri: ReserveInfo): (r: (User, ReserveInfo))
    requires s in u.tokens
    ensures leftover <= 0 ==> r == (u, ri)
    ensures r.0 == u.(usd := r.0.usd, tokens := r.0.tokens)
    ensures r.0.tokens.Keys == u.tokens.Keys
    ensures r.0.usd + r.1.usdReserved == u.usd + ri.usdReserved
    ensures forall t :: t in u.tokens && t != s ==> r.0.tokens[t] == u.tokens[t]
    ensures r.0.tokens[s] + r.1.tokensReserved == u.tokens[s] + ri.tokensReserved
    ensures leftover > 0 && side.Buy? ==> r.0.usd == u.usd + leftover * price && r.0.tokens == u.tokens
    ensures leftover > 0 && side.Sell? ==> r.0.usd == u.usd && r.0.tokens[s] == u.tokens[s] + leftover
  {
    if leftover <= 0 then (u, ri)
    else if side.Buy? then
      var refund := leftover * price;
      (u.(usd := u.usd + refund), ri.(usdReserved := ri.usdReserved - refund))
    else
      (u.(tokens := u.tokens[s := u.tokens[s] + leftover]), ri.(tokensReserved := ri.tokensReserved - leftover))
  }

  /** Releasing a whole reservation right after taking it restores the user and empties the reservation. */
  lemma ReserveReleaseRoundTrip(u: User, side: Side, s: Symbol, qty: int, price: int)
    requires s in u.tokens && qty > 0
    ensures var (u1, ri) := Reserve(u, side, s, qty, price);
            Release(u1, side, s, qty, price, ri) == (u, ReserveInfo(0, 0))
  {
    var (u1, ri) := Reserve(u, side, s, qty, price);
    if side.Sell? {
      assert u1.tokens[s := u1.tokens[s] + qty] == u.tokens;
    }
  }

  /** An order `canPlace` accepted can be reserved without a balance going negative. */
  lemma ReserveKeepsSolvent(u: User, side: Side, s: Symbol, qty: int, price: int)
    requires s in u.tokens && UserSolvent(u) && CanPlace(u, side, s, qty, price) == Pass
    ensures UserSolvent(Reserve(u, side, s, qty, price).0)
    ensures Reserve(u, side, s, qty, price).1.usdReserved >= 0
    ensures Reserve(u, side, s, qty, price).1.tokensReserved >= 0
  {
    var r := Reserve(u, side, s, qty, price);
    if side.Buy? {
      assert qty * price > 0 by {
        assert qty > 0 && price > 0;
      }
    }
  }

  // ---------------------------------------------------------------------------
  // Risk signals

  /** The timestamps still inside the window at time `now` (`filter(x => t - x < 60000)`). */
  function Recent(ts: seq<int>, now: int): (r: seq<int>)
    ensures |r| <= |ts|
    ensures forall i :: 0 <= i < |r| ==> now - r[i] < VELOCITY_WINDOW
  {
    if ts == [] then []
    else if now - ts[0] < VELOCITY_WINDOW then [ts[0]] + Recent(ts[1..], now)
    else Recent(ts[1..], now)
  }

  /** The window keeps exactly the timestamps that are still recent. */
  lemma {:induction false} RecentIsFilter(ts: seq<int>, now: int)
    ensures forall x :: x in Recent(ts, now) <==> x in ts && now - x < VELOCITY_WINDOW
  {
    if ts != [] {
      RecentIsFilter(ts[1..], now);
      assert ts == [ts[0]] + ts[1..];
    }
  }

  /**
   * `applyUserRiskSignals`: records this order in the velocity window and raises
   * the high-velocity, oversized and suspicious flags. Nothing here lowers a flag.
   */
  function ApplyRiskSignals(u: User, qty: int, price: int, now: int): (r: User)
    ensures r == u.(ordersLastMinute := r.ordersLastMinute, flags := r.flags)
    ensures r.ordersLastMinute == Recent(u.ordersLastMinute, now) + [now]
    ensures r.flags.highVelocity <==> u.flags.highVelocity || |r.ordersLastMinute| > VELOCITY_LIMIT
    ensures r.flags.oversizedOrders <==> u.flags.oversizedOrders || qty * price > OVERSIZED_VALUE
    ensures r.flags.suspicious <==> u.flags.suspicious || r.flags.highVelocity || r.flags.oversizedOrders
  {
    var window := Recent(u.ordersLastMinute, now) + [now];
    var hv := u.flags.highVelocity || |window| > VELOCITY_LIMIT;
    var os := u.flags.oversizedOrders || qty * price > OVERSIZED_VALUE;
    var sus := u.flags.suspicious || hv || os;
    u.(ordersLastMinute := window, flags := Flags(sus, hv, os))
  }

  /** Applies the risk signals of orders at the given times, one after the other. */
  function RiskHistory(u: User, times: seq<int>, qty: int, price: int): User
    decreases |times|
  {
    if times == [] then u
    else RiskHistory(ApplyRiskSignals(u, qty, price, times[0]), times[1..], qty, price)
  }

  /** The last `n` timestamps of the window are no earlier than `lo`. */
  ghost predicate TailFrom(w: seq<int>, n: nat, lo: int) {
    n <= |w| && forall i :: |w| - n <= i < |w| ==> w[i] >= lo
  }

  /** When every entry is recent, filtering keeps the window as it is. */
  lemma {:induction false} RecentAllKept(w: seq<int>, now: int)
    requires forall i :: 0 <= i < |w| ==> now - w[i] < VELOCITY_WINDOW
    ensures Recent(w, now) == w
  {
    if w != [] {
      RecentAllKept(w[1..], now);
    }
  }

  /** Filtering keeps the last `n` entries of a window when they are all recent. */
  lemma {:induction false} RecentKeepsTail(w: seq<int>, n: nat, now: int)
    requires n <= |w|
    requires forall i :: |w| - n <= i < |w| ==> now - w[i] < VELOCITY_WINDOW
    ensures |Recent(w, now)| >= n
    ensures Recent(w, now)[|Recent(w, now)| - n..] == w[|w| - n..]
  {
    if |w| == n {
      RecentAllKept(w, now);
    } else {
      DropFirst(w, n, now);
      RecentKeepsTail(w[1..], n, now);
      RecentStep(w, n, now);
    }
  }

  /** Dropping the first entry of a window longer than `n` keeps its last `n` entries. */
  lemma DropFirst(w: seq<int>, n: nat, now: int)
    requires n < |w|
    requires forall i :: |w| - n <= i < |w| ==> now - w[i] < VELOCITY_WINDOW
    ensures forall i :: |w[1..]| - n <= i < |w[1..]| ==> now - w[1..][i] < VELOCITY_WINDOW
    ensures w[1..][|w[1..]| - n..] == w[|w| - n..]
  {
    forall i | |w[1..]| - n <= i < |w[1..]| ensures now - w[1..][i] < VELOCITY_WINDOW {
      assert w[1..][i] == w[i + 1];
    }
  }

  /** If filtering the window without its first entry keeps the tail, filtering the whole window keeps it too. */
  lemma RecentStep(w: seq<int>, n: nat, now: int)
    requires n < |w|
    requires |Recent(w[1..], now)| >= n
    requires Recent(w[1..], now)[|Recent(w[1..], now)| - n..] == w[|w| - n..]
    ensures |Recent(w, now)| >= n
    ensures Recent(w, now)[|Recent(w, now)| - n..] == w[|w| - n..]
  {
    var r', r := Recent(w[1..], now), Recent(w, now);
    if now - w[0] < VELOCITY_WINDOW {
      assert r == [w[0]] + r';
      assert r[|r| - n..] == r'[|r'| - n..];
    } else {
      assert r == r';
    }
  }

  /**
   * A run of orders whose times all lie in one window `[lo, last]` never drops
   * an entry from `lo` on: each call adds its own time to that tail.
   */
  lemma {:induction false} RunKeepsTail(u: User, times: seq<int>, qty: int, price: int, lo: int, last: int, n: nat)
    requires last - lo < VELOCITY_WINDOW
    requires forall i :: 0 <= i < |times| ==> lo <= times[i] <= last
    requires TailFrom(u.ordersLastMinute, n, lo)
    ensures TailFrom(RiskHistory(u, times, qty, price).ordersLastMinute, n + |times|, lo)
    decreases |times|
  {
    if times != [] {
      var w := u.ordersLastMinute;
      var now := times[0];
      RecentKeepsTail(w, n, now);
      var r := Recent(w, now);
      var u1 := ApplyRiskSignals(u, qty, price, now);
      var w1 := u1.ordersLastMinute;
      assert w1 == r + [now];
      assert TailFrom(w1, n + 1, lo) by {
        forall i | |w1| - (n + 1) <= i < |w1| ensures w1[i] >= lo {
          if i < |w1| - 1 {
            assert w1[i] == r[i];
            assert r[i] == r[|r| - n..][i - (|r| - n)];
            assert w[|w| - n..][i - (|r| - n)] == w[|w| - n + (i - (|r| - n))];
          }
        }
      }
      RunKeepsTail(u1, times[1..], qty, price, lo, last, n + 1);
    }
  }

  /** Running one more order at the end of a run is one more risk-signal step. */
  lemma {:induction false} RiskHistorySnoc(u: User, times: seq<int>, t: int, qty: int, price: int)
    ensures RiskHistory(u, times + [t], qty, price) == ApplyRiskSignals(RiskHistory(u, times, qty, price), qty, price, t)
    decreases |times|
  {
    if times != [] {
      assert (times + [t])[1..] == times[1..] + [t];
      RiskHistorySnoc(ApplyRiskSignals(u, qty, price, times[0]), times[1..], t, qty, price);
    }
  }

  /** Seven orders within one minute raise the high-velocity and suspicious flags. */
  lemma VelocityBurst(u: User, times: seq<int>, qty: int, price: int)
    requires |times| == VELOCITY_LIMIT + 1
    requires forall i :: 0 <= i < |times| ==> times[0] <= times[i] <= times[|times| - 1]
    requires times[|times| - 1] - times[0] < VELOCITY_WINDOW
    ensures RiskHistory(u, times, qty, price).flags.highVelocity
    ensures RiskHistory(u, times, qty, price).flags.suspicious
  {
    var prefix := times[..|times| - 1];
    var t := times[|times| - 1];
    assert prefix + [t] == times;
    RiskHistorySnoc(u, prefix, t, qty, price);
    RunKeepsTail(u, times, qty, price, times[0], t, 0);
  }

  // ---------------------------------------------------------------------------
  // Regulator setters on one user

  /** The three risk flags a regulator may set (`u.flags.hasOwnProperty(flag)`). */
  function ParseFlag(name: string): (r: Option<nat>)
    ensures r.Some? <==> name == "suspicious" || name == "highVelocity" || name == "oversizedOrders"
    ensures r.Some? ==> r.value < 3
  {
    if name == "suspicious" then Some(0)
    else if name == "highVelocity" then Some(1)
    else if name == "oversizedOrders" then Some(2)
    else None
  }

  /**
   * `adminFlagUser` on the user record: sets the named flag, and when a
   * non-suspicious flag is cleared, recomputes `suspicious` from the other two.
   */
  function SetFlag(u: User, flag: string, value: bool): (r: Result<User, Error>)
    ensures r.Failure? <==> ParseFlag(flag).None?
    ensures r.Failure? ==> r.error == UnknownFlag
    ensures r.Success? ==> r.value == u.(flags := r.value.flags)
    ensures flag == "suspicious" ==> r == Success(u.(flags := u.flags.(suspicious := value)))
    ensures flag == "highVelocity" ==>
              r.Success? && r.value.flags.highVelocity == value && r.value.flags.oversizedOrders == u.flags.oversizedOrders
    ensures flag == "oversizedOrders" ==>
              r.Success? && r.value.flags.oversizedOrders == value && r.value.flags.highVelocity == u.flags.highVelocity
    ensures r.Success? && flag != "suspicious" && !value ==>
              r.value.flags.suspicious == (r.value.flags.highVelocity || r.value.flags.oversizedOrders)
    ensures r.Success? && flag != "suspicious" && value ==> r.value.flags.suspicious == u.flags.suspicious
  {
    var f := ParseFlag(flag);
    if f.None? then Failure(UnknownFlag)
    else
      var fl :=
        if f.value == 0 then u.flags.(suspicious := value)
        else if f.value == 1 then u.flags.(highVelocity := value)
        else u.flags.(oversizedOrders := value);
      var fl' := if flag != "suspicious" && !value then fl.(suspicious := fl.highVelocity || fl.oversizedOrders) else fl;
      Success(u.(flags := fl'))
  }

  /** Clearing both risk signals, in either order, also clears the suspicious flag. */
  lemma ClearingSignalsClearsSuspicious(u: User)
    ensures var r1 := SetFlag(u, "highVelocity", false);
            var r2 := SetFlag(r1.value, "oversizedOrders", false);
            !r2.value.flags.suspicious && !r2.value.flags.highVelocity && !r2.value.flags.oversizedOrders
    ensures var r1 := SetFlag(u, "oversizedOrders", false);
            var r2 := SetFlag(r1.value, "highVelocity", false);
            !r2.value.flags.suspicious && !r2.value.flags.highVelocity && !r2.value.flags.oversizedOrders
  {
  }

  /** `adminCreditUSD` on the user record. */
  function CreditUsd(u: User, amount: int): (r: User)
    requires amount > 0
    ensures r == u.(usd := r.usd) && r.usd > u.usd
    ensures r.usd - u.usd == amount
  {
    u.(usd := u.usd + amount)
  }

  /** `adminMint` on the user record. */
  function Mint(u: User, s: Symbol, qty: int): (r: User)
    requires qty > 0 && s in u.tokens
    ensures r == u.(tokens := r.tokens) && r.tokens.Keys == u.tokens.Keys
    ensures r.tokens[s] - u.tokens[s] == qty
    ensures forall t :: t in u.tokens && t != s ==> r.tokens[t] == u.tokens[t]
  {
    u.(tokens := u.tokens[s := u.tokens[s] + qty])
  }
}

=== FILE: breaker.dfy ===
/**
 * The per-symbol circuit breaker of the engine (`assertTradable` and
 * `circuitBreakerCheck`, engine.js): a trade that moves the price by at least
 * `cbPct` percent from the reference price halts the symbol for
 * `cbHaltSeconds`; a smaller move makes the trade price the new reference.
 */
module Breaker {
  import opened Wrappers
  import opened Store

  function Abs(x: int): (r: nat)
    ensures r == x || r == -x
  {
    if x < 0 then -x else x
  }

  /** Trading is refused while the symbol's halt lasts. */
  function AssertTradable(a: Agency, s: Symbol, now: int): (r: Outcome<Error>)
    requires s in a.halts
    ensures r.Fail? <==> now < a.halts[s].haltedUntil
    ensures r.Fail? ==> r.error == TradingHalted(s, a.halts[s].haltedUntil)
  {
    if a.halts[s].haltedUntil > now then Fail(TradingHalted(s, a.halts[s].haltedUntil)) else Pass
  }

  /** The reference a move is measured against: `h.refPrice || defaultRefPrice(symbol)`. */
  function RefPrice(h: Halt, s: Symbol): (r: int)
    ensures h.refPrice != 0 ==> r == h.refPrice
    ensures h.refPrice == 0 ==> r == DefaultRefPrice(SymbolName(s)) && r > 0
  {
    if h.refPrice != 0 then h.refPrice else DefaultRefPrice(SymbolName(s))
  }

  /**
   * The move from `ref` to `price` is at least `pct` percent, compared without
   * division: |price - ref| * 100 >= pct * |ref|.
   */
  predicate MovedAtLeast(price: int, ref: int, pct: int) {
    Abs(price - ref) * 100 >= pct * Abs(ref)
  }

  /**
   * The cross-multiplied test is the engine's `Math.abs((tradePrice - ref) / ref) * 100 >= cbPct`
   * evaluated exactly over the reals; the engine evaluates it in doubles.
   */
  lemma MovedAtLeastIsPercent(price: int, ref: int, pct: int)
    requires ref != 0
    ensures MovedAtLeast(price, ref, pct) <==> (Abs(price - ref) as real / Abs(ref) as real) * 100.0 >= pct as real
  {
    var d, r := Abs(price - ref), Abs(ref);
    assert (d * 100) as real == d as real * 100.0;
    assert (pct * r) as real == pct as real * r as real;
    RatioTest(d as real, r as real, pct as real);
  }

  /** For a positive `r`, `d * 100 >= p * r` is the same test as `d / r * 100 >= p`. */
  lemma RatioTest(d: real, r: real, p: real)
    requires r > 0.0
    ensures d * 100.0 >= p * r <==> (d / r) * 100.0 >= p
  {
    var q := d / r;
    assert q * r == d;
    ScaleByPositive(q * 100.0, p, r);
    assert (q * 100.0) * r == d * 100.0;
  }

  lemma ScaleByPositive(x: real, y: real, r: real)
    requires r > 0.0
    ensures x >= y <==> x * r >= y * r
  {
    assert x * r - y * r == (x - y) * r;
    if x >= y {
      assert (x - y) * r >= 0.0;
    } else {
      assert (y - x) * r > 0.0;
    }
  }

  /** `circuitBreakerCheck`: halt the symbol on a large move, otherwise follow the trade price. */
  function CircuitBreakerCheck(a: Agency, s: Symbol, price: int, now: int): (r: Agency)
    requires s in a.halts
    ensures r == a.(halts := r.halts)
    ensures r.halts.Keys == a.halts.Keys
    ensures forall t :: t in a.halts && t != s ==> r.halts[t] == a.halts[t]
    ensures var ref := RefPrice(a.halts[s], s);
            if MovedAtLeast(price, ref, a.cbPct) then
              r.halts[s] == Halt(now + a.cbHaltSeconds * 1000, Volatility(price, ref, a.cbPct), a.halts[s].refPrice)
            else
              r.halts[s] == a.halts[s].(refPrice := price)
  {
    var h := a.halts[s];
    var ref := RefPrice(h, s);
    if MovedAtLeast(price, ref, a.cbPct) then
      a.(halts := a.halts[s := h.(haltedUntil := now + a.cbHaltSeconds * 1000, reason := Volatility(price, ref, a.cbPct))])
    else
      a.(halts := a.halts[s := h.(refPrice := price)])
  }

  /**
   * A halt blocks the symbol from the moment it is set until `cbHaltSeconds`
   * later and no longer; a trade that does not halt leaves a lapsed halt lapsed.
   */
  lemma HaltBlocksTrading(a: Agency, s: Symbol, price: int, now: int, later: int)
    requires s in a.halts && a.cbHaltSeconds > 0 && now <= later
    requires AssertTradable(a, s, now).Pass?
    ensures var r := CircuitBreakerCheck(a, s, price, now);
            var halted := MovedAtLeast(price, RefPrice(a.halts[s], s), a.cbPct);
            && (halted ==> (AssertTradable(r, s, later).Fail? <==> later < now + a.cbHaltSeconds * 1000))
            && (!halted ==> AssertTradable(r, s, later).Pass?)
  {
  }

  /** Under a positive threshold, a trade at the reference price never halts and keeps the reference. */
  lemma TradeAtReferenceKeepsTrading(a: Agency, s: Symbol, now: int)
    requires s in a.halts && a.cbPct > 0 && a.halts[s].refPrice != 0
    ensures CircuitBreakerCheck(a, s, a.halts[s].refPrice, now) == a
  {
    assert a.halts[s := a.halts[s]] == a.halts;
  }
}

=== FILE: engine.dfy ===
/**
 * The entry points of the exchange engine (engine.js) on one agency: the
 * settings and regulator operations, placing a limit order and cancelling an
 * order. The process-wide state around them (the registry of agencies and the
 * order and trade counters) is the `Exchange` class.
 */
module Engine {
  import opened Wrappers
  import opened Store
  import opened OrderBook
  import opened Accounts
  import opened Breaker
  import opened Settlement
  import opened Matching
  import opened Liquidity
  import opened Market

  // ---------------------------------------------------------------------------
  // Agency settings

  /** The settlement modes `setSettlementMode` accepts. */
  function ParseMode(name: string): (r: Option<Mode>)
    ensures r == Some(Instant) <==> name == "INSTANT"
    ensures r == Some(TPlus1) <==> name == "T_PLUS_1"
    ensures r.None? <==> name != "INSTANT" && name != "T_PLUS_1"
  {
    if name == "INSTANT" then Some(Instant)
    else if name == "T_PLUS_1" then Some(TPlus1)
    else None
  }

  /**
   * A setting takes a new value only when one is given that is finite and
   * positive (`Number.isFinite(x) && x > 0`); `None` stands for a missing or
   * non-finite value.
   */
  function Setting(current: int, x: Option<int>): (r: int)
    ensures x.Some? && x.value > 0 ==> r == x.value
    ensures !(x.Some? && x.value > 0) ==> r == current
  {
    if x.Some? && x.value > 0 then x.value else current
  }

  /** `setSettlementMode` on the agency: an unknown mode is refused and changes nothing. */
  function SetSettlementMode(a: Agency, mode: string, delay: Option<int>): (r: Result<Agency, Error>)
    ensures r.Failure? <==> ParseMode(mode).None?
    ensures r.Failure? ==> r.error == InvalidMode
    ensures r.Success? ==>
              && r.value == a.(mode := r.value.mode, tPlusDelaySeconds := r.value.tPlusDelaySeconds)
              && ParseMode(mode) == Some(r.value.mode)
              && r.value.tPlusDelaySeconds == Setting(a.tPlusDelaySeconds, delay)
  {
    var m := ParseMode(mode);
    if m.None? then Failure(InvalidMode)
    else Success(a.(mode := m.value, tPlusDelaySeconds := Setting(a.tPlusDelaySeconds, delay)))
  }

  /** `setCircuitBreakerParams` on the agency: each parameter changes only when a positive value is given. */
  function SetCircuitBreakerParams(a: Agency, pct: Option<int>, haltSeconds: Option<int>): (r: Agency)
    ensures r == a.(cbPct := r.cbPct, cbHaltSeconds := r.cbHaltSeconds)
    ensures r.cbPct == Setting(a.cbPct, pct) && r.cbHaltSeconds == Setting(a.cbHaltSeconds, haltSeconds)
  {
    a.(cbPct := Setting(a.cbPct, pct), cbHaltSeconds := Setting(a.cbHaltSeconds, haltSeconds))
  }

  /** The settlement delay and both circuit-breaker parameters are positive. */
  ghost predicate Configured(a: Agency) {
    a.tPlusDelaySeconds > 0 && a.cbPct > 0 && a.cbHaltSeconds > 0
  }

  /** A new agency is configured, and neither setter can make a setting zero or negative. */
  lemma SettingsStayPositive(a: Agency, mode: string, delay: Option<int>, pct: Option<int>, haltSeconds: Option<int>)
    ensures Configured(NewAgency(a.id, a.name))
    ensures Configured(a) && SetSettlementMode(a, mode, delay).Success? ==> Configured(SetSettlementMode(a, mode, delay).value)
    ensures Configured(a) ==> Configured(SetCircuitBreakerParams(a, pct, haltSeconds))
  {
  }

  /**
   * With a positive delay, a trade queued for T+1 settlement is not due at
   * the moment it was made, and is due once the delay has passed.
   */
  lemma {:induction false} QueuedTradeWaits(a: Agency, i: nat, now: int)
    requires Configured(a) && a.mode == TPlus1
    requires i < |a.trades| && TradeParties(a.users, a.trades[i])
    ensures !IsDue(SettleOrQueue(a, i, now).trades[i], now)
    ensures IsDue(SettleOrQueue(a, i, now).trades[i], now + a.tPlusDelaySeconds * 1000)
  {
    var t := SettleOrQueue(a, i, now).trades[i];
    assert t.settleAt == Some(now + a.tPlusDelaySeconds * 1000);
    assert a.tPlusDelaySeconds * 1000 > 0 by {
      assert a.tPlusDelaySeconds >= 1;
    }
  }

  // ---------------------------------------------------------------------------
  // Regulator operations on one user

  /** `adminVerifyUser` on the user record: KYC is never again why an order is refused. */
  function VerifyKyc(u: User): (r: User)
    ensures r == u.(verified := true)
    ensures forall side, s, qty, price :: CanPlace(r, side, s, qty, price) != Fail(KycRequired)
  {
    u.(verified := true)
  }

  /** `adminRevokeKYC` on the user record: every order is refused for KYC. */
  function RevokeKyc(u: User): (r: User)
    ensures r == u.(verified := false)
    ensures forall side, s, qty, price :: CanPlace(r, side, s, qty, price) == Fail(KycRequired)
  {
    u.(verified := false)
  }

  /**
   * `adminFreezeUser` on the user record: a frozen verified user has every
   * order refused as frozen; an unfrozen one never has.
   */
  function Freeze(u: User, frozen: bool): (r: User)
    ensures r == u.(frozen := frozen)
    ensures frozen && u.verified ==> forall side, s, qty, price :: CanPlace(r, side, s, qty, price) == Fail(AccountFrozen)
    ensures !frozen ==> forall side, s, qty, price :: CanPlace(r, side, s, qty, price) != Fail(AccountFrozen)
  {
    u.(frozen := frozen)
  }

  /** The regulator operations that update one user. */
  datatype AdminOp =
    | VerifyOp                                // adminVerifyUser
    | RevokeOp                                // adminRevokeKYC
    | FreezeOp(frozen: bool)                  // adminFreezeUser
    | FlagOp(flag: string, value: bool)       // adminFlagUser
    | CreditOp(amount: int)                   // adminCreditUSD
    | MintOp(symbol: string, qty: int)        // adminMint

  /**
   * The checks an operation makes before it looks the agency and the user up:
   * a credit needs a positive amount; a mint needs a listed symbol, then a
   * positive quantity.
   */
  function AdminPrecheck(op: AdminOp): (r: Outcome<Error>)
    ensures r.Fail? <==> (op.CreditOp? && op.amount <= 0) || (op.MintOp? && (ParseSymbol(op.symbol).None? || op.qty <= 0))
    ensures op.MintOp? && ParseSymbol(op.symbol).None? ==> r == Fail(UnknownSymbol)
    ensures r.Fail? && !(op.MintOp? && ParseSymbol(op.symbol).None?) ==> r == Fail(InvalidParams)
  {
    match op
    case CreditOp(amount) => if amount <= 0 then Fail(InvalidParams) else Pass
    case MintOp(symbol, qty) =>
      if ParseSymbol(symbol).None? then Fail(UnknownSymbol)
      else if qty <= 0 then Fail(InvalidParams)
      else Pass
    case _ => Pass
  }

  /**
   * The operation applied to the user it names. Only an unknown flag fails;
   * no operation touches the user's identity or order window, only a credit
   * changes cash and only a mint changes tokens.
   */
  function Administer(u: User, op: AdminOp): (r: Result<User, Error>)
    requires UserOk(u) && AdminPrecheck(op).Pass?
    ensures r.Failure? <==> op.FlagOp? && ParseFlag(op.flag).None?
    ensures r.Failure? ==> r.error == UnknownFlag
    ensures r.Success? ==> UserOk(r.value) && r.value.tokens.Keys == u.tokens.Keys
    ensures r.Success? ==> r.value.agencyId == u.agencyId && r.value.id == u.id && r.value.name == u.name
    ensures r.Success? ==> r.value.ordersLastMinute == u.ordersLastMinute
    ensures r.Success? && !op.CreditOp? ==> r.value.usd == u.usd
    ensures r.Success? && !op.MintOp? ==> r.value.tokens == u.tokens
    ensures op.VerifyOp? ==> r == Success(VerifyKyc(u))
    ensures op.RevokeOp? ==> r == Success(RevokeKyc(u))
    ensures op.FreezeOp? ==> r == Success(Freeze(u, op.frozen))
    ensures op.FlagOp? ==> r == SetFlag(u, op.flag, op.value)
    ensures r.Success? && op.CreditOp? ==> r.value == CreditUsd(u, op.amount)
    ensures r.Success? && op.MintOp? ==> r.value == Mint(u, ParseSymbol(op.symbol).value, op.qty)
    ensures r.Success? ==> NoLess(u, r.value) && (UserSolvent(u) ==> UserSolvent(r.value))
  {
    match op
    case VerifyOp => Success(VerifyKyc(u))
    case RevokeOp => Success(RevokeKyc(u))
    case FreezeOp(frozen) => Success(Freeze(u, frozen))
    case FlagOp(flag, value) => SetFlag(u, flag, value)
    case CreditOp(amount) => Success(CreditUsd(u, amount))
    case MintOp(symbol, qty) => Success(Mint(u, ParseSymbol(symbol).value, qty))
  }

  // ---------------------------------------------------------------------------
  // Limit orders

  /**
   * The checks of `placeLimitOrder`, in order: the symbol is not halted, the
   * user exists, and `canPlace` accepts the order.
   */
  function LimitCheck(a: Agency, uid: UserId, s: Symbol, side: Side, qty: int, price: int, now: int): (r: Outcome<Error>)
    requires s in a.halts
    ensures r.Pass? <==> !Halted(a, s, now) && uid in a.users && CanPlace(a.users[uid], side, s, qty, price).Pass?
    ensures Halted(a, s, now) ==> r == AssertTradable(a, s, now)
    ensures !Halted(a, s, now) && uid !in a.users ==> r == Fail(UserNotFound)
    ensures !Halted(a, s, now) && uid in a.users ==> r == CanPlace(a.users[uid], side, s, qty, price)
  {
    var tradable := AssertTradable(a, s, now);
    if tradable.Fail? then tradable
    else if uid !in a.users then Fail(UserNotFound)
    else CanPlace(a.users[uid], side, s, qty, price)
  }

  /**
   * `placeLimitOrder` before matching: the user's risk signals, the
   * reservation, and the new OPEN order, nothing of it filled, at the back of
   * its side of the book and in the order map.
   */
  function Enter(a: Agency, agencyId: string, uid: UserId, s: Symbol, side: Side, qty: int, price: int,
                 now: int, oseq: OrderId): (r: Agency)
    requires s in a.books && uid in a.users && s in a.users[uid].tokens
    ensures r == a.(users := r.users, orders := r.orders, books := r.books)
    ensures var (u, ri) := Reserve(ApplyRiskSignals(a.users[uid], qty, price, now), side, s, qty, price);
            && r.users == a.users[uid := u]
            && r.orders == a.orders[oseq := Order(oseq, now, agencyId, uid, s, side, Limit, price, qty, qty, Open, ri)]
            && r.books == a.books[s := WithIds(a.books[s], side, Ids(a.books[s], side) + [oseq])]
  {
    var (u, ri) := Reserve(ApplyRiskSignals(a.users[uid], qty, price, now), side, s, qty, price);
    a.(users := a.users[uid := u],
       orders := a.orders[oseq := Order(oseq, now, agencyId, uid, s, side, Limit, price, qty, qty, Open, ri)],
       books := a.books[s := WithIds(a.books[s], side, Ids(a.books[s], side) + [oseq])])
  }

  /** Entering an accepted order under a fresh id keeps the agency well formed. */
  lemma EnterKeepsWellFormed(a: Agency, agencyId: string, uid: UserId, s: Symbol, side: Side, qty: int, price: int,
                             now: int, oseq: OrderId)
    requires WellFormed(a) && uid in a.users && oseq !in a.orders && qty > 0 && price > 0
    ensures s in a.books && s in a.users[uid].tokens
    ensures WellFormed(Enter(a, agencyId, uid, s, side, qty, price, now, oseq))
  {
    assert s in a.books && UserOk(a.users[uid]);
    var r := Enter(a, agencyId, uid, s, side, qty, price, now, oseq);
    AppendKeepsBooksOk(a.books, a.orders, s, side, oseq, r.orders[oseq]);
    UpdateKeepsTokens(a.users, uid, r.users[uid]);
    TokensKeepUsersOk(a.users, r.users);
    PartiesKeepTradesOk(a.users.Keys, a.trades, r.trades, a.pending, r.pending);
  }

  /** Entering an order `canPlace` accepted keeps a solvent agency solvent: the reservation covers the new order. */
  lemma EnterKeepsSolvent(a: Agency, agencyId: string, uid: UserId, s: Symbol, side: Side, qty: int, price: int,
                          now: int, oseq: OrderId)
    requires s in a.books && uid in a.users && s in a.users[uid].tokens
    ensures Solvent(a) && CanPlace(a.users[uid], side, s, qty, price) == Pass ==>
              Solvent(Enter(a, agencyId, uid, s, side, qty, price, now, oseq))
  {
    if Solvent(a) && CanPlace(a.users[uid], side, s, qty, price) == Pass {
      var u := ApplyRiskSignals(a.users[uid], qty, price, now);
      assert CanPlace(u, side, s, qty, price) == Pass;
      ReserveKeepsSolvent(u, side, s, qty, price);
      assert qty * price > 0 by {
        assert qty > 0 && price > 0;
      }
    }
  }

  /** What matching needs to know about the agency after `Enter`. */
  ghost predicate Entered(a: Agency, agencyId: string, uid: UserId, s: Symbol, side: Side, qty: int, price: int,
                          now: int, oseq: OrderId, e: Agency) {
    && e.trades == a.trades && e.users.Keys == a.users.Keys
    && e.id == a.id && e.mode == a.mode && e.cbPct == a.cbPct && e.cbHaltSeconds == a.cbHaltSeconds
    && oseq in e.orders && e.orders.Keys == a.orders.Keys + {oseq}
    && Static(e.orders[oseq]) == (oseq, now, agencyId, uid, s, side, Limit, price, qty)
    && (forall id :: id in a.orders ==> e.orders[id] == a.orders[id])
    && e.books.Keys == a.books.Keys && (forall t :: t in a.books && t != s ==> e.books[t] == a.books[t])
  }

  /** What matching needs to know about the agency after `Enter`. */
  lemma EnterEntered(a: Agency, agencyId: string, uid: UserId, s: Symbol, side: Side, qty: int, price: int,
                     now: int, oseq: OrderId)
    requires s in a.books && uid in a.users && s in a.users[uid].tokens && oseq !in a.orders
    ensures Entered(a, agencyId, uid, s, side, qty, price, now, oseq, Enter(a, agencyId, uid, s, side, qty, price, now, oseq))
  {
  }

  /** A new resting order appended to one side keeps every book consistent. */
  lemma AppendKeepsBooksOk(books: map<Symbol, Book>, orders: map<OrderId, Order>, s: Symbol, side: Side, id: OrderId, o: Order)
    requires BooksOk(books, orders) && s in books && id !in orders && Resting(o, id, s, side)
    ensures BooksOk(books[s := WithIds(books[s], side, Ids(books[s], side) + [id])], orders[id := o])
  {
    var books' := books[s := WithIds(books[s], side, Ids(books[s], side) + [id])];
    var orders' := orders[id := o];
    assert id !in Ids(books[s], side);
    forall t, x | t in books' && x in books'[t].bids ensures RestingIn(orders', t, x, Buy) {
      if x != id {
        assert x in books[t].bids;
      }
    }
    forall t, x | t in books' && x in books'[t].asks ensures RestingIn(orders', t, x, Sell) {
      if x != id {
        assert x in books[t].asks;
      }
    }
    forall t | t in books' ensures NoDup(books'[t].bids) && NoDup(books'[t].asks) {
      if t == s {
        var ids := Ids(books[s], side);
        assert multiset(ids + [id]) == multiset(ids) + multiset([id]);
        assert id !in multiset(ids);
      }
    }
  }

  /**
   * What `placeLimitOrder` guarantees about the agency and the answer once the
   * order is placed and matched: before matching, the user carries the risk
   * signals of the order and the reservation is taken from their balance, and
   * the order is OPEN with nothing filled; `match` then runs from there
   * (the agency afterwards is `MatchResult` of the entered one), taking
   * nothing from any user, and the order is reported as it stands
   * afterwards. Its trades are positive trades of `s` at `now`, numbered on
   * from `tseq`.
   */
  ghost predicate LimitPlaced(a: Agency, agencyId: string, uid: UserId, s: Symbol, side: Side, qty: int, price: int,
                              now: int, oseq: OrderId, tseq: nat, tseq': nat, p: Placed) {
    var r := p.agency;
    && WellFormed(a) && uid in a.users && oseq !in a.orders && qty > 0 && price > 0
    && (EnterKeepsWellFormed(a, agencyId, uid, s, side, qty, price, now, oseq);
        var e := Enter(a, agencyId, uid, s, side, qty, price, now, oseq);
        var (u, ri) := Reserve(ApplyRiskSignals(a.users[uid], qty, price, now), side, s, qty, price);
        && e.users[uid] == u
        && e.orders[oseq] == Order(oseq, now, agencyId, uid, s, side, Limit, price, qty, qty, Open, ri)
        && (r, tseq') == MatchResult(e, s, now, tseq)
        && Safe(e, r))
    && WellFormed(r)
    && oseq in r.orders && r.orders.Keys == a.orders.Keys + {oseq}
    && Static(r.orders[oseq]) == (oseq, now, agencyId, uid, s, side, Limit, price, qty)
    && p.order == StripOrder(r.orders[oseq])
    && (forall id :: id in a.orders ==> Static(r.orders[id]) == Static(a.orders[id]))
    && r.trades == a.trades + p.trades && tseq' == tseq + |p.trades|
    && Logged(r.trades, |a.trades|, tseq, s, now)
    && (!Crossed(r, s) || Halted(r, s, now))
    && r.users.Keys == a.users.Keys
    && r.id == a.id && r.mode == a.mode && r.cbPct == a.cbPct && r.cbHaltSeconds == a.cbHaltSeconds
    && r.books.Keys == a.books.Keys && (forall t :: t in a.books && t != s ==> r.books[t] == a.books[t])
  }

  /**
   * `placeLimitOrder` on one agency: the checks of `LimitCheck`, then the
   * order is entered and the book matched. The order id is `oseq`; trades are
   * numbered from `tseq`, and `tseq'` is the next number afterwards.
   * The `sortBooks` before `match` is the sort `match` itself begins with:
   * sorting a sorted book changes nothing (`SortSortedUnchanged`).
   */
  method PlaceLimit(a: Agency, agencyId: string, uid: UserId, s: Symbol, side: Side, qty: int, price: int,
                    now: int, oseq: OrderId, tseq: nat) returns (res: Result<Placed, Error>, tseq': nat)
    requires WellFormed(a) && oseq !in a.orders
    ensures s in a.halts
    ensures res.Failure? <==> LimitCheck(a, uid, s, side, qty, price, now).Fail?
    ensures res.Failure? ==> res.error == LimitCheck(a, uid, s, side, qty, price, now).error && tseq' == tseq
    ensures res.Success? ==> LimitPlaced(a, agencyId, uid, s, side, qty, price, now, oseq, tseq, tseq', res.value)
    ensures res.Success? && Solvent(a) ==> Solvent(res.value.agency)
    ensures res.Success? ==> res.value.agency.orders.Keys == a.orders.Keys + {oseq}
  {
    HeadsResting(a, s);
    var c := LimitCheck(a, uid, s, side, qty, price, now);
    if c.Fail? {
      return Failure(c.error), tseq;
    }
    var p;
    p, tseq' := EnterAndMatch(a, agencyId, uid, s, side, qty, price, now, oseq, tseq);
    EnterKeepsWellFormed(a, agencyId, uid, s, side, qty, price, now, oseq);
    EnterKeepsSolvent(a, agencyId, uid, s, side, qty, price, now, oseq);
    res := Success(p);
  }

  /** The accepted order entered and the book matched. */
  method EnterAndMatch(a: Agency, agencyId: string, uid: UserId, s: Symbol, side: Side, qty: int, price: int,
                       now: int, oseq: OrderId, tseq: nat) returns (p: Placed, tseq': nat)
    requires WellFormed(a) && uid in a.users && oseq !in a.orders && qty > 0 && price > 0
    ensures LimitPlaced(a, agencyId, uid, s, side, qty, price, now, oseq, tseq, tseq', p)
  {
    EnterKeepsWellFormed(a, agencyId, uid, s, side, qty, price, now, oseq);
    EnterEntered(a, agencyId, uid, s, side, qty, price, now, oseq);
    var e := Enter(a, agencyId, uid, s, side, qty, price, now, oseq);
    var r;
    r, tseq' := Match(e, s, now, tseq);
    var trades := r.trades[|a.trades|..];
    PrefixRest(a.trades, r.trades);
    p := Placed(r, StripOrder(r.orders[oseq]), trades);
  }

  // ---------------------------------------------------------------------------
  // Cancelling an order

  /** `findIndex(x => x.orderId === id)`: the first position of `id`, or -1 when it is absent. */
  function IndexOf(ids: seq<OrderId>, id: OrderId): (k: int)
    ensures -1 <= k < |ids|
    ensures k == -1 <==> id !in ids
    ensures k >= 0 ==> ids[k] == id && id !in ids[..k]
  {
    if ids == [] then -1
    else if ids[0] == id then 0
    else
      var k := IndexOf(ids[1..], id);
      assert id in ids <==> id in ids[1..] by {
        assert ids == [ids[0]] + ids[1..];
      }
      if k == -1 then -1
      else
        assert ids[..k + 1] == [ids[0]] + ids[1..][..k];
        k + 1
  }

  /** The side without the order `id` (`splice(idx, 1)` when it is found). */
  function Without(ids: seq<OrderId>, id: OrderId): (r: seq<OrderId>)
    requires NoDup(ids)
    ensures id !in r && NoDup(r)
    ensures forall x :: x in r ==> x in ids
    ensures multiset(r) == multiset(ids) - multiset{id}
  {
    var k := IndexOf(ids, id);
    SpliceFacts(ids, id, k);
    if k < 0 then ids else ids[..k] + ids[k + 1..]
  }

  lemma SpliceFacts(ids: seq<OrderId>, id: OrderId, k: int)
    requires NoDup(ids) && k == IndexOf(ids, id)
    ensures var r := if k < 0 then ids else ids[..k] + ids[k + 1..];
            && id !in r && NoDup(r) && multiset(r) == multiset(ids) - multiset{id}
            && (forall x :: x in r ==> x in ids)
  {
    if k < 0 {
      assert multiset(ids)[id] == 0;
    } else {
      var r: seq<OrderId> := ids[..k] + ids[k + 1..];
      var m: multiset<OrderId> := multiset(r);
      assert ids == ids[..k] + [id] + ids[k + 1..];
      assert multiset(ids) == m + multiset{id};
      assert multiset(ids)[id] <= 1;
      assert m[id] == 0;
      forall x ensures m[x] <= 1 {
        assert multiset(ids)[x] <= 1;
      }
      forall x | x in r ensures x in ids {
        assert x in multiset(r);
      }
    }
  }

  /** The answer of a successful `cancelOrder`: the agency afterwards and the order as reported. */
  datatype Cancellation = Cancellation(agency: Agency, order: PublicOrder)

  /**
   * What `cancelOrder` guarantees: the order leaves its book, what its
   * remainder still holds goes back to its owner (so the owner's balance plus
   * the order's reservation is unchanged), the order is CANCELED, and the
   * book is sorted again.
   */
  ghost predicate Withdrawn(a: Agency, uid: UserId, oid: OrderId, c: Cancellation) {
    && oid in a.orders && uid in a.users && a.orders[oid].symbol in a.users[uid].tokens
    && var o := a.orders[oid];
       var (u, ri) := Release(a.users[uid], o.side, o.symbol, o.remaining, o.price, o.reserveInfo);
       var r := c.agency;
       && WellFormed(r)
       && r == a.(users := r.users, orders := r.orders, books := r.books)
       && r.users == a.users[uid := u]
       && r.orders == a.orders[oid := o.(status := Canceled, reserveInfo := ri)]
       && o.symbol in a.books && o.symbol in r.books && r.books.Keys == a.books.Keys
       && oid !in r.books[o.symbol].bids && oid !in r.books[o.symbol].asks
       && multiset(Ids(r.books[o.symbol], o.side)) == multiset(Ids(a.books[o.symbol], o.side)) - multiset{oid}
       && multiset(Ids(r.books[o.symbol], Opposite(o.side))) == multiset(Ids(a.books[o.symbol], Opposite(o.side)))
       && (forall t :: t in a.books && t != o.symbol ==> r.books[t] == a.books[t])
       && BookSorted(r, o.symbol)
       && c.order == StripOrder(r.orders[oid])
  }

  /**
   * `cancelOrder` on one agency: an unknown order, then an order of another
   * user, then an order that is not OPEN is refused; otherwise the order is
   * withdrawn.
   */
  function CancelOrder(a: Agency, uid: UserId, oid: OrderId): (r: Result<Cancellation, Error>)
    requires WellFormed(a)
    ensures oid !in a.orders ==> r == Failure(OrderNotFound)
    ensures oid in a.orders && a.orders[oid].userId != uid ==> r == Failure(Forbidden)
    ensures oid in a.orders && a.orders[oid].userId == uid && a.orders[oid].status != Open ==> r == Failure(NotOpen)
    ensures r.Success? <==> oid in a.orders && a.orders[oid].userId == uid && a.orders[oid].status == Open
    ensures r.Success? ==> Withdrawn(a, uid, oid, r.value)
    ensures r.Success? && Solvent(a) ==> NoLess(a.users[uid], r.value.agency.users[uid]) && Solvent(r.value.agency)
  {
    if oid !in a.orders then Failure(OrderNotFound)
    else if a.orders[oid].userId != uid then Failure(Forbidden)
    else if a.orders[oid].status != Open then Failure(NotOpen)
    else
      var c := Withdraw(a, uid, oid);
      WithdrawnReleases(a, uid, oid, c);
      Success(c)
  }

  /**
   * What a cancellation gives back comes out of the order's reservation: in a
   * solvent agency the owner loses nothing, and since the open remainder was
   * covered, neither the owner's balance nor the reservation left on the
   * order goes negative.
   */
  lemma WithdrawnReleases(a: Agency, uid: UserId, oid: OrderId, c: Cancellation)
    requires Withdrawn(a, uid, oid, c) && a.orders[oid].status == Open
    ensures Solvent(a) ==> NoLess(a.users[uid], c.agency.users[uid]) && Solvent(c.agency)
  {
    if Solvent(a) {
      var o := a.orders[oid];
      ReleaseCovered(a.users[uid], o);
      var r := c.agency;
      assert r.users == a.users[uid := r.users[uid]];
      assert r.orders == a.orders[oid := r.orders[oid]];
    }
  }

  /** Releasing a covered open remainder: the owner loses nothing and the order's reservation stays non-negative. */
  lemma ReleaseCovered(u: User, o: Order)
    requires o.symbol in u.tokens && OrderReserveOk(o) && o.status == Open
    ensures var (u', ri) := Release(u, o.side, o.symbol, o.remaining, o.price, o.reserveInfo);
            && NoLess(u, u') && (UserSolvent(u) ==> UserSolvent(u'))
            && OrderReserveOk(o.(status := Canceled, reserveInfo := ri))
  {
    assert o.remaining * o.price >= 0;
  }

  /** The successful part of `cancelOrder`. */
  function Withdraw(a: Agency, uid: UserId, oid: OrderId): (c: Cancellation)
    requires WellFormed(a) && oid in a.orders && a.orders[oid].userId == uid && a.orders[oid].status == Open
    ensures Withdrawn(a, uid, oid, c)
  {
    var o := a.orders[oid];
    HeadsResting(a, o.symbol);
    assert UserOk(a.users[uid]);
    var (u, ri) := Release(a.users[uid], o.side, o.symbol, o.remaining, o.price, o.reserveInfo);
    var b := Unbook(a, oid);
    var b' := b.(users := b.users[uid := u], orders := b.orders[oid := o.(status := Canceled, reserveInfo := ri)]);
    UnbookedUpdate(b, b', oid, o.(status := Canceled, reserveInfo := ri), uid, u);
    SortKeepsWellFormed(b', o.symbol);
    var r := SortBook(b', o.symbol);
    assert BookSorted(r, o.symbol);
    Cancellation(r, StripOrder(r.orders[oid]))
  }

  /** The agency with the order taken off its side of its symbol's book. */
  function Unbook(a: Agency, oid: OrderId): (r: Agency)
    requires WellFormed(a) && oid in a.orders
    ensures WellFormed(r) && r == a.(books := r.books) && r.books.Keys == a.books.Keys
    ensures var o := a.orders[oid];
            && o.symbol in a.books
            && Ids(r.books[o.symbol], o.side) == Without(Ids(a.books[o.symbol], o.side), oid)
            && Ids(r.books[o.symbol], Opposite(o.side)) == Ids(a.books[o.symbol], Opposite(o.side))
            && (forall t :: t in a.books && t != o.symbol ==> r.books[t] == a.books[t])
            && (forall t :: t in r.books ==> oid !in r.books[t].bids && oid !in r.books[t].asks)
  {
    var o := a.orders[oid];
    var ids := Ids(a.books[o.symbol], o.side);
    var books := a.books[o.symbol := WithIds(a.books[o.symbol], o.side, Without(ids, oid))];
    UnbookKeepsBooksOk(a.books, a.orders, o.symbol, o.side, oid);
    var r := a.(books := books);
    assert SymbolsOk(r.books, r.halts);
    r
  }

  /** Taking an order off its side keeps every book consistent, and leaves the order in no book. */
  lemma UnbookKeepsBooksOk(books: map<Symbol, Book>, orders: map<OrderId, Order>, s: Symbol, side: Side, id: OrderId)
    requires BooksOk(books, orders) && s in books && id in orders && orders[id].symbol == s && orders[id].side == side
    ensures NoDup(Ids(books[s], side))
    ensures var books' := books[s := WithIds(books[s], side, Without(Ids(books[s], side), id))];
            && BooksOk(books', orders)
            && (forall t :: t in books' ==> id !in books'[t].bids && id !in books'[t].asks)
  {
    var ids := Ids(books[s], side);
    assert NoDup(ids);
    var ids' := Without(ids, id);
    var books' := books[s := WithIds(books[s], side, ids')];
    forall t | t in books'
      ensures forall x :: x in books'[t].bids ==> x in books[t].bids
      ensures forall x :: x in books'[t].asks ==> x in books[t].asks
      ensures NoDup(books'[t].bids) && NoDup(books'[t].asks)
    {
    }
    forall t | t in books' ensures id !in books'[t].bids && id !in books'[t].asks {
      assert id in books[t].bids ==> RestingIn(orders, t, id, Buy);
      assert id in books[t].asks ==> RestingIn(orders, t, id, Sell);
    }
  }

  /** Once the order is in no book, changing it and its owner's balances keeps the agency well formed. */
  lemma UnbookedUpdate(b: Agency, b': Agency, oid: OrderId, o: Order, uid: UserId, u: User)
    requires WellFormed(b) && oid in b.orders && uid in b.users && o.userId == uid
    requires forall t :: t in b.books ==> oid !in b.books[t].bids && oid !in b.books[t].asks
    requires u.tokens.Keys == b.users[uid].tokens.Keys
    requires b' == b.(users := b.users[uid := u], orders := b.orders[oid := o])
    ensures WellFormed(b')
  {
    forall t, x | t in b'.books && x in b'.books[t].bids ensures RestingIn(b'.orders, t, x, Buy) {
      assert RestingIn(b.orders, t, x, Buy);
    }
    forall t, x | t in b'.books && x in b'.books[t].asks ensures RestingIn(b'.orders, t, x, Sell) {
      assert RestingIn(b.orders, t, x, Sell);
    }
    UpdateKeepsTokens(b.users, uid, u);
    TokensKeepUsersOk(b.users, b'.users);
    PartiesKeepTradesOk(b.users.Keys, b.trades, b'.trades, b.pending, b'.pending);
  }
}

=== FILE: exchange.dfy ===
/**
 * The process-wide state of the exchange engine (engine.js): the registry of
 * agencies and the two counters that number orders (`orderSeq`) and trades
 * (`tradeSeq`), both starting at 1. Each entry point first looks the agency up
 * with `ensureAgency`, creating it on first reference, then runs the
 * per-agency operation of the `Engine` module and stores what it leaves.
 * The clock is the `now` parameter of each entry point.
 */
module Exchange {
  import opened Wrappers
  import opened Store
  import opened Accounts
  import opened Breaker
  import opened Settlement
  import opened Matching
  import opened Liquidity
  import opened Market
  import opened Engine

  /** `side === "BUY"` selects the buy side; every other value is treated as a sell. */
  function SideOf(name: string): (r: Side)
    ensures r == Buy <==> name == "BUY"
  {
    if name == "BUY" then Buy else Sell
  }

  /** Every order id stored in any agency was handed out before `next`. */
  ghost predicate IdsBelow(agencies: map<string, Agency>, next: nat) {
    forall k, id :: k in agencies && id in agencies[k].orders ==> id < next
  }

  // ---------------------------------------------------------------------------
  // What each entry point does to the agency it addresses

  /**
   * The agency as `placeMarketOrder` leaves it once the halt check has passed:
   * the symbol's book sorted into priority order, the same orders on each side,
   * nothing else touched.
   */
  function SortedForMarket(a: Agency, s: Symbol): (r: Agency)
    requires WellFormed(a)
    ensures WellFormed(r) && BookSorted(r, s)
    ensures r == a.(books := r.books) && r.books == a.books[s := r.books[s]]
    ensures multiset(r.books[s].bids) == multiset(a.books[s].bids)
    ensures multiset(r.books[s].asks) == multiset(a.books[s].asks)
  {
    SortKeepsWellFormed(a, s);
    SortBook(a, s)
  }

  /** `placeLimitOrder` on agency `a`: the answer `r` and the agency `a'` it leaves. */
  ghost predicate LimitAnswered(a: Agency, agencyId: string, uid: UserId, symbol: string, side: string, qty: int,
                                price: int, now: int, oseq: nat, tseq: nat, tseq': nat,
                                r: Result<Placed, Error>, a': Agency)
    requires WellFormed(a)
  {
    match ParseSymbol(symbol)
    case None => r == Failure(UnknownSymbol) && a' == a && tseq' == tseq
    case Some(s) =>
      var check := LimitCheck(a, uid, s, SideOf(side), qty, price, now);
      if check.Fail? then r == Failure(check.error) && a' == a && tseq' == tseq
      else r.Success? && a' == r.value.agency
           && LimitPlaced(a, agencyId, uid, s, SideOf(side), qty, price, now, oseq, tseq, tseq', r.value)
  }

  /**
   * `placeMarketOrder` on agency `a`: a halted symbol is refused before the
   * book is touched; past that check the book is sorted, and stays sorted even
   * when a later check refuses the order.
   */
  ghost predicate MarketAnswered(a: Agency, agencyId: string, uid: UserId, symbol: string, side: string, qty: int,
                                 now: int, oseq: nat, tseq: nat, tseq': nat,
                                 r: Result<Placed, Error>, a': Agency)
    requires WellFormed(a)
  {
    match ParseSymbol(symbol)
    case None => r == Failure(UnknownSymbol) && a' == a && tseq' == tseq
    case Some(s) =>
      if Halted(a, s, now) then
        r == Failure(TradingHalted(s, a.halts[s].haltedUntil)) && a' == a && tseq' == tseq
      else
        var b := SortedForMarket(a, s);
        var check := MarketCheck(b, uid, s, SideOf(side), qty, now);
        if check.Fail? then r == Failure(check.error) && a' == b && tseq' == tseq
        else r.Success? && a' == r.value.agency && tseq' == tseq + |r.value.trades|
             && MarketPlaced(b, agencyId, uid, s, SideOf(side), qty, now, oseq, tseq, r.value)
             && MarketSettled(b, uid, s, SideOf(side), qty, now, tseq, r.value)
  }

  /** The regulator operations: the user is looked up after the argument checks and before the change. */
  ghost predicate AdminAnswered(a: Agency, uid: UserId, op: AdminOp, r: Result<User, Error>, a': Agency)
    requires WellFormed(a) && AdminPrecheck(op).Pass?
  {
    if uid !in a.users then r == Failure(UserNotFound) && a' == a
    else
      assert UserOk(a.users[uid]);
      r == Administer(a.users[uid], op)
      && a' == (if r.Success? then a.(users := a.users[uid := r.value]) else a)
  }

  /** An agency the settlement sweep nets: it settles T+1 and has trades due. */
  ghost predicate Nets(a: Agency, now: int)
    requires WellFormed(a)
  {
    assert TradesOk(a.users.Keys, a.trades, a.pending);
    a.mode == TPlus1 && Due(a.trades, a.pending, now) != []
  }

  /** What the settlement sweep leaves of one agency: one it nets has its due trades settled, any other is left alone. */
  ghost function Swept(a: Agency, now: int): Agency
    requires WellFormed(a)
  {
    assert TradesOk(a.users.Keys, a.trades, a.pending);
    if Nets(a, now) then SettleDue(a, now) else a
  }

  /** The sweep keeps an agency well formed and leaves its orders, users and settings where they were. */
  lemma SweptKeepsWellFormed(a: Agency, now: int)
    requires WellFormed(a)
    ensures WellFormed(Swept(a, now)) && Kept(a, Swept(a, now)) && Swept(a, now).users.Keys == a.users.Keys
  {
    SettleDueKeepsWellFormed(a, now);
  }

  /** Netting the due trades keeps an agency well formed and leaves its orders and settings alone. */
  lemma SettleDueKeepsWellFormed(a: Agency, now: int)
    requires WellFormed(a)
    ensures InRange(a.pending, |a.trades|)
    ensures WellFormed(SettleDue(a, now)) && Kept(a, SettleDue(a, now))
    ensures SettleDue(a, now).users.Keys == a.users.Keys
  {
    assert TradesOk(a.users.Keys, a.trades, a.pending);
    var r := SettleDue(a, now);
    TokensKeepUsersOk(a.users, r.users);
    forall i | 0 <= i < |r.pending| ensures r.pending[i] < |r.trades| {
      assert r.pending[i] in r.pending;
    }
    PartiesKeepTradesOk(a.users.Keys, a.trades, r.trades, a.pending, r.pending);
  }

  /** Every agency of the map is stored under its own id and well formed. */
  ghost predicate AllOk(m: map<string, Agency>) {
    forall k :: k in m ==> AgencyOk(k, m[k])
  }

  /** The agencies once the sweep has visited the keys in `done`. */
  ghost function SweptOver(m: map<string, Agency>, done: set<string>, now: int): map<string, Agency>
    requires AllOk(m)
  {
    map k | k in m :: if k in done then Swept(m[k], now) else m[k]
  }

  /** Some agency among the keys in `done` is one the sweep nets. */
  ghost predicate NetsAny(m: map<string, Agency>, done: set<string>, now: int)
    requires AllOk(m)
  {
    exists k :: k in done && k in m && Nets(m[k], now)
  }

  /** Visiting one more agency sweeps it and nothing else. */
  lemma SweptOverStep(m: map<string, Agency>, done: set<string>, k: string, now: int)
    requires AllOk(m) && k in m && k !in done
    ensures SweptOver(m, done, now)[k] == m[k]
    ensures SweptOver(m, done + {k}, now) == SweptOver(m, done, now)[k := Swept(m[k], now)]
  {
    var before := SweptOver(m, done, now);
    var after := SweptOver(m, done + {k}, now);
    var expected := before[k := Swept(m[k], now)];
    assert after.Keys == m.Keys == expected.Keys;
    forall j | j in after ensures after[j] == expected[j] {
      if j != k {
        assert after[j] == before[j];
      }
    }
    MapsAgree(after, expected);
  }

  /** Before the sweep has visited any agency, nothing is swept and nothing is netted. */
  lemma SweptOverNone(m: map<string, Agency>, now: int)
    requires AllOk(m)
    ensures SweptOver(m, m.Keys - m.Keys, now) == m && !NetsAny(m, m.Keys - m.Keys, now)
  {
    var none := m.Keys - m.Keys;
    assert none == {};
    MapsAgree(SweptOver(m, none, now), m);
  }

  /** Taking one key out of those still to visit adds it to those visited. */
  lemma VisitOne<K>(all: set<K>, todo: set<K>, k: K)
    requires k in todo && todo <= all
    ensures all - (todo - {k}) == (all - todo) + {k}
  {
  }

  /** Two maps with the same keys and the same value at each key are equal. */
  lemma MapsAgree<K, V>(x: map<K, V>, y: map<K, V>)
    requires x.Keys == y.Keys && forall j :: j in x ==> x[j] == y[j]
    ensures x == y
  {
  }

  /** Visiting one more agency finds a netted one exactly when it is one or one was found before. */
  lemma NetsAnyStep(m: map<string, Agency>, done: set<string>, k: string, now: int)
    requires AllOk(m) && k in m && k !in done
    ensures NetsAny(m, done + {k}, now) <==> NetsAny(m, done, now) || Nets(m[k], now)
  {
    if NetsAny(m, done + {k}, now) && !Nets(m[k], now) {
      var j :| j in done + {k} && j in m && Nets(m[j], now);
      assert j in done;
    }
  }

  /** A well-formed agency knows both parties of every queued trade, as the sweep needs. */
  lemma QueuedPartiesKnown(a: Agency)
    requires WellFormed(a)
    ensures PartiesKnown(a.users, a.trades, a.pending)
    ensures forall uid :: uid in a.users ==> UserOk(a.users[uid])
  {
    forall k | 0 <= k < |a.pending|
      ensures a.pending[k] < |a.trades|
      ensures TradeIn(a.users.Keys, a.trades[a.pending[k]])
    {
    }
  }

  // ---------------------------------------------------------------------------
  // The entry points past `ensureAgency`, on the agency addressed

  /** `placeLimitOrder` on one agency with order id `oseq`, fresh in it. */
  method LimitStep(a: Agency, agencyId: string, uid: UserId, symbol: string, side: string, qty: int, price: int,
                   now: int, oseq: nat, tseq: nat) returns (r: Result<Placed, Error>, a': Agency, tseq': nat)
    requires WellFormed(a) && forall id :: id in a.orders ==> id < oseq
    ensures WellFormed(a') && a'.id == a.id
    ensures forall id :: id in a'.orders ==> id < (if r.Success? then oseq + 1 else oseq)
    ensures tseq <= tseq'
    ensures LimitAnswered(a, agencyId, uid, symbol, side, qty, price, now, oseq, tseq, tseq', r, a')
  {
    var ps := ParseSymbol(symbol);
    if ps.None? {
      return Failure(UnknownSymbol), a, tseq;
    }
    r, tseq' := PlaceLimit(a, agencyId, uid, ps.value, SideOf(side), qty, price, now, oseq, tseq);
    a' := if r.Success? then r.value.agency else a;
    if r.Success? {
      PlacedIdsBelow(a, agencyId, uid, ps.value, SideOf(side), qty, price, now, oseq, tseq, tseq', r.value);
    }
  }

  /** A placed limit order adds exactly its own id to the stored orders. */
  lemma PlacedIdsBelow(a: Agency, agencyId: string, uid: UserId, s: Symbol, side: Side, qty: int, price: int,
                       now: int, oseq: OrderId, tseq: nat, tseq': nat, p: Placed)
    requires p.agency.orders.Keys == a.orders.Keys + {oseq}
    requires forall id :: id in a.orders ==> id < oseq
    ensures forall id :: id in p.agency.orders ==> id < oseq + 1
  {
  }

  /** `placeMarketOrder` on one agency; the order would be `oseq` but is not stored. */
  method MarketStep(a: Agency, agencyId: string, uid: UserId, symbol: string, side: string, qty: int,
                    now: int, oseq: nat, tseq: nat) returns (r: Result<Placed, Error>, a': Agency, tseq': nat)
    requires WellFormed(a) && forall id :: id in a.orders ==> id < oseq
    ensures WellFormed(a') && a'.id == a.id && a'.orders.Keys == a.orders.Keys
    ensures tseq <= tseq'
    ensures MarketAnswered(a, agencyId, uid, symbol, side, qty, now, oseq, tseq, tseq', r, a')
  {
    var ps := ParseSymbol(symbol);
    if ps.None? {
      return Failure(UnknownSymbol), a, tseq;
    }
    var s := ps.value;
    assert s in a.halts;
    if Halted(a, s, now) {
      return Failure(TradingHalted(s, a.halts[s].haltedUntil)), a, tseq;
    }
    var b := SortedForMarket(a, s);
    r := PlaceMarket(b, agencyId, uid, s, SideOf(side), qty, now, oseq, tseq);
    if r.Failure? {
      return r, b, tseq;
    }
    a' := r.value.agency;
    tseq' := tseq + |r.value.trades|;
  }

  /** `cancelOrder` on one agency: the answer `r` and the agency `a'` it leaves. */
  ghost predicate CancelAnswered(a: Agency, uid: UserId, oid: OrderId, r: Result<PublicOrder, Error>, a': Agency)
    requires WellFormed(a)
  {
    var c := CancelOrder(a, uid, oid);
    && (c.Failure? ==> r == Failure(c.error) && a' == a)
    && (c.Success? ==> r == Success(c.value.order) && a' == c.value.agency)
  }

  /** `cancelOrder` on one agency. */
  method CancelStep(a: Agency, uid: UserId, oid: OrderId) returns (r: Result<PublicOrder, Error>, a': Agency)
    requires WellFormed(a)
    ensures WellFormed(a') && a'.id == a.id && a'.orders.Keys == a.orders.Keys
    ensures CancelAnswered(a, uid, oid, r, a')
  {
    var c := CancelOrder(a, uid, oid);
    if c.Failure? {
      return Failure(c.error), a;
    }
    WithdrawnKeeps(a, uid, oid, c.value);
    r, a' := Success(c.value.order), c.value.agency;
  }

  /** Withdrawing an order keeps the agency's id and the set of stored orders. */
  lemma WithdrawnKeeps(a: Agency, uid: UserId, oid: OrderId, c: Cancellation)
    requires Withdrawn(a, uid, oid, c)
    ensures WellFormed(c.agency) && c.agency.id == a.id && c.agency.orders.Keys == a.orders.Keys
  {
  }

  // ---------------------------------------------------------------------------
  // The exchange

  class Venue {
    const reg: Registry
    var orderSeq: nat
    var tradeSeq: nat

    /** The registry is consistent and no stored order carries an id the counter will hand out again. */
    ghost predicate Valid()
      reads this, reg
    {
      reg.Valid() && orderSeq >= 1 && tradeSeq >= 1 && IdsBelow(reg.agencies, orderSeq)
    }

    constructor ()
      ensures Valid() && reg.agencies == map[] && orderSeq == 1 && tradeSeq == 1
    {
      reg := new Registry();
      orderSeq := 1;
      tradeSeq := 1;
    }

    /**
     * The agency `ensureAgency` hands back for the trimmed id `k`: the one
     * registered under it, or a new one (`Registry.EnsureAgency` stores the same).
     */
    function Addressed(k: string): (a: Agency)
      reads this, reg
      requires Valid()
      ensures a == AgencyOrNew(reg.agencies, k) && AgencyOk(k, a)
      ensures forall id :: id in a.orders ==> id < orderSeq
    {
      NewAgencyValid(k, "");
      AgencyOrNew(reg.agencies, k)
    }

    /**
     * Stores an agency whose orders all carry ids below `next`, and moves the
     * counters on to `next` and `nextTrade`.
     */
    method Save(k: string, a: Agency, next: nat, nextTrade: nat)
      requires Valid() && AgencyOk(k, a) && orderSeq <= next && tradeSeq <= nextTrade
      requires forall id :: id in a.orders ==> id < next
      modifies this, reg
      ensures Valid() && reg.agencies == old(reg.agencies)[k := a]
      ensures orderSeq == next && tradeSeq == nextTrade
    {
      reg.Put(k, a);
      orderSeq, tradeSeq := next, nextTrade;
    }

    /** `setSettlementMode`: the agency is created even when the mode is refused. */
    method SetSettlementMode(agencyId: string, mode: string, delay: Option<int>) returns (r: Result<Agency, Error>)
      requires Valid()
      modifies this, reg
      ensures Valid() && orderSeq == old(orderSeq) && tradeSeq == old(tradeSeq)
      ensures Trim(agencyId) == [] ==> r == Failure(AgencyIdRequired) && reg.agencies == old(reg.agencies)
      ensures Trim(agencyId) != [] ==>
                var k := Trim(agencyId);
                var a := old(Addressed(k));
                && r == Engine.SetSettlementMode(a, mode, delay)
                && reg.agencies == old(reg.agencies)[k := if r.Success? then r.value else a]
    {
      var k := Trim(agencyId);
      if k == [] {
        return Failure(AgencyIdRequired);
      }
      var a := Addressed(k);
      r := Engine.SetSettlementMode(a, mode, delay);
      Save(k, if r.Success? then r.value else a, orderSeq, tradeSeq);
    }

    /** `setCircuitBreakerParams`: each parameter changes only to a positive value. */
    method SetCircuitBreakerParams(agencyId: string, pct: Option<int>, haltSeconds: Option<int>)
      returns (r: Result<Agency, Error>)
      requires Valid()
      modifies this, reg
      ensures Valid() && orderSeq == old(orderSeq) && tradeSeq == old(tradeSeq)
      ensures Trim(agencyId) == [] ==> r == Failure(AgencyIdRequired) && reg.agencies == old(reg.agencies)
      ensures Trim(agencyId) != [] ==>
                var k := Trim(agencyId);
                && r == Success(Engine.SetCircuitBreakerParams(old(Addressed(k)), pct, haltSeconds))
                && reg.agencies == old(reg.agencies)[k := r.value]
    {
      var k := Trim(agencyId);
      if k == [] {
        return Failure(AgencyIdRequired);
      }
      var a := Engine.SetCircuitBreakerParams(Addressed(k), pct, haltSeconds);
      Save(k, a, orderSeq, tradeSeq);
      r := Success(a);
    }

    /**
     * `adminVerifyUser`, `adminRevokeKYC`, `adminFreezeUser`, `adminFlagUser`,
     * `adminCreditUSD` and `adminMint`: the argument checks of the credit and
     * the mint come before the agency and the user are looked up.
     */
    method Admin(agencyId: string, uid: UserId, op: AdminOp) returns (r: Result<User, Error>)
      requires Valid()
      modifies this, reg
      ensures Valid() && orderSeq == old(orderSeq) && tradeSeq == old(tradeSeq)
      ensures AdminPrecheck(op).Fail? ==> r == Failure(AdminPrecheck(op).error) && reg.agencies == old(reg.agencies)
      ensures AdminPrecheck(op).Pass? && Trim(agencyId) == [] ==>
                r == Failure(AgencyIdRequired) && reg.agencies == old(reg.agencies)
      ensures AdminPrecheck(op).Pass? && Trim(agencyId) != [] ==>
                var k := Trim(agencyId);
                && k in reg.agencies && reg.agencies == old(reg.agencies)[k := reg.agencies[k]]
                && AdminAnswered(old(Addressed(k)), uid, op, r, reg.agencies[k])
    {
      var pre := AdminPrecheck(op);
      if pre.Fail? {
        return Failure(pre.error);
      }
      var k := Trim(agencyId);
      if k == [] {
        return Failure(AgencyIdRequired);
      }
      var a := Addressed(k);
      if uid !in a.users {
        Save(k, a, orderSeq, tradeSeq);
        return Failure(UserNotFound);
      }
      assert UserOk(a.users[uid]);
      r := Administer(a.users[uid], op);
      if r.Success? {
        AdminKeepsWellFormed(a, uid, r.value);
        Save(k, a.(users := a.users[uid := r.value]), orderSeq, tradeSeq);
      } else {
        Save(k, a, orderSeq, tradeSeq);
      }
    }

    /** `placeLimitOrder`: an accepted order takes the next order id and its trades the next trade ids. */
    method PlaceLimitOrder(agencyId: string, uid: UserId, symbol: string, side: string, qty: int, price: int,
                           now: int) returns (r: Result<Placed, Error>)
      requires Valid()
      modifies this, reg
      ensures Valid()
      ensures Trim(agencyId) == [] ==>
                && r == Failure(AgencyIdRequired) && reg.agencies == old(reg.agencies)
                && orderSeq == old(orderSeq) && tradeSeq == old(tradeSeq)
      ensures Trim(agencyId) != [] ==>
                var k := Trim(agencyId);
                && k in reg.agencies && reg.agencies == old(reg.agencies)[k := reg.agencies[k]]
                && LimitAnswered(old(Addressed(k)), agencyId, uid, symbol, side, qty, price, now,
                                 old(orderSeq), old(tradeSeq), tradeSeq, r, reg.agencies[k])
                && orderSeq == old(orderSeq) + (if r.Success? then 1 else 0)
    {
      var k := Trim(agencyId);
      if k == [] {
        return Failure(AgencyIdRequired);
      }
      var a', tseq';
      r, a', tseq' := LimitStep(Addressed(k), agencyId, uid, symbol, side, qty, price, now, orderSeq, tradeSeq);
      Save(k, a', if r.Success? then orderSeq + 1 else orderSeq, tseq');
    }

    /**
     * `placeMarketOrder`: an accepted order takes the next order id and its
     * trades the next trade ids; the order itself is never stored.
     */
    method PlaceMarketOrder(agencyId: string, uid: UserId, symbol: string, side: string, qty: int, now: int)
      returns (r: Result<Placed, Error>)
      requires Valid()
      modifies this, reg
      ensures Valid()
      ensures Trim(agencyId) == [] ==>
                && r == Failure(AgencyIdRequired) && reg.agencies == old(reg.agencies)
                && orderSeq == old(orderSeq) && tradeSeq == old(tradeSeq)
      ensures Trim(agencyId) != [] ==>
                var k := Trim(agencyId);
                && k in reg.agencies && reg.agencies == old(reg.agencies)[k := reg.agencies[k]]
                && MarketAnswered(old(Addressed(k)), agencyId, uid, symbol, side, qty, now,
                                  old(orderSeq), old(tradeSeq), tradeSeq, r, reg.agencies[k])
                && orderSeq == old(orderSeq) + (if r.Success? then 1 else 0)
    {
      var k := Trim(agencyId);
      if k == [] {
        return Failure(AgencyIdRequired);
      }
      var a', tseq';
      r, a', tseq' := MarketStep(Addressed(k), agencyId, uid, symbol, side, qty, now, orderSeq, tradeSeq);
      Save(k, a', if r.Success? then orderSeq + 1 else orderSeq, tseq');
    }

    /** `cancelOrder`: the order's owner withdraws an open order; the counters do not move. */
    method CancelOrder(agencyId: string, uid: UserId, oid: OrderId) returns (r: Result<PublicOrder, Error>)
      requires Valid()
      modifies this, reg
      ensures Valid() && orderSeq == old(orderSeq) && tradeSeq == old(tradeSeq)
      ensures Trim(agencyId) == [] ==> r == Failure(AgencyIdRequired) && reg.agencies == old(reg.agencies)
      ensures Trim(agencyId) != [] ==>
                var k := Trim(agencyId);
                && k in reg.agencies && reg.agencies == old(reg.agencies)[k := reg.agencies[k]]
                && CancelAnswered(old(Addressed(k)), uid, oid, r, reg.agencies[k])
    {
      var k := Trim(agencyId);
      if k == [] {
        return Failure(AgencyIdRequired);
      }
      var a';
      r, a' := CancelStep(Addressed(k), uid, oid);
      Save(k, a', orderSeq, tradeSeq);
    }

    /**
     * `processAllAgencies` (run by `tickSettlement`): every agency the sweep
     * nets has its due trades settled, every other agency is left alone; the
     * answer says whether any agency was netted.
     */
    method ProcessAllAgencies(now: int) returns (changed: bool)
      requires Valid()
      modifies this, reg
      ensures Valid() && orderSeq == old(orderSeq) && tradeSeq == old(tradeSeq)
      ensures AllOk(old(reg.agencies))
      ensures reg.agencies == SweptOver(old(reg.agencies), old(reg.agencies).Keys, now)
      ensures changed <==> NetsAny(old(reg.agencies), old(reg.agencies).Keys, now)
    {
      ghost var start := reg.agencies;
      var todo := reg.agencies.Keys;
      changed := false;
      SweptOverNone(start, now);
      while todo != {}
        invariant Valid() && orderSeq == old(orderSeq) && tradeSeq == old(tradeSeq)
        invariant todo <= start.Keys && AllOk(start)
        invariant reg.agencies == SweptOver(start, start.Keys - todo, now)
        invariant changed <==> NetsAny(start, start.Keys - todo, now)
        decreases todo
      {
        var k :| k in todo;
        ghost var done := start.Keys - todo;
        SweptOverStep(start, done, k, now);
        NetsAnyStep(start, done, k, now);
        var a := Addressed(k);
        var r, ch := SweepStep(a, now);
        if ch {
          Save(k, r, orderSeq, tradeSeq);
          changed := true;
        } else {
          MapUpdateSame(reg.agencies, k);
        }
        VisitOne(start.Keys, todo, k);
        todo := todo - {k};
      }
      assert start.Keys - todo == start.Keys;
    }
  }

  /** The sweep on one agency. */
  method SweepStep(a: Agency, now: int) returns (r: Agency, changed: bool)
    requires WellFormed(a)
    ensures WellFormed(r) && r.id == a.id && r.orders.Keys == a.orders.Keys
    ensures r == Swept(a, now) && (changed <==> Nets(a, now))
  {
    QueuedPartiesKnown(a);
    r, changed := ProcessAgency(a, now);
    SweptKeepsWellFormed(a, now);
  }

  /** A regulator change to one user keeps the agency well formed: the user keeps every symbol entry. */
  lemma AdminKeepsWellFormed(a: Agency, uid: UserId, u: User)
    requires WellFormed(a) && uid in a.users && u.tokens.Keys == a.users[uid].tokens.Keys
    ensures WellFormed(a.(users := a.users[uid := u]))
  {
    var r := a.(users := a.users[uid := u]);
    UpdateKeepsTokens(a.users, uid, u);
    TokensKeepUsersOk(a.users, r.users);
    PartiesKeepTradesOk(a.users.Keys, a.trades, r.trades, a.pending, r.pending);
  }
}

=== FILE: fnv.dfy ===
/**
 * FNV-1a, 32 bits, over the UTF-16 code units of a JavaScript string
 * (`fnv1a32` in public/app.js), and the hex digest game.js falls back on
 * when Web Crypto is unavailable: the FNV-1a value as 8 zero-padded lower-case
 * hex digits, repeated 8 times.
 */
module Fnv {

  const OffsetBasis: bv32 := 0x811c9dc5
  const Prime: bv32 := 0x01000193

  /** One character as UTF-16 code units: a surrogate pair above U+FFFF. */
  function Units(c: char): (u: seq<bv16>)
    ensures 1 <= |u| <= 2
    ensures c as int < 0x10000 <==> |u| == 1
  {
    if c as int < 0x10000 then [c as int as bv16]
    else
      var v := c as int - 0x10000;
      [(0xD800 + v / 0x400) as bv16, (0xDC00 + v % 0x400) as bv16]
  }

  /** A string as `charCodeAt` sees it: its UTF-16 code units. */
  function Utf16(s: string): (u: seq<bv16>)
    ensures |s| <= |u| <= 2 * |s|
  {
    if s == [] then [] else Units(s[0]) + Utf16(s[1..])
  }

  /** One FNV-1a round: xor in a code unit, then multiply by the prime modulo 2^32 (`Math.imul`). */
  function Round(h: bv32, unit: bv16): bv32 {
    (h ^ (unit as bv32)) * Prime
  }

  /** FNV-1a continued from hash `h` over the code units `u`. */
  function FnvFrom(h: bv32, u: seq<bv16>): bv32
    decreases |u|
  {
    if u == [] then h else FnvFrom(Round(h, u[0]), u[1..])
  }

  /** The FNV-1a hash of a string, from the offset basis. */
  function Fnv1a(s: string): bv32 {
    FnvFrom(OffsetBasis, Utf16(s))
  }

  /** Hashing runs left to right: the hash of `a + b` continues the hash of `a` over `b`. */
  lemma {:induction false} FnvFromAppend(h: bv32, a: seq<bv16>, b: seq<bv16>)
    ensures FnvFrom(h, a + b) == FnvFrom(FnvFrom(h, a), b)
    decreases |a|
  {
    if a != [] {
      assert (a + b)[0] == a[0] && (a + b)[1..] == a[1..] + b;
      FnvFromAppend(Round(h, a[0]), a[1..], b);
    } else {
      assert a + b == b;
    }
  }

  /** `fnv1a32`: the loop over the code units, and `h >>> 0` as an unsigned 32-bit number. */
  method Fnv1a32(s: string) returns (h: nat)
    ensures h < 0x1_0000_0000
    ensures h == Fnv1a(s) as nat
  {
    var u := Utf16(s);
    var x: bv32 := OffsetBasis;
    var i := 0;
    while i < |u|
      invariant 0 <= i <= |u|
      invariant FnvFrom(x, u[i..]) == Fnv1a(s)
    {
      assert u[i..][1..] == u[i + 1..];
      x := Round(x, u[i]);
      i := i + 1;
    }
    h := x as nat;
  }

  predicate IsHex(c: char) {
    '0' <= c <= '9' || 'a' <= c <= 'f'
  }

  function HexDigit(d: nat): (c: char)
    requires d < 16
    ensures IsHex(c)
  {
    if d < 10 then ('0' as int + d) as char else ('a' as int + d - 10) as char
  }

  function DigitValue(c: char): (d: nat)
    requires IsHex(c)
    ensures d < 16
  {
    if c <= '9' then c as int - '0' as int else c as int - 'a' as int + 10
  }

  /** `n.toString(16)`: lower-case hex digits without leading zeros. */
  function ToHex(n: nat): (s: string)
    ensures 1 <= |s| && forall i :: 0 <= i < |s| ==> IsHex(s[i])
  {
    if n < 16 then [HexDigit(n)] else ToHex(n / 16) + [HexDigit(n % 16)]
  }

  /** The number a string of hex digits denotes. */
  function HexValue(s: string): nat
    requires forall i :: 0 <= i < |s| ==> IsHex(s[i])
  {
    if s == [] then 0 else HexValue(s[..|s| - 1]) * 16 + DigitValue(s[|s| - 1])
  }

  function Pow16(k: nat): (p: nat)
    ensures p >= 1
  {
    if k == 0 then 1 else 16 * Pow16(k - 1)
  }

  /** Reading back what `toString(16)` wrote gives the number, in at most `k` digits below `16^k`. */
  lemma {:induction false} ToHexRoundTrip(n: nat, k: nat)
    requires 1 <= k && n < Pow16(k)
    ensures HexValue(ToHex(n)) == n && |ToHex(n)| <= k
  {
    var s := ToHex(n);
    if n < 16 {
      assert s[..0] == [];
      assert HexValue(s) == DigitValue(HexDigit(n));
    } else {
      assert Pow16(1) == 16;
      assert k >= 2;
      assert n / 16 < Pow16(k - 1);
      ToHexRoundTrip(n / 16, k - 1);
      assert s[..|s| - 1] == ToHex(n / 16);
      assert DigitValue(HexDigit(n % 16)) == n % 16;
    }
  }

  /** Leading zeros add nothing to the value of a hex string. */
  lemma {:induction false} ZerosFirst(z: string, s: string)
    requires forall i :: 0 <= i < |z| ==> z[i] == '0'
    requires forall i :: 0 <= i < |s| ==> IsHex(s[i])
    ensures HexValue(z + s) == HexValue(s)
    decreases |s|
  {
    if s == [] {
      assert z + s == z;
      AllZeros(z);
    } else {
      assert (z + s)[..|z + s| - 1] == z + s[..|s| - 1];
      ZerosFirst(z, s[..|s| - 1]);
    }
  }

  lemma {:induction false} AllZeros(z: string)
    requires forall i :: 0 <= i < |z| ==> z[i] == '0'
    ensures HexValue(z) == 0
    decreases |z|
  {
    if z != [] {
      AllZeros(z[..|z| - 1]);
    }
  }

  /**
   * `("00000000" + n.toString(16)).slice(-8)`: for a 32-bit value, exactly 8
   * hex digits that read back as `n`.
   */
  function Hex8(n: nat): (s: string)
    requires n < 0x1_0000_0000
    ensures |s| == 8 && (forall i :: 0 <= i < 8 ==> IsHex(s[i])) && HexValue(s) == n
  {
    Pow16Eight();
    ToHexRoundTrip(n, 8);
    var h := ToHex(n);
    PadTail(h);
    ZerosFirst(Pad8[|h|..], h);
    (Pad8 + h)[|Pad8 + h| - 8..]
  }

  const Pad8: string := "00000000"

  lemma Pow16Eight()
    ensures Pow16(8) == 0x1_0000_0000
  {
    assert Pow16(2) == 256;
    assert Pow16(4) == 256 * 256 by { assert Pow16(4) == 16 * 16 * Pow16(2); }
    assert Pow16(8) == 16 * 16 * 16 * 16 * Pow16(4);
  }

  /** The last 8 characters of `"00000000" + h`, for at most 8 digits `h`, are zeros followed by `h`. */
  lemma PadTail(h: string)
    requires |h| <= 8
    ensures (Pad8 + h)[|Pad8 + h| - 8..] == Pad8[|h|..] + h
    ensures forall i :: 0 <= i < |Pad8[|h|..]| ==> Pad8[|h|..][i] == '0'
  {
    var p := Pad8 + h;
    assert |Pad8| == 8;
    forall i | 0 <= i < 8 ensures p[|p| - 8..][i] == (Pad8[|h|..] + h)[i] {
      if i < 8 - |h| {
        assert p[|p| - 8 + i] == Pad8[|h| + i];
      }
    }
  }

  /** `s.repeat(n)`: `n` copies of `s`, each character equal to the one `|s|` before it. */
  function Repeat(s: string, n: nat): (r: string)
    ensures |r| == |s| * n
    ensures n > 0 ==> r[..|s|] == s
    ensures forall i :: |s| <= i < |r| ==> r[i] == r[i - |s|]
  {
    if n == 0 then "" else s + Repeat(s, n - 1)
  }

  /** The digest game.js falls back on: 64 hex digits, the 8 of the FNV-1a value 8 times over. */
  function FallbackDigest(str: string): (r: string)
    ensures |r| == 64 && forall i :: 0 <= i < 64 ==> IsHex(r[i])
    ensures forall i :: 8 <= i < 64 ==> r[i] == r[i - 8]
    ensures HexValue(r[..8]) == Fnv1a(str) as nat
  {
    var digits := Hex8(Fnv1a(str) as nat);
    RepeatedHex(digits);
    Repeat(digits, 8)
  }

  /** Eight copies of eight hex digits are 64 hex digits that begin with the eight. */
  lemma RepeatedHex(digits: string)
    requires |digits| == 8 && forall i :: 0 <= i < 8 ==> IsHex(digits[i])
    ensures var r := Repeat(digits, 8); |r| == 64 && r[..8] == digits && forall i :: 0 <= i < 64 ==> IsHex(r[i])
  {
    var r := Repeat(digits, 8);
    forall i | 0 <= i < 64 ensures IsHex(r[i]) {
      Periodic(r, digits, i);
    }
  }

  lemma {:induction false} Periodic(r: string, digits: string, i: nat)
    requires |digits| == 8 && |r| == 64 && r[..8] == digits && forall j :: 8 <= j < 64 ==> r[j] == r[j - 8]
    requires i < 64
    ensures r[i] == digits[i % 8]
    decreases i
  {
    if i >= 8 {
      Periodic(r, digits, i - 8);
    }
  }

  /** The fallback branch of `sha256Hex` in game.js: the FNV-1a loop, then the hex formatting. */
  method FallbackSha256Hex(str: string) returns (r: string)
    ensures r == FallbackDigest(str)
  {
    var h := Fnv1a32(str);
    r := Repeat(Hex8(h), 8);
  }

  /** Published FNV-1a 32-bit test vectors. */
  lemma KnownVectors()
    ensures Fnv1a("") == 0x811c9dc5
    ensures Fnv1a("a") == 0xe40c292c
  {
    assert Utf16("a") == [0x61];
    assert FnvFrom(OffsetBasis, [0x61]) == Round(OffsetBasis, 0x61);
  }
}

=== FILE: game_chain.dfy ===
/**
 * The decision ledger of the governance games (the same code in public/app.js
 * and game.js): each block records one turn, is hashed over its fields joined
 * with "|" and links to the hash of the block before it; `validateChain`
 * reports the first block whose link or hash does not hold.
 *
 * `sha256Hex` is the function `sha` the chain is built with.
 */
module GameChain {
  import opened GameRules

  datatype GameBlock = GameBlock(
    index: int, timestampIso: string, eventId: string, eventType: string,
    aiRecommendation: string, playerAction: string, aiConfidence: int,
    trustDelta: int, fairnessDelta: int, profitDelta: int, safetyDelta: int, complianceDelta: int,
    rationale: string, auditFindings: string, previousHash: string, hash: string)

  /** `parts.join(sep)`: the parts with `sep` between each two of them. */
  function Join(parts: seq<string>, sep: string): string
    decreases |parts|
  {
    if parts == [] then ""
    else if |parts| == 1 then parts[0]
    else Join(parts[..|parts| - 1], sep) + sep + parts[|parts| - 1]
  }

  /** The fields `serializeForHash` lists: every field but the hash, in order. */
  function Fields(b: GameBlock): (f: seq<string>)
    ensures |f| == 15
  {
    [Decimal(b.index), b.timestampIso, b.eventId, b.eventType, b.aiRecommendation, b.playerAction,
     Decimal(b.aiConfidence), Decimal(b.trustDelta), Decimal(b.fairnessDelta), Decimal(b.profitDelta),
     Decimal(b.safetyDelta), Decimal(b.complianceDelta), b.rationale, b.auditFindings, b.previousHash]
  }

  /** The total length of the parts. */
  function TotalLength(parts: seq<string>): nat
  {
    if parts == [] then 0 else TotalLength(parts[..|parts| - 1]) + |parts[|parts| - 1]|
  }

  /** A join with a one-character separator adds one character between each two parts and nothing else. */
  lemma {:induction false} JoinLength(parts: seq<string>, sep: string)
    requires parts != [] && |sep| == 1
    ensures |Join(parts, sep)| == TotalLength(parts) + |parts| - 1
  {
    if |parts| > 1 {
      JoinLength(parts[..|parts| - 1], sep);
    }
  }

  /** A join starts with its first part. */
  lemma {:induction false} JoinStarts(parts: seq<string>, sep: string)
    requires parts != []
    ensures parts[0] <= Join(parts, sep)
  {
    if |parts| > 1 {
      JoinStarts(parts[..|parts| - 1], sep);
      assert parts[..|parts| - 1][0] == parts[0];
    }
  }

  /**
   * `serializeForHash`: the fields joined with "|". The text is the fields'
   * lengths plus the 14 separators, starts with the index and ends with "|"
   * and the previous block's hash.
   */
  function Serialize(b: GameBlock): (r: string)
    ensures |r| == TotalLength(Fields(b)) + 14
    ensures Decimal(b.index) <= r
    ensures |r| > |b.previousHash| && r[|r| - |b.previousHash| - 1..] == "|" + b.previousHash
  {
    var f := Fields(b);
    JoinLength(f, "|");
    JoinStarts(f, "|");
    Join(f, "|")
  }

  /** `{ ok, brokenAt }`: `brokenAt` is -1 when the chain holds. */
  datatype ChainCheck = ChainCheck(ok: bool, brokenAt: int)

  class Chain {
    var blocks: seq<GameBlock>
    /** `sha256Hex`. */
    const sha: string -> string

    /** `state.ledger = []`. */
    constructor (sha: string -> string)
      ensures Valid() && blocks == [] && this.sha == sha
    {
      blocks := [];
      this.sha := sha;
    }

    /** The genesis block `initGenesis` writes at time `now`. */
    function Genesis(now: string): (b: GameBlock)
      ensures b.index == 0 && b.timestampIso == now && b.eventId == "GENESIS" && b.previousHash == "0"
      ensures b.hash == sha(Serialize(b))
    {
      var g := GameBlock(0, now, "GENESIS", "GENESIS", "Initialize Governance Session", "Start", 100,
                         0, 0, 0, 0, 0, "Start of record", "", "0", "");
      g.(hash := sha(Serialize(g)))
    }

    /**
     * The block `addBlock` makes of the record `entry` after `prev` at time
     * `now`: numbered after `prev`, stamped, linked to its hash and hashed.
     */
    function Stamped(entry: GameBlock, prev: GameBlock, now: string): (b: GameBlock)
      ensures b.index == prev.index + 1 && b.timestampIso == now && b.previousHash == prev.hash
      ensures b.hash == sha(Serialize(b))
      ensures b == entry.(index := b.index, timestampIso := now, previousHash := prev.hash, hash := b.hash)
    {
      var b := entry.(index := prev.index + 1, timestampIso := now, previousHash := prev.hash);
      b.(hash := sha(Serialize(b)))
    }

    /** The chain `bs` with the record `entry` stamped after its last block and appended. */
    function Appended(bs: seq<GameBlock>, entry: GameBlock, now: string): seq<GameBlock>
      requires bs != []
    {
      bs + [Stamped(entry, bs[|bs| - 1], now)]
    }

    /** Block `i` has a link or hash mismatch. */
    predicate Broken(bs: seq<GameBlock>, i: nat)
      requires 1 <= i < |bs|
    {
      bs[i].previousHash != bs[i - 1].hash || sha(Serialize(bs[i])) != bs[i].hash
    }

    /** `validateChain` from block `from` on: the first broken block, or -1. */
    function FirstBreak(bs: seq<GameBlock>, from: nat): (r: int)
      requires 1 <= from
      decreases |bs| - from
      ensures r == -1 <==> forall j :: from <= j < |bs| ==> !Broken(bs, j)
      ensures r != -1 ==> from <= r < |bs| && Broken(bs, r) && forall j :: from <= j < r ==> !Broken(bs, j)
    {
      if from >= |bs| then -1
      else if Broken(bs, from) then from
      else FirstBreak(bs, from + 1)
    }

    /** Block `i` is numbered after, and linked to, block `i - 1`, and carries its own hash. */
    ghost predicate Sealed(bs: seq<GameBlock>, i: nat)
      requires 1 <= i < |bs|
    {
      && bs[i].index == bs[i - 1].index + 1
      && bs[i].previousHash == bs[i - 1].hash
      && bs[i].hash == sha(Serialize(bs[i]))
    }

    /** The chain is empty, or a genesis block followed by sealed blocks only. */
    ghost predicate Valid()
      reads this
    {
      && (blocks != [] ==> exists now :: blocks[0] == Genesis(now))
      && forall i :: 1 <= i < |blocks| ==> Sealed(blocks, i)
    }

    /** `initGenesis`: writes the genesis block into an empty chain and leaves any other chain alone. */
    method InitGenesis(now: string)
      requires Valid()
      modifies this
      ensures Valid() && blocks != []
      ensures old(blocks) != [] ==> blocks == old(blocks)
      ensures old(blocks) == [] ==> blocks == [Genesis(now)]
    {
      if blocks != [] {
        return;
      }
      blocks := [Genesis(now)];
    }

    /** `addBlock`: stamps the record after the last block and appends it. */
    method AddBlock(entry: GameBlock, now: string) returns (b: GameBlock)
      requires Valid() && blocks != []
      modifies this
      ensures Valid()
      ensures b == Stamped(entry, old(blocks)[|old(blocks)| - 1], now)
      ensures blocks == Appended(old(blocks), entry, now)
    {
      ghost var before := blocks;
      var prev := blocks[|blocks| - 1];
      var stamped := entry.(index := prev.index + 1, timestampIso := now, previousHash := prev.hash);
      var hash := sha(Serialize(stamped));
      b := stamped.(hash := hash);
      blocks := blocks + [b];
      assert blocks[0] == before[0];
      forall i | 1 <= i < |blocks| ensures Sealed(blocks, i) {
        if i < |before| {
          assert Sealed(before, i);
          assert blocks[i] == before[i] && blocks[i - 1] == before[i - 1];
        }
      }
    }

    /** `validateChain`: walks the chain from block 1 and stops at the first link or hash mismatch. */
    method ValidateChain() returns (r: ChainCheck)
      ensures r.brokenAt == FirstBreak(blocks, 1)
      ensures r.ok <==> r.brokenAt == -1
    {
      var i := 1;
      while i < |blocks|
        invariant 1 <= i && (i <= |blocks| || |blocks| <= 1)
        invariant FirstBreak(blocks, i) == FirstBreak(blocks, 1)
      {
        var prev := blocks[i - 1];
        var cur := blocks[i];
        if cur.previousHash != prev.hash {
          return ChainCheck(false, i);
        }
        var recalculated := sha(Serialize(cur));
        if recalculated != cur.hash {
          return ChainCheck(false, i);
        }
        i := i + 1;
      }
      return ChainCheck(true, -1);
    }

    /** Round trip: a chain built by `initGenesis` and `addBlock` alone validates. */
    lemma ValidChainValidates()
      requires Valid()
      ensures FirstBreak(blocks, 1) == -1
    {
      forall j | 1 <= j < |blocks| ensures !Broken(blocks, j) {
        assert Sealed(blocks, j);
      }
    }

    /** `sha256Hex` is taken to have no collisions. */
    ghost predicate CollisionFree() {
      forall s1: string, s2: string :: sha(s1) == sha(s2) ==> s1 == s2
    }

    /**
     * Replacing block `i` of a valid chain, keeping its link and hash, by a
     * block whose serialization differs is caught at block `i`.
     */
    lemma EditedBlockBreaks(i: nat, edited: GameBlock)
      requires Valid() && CollisionFree() && 1 <= i < |blocks|
      requires edited.previousHash == blocks[i].previousHash && edited.hash == blocks[i].hash
      requires Serialize(edited) != Serialize(blocks[i])
      ensures FirstBreak(blocks[i := edited], 1) == i
    {
      var bs := blocks[i := edited];
      assert Sealed(blocks, i);
      forall j | 1 <= j < i ensures !Broken(bs, j) {
        assert Sealed(blocks, j);
        assert bs[j] == blocks[j] && bs[j - 1] == blocks[j - 1];
      }
      assert Broken(bs, i);
    }

    /**
     * The "|" separator is not escaped: moving the text after a "|" in a
     * block's rationale to the front of its audit findings changes the block
     * but not its serialization, so `validateChain` still passes.
     */
    lemma SeparatorShiftUndetected(i: nat, before: string, after: string)
      requires Valid() && 1 <= i < |blocks| && blocks[i].rationale == before + "|" + after
      ensures blocks[i].(rationale := before, auditFindings := after + "|" + blocks[i].auditFindings) != blocks[i]
      ensures FirstBreak(blocks[i := blocks[i].(rationale := before, auditFindings := after + "|" + blocks[i].auditFindings)], 1) == -1
    {
      var b := blocks[i];
      var shifted := b.(rationale := before, auditFindings := after + "|" + b.auditFindings);
      assert |shifted.rationale| < |b.rationale|;
      SameSerialization(b, shifted, before, after);
      var bs := blocks[i := shifted];
      forall j | 1 <= j < |bs| ensures !Broken(bs, j) {
        assert Sealed(blocks, j);
      }
    }
  }

  /** Moving text across the "|" between the rationale and the audit findings leaves the serialization as it was. */
  lemma SameSerialization(b: GameBlock, shifted: GameBlock, before: string, after: string)
    requires b.rationale == before + "|" + after
    requires shifted == b.(rationale := before, auditFindings := after + "|" + b.auditFindings)
    ensures Serialize(shifted) == Serialize(b)
  {
    var f, g := Fields(b), Fields(shifted);
    assert f[..12] == g[..12];
    assert f[..15][..14] == f[..14] && f[..14][..13] == f[..13] && f[..13][..12] == f[..12];
    assert g[..15][..14] == g[..14] && g[..14][..13] == g[..13] && g[..13][..12] == g[..12];
    assert f == f[..15] && g == g[..15];
    var head := Join(f[..12], "|");
    calc {
      Serialize(shifted);
      Join(g[..14], "|") + "|" + g[14];
      Join(g[..13], "|") + "|" + g[13] + "|" + g[14];
      head + "|" + before + "|" + (after + "|" + b.auditFindings) + "|" + b.previousHash;
      head + "|" + (before + "|" + after) + "|" + b.auditFindings + "|" + b.previousHash;
      Join(f[..13], "|") + "|" + f[13] + "|" + f[14];
      Join(f[..14], "|") + "|" + f[14];
      Serialize(b);
    }
  }
}

=== FILE: game_rules.dfy ===
/**
 * The rules the two governance games share (public/app.js and its older
 * variant game.js): the five metrics, the scenario events, the player's three
 * actions, clamping, the failure test and the hidden-risk penalty.
 */
module GameRules {

  datatype Action = Approve | Override | Audit

  /** The action as the buttons name it. */
  function ActionName(a: Action): string {
    match a
    case Approve => "Approve"
    case Override => "Override"
    case Audit => "Audit"
  }

  /** A change to the five metrics, or a penalty taken off them. */
  datatype Impact = Impact(trust: int, fairness: int, profit: int, safety: int, compliance: int)

  const NoPenalty := Impact(0, 0, 0, 0, 0)

  datatype Metrics = Metrics(trust: int, fairness: int, profit: int, safety: int, compliance: int)

  const StartMetrics := Metrics(70, 70, 55, 70, 70)

  /** A scenario: what the AI recommends, its hidden risks, and the impact of each action. */
  datatype Event = Event(id: string, domain: string, aiRecommendation: string, confidence: int,
                         hiddenBiasRisk: int, hiddenComplianceRisk: int, hiddenRiskNote: string,
                         approve: Impact, override: Impact, audit: Impact)

  /** The impact `takeAction` picks: any action other than Approve and Override takes the audit impact. */
  function ImpactOf(e: Event, a: Action): Impact {
    if a.Approve? then e.approve else if a.Override? then e.override else e.audit
  }

  /** `clamp(n, min, max)`: `Math.max(min, Math.min(max, n))`. */
  function Clamp(n: int, lo: int, hi: int): (r: int)
    ensures lo <= hi ==> lo <= r <= hi
    ensures lo <= n <= hi ==> r == n
    ensures lo <= hi && n < lo ==> r == lo
    ensures lo <= hi && hi < n ==> r == hi
  {
    var m := if hi < n then hi else n;
    if lo < m then m else lo
  }

  predicate InRange(m: Metrics) {
    && 0 <= m.trust <= 100 && 0 <= m.fairness <= 100 && 0 <= m.profit <= 100
    && 0 <= m.safety <= 100 && 0 <= m.compliance <= 100
  }

  const TrustCollapsed := "Public Trust collapsed. Scandal and unrest shut the program down."
  const FairnessCollapsed := "Fairness collapsed. Discrimination litigation halts all automated decisions."
  const SafetyCollapsed := "Safety collapsed. Critical incident triggers emergency override of the system."
  const ComplianceFailed := "Compliance failed. Regulators suspend operations immediately."

  /** One of trust, fairness, safety and compliance has fallen to zero or below; profit is never looked at. */
  predicate Failed(m: Metrics) {
    m.trust <= 0 || m.fairness <= 0 || m.safety <= 0 || m.compliance <= 0
  }

  /**
   * `metricFailReason`: the message of the first of trust, fairness, safety
   * and compliance that has fallen to zero or below, or "" when none has.
   */
  function MetricFailReason(m: Metrics): (r: string)
    ensures r != "" <==> Failed(m)
  {
    if m.trust <= 0 then TrustCollapsed
    else if m.fairness <= 0 then FairnessCollapsed
    else if m.safety <= 0 then SafetyCollapsed
    else if m.compliance <= 0 then ComplianceFailed
    else ""
  }

  /** `computeHiddenPenalty`: nothing after an audit this turn or for an Audit. */
  function HiddenPenalty(e: Event, a: Action, audited: bool): (p: Impact)
    ensures p.trust == 0 && p.profit == 0 && p.safety == 0
    ensures audited || a.Audit? ==> p == NoPenalty
  {
    if audited then NoPenalty
    else if a.Approve? || a.Override? then
      Impact(0, e.hiddenBiasRisk / 35, 0, 0, e.hiddenComplianceRisk / 40)
    else NoPenalty
  }

  /**
   * Otherwise the penalty is `floor(bias / 35)` off fairness and
   * `floor(compliance risk / 40)` off compliance (Dafny's `/` floors for a
   * positive divisor, like `Math.floor` of the quotient): at most 2 each for
   * risks in [0, 100].
   */
  lemma HiddenPenaltyFloors(e: Event, a: Action, audited: bool)
    requires !audited && !a.Audit?
    ensures var p := HiddenPenalty(e, a, audited);
            && p.fairness * 35 <= e.hiddenBiasRisk < (p.fairness + 1) * 35
            && p.compliance * 40 <= e.hiddenComplianceRisk < (p.compliance + 1) * 40
            && (0 <= e.hiddenBiasRisk <= 100 && 0 <= e.hiddenComplianceRisk <= 100 ==>
                  0 <= p.fairness <= 2 && 0 <= p.compliance <= 2)
  {
  }

  function DigitChar(d: nat): (c: char)
    requires d < 10
    ensures '0' <= c <= '9'
  {
    ('0' as int + d) as char
  }

  /** The decimal digits of a natural number, as `String(n)` writes them. */
  function Digits(n: nat): (s: string)
    ensures |s| >= 1 && forall i :: 0 <= i < |s| ==> '0' <= s[i] <= '9'
  {
    if n < 10 then [DigitChar(n)] else Digits(n / 10) + [DigitChar(n % 10)]
  }

  /** `String(n)` for an integer: a minus sign before the digits of a negative number. */
  function Decimal(n: int): (s: string)
    ensures forall i :: 0 <= i < |s| ==> s[i] == '-' || '0' <= s[i] <= '9'
  {
    if n < 0 then "-" + Digits(-n) else Digits(n)
  }

  /** The audit findings text a turn records: empty unless the action is an Audit. */
  function AuditFindings(e: Event, a: Action): (s: string)
    ensures a.Audit? <==> s != ""
  {
    if a.Audit? then
      "Audit Findings: BiasRisk=" + Decimal(e.hiddenBiasRisk) + "/100, ComplianceRisk="
        + Decimal(e.hiddenComplianceRisk) + "/100. " + e.hiddenRiskNote
    else ""
  }

  /** The rationale a turn records for each action when no policy is breached. */
  function Rationale(a: Action): string {
    match a
    case Approve => "Followed model output to maintain throughput."
    case Override => "Human review applied to improve fairness and trust."
    case Audit => "Performed audit for documentation & risk visibility."
  }
}

=== FILE: governance_game.dfy ===
/**
 * The governance game of public/app.js: each turn the player approves,
 * overrides or audits the AI's recommendation for the current event. Audits
 * cost a credit that regenerates every other day; a high-risk decision taken
 * without an audit is a policy breach, and the third breach, or a metric
 * reaching zero, ends the game. Every turn is recorded in the decision ledger.
 *
 * The random choice of the next event is the parameter `next`; the clock
 * reading is the parameter `now`.
 */
module GovernanceGame {
  import opened Wrappers
  import opened GameRules
  import opened GameChain

  const AuditMax := 5
  const BreachMax := 3
  const StartCredits := 3

  /** `isHighRisk`: high compliance risk, very high bias risk, or a very confident AI. */
  predicate IsHighRisk(e: Event) {
    e.hiddenComplianceRisk >= 70 || e.hiddenBiasRisk >= 80 || e.confidence >= 92
  }

  /**
   * Raising any of the three readings never makes a high-risk event safe, and
   * a safe event sits below all three thresholds at once.
   */
  lemma HighRiskMonotone(e: Event, raised: Event)
    ensures (raised.hiddenComplianceRisk >= e.hiddenComplianceRisk && raised.hiddenBiasRisk >= e.hiddenBiasRisk
             && raised.confidence >= e.confidence && IsHighRisk(e)) ==> IsHighRisk(raised)
    ensures !IsHighRisk(e) ==> e.hiddenComplianceRisk <= 69 && e.hiddenBiasRisk <= 79 && e.confidence <= 91
  {
  }

  /** What `applyCompliancePolicy` decides: whether the turn is a breach, and what it costs. */
  datatype Policy = Policy(breach: bool, trust: int, compliance: int)

  /** The must-audit rule: a high-risk Approve or Override without an audit this turn costs 2 trust and 8 compliance. */
  function PolicyFor(e: Event, a: Action, audited: bool): (p: Policy)
    ensures p.breach <==> IsHighRisk(e) && !a.Audit? && !audited
    ensures p.breach ==> p.trust == 2 && p.compliance == 8
    ensures !p.breach ==> p.trust == 0 && p.compliance == 0
  {
    if !IsHighRisk(e) then Policy(false, 0, 0)
    else if (a.Approve? || a.Override?) && !audited then Policy(true, 2, 8)
    else Policy(false, 0, 0)
  }

  /** `applyImpact`: each metric moves by its impact less its penalty and is clamped to [0, 100]. */
  function Applied(m: Metrics, impact: Impact, penalty: Impact): (r: Metrics)
    ensures InRange(r)
  {
    Metrics(Clamp(m.trust + impact.trust - penalty.trust, 0, 100),
            Clamp(m.fairness + impact.fairness - penalty.fairness, 0, 100),
            Clamp(m.profit + impact.profit - penalty.profit, 0, 100),
            Clamp(m.safety + impact.safety - penalty.safety, 0, 100),
            Clamp(m.compliance + impact.compliance - penalty.compliance, 0, 100))
  }

  /** A metric whose new value stays inside [0, 100] moves by exactly its impact less its penalty. */
  lemma AppliedExact(m: Metrics, impact: Impact, penalty: Impact)
    ensures var r := Applied(m, impact, penalty);
            && (0 <= m.trust + impact.trust - penalty.trust <= 100 ==> r.trust == m.trust + impact.trust - penalty.trust)
            && (0 <= m.fairness + impact.fairness - penalty.fairness <= 100 ==>
                  r.fairness == m.fairness + impact.fairness - penalty.fairness)
            && (0 <= m.profit + impact.profit - penalty.profit <= 100 ==> r.profit == m.profit + impact.profit - penalty.profit)
            && (0 <= m.safety + impact.safety - penalty.safety <= 100 ==> r.safety == m.safety + impact.safety - penalty.safety)
            && (0 <= m.compliance + impact.compliance - penalty.compliance <= 100 ==>
                  r.compliance == m.compliance + impact.compliance - penalty.compliance)
  {
  }

  /** `applyAuditCreditRegen`: one more credit on even days after the first, never above the maximum. */
  function Regenerated(day: int, credits: int): (c: int)
    ensures !(day > 1 && day % 2 == 0) ==> c == credits
    ensures day > 1 && day % 2 == 0 && credits < AuditMax ==> c == credits + 1
    ensures credits <= AuditMax ==> credits <= c <= AuditMax
  {
    if day > 1 && day % 2 == 0 then (if AuditMax < credits + 1 then AuditMax else credits + 1) else credits
  }

  /** The record `takeAction` hands to `addBlock`; the deltas are taken before clamping. */
  function Entry(e: Event, a: Action, hidden: Impact, p: Policy): (b: GameBlock)
    ensures b.trustDelta == ImpactOf(e, a).trust - p.trust
    ensures b.fairnessDelta == ImpactOf(e, a).fairness - hidden.fairness
    ensures b.complianceDelta == ImpactOf(e, a).compliance - hidden.compliance - p.compliance
    ensures b.playerAction == ActionName(a) && b.eventId == e.id && b.eventType == e.domain
  {
    var impact := ImpactOf(e, a);
    GameBlock(0, "", e.id, e.domain, e.aiRecommendation, ActionName(a), e.confidence,
              impact.trust - p.trust, impact.fairness - hidden.fairness, impact.profit, impact.safety,
              impact.compliance - hidden.compliance - p.compliance,
              if p.breach then "High-risk decision taken without audit (policy violation)." else Rationale(a),
              AuditFindings(e, a), "", "")
  }

  /** The game state apart from the ledger. */
  datatype State = State(day: int, bestDay: int, auditCredits: int, breachCount: int, audited: bool,
                         metrics: Metrics, event: Event, gameOver: bool)

  /** An Audit spends a credit and marks the turn audited. */
  function Spent(s: State, a: Action): State {
    State(s.day, s.bestDay, if a.Audit? then s.auditCredits - 1 else s.auditCredits, s.breachCount,
          s.audited || a.Audit?, s.metrics, s.event, s.gameOver)
  }

  /** Then the hidden and policy penalties are worked out, a breach counted and the impact applied. */
  function Charged(t: State, a: Action): State {
    var hidden := HiddenPenalty(t.event, a, t.audited);
    var policy := PolicyFor(t.event, a, t.audited);
    var penalty := Impact(hidden.trust + policy.trust, hidden.fairness, hidden.profit, hidden.safety,
                          hidden.compliance + policy.compliance);
    State(t.day, t.bestDay, t.auditCredits, if policy.breach then t.breachCount + 1 else t.breachCount,
          t.audited, Applied(t.metrics, ImpactOf(t.event, a), penalty), t.event, t.gameOver)
  }

  /** The state once an action has been played and before the turn closes. */
  function Played(s: State, a: Action): State {
    Charged(Spent(s, a), a)
  }

  /** The record a played action leaves in the ledger. */
  function Recorded(s: State, a: Action): GameBlock {
    var t := Spent(s, a);
    Entry(t.event, a, HiddenPenalty(t.event, a, t.audited), PolicyFor(t.event, a, t.audited))
  }

  /**
   * The close of a turn: the game ends on the last breach or a failed metric;
   * otherwise the day advances, credits regenerate and the next event is drawn.
   */
  function Closed(t: State, next: Event): State {
    if t.breachCount >= BreachMax || Failed(t.metrics) then t.(gameOver := true)
    else
      var day := t.day + 1;
      t.(day := day, bestDay := if t.bestDay < day then day else t.bestDay,
         auditCredits := Regenerated(day, t.auditCredits), audited := false, event := next)
  }

  /** Two states with the same fields are the same state. */
  lemma SameState(x: State, y: State)
    requires x.day == y.day && x.bestDay == y.bestDay && x.auditCredits == y.auditCredits
    requires x.breachCount == y.breachCount && x.audited == y.audited && x.metrics == y.metrics
    requires x.event == y.event && x.gameOver == y.gameOver
    ensures x == y
  {
  }

  /** `takeAction` goes ahead: the game is not over, and an Audit has a credit to spend. */
  predicate Taken(s: State, a: Action) {
    !s.gameOver && !(a.Audit? && s.auditCredits <= 0)
  }

  /** The state `takeAction` leaves: unchanged when the turn is not taken. */
  function Step(s: State, a: Action, next: Event): (r: State)
    ensures !Taken(s, a) ==> r == s
  {
    if Taken(s, a) then Closed(Played(s, a), next) else s
  }

  /** `applyImpact` keeps every metric in [0, 100], whatever the impacts and penalties. */
  lemma StepKeepsMetricsInRange(s: State, a: Action, next: Event)
    requires InRange(s.metrics)
    ensures InRange(Step(s, a, next).metrics)
  {
  }

  /**
   * An Audit spends exactly one credit and marks the turn audited; the day's
   * regeneration comes after, when the game goes on.
   */
  lemma AuditSpendsCredit(s: State, next: Event)
    requires Taken(s, Audit)
    ensures var o := Step(s, Audit, next);
            && (o.gameOver ==> o.auditCredits == s.auditCredits - 1 && o.audited)
            && (!o.gameOver ==> o.auditCredits == Regenerated(s.day + 1, s.auditCredits - 1))
  {
  }

  /**
   * A taken turn adds one breach exactly when a high-risk event is approved or
   * overridden without an audit this turn, and a breach costs 2 trust and 8
   * compliance on top of the hidden penalty.
   */
  lemma StepCountsBreach(s: State, a: Action, next: Event)
    requires Taken(s, a)
    ensures var breach := IsHighRisk(s.event) && !a.Audit? && !s.audited;
            var hidden := HiddenPenalty(s.event, a, s.audited || a.Audit?);
            && Step(s, a, next).breachCount == s.breachCount + (if breach then 1 else 0)
            && (breach ==> Step(s, a, next).metrics
                           == Applied(s.metrics, ImpactOf(s.event, a),
                                      Impact(2, hidden.fairness, 0, 0, hidden.compliance + 8)))
  {
    var t := Played(s, a);
    assert Closed(t, next).breachCount == t.breachCount && Closed(t, next).metrics == t.metrics;
  }

  /**
   * The end of a taken turn: the game is over when the breaches reach the
   * maximum or a metric has failed, and the day stays; otherwise the day moves
   * on by one, the best day follows it and the next event is drawn.
   */
  lemma StepEnds(s: State, a: Action, next: Event)
    requires Taken(s, a)
    ensures var o := Step(s, a, next);
            && (o.gameOver <==> o.breachCount >= BreachMax || Failed(o.metrics))
            && (o.gameOver ==> o.day == s.day && o.bestDay == s.bestDay)
            && (!o.gameOver ==> o.day == s.day + 1 && o.bestDay == (if s.bestDay < o.day then o.day else s.bestDay)
                                && o.event == next && !o.audited)
  {
  }

  /** The states a game passes through: metrics in range, credits within budget, an audit flag only on a finished game. */
  predicate Live(s: State) {
    && InRange(s.metrics)
    && 0 <= s.auditCredits <= AuditMax
    && 0 <= s.breachCount
    && 1 <= s.day && 0 <= s.bestDay <= s.day && (s.day > 1 ==> s.bestDay == s.day)
    && (s.audited ==> s.gameOver)
    && (!s.gameOver ==> s.breachCount < BreachMax && !Failed(s.metrics))
  }

  /** Every turn keeps a game live. */
  lemma StepKeepsLive(s: State, a: Action, next: Event)
    requires Live(s)
    ensures Live(Step(s, a, next))
  {
    if Taken(s, a) {
      StepEnds(s, a, next);
      StepCountsBreach(s, a, next);
      if a.Audit? {
        AuditSpendsCredit(s, next);
      }
    }
  }

  /**
   * An audit ends the turn, so a live game never has an audit to show for the
   * current event: every high-risk Approve or Override is a breach.
   */
  lemma HighRiskDecisionBreaches(s: State, a: Action, next: Event)
    requires Live(s) && !s.gameOver && !a.Audit? && IsHighRisk(s.event)
    ensures Step(s, a, next).breachCount == s.breachCount + 1
  {
    StepCountsBreach(s, a, next);
  }

  /** The third breach ends the game, whatever the metrics, and the day does not advance. */
  lemma ThirdBreachEndsGame(s: State, a: Action, next: Event)
    requires Live(s) && !s.gameOver && s.breachCount == BreachMax - 1 && !a.Audit? && IsHighRisk(s.event)
    ensures Step(s, a, next).gameOver && Step(s, a, next).day == s.day
  {
    HighRiskDecisionBreaches(s, a, next);
    StepEnds(s, a, next);
  }

  class Game {
    var day: int
    var bestDay: int
    var auditCredits: int
    var breachCount: int
    var auditedThisTurn: bool
    var metrics: Metrics
    var currentEvent: Event
    var gameOver: bool
    /** `state.ledger`. */
    const ledger: Chain

    function Snapshot(): State
      reads this
    {
      State(day, bestDay, auditCredits, breachCount, auditedThisTurn, metrics, currentEvent, gameOver)
    }

    ghost predicate Valid()
      reads this, ledger
    {
      ledger.Valid() && ledger.blocks != [] && Live(Snapshot())
    }

    /** The initial `state`, then boot: `initGenesis` and the first `pickNextEvent`. */
    constructor (first: Event, now: string, sha: string -> string)
      ensures Valid() && fresh(ledger) && ledger.sha == sha
      ensures Snapshot() == State(1, 0, StartCredits, 0, false, StartMetrics, first, false)
      ensures ledger.blocks == [ledger.Genesis(now)]
    {
      day := 1;
      bestDay := 0;
      auditCredits := StartCredits;
      breachCount := 0;
      auditedThisTurn := false;
      metrics := StartMetrics;
      currentEvent := first;
      gameOver := false;
      ledger := new Chain(sha);
      new;
      ledger.InitGenesis(now);
    }

    /** `applyImpact`: only the metrics change. */
    method ApplyImpact(impact: Impact, penalty: Impact)
      modifies this`metrics
      ensures metrics == Applied(old(metrics), impact, penalty)
    {
      metrics := metrics.(trust := Clamp(metrics.trust + impact.trust - penalty.trust, 0, 100));
      metrics := metrics.(fairness := Clamp(metrics.fairness + impact.fairness - penalty.fairness, 0, 100));
      metrics := metrics.(profit := Clamp(metrics.profit + impact.profit - penalty.profit, 0, 100));
      metrics := metrics.(safety := Clamp(metrics.safety + impact.safety - penalty.safety, 0, 100));
      metrics := metrics.(compliance := Clamp(metrics.compliance + impact.compliance - penalty.compliance, 0, 100));
    }

    /** `applyCompliancePolicy`: a breach adds exactly one to the breach count, and nothing else changes. */
    method ApplyCompliancePolicy(e: Event, a: Action) returns (p: Policy)
      modifies this`breachCount
      ensures p == PolicyFor(e, a, auditedThisTurn)
      ensures breachCount == old(breachCount) + (if p.breach then 1 else 0)
    {
      if !IsHighRisk(e) {
        return Policy(false, 0, 0);
      }
      if (a.Approve? || a.Override?) && !auditedThisTurn {
        breachCount := breachCount + 1;
        return Policy(true, 2, 8);
      }
      return Policy(false, 0, 0);
    }

    /** `applyAuditCreditRegen`: only the credits change. */
    method ApplyAuditCreditRegen()
      modifies this`auditCredits
      ensures auditCredits == Regenerated(day, old(auditCredits))
    {
      if day > 1 && day % 2 == 0 {
        auditCredits := if AuditMax < auditCredits + 1 then AuditMax else auditCredits + 1;
      }
    }

    /** `pickNextEvent`, with the drawn event as a parameter. */
    method PickNextEvent(next: Event)
      modifies this`auditedThisTurn, this`currentEvent
      ensures !auditedThisTurn && currentEvent == next
    {
      auditedThisTurn := false;
      currentEvent := next;
    }

    /**
     * The first part of `takeAction`: spends the audit credit, works out the
     * hidden and policy penalties, counts a breach and applies the impact.
     */
    method Charge(a: Action) returns (hidden: Impact, policy: Policy)
      requires !(a.Audit? && auditCredits <= 0)
      modifies this`auditCredits, this`auditedThisTurn, this`breachCount, this`metrics
      ensures Snapshot() == Played(old(Snapshot()), a)
      ensures hidden == HiddenPenalty(currentEvent, a, auditedThisTurn)
      ensures policy == PolicyFor(currentEvent, a, auditedThisTurn)
    {
      ghost var s0 := Snapshot();
      var e := currentEvent;
      var impact := ImpactOf(e, a);
      if a.Audit? {
        auditCredits := auditCredits - 1;
        auditedThisTurn := true;
      }
      SameState(Snapshot(), Spent(s0, a));
      ghost var s1 := Snapshot();
      hidden := HiddenPenalty(e, a, auditedThisTurn);
      policy := ApplyCompliancePolicy(e, a);
      ApplyImpact(impact, Impact(hidden.trust + policy.trust, hidden.fairness, hidden.profit, hidden.safety,
                                 hidden.compliance + policy.compliance));
      SameState(Snapshot(), Charged(s1, a));
    }

    /**
     * The end of `takeAction`: the game ends on the last breach or a failed
     * metric; otherwise the day advances, credits regenerate and the next event
     * is drawn.
     */
    method CloseTurn(next: Event)
      modifies this`day, this`bestDay, this`auditCredits, this`auditedThisTurn, this`currentEvent, this`gameOver
      ensures Snapshot() == Closed(old(Snapshot()), next)
    {
      ghost var s0 := Snapshot();
      if breachCount >= BreachMax {
        gameOver := true;
        SameState(Snapshot(), Closed(s0, next));
        return;
      }
      var reason := MetricFailReason(metrics);
      if reason != "" {
        gameOver := true;
        SameState(Snapshot(), Closed(s0, next));
        return;
      }
      day := day + 1;
      bestDay := if bestDay < day then day else bestDay;
      ApplyAuditCreditRegen();
      PickNextEvent(next);
      SameState(Snapshot(), Closed(s0, next));
    }

    /**
     * The `addBlock` call of `takeAction`: the record of the turn, built from
     * the event and the penalties, is stamped and appended to the ledger.
     */
    method Record(a: Action, now: string, e: Event, hidden: Impact, policy: Policy, ghost s0: State)
      requires ledger.Valid() && ledger.blocks != []
      requires e == Spent(s0, a).event
      requires hidden == HiddenPenalty(e, a, Spent(s0, a).audited) && policy == PolicyFor(e, a, Spent(s0, a).audited)
      modifies ledger
      ensures ledger.Valid()
      ensures ledger.blocks == ledger.Appended(old(ledger.blocks), Recorded(s0, a), now)
    {
      var entry := Entry(e, a, hidden, policy);
      var _ := ledger.AddBlock(entry, now);
    }

    /**
     * `takeAction`: the state moves as `Step` says, and when the turn is taken
     * its record is stamped and appended to the ledger.
     */
    method TakeAction(a: Action, now: string, next: Event)
      requires Valid()
      modifies this, ledger
      ensures Valid()
      ensures Snapshot() == Step(old(Snapshot()), a, next)
      ensures !Taken(old(Snapshot()), a) ==> ledger.blocks == old(ledger.blocks)
      ensures Taken(old(Snapshot()), a) ==>
                ledger.blocks == ledger.Appended(old(ledger.blocks), Recorded(old(Snapshot()), a), now)
    {
      ghost var s0 := Snapshot();
      StepKeepsLive(s0, a, next);
      if gameOver {
        return;
      }
      if a.Audit? && auditCredits <= 0 {
        return;
      }
      var e := currentEvent;
      var hidden, policy := Charge(a);
      Record(a, now, e, hidden, policy, s0);
      CloseTurn(next);
    }
  }
}

=== FILE: ledger.dfy ===
/**
 * The permissioned audit chain (ledger.js): a hash-linked, append-only list of
 * blocks, each signed by every validator with an HMAC of its hash, and the
 * check that walks the chain and reports the first block that fails.
 *
 * SHA-256 over the JSON text of a block and HMAC-SHA-256 stay abstract: they
 * are the functions `digest` and `mac` the ledger is built with. The JSON
 * text of a block's data object is kept as its list of fields.
 */
module AuditLedger {
  import opened Wrappers

  datatype Validator = Validator(id: string, secret: string)

  datatype Signature = Signature(validatorId: string, sig: string)

  /** The data object of a block: its fields in insertion order, each with the JSON text of its value. */
  type Data = seq<(string, string)>

  /** The fields a block hash covers, in the order `JSON.stringify` writes them. */
  datatype Header = Header(index: int, ts: int, kind: string, data: Data, prevHash: string)

  datatype Block = Block(index: int, ts: int, kind: string, data: Data, prevHash: string,
                         hash: string, sigs: seq<Signature>)

  /** Why `verifyChain` rejects a block. */
  datatype Reason = PrevHashMismatch | HashMismatch | InsufficientSigs

  /** `{ ok: true }`, or `{ ok: false, at, reason }`. */
  datatype Verdict = Ok | Broken(at: nat, reason: Reason)

  /** A block without its hash and signatures: the object `verifyChain` hashes again. */
  function HeaderOf(b: Block): Header {
    Header(b.index, b.ts, b.kind, b.data, b.prevHash)
  }

  const Validators: seq<Validator> := [
    Validator("v1", "validator_secret_1"),
    Validator("v2", "validator_secret_2"),
    Validator("v3", "validator_secret_3")
  ]

  const Quorum: nat := 2

  const GenesisData: Data := [("msg", "\"Permissioned Tokenized Exchange Ledger\"")]

  /** `"0".repeat(n)`. */
  function Zeros(n: nat): (r: string)
    ensures |r| == n && forall i :: 0 <= i < n ==> r[i] == '0'
  {
    if n == 0 then "" else Zeros(n - 1) + "0"
  }

  predicate DistinctIds(vs: seq<Validator>) {
    forall i, j :: 0 <= i < j < |vs| ==> vs[i].id != vs[j].id
  }

  /** `validators.find(x => x.id === id)`: the first validator with that id. */
  function Find(vs: seq<Validator>, id: string): (r: Option<Validator>)
    ensures r.None? <==> forall v :: v in vs ==> v.id != id
    ensures r.Some? ==> r.value in vs && r.value.id == id
    ensures vs != [] && vs[0].id == id ==> r == Some(vs[0])
    ensures r.Some? ==> exists i :: 0 <= i < |vs| && vs[i] == r.value && forall j :: 0 <= j < i ==> vs[j].id != id
  {
    if vs == [] then None
    else if vs[0].id == id then Some(vs[0])
    else
      assert forall v :: v in vs ==> v == vs[0] || v in vs[1..];
      var r := Find(vs[1..], id);
      if r.Some? then
        var i :| 0 <= i < |vs[1..]| && vs[1..][i] == r.value && forall j :: 0 <= j < i ==> vs[1..][j].id != id;
        assert vs[i + 1] == r.value && forall j :: 0 <= j < i + 1 ==> vs[j].id != id;
        r
      else r
  }

  /** With distinct ids, each validator is the one found under its own id. */
  lemma {:induction false} FindDistinct(vs: seq<Validator>, i: nat)
    requires DistinctIds(vs) && i < |vs|
    ensures Find(vs, vs[i].id) == Some(vs[i])
  {
    if i > 0 {
      assert vs[0].id != vs[i].id;
      assert vs[1..][i - 1] == vs[i];
      FindDistinct(vs[1..], i - 1);
    }
  }

  class Ledger {
    var chain: seq<Block>
    const validators: seq<Validator>
    const quorum: nat
    /** `sha256(JSON.stringify(header))`. */
    const digest: Header -> string
    /** `hmac(secret, message)`. */
    const mac: (string, string) -> string

    /** The module-level `ledger` object: no blocks yet, three validators, a quorum of two. */
    constructor (digest: Header -> string, mac: (string, string) -> string)
      ensures Valid() && chain == [] && this.digest == digest && this.mac == mac
    {
      chain := [];
      validators := Validators;
      quorum := Quorum;
      this.digest := digest;
      this.mac := mac;
    }

    /** `signBlockHash`: one signature per validator, in the validators' order, each its HMAC of the hash. */
    function SignBlockHash(hash: string): (r: seq<Signature>)
      ensures |r| == |validators|
      ensures forall i :: 0 <= i < |r| ==> r[i] == Signature(validators[i].id, mac(validators[i].secret, hash))
    {
      seq(|validators|, i requires 0 <= i < |validators| => Signature(validators[i].id, mac(validators[i].secret, hash)))
    }

    /** A signature counts toward the quorum when it names a known validator and carries its HMAC of the stored hash. */
    predicate Counts(hash: string, s: Signature) {
      var v := Find(validators, s.validatorId);
      v.Some? && mac(v.value.secret, hash) == s.sig
    }

    /** The number of signatures that count, as the inner loop of `verifyChain` tallies them. */
    function ValidSigs(hash: string, sigs: seq<Signature>): (n: nat)
      ensures n <= |sigs|
    {
      if sigs == [] then 0
      else ValidSigs(hash, sigs[..|sigs| - 1]) + (if Counts(hash, sigs[|sigs| - 1]) then 1 else 0)
    }

    /** The checks of block `i` against block `i - 1`, in the order `verifyChain` makes them. */
    function Fault(blocks: seq<Block>, i: nat): (r: Option<Reason>)
      requires 1 <= i < |blocks|
      ensures r == Some(PrevHashMismatch) <==> blocks[i].prevHash != blocks[i - 1].hash
      ensures r == Some(HashMismatch) <==>
                blocks[i].prevHash == blocks[i - 1].hash && blocks[i].hash != digest(HeaderOf(blocks[i]))
      ensures r == Some(InsufficientSigs) <==>
                && blocks[i].prevHash == blocks[i - 1].hash && blocks[i].hash == digest(HeaderOf(blocks[i]))
                && ValidSigs(blocks[i].hash, blocks[i].sigs) < quorum
      ensures r.None? <==>
                && blocks[i].prevHash == blocks[i - 1].hash && blocks[i].hash == digest(HeaderOf(blocks[i]))
                && ValidSigs(blocks[i].hash, blocks[i].sigs) >= quorum
    {
      var b := blocks[i];
      if b.prevHash != blocks[i - 1].hash then Some(PrevHashMismatch)
      else if b.hash != digest(HeaderOf(b)) then Some(HashMismatch)
      else if ValidSigs(b.hash, b.sigs) < quorum then Some(InsufficientSigs)
      else None
    }

    /**
     * `verifyChain` from block `from` on: `Ok` when no block fails, otherwise
     * the first block that fails and why; later blocks are not looked at.
     */
    function Scan(blocks: seq<Block>, from: nat): (v: Verdict)
      requires 1 <= from
      decreases |blocks| - from
      ensures v.Ok? <==> forall j :: from <= j < |blocks| ==> Fault(blocks, j).None?
      ensures v.Broken? ==> from <= v.at < |blocks| && Fault(blocks, v.at) == Some(v.reason)
      ensures v.Broken? ==> forall j :: from <= j < v.at ==> Fault(blocks, j).None?
    {
      if from >= |blocks| then Ok
      else if Fault(blocks, from).Some? then Broken(from, Fault(blocks, from).value)
      else Scan(blocks, from + 1)
    }

    /** The genesis block `initLedger` writes at time `now`. */
    function Genesis(now: int): (b: Block)
      ensures b.index == 0 && b.ts == now && b.kind == "GENESIS" && b.data == GenesisData
      ensures b.prevHash == Zeros(64) && |b.prevHash| == 64
      ensures b.hash == digest(HeaderOf(b)) && b.sigs == SignBlockHash(b.hash)
    {
      var hash := digest(Header(0, now, "GENESIS", GenesisData, Zeros(64)));
      Block(0, now, "GENESIS", GenesisData, Zeros(64), hash, SignBlockHash(hash))
    }

    /** Block `i` follows block `i - 1`, links to its hash, is hashed over its own fields and signed by every validator. */
    ghost predicate Sealed(blocks: seq<Block>, i: nat)
      requires 1 <= i < |blocks|
    {
      && blocks[i].index == blocks[i - 1].index + 1
      && blocks[i].prevHash == blocks[i - 1].hash
      && blocks[i].hash == digest(HeaderOf(blocks[i]))
      && blocks[i].sigs == SignBlockHash(blocks[i].hash)
    }

    /** The chain is empty, or a genesis block followed by sealed blocks only. */
    ghost predicate Valid()
      reads this
    {
      && validators == Validators && quorum == Quorum
      && (chain != [] ==> exists now :: chain[0] == Genesis(now))
      && forall i :: 1 <= i < |chain| ==> Sealed(chain, i)
    }

    /** `initLedger`: writes the genesis block into an empty chain and leaves any other chain alone. */
    method InitLedger(now: int)
      requires Valid()
      modifies this
      ensures Valid()
      ensures old(chain) != [] ==> chain == old(chain)
      ensures old(chain) == [] ==> chain == [Genesis(now)]
    {
      if chain != [] {
        return;
      }
      chain := [Genesis(now)];
    }

    /**
     * `addBlock`: appends a block numbered after the last one and linked to its
     * hash, hashes it and has every validator sign the hash. The chain must
     * hold the genesis block (ledger.js reads the last block unguarded).
     */
    method AddBlock(kind: string, data: Data, now: int) returns (b: Block)
      requires Valid() && chain != []
      modifies this
      ensures Valid()
      ensures chain == old(chain) + [b]
      ensures b.index == old(chain)[|old(chain)| - 1].index + 1 && b.prevHash == old(chain)[|old(chain)| - 1].hash
      ensures b.ts == now && b.kind == kind && b.data == data
      ensures b.hash == digest(HeaderOf(b)) && b.sigs == SignBlockHash(b.hash)
    {
      ghost var before := chain;
      var prev := chain[|chain| - 1];
      var header := Header(prev.index + 1, now, kind, data, prev.hash);
      var hash := digest(header);
      b := Block(header.index, now, kind, data, prev.hash, hash, SignBlockHash(hash));
      chain := chain + [b];
      assert chain[0] == before[0];
      forall i | 1 <= i < |chain| ensures Sealed(chain, i) {
        if i < |before| {
          assert Sealed(before, i);
          assert chain[i] == before[i] && chain[i - 1] == before[i - 1];
        }
      }
    }

    /** The inner loop of `verifyChain`: counts the signatures of a block that count. */
    method CountValid(hash: string, sigs: seq<Signature>) returns (n: nat)
      ensures n == ValidSigs(hash, sigs)
    {
      n := 0;
      var k := 0;
      while k < |sigs|
        invariant 0 <= k <= |sigs| && n == ValidSigs(hash, sigs[..k])
      {
        assert sigs[..k + 1][..k] == sigs[..k];
        var v := Find(validators, sigs[k].validatorId);
        if v.Some? && mac(v.value.secret, hash) == sigs[k].sig {
          n := n + 1;
        }
        k := k + 1;
      }
      assert sigs[..k] == sigs;
    }

    /** `verifyChain`: checks every block after genesis in turn and stops at the first that fails. */
    method VerifyChain() returns (v: Verdict)
      ensures v == Scan(chain, 1)
    {
      var i := 1;
      while i < |chain|
        invariant 1 <= i && (i <= |chain| || |chain| <= 1)
        invariant Scan(chain, i) == Scan(chain, 1)
      {
        var b := chain[i];
        var prev := chain[i - 1];
        if b.prevHash != prev.hash {
          return Broken(i, PrevHashMismatch);
        }
        var recompute := digest(HeaderOf(b));
        if b.hash != recompute {
          return Broken(i, HashMismatch);
        }
        var valid := CountValid(b.hash, b.sigs);
        if valid < quorum {
          return Broken(i, InsufficientSigs);
        }
        i := i + 1;
      }
      return Ok;
    }

    // -------------------------------------------------------------------------
    // Properties of the checks

    /** Signatures tally independently: the count of two lists together is the sum of their counts. */
    lemma {:induction false} ValidSigsAppend(hash: string, xs: seq<Signature>, ys: seq<Signature>)
      ensures ValidSigs(hash, xs + ys) == ValidSigs(hash, xs) + ValidSigs(hash, ys)
      decreases |ys|
    {
      if ys != [] {
        var last := ys[|ys| - 1];
        assert (xs + ys)[..|xs + ys| - 1] == xs + ys[..|ys| - 1];
        ValidSigsAppend(hash, xs, ys[..|ys| - 1]);
      } else {
        assert xs + ys == xs;
      }
    }

    /**
     * A signature that names no known validator, or whose value is not that
     * validator's HMAC of the hash, adds nothing wherever it stands.
     */
    lemma IgnoredSignature(hash: string, xs: seq<Signature>, s: Signature, ys: seq<Signature>)
      requires Find(validators, s.validatorId).None? || mac(Find(validators, s.validatorId).value.secret, hash) != s.sig
      ensures ValidSigs(hash, xs + [s] + ys) == ValidSigs(hash, xs + ys)
    {
      ValidSigsAppend(hash, xs + [s], ys);
      ValidSigsAppend(hash, xs, [s]);
      ValidSigsAppend(hash, xs, ys);
      assert [s][..0] == [];
    }

    /** The quorum counts signatures, not validators: one validator's signature given twice meets it. */
    lemma DuplicateSignatureCounts(hash: string, s: Signature)
      requires Valid() && Counts(hash, s)
      ensures ValidSigs(hash, [s, s]) == 2 >= quorum
    {
      assert [s, s][..1] == [s];
      assert [s][..0] == [];
    }

    /** Every signature `signBlockHash` makes counts, so a signed block meets the quorum of two out of three. */
    lemma SignedBlockMeetsQuorum(hash: string)
      requires Valid()
      ensures ValidSigs(hash, SignBlockHash(hash)) == |validators| == 3
      ensures ValidSigs(hash, SignBlockHash(hash)) >= quorum
    {
      var sigs := SignBlockHash(hash);
      assert DistinctIds(validators);
      forall k | 0 <= k < |sigs| ensures Counts(hash, sigs[k]) {
        FindDistinct(validators, k);
      }
      SignaturesCount(hash, sigs, |sigs|);
      assert sigs[..|sigs|] == sigs;
    }

    lemma {:induction false} SignaturesCount(hash: string, sigs: seq<Signature>, k: nat)
      requires k <= |sigs| && forall j :: 0 <= j < |sigs| ==> Counts(hash, sigs[j])
      ensures ValidSigs(hash, sigs[..k]) == k
    {
      if k > 0 {
        assert sigs[..k][..k - 1] == sigs[..k - 1];
        SignaturesCount(hash, sigs, k - 1);
      }
    }

    /** Round trip: a chain built by `initLedger` and `addBlock` alone passes `verifyChain`. */
    lemma ValidChainVerifies()
      requires Valid()
      ensures Scan(chain, 1) == Ok
    {
      forall j | 1 <= j < |chain| ensures Fault(chain, j).None? {
        assert Sealed(chain, j);
        SignedBlockMeetsQuorum(chain[j].hash);
      }
    }

    /** Two chains whose blocks fail or pass alike get the same verdict. */
    lemma {:induction false} SameFaultsSameVerdict(b1: seq<Block>, b2: seq<Block>, from: nat)
      requires 1 <= from && |b1| == |b2|
      requires forall j :: 1 <= j < |b1| ==> Fault(b1, j) == Fault(b2, j)
      ensures Scan(b1, from) == Scan(b2, from)
      decreases |b1| - from
    {
      if from < |b1| {
        SameFaultsSameVerdict(b1, b2, from + 1);
      }
    }

    /**
     * The genesis block itself is never checked: any genesis block with the
     * same hash, whatever its index, data or signatures, gets the same verdict.
     */
    lemma GenesisUnchecked(blocks: seq<Block>, g: Block)
      requires |blocks| >= 1 && g.hash == blocks[0].hash
      ensures Scan(blocks[0 := g], 1) == Scan(blocks, 1)
    {
      var b2 := blocks[0 := g];
      forall j | 1 <= j < |blocks| ensures Fault(blocks, j) == Fault(b2, j) {
        assert b2[j] == blocks[j] && b2[j - 1].hash == blocks[j - 1].hash;
      }
      SameFaultsSameVerdict(blocks, b2, 1);
    }

    /** SHA-256 is taken to have no collisions on block headers. */
    ghost predicate CollisionFree() {
      forall h1: Header, h2: Header :: digest(h1) == digest(h2) ==> h1 == h2
    }

    /**
     * A block whose data object is changed after it was hashed is the first
     * block `verifyChain` rejects, with a hash mismatch; `addBlock` keeps a
     * reference to the data object, so a change made through another
     * reference has exactly this effect.
     */
    lemma ChangedDataBreaksChain(i: nat, data: Data)
      requires Valid() && CollisionFree() && 1 <= i < |chain| && data != chain[i].data
      ensures Scan(chain[i := chain[i].(data := data)], 1) == Broken(i, HashMismatch)
    {
      var b2 := chain[i := chain[i].(data := data)];
      assert Sealed(chain, i);
      assert HeaderOf(b2[i]) != HeaderOf(chain[i]);
      forall j | 1 <= j < i ensures Fault(b2, j).None? {
        assert Sealed(chain, j);
        SignedBlockMeetsQuorum(chain[j].hash);
        assert b2[j] == chain[j] && b2[j - 1] == chain[j - 1];
      }
      assert Fault(b2, i) == Some(HashMismatch);
    }

    /**
     * The matching engine logs each trade by handing the trade object itself
     * to `addBlock` (engine.js:150), then settles it, which adds the field
     * `status: "SETTLED"` to that same object (engine.js:93): from then on
     * `verifyChain` rejects the block of the trade.
     */
    lemma SettledTradeBreaksChain(i: nat)
      requires Valid() && CollisionFree() && 1 <= i < |chain|
      ensures Scan(chain[i := chain[i].(data := chain[i].data + [("status", "\"SETTLED\"")])], 1) == Broken(i, HashMismatch)
    {
      ChangedDataBreaksChain(i, chain[i].data + [("status", "\"SETTLED\"")]);
    }
  }
}

=== FILE: legacy_game.dfy ===
/**
 * The older governance game of game.js: the same events, actions, metrics
 * and decision ledger as public/app.js, without audit credits and without the
 * must-audit policy. The hidden-risk penalty falls on fairness and compliance
 * only, and the game ends as soon as a metric fails.
 *
 * `sha256Hex` tries Web Crypto and falls back on an FNV-1a digest: the
 * parameter `crypto` is the Web Crypto SHA-256 when it is available. The
 * random choice of the next event is the parameter `next`; the clock reading
 * is the parameter `now`.
 */
module LegacyGame {
  import opened Wrappers
  import opened GameRules
  import opened GameChain
  import Fnv

  /** `sha256Hex`: Web Crypto's SHA-256 when there is one, the FNV-1a fallback digest otherwise. */
  function Sha256Hex(crypto: Option<string -> string>, str: string): (r: string)
    ensures crypto.Some? ==> r == crypto.value(str)
    ensures crypto.None? ==> |r| == 64 && forall i :: 0 <= i < 64 ==> Fnv.IsHex(r[i])
    ensures crypto.None? ==> Fnv.HexValue(r[..8]) == Fnv.Fnv1a(str) as nat
  {
    match crypto
    case Some(digest) => digest(str)
    case None => Fnv.FallbackDigest(str)
  }

  /** Without Web Crypto the digest is one block of 8 hex digits written 8 times. */
  lemma FallbackRepeats(str: string)
    ensures var r := Sha256Hex(None, str); forall i :: 8 <= i < 64 ==> r[i] == r[i - 8]
  {
  }

  /** The penalty `computeHiddenPenalty` returns: `{ fairness, compliance }`. */
  datatype Penalty = Penalty(fairness: int, compliance: int)

  /**
   * `computeHiddenPenalty`: nothing once the turn is audited or for an Audit;
   * otherwise the same fairness and compliance penalties as in public/app.js.
   */
  function ClassicPenalty(e: Event, a: Action, audited: bool): (p: Penalty)
    ensures audited || a.Audit? ==> p == Penalty(0, 0)
    ensures p.fairness == HiddenPenalty(e, a, audited).fairness
    ensures p.compliance == HiddenPenalty(e, a, audited).compliance
  {
    if audited then Penalty(0, 0)
    else if a.Approve? || a.Override? then Penalty(e.hiddenBiasRisk / 35, e.hiddenComplianceRisk / 40)
    else Penalty(0, 0)
  }

  /** `applyImpact`: every metric moves by its impact, fairness and compliance less the penalty, and is clamped. */
  function ClassicApplied(m: Metrics, impact: Impact, p: Penalty): (r: Metrics)
    ensures InRange(r)
  {
    Metrics(Clamp(m.trust + impact.trust, 0, 100),
            Clamp(m.fairness + impact.fairness - p.fairness, 0, 100),
            Clamp(m.profit + impact.profit, 0, 100),
            Clamp(m.safety + impact.safety, 0, 100),
            Clamp(m.compliance + impact.compliance - p.compliance, 0, 100))
  }

  /**
   * The penalty reaches fairness and compliance only: trust, profit and
   * safety come out the same whatever the penalty, and a larger penalty never
   * leaves fairness or compliance higher.
   */
  lemma PenaltyOnlyFairnessAndCompliance(m: Metrics, impact: Impact, p: Penalty, q: Penalty)
    ensures var rp, rq := ClassicApplied(m, impact, p), ClassicApplied(m, impact, q);
            && rp.trust == rq.trust && rp.profit == rq.profit && rp.safety == rq.safety
            && (p.fairness <= q.fairness ==> rq.fairness <= rp.fairness)
            && (p.compliance <= q.compliance ==> rq.compliance <= rp.compliance)
  {
  }

  /** A metric whose new value stays inside [0, 100] moves by exactly its impact less its penalty. */
  lemma ClassicAppliedExact(m: Metrics, impact: Impact, p: Penalty)
    ensures var r := ClassicApplied(m, impact, p);
            && (0 <= m.trust + impact.trust <= 100 ==> r.trust == m.trust + impact.trust)
            && (0 <= m.fairness + impact.fairness - p.fairness <= 100 ==> r.fairness == m.fairness + impact.fairness - p.fairness)
            && (0 <= m.profit + impact.profit <= 100 ==> r.profit == m.profit + impact.profit)
            && (0 <= m.safety + impact.safety <= 100 ==> r.safety == m.safety + impact.safety)
            && (0 <= m.compliance + impact.compliance - p.compliance <= 100 ==>
                  r.compliance == m.compliance + impact.compliance - p.compliance)
  {
  }

  /** The record `takeAction` hands to `addBlock`; the deltas are taken before clamping. */
  function ClassicEntry(e: Event, a: Action, p: Penalty): (b: GameBlock)
    ensures b.trustDelta == ImpactOf(e, a).trust && b.profitDelta == ImpactOf(e, a).profit
    ensures b.safetyDelta == ImpactOf(e, a).safety
    ensures b.fairnessDelta == ImpactOf(e, a).fairness - p.fairness
    ensures b.complianceDelta == ImpactOf(e, a).compliance - p.compliance
    ensures b.playerAction == ActionName(a) && b.eventId == e.id && b.eventType == e.domain
    ensures b.auditFindings != "" <==> a.Audit?
  {
    var impact := ImpactOf(e, a);
    GameBlock(0, "", e.id, e.domain, e.aiRecommendation, ActionName(a), e.confidence,
              impact.trust, impact.fairness - p.fairness, impact.profit, impact.safety,
              impact.compliance - p.compliance, Rationale(a), AuditFindings(e, a), "", "")
  }

  /** The game state apart from the ledger. */
  datatype State = State(day: int, bestDay: int, audited: bool, metrics: Metrics, event: Event, gameOver: bool)

  /** The initial `state` once the first event is drawn. */
  function Start(first: Event): State {
    State(1, 0, false, StartMetrics, first, false)
  }

  /**
   * An action played: the penalty is worked out with the audit flag as it
   * stood before the action, the impact applied, and an Audit marks the turn.
   */
  function Played(s: State, a: Action): State {
    s.(metrics := ClassicApplied(s.metrics, ImpactOf(s.event, a), ClassicPenalty(s.event, a, s.audited)),
       audited := s.audited || a.Audit?)
  }

  /** The record a played action leaves in the ledger. */
  function Recorded(s: State, a: Action): GameBlock {
    ClassicEntry(s.event, a, ClassicPenalty(s.event, a, s.audited))
  }

  /** The close of a turn: the game ends on a failed metric; otherwise the day advances and the next event is drawn. */
  function Closed(t: State, next: Event): State {
    if Failed(t.metrics) then t.(gameOver := true)
    else
      var day := t.day + 1;
      t.(day := day, bestDay := if t.bestDay < day then day else t.bestDay, audited := false, event := next)
  }

  /** The state `takeAction` leaves: a finished game does not change. */
  function Step(s: State, a: Action, next: Event): (r: State)
    ensures s.gameOver ==> r == s
  {
    if s.gameOver then s else Closed(Played(s, a), next)
  }

  /** Two states with the same fields are the same state. */
  lemma SameState(x: State, y: State)
    requires x.day == y.day && x.bestDay == y.bestDay && x.audited == y.audited
    requires x.metrics == y.metrics && x.event == y.event && x.gameOver == y.gameOver
    ensures x == y
  {
  }

  /**
   * The end of a turn of a running game: it is over exactly when a metric has
   * failed, and then the day stays; otherwise the day moves on by one, the
   * best day follows it and the next event is drawn, unaudited.
   */
  lemma StepEnds(s: State, a: Action, next: Event)
    requires !s.gameOver
    ensures var o := Step(s, a, next);
            && (o.gameOver <==> Failed(o.metrics))
            && InRange(o.metrics)
            && (o.gameOver ==> o.day == s.day && o.bestDay == s.bestDay)
            && (!o.gameOver ==> o.day == s.day + 1 && o.bestDay == (if s.bestDay < o.day then o.day else s.bestDay)
                                && o.event == next && !o.audited)
  {
  }

  /** The states a game passes through: metrics in range, an audit flag only on a finished game. */
  predicate Live(s: State) {
    && InRange(s.metrics)
    && 1 <= s.day && 0 <= s.bestDay <= s.day && (s.day > 1 ==> s.bestDay == s.day)
    && (s.audited ==> s.gameOver)
    && (!s.gameOver ==> !Failed(s.metrics))
  }

  lemma StartIsLive(first: Event)
    ensures Live(Start(first)) && !Start(first).gameOver
  {
  }

  /** Every turn keeps a game live. */
  lemma StepKeepsLive(s: State, a: Action, next: Event)
    requires Live(s)
    ensures Live(Step(s, a, next))
  {
    if !s.gameOver {
      StepEnds(s, a, next);
    }
  }

  /**
   * The audit flag is set only after the penalty is worked out and is cleared
   * with the next event, so in a running game it is never set when a penalty
   * is computed: every Approve or Override pays `floor(bias / 35)` off
   * fairness and `floor(compliance risk / 40)` off compliance.
   */
  lemma LiveDecisionPaysHiddenPenalty(s: State, a: Action, next: Event)
    requires Live(s) && !s.gameOver && !a.Audit?
    ensures Step(s, a, next).metrics
            == ClassicApplied(s.metrics, ImpactOf(s.event, a),
                              Penalty(s.event.hiddenBiasRisk / 35, s.event.hiddenComplianceRisk / 40))
  {
    var t := Played(s, a);
    assert Closed(t, next).metrics == t.metrics;
  }

  class Game {
    var day: int
    var bestDay: int
    var auditedThisTurn: bool
    var metrics: Metrics
    var currentEvent: Event
    var gameOver: bool
    /** `state.ledger`. */
    const ledger: Chain

    function Snapshot(): State
      reads this
    {
      State(day, bestDay, auditedThisTurn, metrics, currentEvent, gameOver)
    }

    ghost predicate Valid()
      reads this, ledger
    {
      ledger.Valid() && ledger.blocks != [] && Live(Snapshot())
    }

    /** The initial `state`, then boot: `initGenesis` and the first `pickNextEvent`. */
    constructor (first: Event, now: string, crypto: Option<string -> string>)
      ensures Valid() && fresh(ledger)
      ensures forall str :: ledger.sha(str) == Sha256Hex(crypto, str)
      ensures Snapshot() == Start(first)
      ensures ledger.blocks == [ledger.Genesis(now)]
    {
      day := 1;
      bestDay := 0;
      auditedThisTurn := false;
      metrics := StartMetrics;
      currentEvent := first;
      gameOver := false;
      ledger := new Chain(str => Sha256Hex(crypto, str));
      new;
      ledger.InitGenesis(now);
    }

    /** `computeHiddenPenalty`, reading the audit flag of the turn. */
    method ComputeHiddenPenalty(e: Event, a: Action) returns (p: Penalty)
      ensures p == ClassicPenalty(e, a, auditedThisTurn)
    {
      if auditedThisTurn {
        return Penalty(0, 0);
      }
      if a.Approve? || a.Override? {
        return Penalty(e.hiddenBiasRisk / 35, e.hiddenComplianceRisk / 40);
      }
      return Penalty(0, 0);
    }

    /** `applyImpact`: only the metrics change. */
    method ApplyImpact(impact: Impact, p: Penalty)
      modifies this`metrics
      ensures metrics == ClassicApplied(old(metrics), impact, p)
    {
      metrics := metrics.(trust := Clamp(metrics.trust + impact.trust, 0, 100));
      metrics := metrics.(fairness := Clamp(metrics.fairness + impact.fairness - p.fairness, 0, 100));
      metrics := metrics.(profit := Clamp(metrics.profit + impact.profit, 0, 100));
      metrics := metrics.(safety := Clamp(metrics.safety + impact.safety, 0, 100));
      metrics := metrics.(compliance := Clamp(metrics.compliance + impact.compliance - p.compliance, 0, 100));
    }

    /** `pickNextEvent`, with the drawn event as a parameter. */
    method PickNextEvent(next: Event)
      modifies this`auditedThisTurn, this`currentEvent
      ensures !auditedThisTurn && currentEvent == next
    {
      auditedThisTurn := false;
      currentEvent := next;
    }

    /** The first part of `takeAction`: the penalty, the impact, then the audit flag. */
    method Play(a: Action) returns (p: Penalty)
      modifies this`metrics, this`auditedThisTurn
      ensures Snapshot() == Played(old(Snapshot()), a)
      ensures p == ClassicPenalty(currentEvent, a, old(auditedThisTurn))
    {
      ghost var s0 := Snapshot();
      var e := currentEvent;
      var impact := ImpactOf(e, a);
      p := ComputeHiddenPenalty(e, a);
      ApplyImpact(impact, p);
      if a.Audit? {
        auditedThisTurn := true;
      }
      SameState(Snapshot(), Played(s0, a));
    }

    /** The `addBlock` call of `takeAction`: the record of the turn is stamped and appended to the ledger. */
    method Record(a: Action, now: string, e: Event, p: Penalty, ghost s0: State)
      requires ledger.Valid() && ledger.blocks != []
      requires e == s0.event && p == ClassicPenalty(e, a, s0.audited)
      modifies ledger
      ensures ledger.Valid()
      ensures ledger.blocks == ledger.Appended(old(ledger.blocks), Recorded(s0, a), now)
    {
      var entry := ClassicEntry(e, a, p);
      var _ := ledger.AddBlock(entry, now);
    }

    /** The end of `takeAction`: the game ends on a failed metric; otherwise the next day and event. */
    method CloseTurn(next: Event)
      modifies this`day, this`bestDay, this`auditedThisTurn, this`currentEvent, this`gameOver
      ensures Snapshot() == Closed(old(Snapshot()), next)
    {
      ghost var s0 := Snapshot();
      var reason := MetricFailReason(metrics);
      if reason != "" {
        gameOver := true;
        SameState(Snapshot(), Closed(s0, next));
        return;
      }
      day := day + 1;
      bestDay := if bestDay < day then day else bestDay;
      PickNextEvent(next);
      SameState(Snapshot(), Closed(s0, next));
    }

    /**
     * `takeAction`: the state moves as `Step` says, and a running game records
     * the turn in the ledger; a finished game changes nothing.
     */
    method TakeAction(a: Action, now: string, next: Event)
      requires Valid()
      modifies this, ledger
      ensures Valid()
      ensures Snapshot() == Step(old(Snapshot()), a, next)
      ensures old(gameOver) ==> ledger.blocks == old(ledger.blocks)
      ensures !old(gameOver) ==>
                ledger.blocks == ledger.Appended(old(ledger.blocks), Recorded(old(Snapshot()), a), now)
    {
      ghost var s0 := Snapshot();
      StepKeepsLive(s0, a, next);
      if gameOver {
        return;
      }
      var e := currentEvent;
      var p := Play(a);
      Record(a, now, e, p, s0);
      CloseTurn(next);
    }
  }
}

=== FILE: liquidity.dfy ===
/**
 * The liquidity a market order sees (`placeMarketOrder`, engine.js): the walk
 * over the opposite side of the sorted book that estimates what an order can
 * take and what it costs, and the bookkeeping the execution loop keeps in step
 * with that walk.
 */
module Liquidity {
  import opened Store
  import opened OrderBook
  import opened Matching

  /** The side a market order takes liquidity from. */
  function Opposite(side: Side): (r: Side)
    ensures r != side
  {
    if side.Buy? then Sell else Buy
  }

  // ---------------------------------------------------------------------------
  // The estimate walk

  /** The quantity resting on a list of orders. */
  function Depth(orders: map<OrderId, Order>, ids: seq<OrderId>): int
    requires Known(orders, ids)
  {
    if ids == [] then 0 else orders[ids[0]].remaining + Depth(orders, ids[1..])
  }

  /**
   * The estimate loop of `placeMarketOrder` as two functions: walking the
   * levels in order, each takes as much of what is still wanted as it holds, at
   * its price. `Shortfall` is what is still wanted afterwards, `Cost` what the
   * takes cost together.
   */
  function Shortfall(orders: map<OrderId, Order>, ids: seq<OrderId>, q: int): int
    requires Known(orders, ids)
  {
    if ids == [] || q <= 0 then q else Shortfall(orders, ids[1..], q - Min(q, orders[ids[0]].remaining))
  }

  function Cost(orders: map<OrderId, Order>, ids: seq<OrderId>, q: int): int
    requires Known(orders, ids)
  {
    if ids == [] || q <= 0 then 0
    else
      var take := Min(q, orders[ids[0]].remaining);
      take * orders[ids[0]].price + Cost(orders, ids[1..], q - take)
  }

  /** Every level holds a positive quantity at a positive price, as resting orders do. */
  ghost predicate Levels(orders: map<OrderId, Order>, ids: seq<OrderId>) {
    Known(orders, ids) && forall i :: 0 <= i < |ids| ==> orders[ids[i]].remaining > 0 && orders[ids[i]].price > 0
  }

  lemma LevelsTail(orders: map<OrderId, Order>, ids: seq<OrderId>)
    requires ids != [] && Levels(orders, ids)
    ensures Levels(orders, ids[1..])
  {
    assert forall i :: 0 <= i < |ids[1..]| ==> ids[1..][i] == ids[i + 1];
  }

  /**
   * The walk leaves something wanted exactly when the levels together hold
   * less than the order's quantity, and then it leaves the shortfall.
   */
  lemma {:induction false} LiquidityIsDepth(orders: map<OrderId, Order>, ids: seq<OrderId>, q: int)
    requires Levels(orders, ids) && q > 0
    ensures Depth(orders, ids) >= 0
    ensures Shortfall(orders, ids, q) == if q > Depth(orders, ids) then q - Depth(orders, ids) else 0
  {
    if ids != [] {
      LevelsTail(orders, ids);
      var take := Min(q, orders[ids[0]].remaining);
      if q - take > 0 {
        LiquidityIsDepth(orders, ids[1..], q - take);
      } else {
        DepthNonNegative(orders, ids[1..]);
      }
    }
  }

  lemma {:induction false} DepthNonNegative(orders: map<OrderId, Order>, ids: seq<OrderId>)
    requires Levels(orders, ids)
    ensures Depth(orders, ids) >= 0
  {
    if ids != [] {
      LevelsTail(orders, ids);
      DepthNonNegative(orders, ids[1..]);
    }
  }

  /** Nothing wanted costs nothing. */
  lemma WalkNothing(orders: map<OrderId, Order>, ids: seq<OrderId>, q: int)
    requires Known(orders, ids) && q <= 0
    ensures Shortfall(orders, ids, q) == q && Cost(orders, ids, q) == 0
  {
  }

  /** Over levels with positive prices a walk never costs a negative amount, and it costs something when it takes something. */
  lemma {:induction false} CostPositive(orders: map<OrderId, Order>, ids: seq<OrderId>, q: int)
    requires Levels(orders, ids)
    ensures Cost(orders, ids, q) >= 0
    ensures Cost(orders, ids, q) > 0 <==> q > 0 && ids != []
  {
    if ids != [] && q > 0 {
      LevelsTail(orders, ids);
      var take := Min(q, orders[ids[0]].remaining);
      CostPositive(orders, ids[1..], q - take);
      assert take * orders[ids[0]].price > 0;
    }
  }

  /** The walk reads only the orders on its levels. */
  lemma {:induction false} WalkFrame(orders: map<OrderId, Order>, orders': map<OrderId, Order>, ids: seq<OrderId>, q: int)
    requires Known(orders, ids)
    requires forall i :: 0 <= i < |ids| ==> ids[i] in orders' && orders'[ids[i]] == orders[ids[i]]
    ensures Known(orders', ids)
    ensures Shortfall(orders', ids, q) == Shortfall(orders, ids, q) && Cost(orders', ids, q) == Cost(orders, ids, q)
  {
    if ids != [] && q > 0 {
      var take := Min(q, orders[ids[0]].remaining);
      WalkFrame(orders, orders', ids[1..], q - take);
    }
  }

  /** One take in terms of the walk: the cost of the rest plus this take is the cost from before. */
  lemma WalkTake(orders: map<OrderId, Order>, orders': map<OrderId, Order>, ids: seq<OrderId>, ids': seq<OrderId>, q: int, fill: int, rest: int)
    requires ids != [] && Known(orders, ids) && ids[0] !in ids[1..] && Known(orders', ids')
    requires q > 0 && fill == Min(q, orders[ids[0]].remaining) && rest == q - fill
    requires fill != q ==> ids' == ids[1..]
    requires forall id :: id in orders && id != ids[0] ==> id in orders' && orders'[id] == orders[id]
    ensures Cost(orders', ids', rest) + fill * orders[ids[0]].price == Cost(orders, ids, q)
  {
    if fill != q {
      assert forall i :: 0 <= i < |ids[1..]| ==> ids[1..][i] in ids[1..];
      WalkFrame(orders, orders', ids[1..], q - fill);
    }
  }

  // ---------------------------------------------------------------------------
  // Sorted books

  /** Both sides of the symbol's book are in priority order. */
  ghost predicate BookSorted(a: Agency, s: Symbol) {
    && s in a.books
    && Known(a.orders, a.books[s].bids) && Sorted(Buy, a.orders, a.books[s].bids)
    && Known(a.orders, a.books[s].asks) && Sorted(Sell, a.orders, a.books[s].asks)
  }

  /** `sortBooks` leaves a book that is already in priority order as it is. */
  lemma SortBookSorted(a: Agency, s: Symbol)
    requires BookSorted(a, s)
    ensures SortBook(a, s) == a
  {
    var b := a.books[s];
    SortSortedUnchanged(Buy, a.orders, b.bids);
    SortSortedUnchanged(Sell, a.orders, b.asks);
    assert Book(b.bids, b.asks) == b;
    MapUpdateSame(a.books, s);
  }

  /** The orders resting on a side of a well-formed book are levels. */
  lemma RestingLevels(a: Agency, s: Symbol, side: Side)
    requires WellFormed(a)
    ensures s in a.books && Levels(a.orders, Ids(a.books[s], side))
  {
    var ids := Ids(a.books[s], side);
    forall i | 0 <= i < |ids| ensures ids[i] in a.orders && a.orders[ids[i]].remaining > 0 && a.orders[ids[i]].price > 0 {
      assert ids[i] in ids;
      assert RestingOk(a, s, ids[i], side);
    }
  }

  /** Filling the head of one side keeps both sides of the book in priority order. */
  lemma FillKeepsSorted(a: Agency, s: Symbol, side: Side, fill: int)
    requires BookSorted(a, s) && Ids(a.books[s], side) != [] && Ids(a.books[s], side)[0] in a.orders
    ensures BookSorted(Fill(a, s, side, fill), s)
  {
    var r := Fill(a, s, side, fill);
    var ids := Ids(a.books[s], side);
    SortedSameKeys(Buy, a.orders, r.orders, a.books[s].bids);
    SortedSameKeys(Sell, a.orders, r.orders, a.books[s].asks);
    if r.orders[ids[0]].remaining == 0 {
      SortedTail(side, r.orders, ids);
    }
  }

  // ---------------------------------------------------------------------------
  // The trades of one market order

  /** What the trades of one order are worth: `trades.reduce((s,t) => s + t.qty*t.price, 0)`. */
  function Value(trades: seq<Trade>): int {
    if trades == [] then 0 else Value(trades[..|trades| - 1]) + trades[|trades| - 1].qty * trades[|trades| - 1].price
  }

  /** The quantity the trades of one order moved. */
  function Volume(trades: seq<Trade>): int {
    if trades == [] then 0 else Volume(trades[..|trades| - 1]) + trades[|trades| - 1].qty
  }

  lemma ValueSnoc(trades: seq<Trade>, t: Trade)
    ensures Value(trades + [t]) == Value(trades) + t.qty * t.price
    ensures Volume(trades + [t]) == Volume(trades) + t.qty
  {
    assert (trades + [t])[..|trades|] == trades;
  }

  lemma Accounting(trades: seq<Trade>, t: Trade, w: int, w': int, fill: int, price: int)
    requires t.qty == fill && t.price == price && w' + fill * price == w
    ensures Value(trades + [t]) + w' == Value(trades) + w
    ensures Volume(trades + [t]) == Volume(trades) + fill
  {
    ValueSnoc(trades, t);
  }

  /** The party of a trade that placed the market order on `side`. */
  function Taker(t: Trade, side: Side): UserId {
    if side.Buy? then t.buyerId else t.sellerId
  }

  /** The trades of one market order: numbered from `tseq` on, each with the order's owner as taker. */
  ghost predicate TakenBy(trades: seq<Trade>, side: Side, uid: UserId, tseq: nat) {
    forall i :: 0 <= i < |trades| ==> trades[i].tradeId == tseq + i && Taker(trades[i], side) == uid
  }

  lemma TakerSnoc(trades: seq<Trade>, t: Trade, side: Side, uid: UserId, tseq: nat)
    requires TakenBy(trades, side, uid, tseq) && t.tradeId == tseq + |trades| && Taker(t, side) == uid
    ensures TakenBy(trades + [t], side, uid, tseq)
  {
  }

  lemma PrefixSnoc<T>(xs: seq<T>, ys: seq<T>)
    requires |ys| == |xs| + 1 && xs <= ys
    ensures ys == xs + [ys[|xs|]]
  {
  }

  /** A sequence is its prefix followed by the rest. */
  lemma PrefixRest<T>(xs: seq<T>, ys: seq<T>)
    requires xs <= ys
    ensures ys == xs + ys[|xs|..]
  {
  }

  lemma SnocAssoc<T>(xs: seq<T>, ys: seq<T>, t: T)
    ensures xs + ys + [t] == xs + (ys + [t])
  {
  }

  // ---------------------------------------------------------------------------
  // What the execution loop keeps

  /**
   * What the execution loop keeps, for an order on `side` of `qty` by `uid`
   * that started on `a` with trade number `tseq` and has reached `r` with
   * `remaining` still wanted and `trades` made: the agency stays well formed
   * and its book sorted; the trades made are exactly the ones appended to the
   * agency, numbered on from `tseq` with `uid` as taker; they moved what is no
   * longer wanted; and their value plus what the rest would cost by the walk
   * is the estimate the order started with.
   */
  ghost predicate Progress(a: Agency, s: Symbol, side: Side, uid: UserId, qty: int, tseq: nat,
                           r: Agency, remaining: int, trades: seq<Trade>) {
    && BookSorted(a, s) && WellFormed(r) && BookSorted(r, s) && uid in r.users
    && r.trades == a.trades + trades
    && remaining <= qty && (qty > 0 ==> remaining >= 0) && (qty <= 0 ==> trades == [])
    && Volume(trades) == qty - remaining
    && Value(trades) + Cost(r.orders, Ids(r.books[s], Opposite(side)), remaining)
       == Cost(a.orders, Ids(a.books[s], Opposite(side)), qty)
    && TakenBy(trades, side, uid, tseq)
    && r.books.Keys == a.books.Keys && (forall t :: t in a.books && t != s ==> r.books[t] == a.books[t])
    && r.users.Keys == a.users.Keys && r.orders.Keys == a.orders.Keys
  }

  /** Why the execution loop ends: nothing is wanted, the opposite side is empty, or the symbol is halted. */
  ghost predicate Stopped(r: Agency, s: Symbol, side: Side, remaining: int, now: int) {
    remaining <= 0 || (s in r.books && Ids(r.books[s], Opposite(side)) == []) || (s in r.halts && Halted(r, s, now))
  }
}

=== FILE: market.dfy ===
/**
 * Market orders (`placeMarketOrder`, engine.js).
 *
 * A market order first walks the opposite side of the sorted book to see
 * whether it can be filled at all and what that would cost, reserves that
 * estimate (cash for a buy, the quantity of tokens for a sell), then takes the
 * best resting order again and again at the resting order's price until it is
 * filled, the opposite side is empty or the symbol is halted, and finally hands
 * back what the reservation did not use. The order itself never rests in a book.
 */
module Market {
  import opened Wrappers
  import opened Store
  import opened OrderBook
  import opened Accounts
  import opened Breaker
  import opened Settlement
  import opened Matching
  import opened Liquidity

  /** `Number.MAX_SAFE_INTEGER`: the price shown on a market buy. */
  const MAX_SAFE_INTEGER := 9007199254740991

  function Max(x: int, y: int): (m: int)
    ensures m >= x && m >= y && (m == x || m == y)
  {
    if x >= y then x else y
  }

  /**
   * The estimate loop of `placeMarketOrder`: over the levels in book order,
   * stop once nothing is wanted, take the smaller of what is wanted and what
   * the level holds, and add its cost.
   */
  method Estimate(orders: map<OrderId, Order>, ids: seq<OrderId>, qty: int) returns (remaining: int, estCost: int)
    requires Known(orders, ids)
    ensures remaining == Shortfall(orders, ids, qty) && estCost == Cost(orders, ids, qty)
  {
    remaining, estCost := qty, 0;
    var i := 0;
    while i < |ids|
      invariant 0 <= i <= |ids|
      invariant Shortfall(orders, ids, qty) == Shortfall(orders, ids[i..], remaining)
      invariant Cost(orders, ids, qty) == estCost + Cost(orders, ids[i..], remaining)
    {
      if remaining <= 0 {
        break;
      }
      assert ids[i..][0] == ids[i] && ids[i..][1..] == ids[i + 1..];
      var take := Min(remaining, orders[ids[i]].remaining);
      estCost := estCost + take * orders[ids[i]].price;
      remaining := remaining - take;
      i := i + 1;
    }
  }

  /** The best resting order of the opposite side: the one the market order trades with next. */
  function TopId(a: Agency, s: Symbol, side: Side): OrderId
    requires s in a.books && Ids(a.books[s], Opposite(side)) != []
  {
    Ids(a.books[s], Opposite(side))[0]
  }

  /**
   * The trade of one pass of the execution loop: with the best resting order
   * of the opposite side, at that order's price, for the smaller of the two
   * remainders, the market order's owner on its own side.
   */
  function TopTrade(a: Agency, s: Symbol, side: Side, uid: UserId, remaining: int, now: int, tseq: nat): (t: Trade)
    requires s in a.books && Ids(a.books[s], Opposite(side)) != [] && TopId(a, s, side) in a.orders
    ensures Taker(t, side) == uid && t.tradeId == tseq
  {
    var top := a.orders[TopId(a, s, side)];
    Trade(tseq, now, a.id, s, Min(remaining, top.remaining), top.price,
          if side.Buy? then uid else top.userId,
          if side.Buy? then top.userId else uid, Matched, None)
  }

  /**
   * What the execution loop has left to go through: the orders resting on
   * the opposite side, and one more while the market order still wants some.
   */
  function Work(a: Agency, s: Symbol, side: Side, remaining: int): nat
    requires s in a.books
  {
    |Ids(a.books[s], Opposite(side))| + (if remaining > 0 then 1 else 0)
  }

  /** What the market order still wants once it has taken the top of the opposite side once. */
  function Rest(a: Agency, s: Symbol, side: Side, remaining: int): int
    requires s in a.books && Ids(a.books[s], Opposite(side)) != [] && TopId(a, s, side) in a.orders
  {
    remaining - Min(remaining, a.orders[TopId(a, s, side)].remaining)
  }

  /**
   * One pass of the execution loop, whole: the trade of `TopTrade`, with no
   * price-improvement refund; every user is paid as `StepUsers` says; the
   * resting order is filled and leaves its side when nothing is left; the
   * trade is appended SETTLED or PENDING, and in the second case queued; the
   * circuit breaker has looked at the price; the settings are unchanged.
   */
  ghost predicate Taken(a: Agency, s: Symbol, side: Side, uid: UserId, remaining: int, now: int, tseq: nat, r: Agency)
    requires WellFormed(a) && Ids(a.books[s], Opposite(side)) != [] && TopId(a, s, side) in a.orders
  {
    var ids := Ids(a.books[s], Opposite(side));
    var top := a.orders[ids[0]];
    var t := TopTrade(a, s, side, uid, remaining, now, tseq);
    && r.id == a.id && r.name == a.name && r.mode == a.mode && r.tPlusDelaySeconds == a.tPlusDelaySeconds
    && r.cbPct == a.cbPct && r.cbHaltSeconds == a.cbHaltSeconds
    && StepUsers(a.users, r.users, t, 0, a.mode == Instant, now)
    && r.orders.Keys == a.orders.Keys
    && r.orders[ids[0]] == AfterFill(top, t.qty)
    && (forall id :: id in a.orders && id != ids[0] ==> r.orders[id] == a.orders[id])
    && r.books.Keys == a.books.Keys && (forall x :: x in a.books && x != s ==> r.books[x] == a.books[x])
    && Ids(r.books[s], Opposite(side)) == (if top.remaining == t.qty then ids[1..] else ids)
    && Ids(r.books[s], side) == Ids(a.books[s], side)
    && r.trades == a.trades + [Stamp(t, a.mode, a.tPlusDelaySeconds, now)]
    && r.pending == a.pending + (if a.mode == Instant then [] else [|a.trades|])
    && r.halts == CircuitBreakerCheck(a, s, t.price, now).halts
  }

  /**
   * The trade half of a pass: risk signals of both sides, circuit breaker,
   * recording and settlement, as in `match` but with no refund.
   */
  function TradeTop(a: Agency, s: Symbol, side: Side, uid: UserId, remaining: int, now: int, tseq: nat): (r: Agency)
    requires WellFormed(a) && uid in a.users && remaining > 0
    requires Ids(a.books[s], Opposite(side)) != [] && TopId(a, s, side) in a.orders
    ensures WellFormed(r) && r.orders == a.orders && r.books == a.books && r.users.Keys == a.users.Keys && Kept(a, r)
    ensures var t := TopTrade(a, s, side, uid, remaining, now, tseq);
            && t.qty > 0 && t.price > 0
            && r.halts == CircuitBreakerCheck(a, s, t.price, now).halts
            && r.trades == a.trades + [Stamp(t, a.mode, a.tPlusDelaySeconds, now)]
            && r.pending == a.pending + (if a.mode == Instant then [] else [|a.trades|])
            && StepUsers(a.users, r.users, t, 0, a.mode == Instant, now)
  {
    HeadsResting(a, s);
    assert RestingOk(a, s, TopId(a, s, side), Opposite(side));
    var t := TopTrade(a, s, side, uid, remaining, now, tseq);
    assert TradeOk(a, t);
    var r1 := Signals(a, s, t, now);
    assert Kept(a, r1);
    var r := RecordAndSettle(r1, t, now);
    KeptTrans(a, r1, r);
    RefundedSignalled(a.users, a.users, r1.users, t, 0, now);
    ExecutePays(a.users, r1.users, r.users, t, 0, a.mode == Instant, now);
    r
  }

  /**
   * The fill half of a pass: the best resting order of the opposite side gives
   * up the smaller of the two remainders and leaves the book when it has
   * nothing left.
   */
  function FillTop(a: Agency, s: Symbol, side: Side, remaining: int): (r: Agency)
    requires WellFormed(a) && BookSorted(a, s) && remaining > 0
    requires Ids(a.books[s], Opposite(side)) != [] && TopId(a, s, side) in a.orders
    ensures WellFormed(r) && BookSorted(r, s) && r.books.Keys == a.books.Keys && r.users == a.users
    ensures var ids := Ids(a.books[s], Opposite(side));
            && |Ids(r.books[s], Opposite(side))| <= |ids|
            && (|Ids(r.books[s], Opposite(side))| == |ids| - 1 || remaining <= a.orders[ids[0]].remaining)
  {
    var opp := Opposite(side);
    var ids := Ids(a.books[s], opp);
    HeadsResting(a, s);
    assert RestingOk(a, s, ids[0], opp);
    var fill := Min(remaining, a.orders[ids[0]].remaining);
    FillKeepsWellFormed(a, s, opp, fill);
    FillKeepsSorted(a, s, opp, fill);
    Fill(a, s, opp, fill)
  }

  /**
   * What `FillTop` does: the top is filled and leaves its side when
   * exhausted, and nothing else changes.
   */
  lemma FillTopFills(a: Agency, s: Symbol, side: Side, remaining: int)
    requires WellFormed(a) && BookSorted(a, s) && remaining > 0
    requires Ids(a.books[s], Opposite(side)) != [] && TopId(a, s, side) in a.orders
    ensures var r := FillTop(a, s, side, remaining);
            var ids := Ids(a.books[s], Opposite(side));
            var top := a.orders[ids[0]];
            var fill := Min(remaining, top.remaining);
            && r == a.(books := r.books, orders := r.orders) && Kept(a, r)
            && r.orders.Keys == a.orders.Keys && r.orders[ids[0]] == AfterFill(top, fill)
            && (forall id :: id in a.orders && id != ids[0] ==> r.orders[id] == a.orders[id])
            && (forall x :: x in a.books && x != s ==> r.books[x] == a.books[x])
            && Ids(r.books[s], Opposite(side)) == (if top.remaining == fill then ids[1..] else ids)
            && Ids(r.books[s], side) == Ids(a.books[s], side)
  {
    var opp := Opposite(side);
    var fill := Min(remaining, a.orders[TopId(a, s, side)].remaining);
    assert FillTop(a, s, side, remaining) == Fill(a, s, opp, fill);
    FillKept(a, s, opp, fill);
  }

  /** The part of `FillTopFills` that the walk of `Cost` needs: the rest of the side, and the other orders unchanged. */
  lemma FillTopWalk(a: Agency, s: Symbol, side: Side, remaining: int)
    requires WellFormed(a) && BookSorted(a, s) && remaining > 0
    requires Ids(a.books[s], Opposite(side)) != [] && TopId(a, s, side) in a.orders
    ensures var r := FillTop(a, s, side, remaining);
            var ids := Ids(a.books[s], Opposite(side));
            && Known(r.orders, Ids(r.books[s], Opposite(side)))
            && (Min(remaining, a.orders[ids[0]].remaining) != remaining ==> Ids(r.books[s], Opposite(side)) == ids[1..])
            && forall id :: id in a.orders && id != ids[0] ==> id in r.orders && r.orders[id] == a.orders[id]
  {
    FillTopFills(a, s, side, remaining);
  }

  /**
   * What the rest of the order would cost by the walk after `FillTop`, plus
   * this fill at its price, is what it would have cost before.
   */
  lemma FillTopCost(a: Agency, s: Symbol, side: Side, remaining: int, rest: int)
    requires WellFormed(a) && BookSorted(a, s) && remaining > 0
    requires Ids(a.books[s], Opposite(side)) != [] && TopId(a, s, side) in a.orders
    requires rest == remaining - Min(remaining, a.orders[TopId(a, s, side)].remaining)
    ensures var r := FillTop(a, s, side, remaining);
            var top := a.orders[TopId(a, s, side)];
            Cost(r.orders, Ids(r.books[s], Opposite(side)), rest) + Min(remaining, top.remaining) * top.price
            == Cost(a.orders, Ids(a.books[s], Opposite(side)), remaining)
  {
    var ids := Ids(a.books[s], Opposite(side));
    var r := FillTop(a, s, side, remaining);
    FillTopWalk(a, s, side, remaining);
    HeadNotInTail(ids);
    WalkTake(a.orders, r.orders, ids, Ids(r.books[s], Opposite(side)), remaining, Min(remaining, a.orders[TopId(a, s, side)].remaining), rest);
  }

  /** One pass of the execution loop once the book has a top and the symbol is not halted: trade, then fill. */
  function Take(a: Agency, s: Symbol, side: Side, uid: UserId, remaining: int, now: int, tseq: nat): (r: Agency)
    requires WellFormed(a) && BookSorted(a, s) && uid in a.users && remaining > 0
    requires Ids(a.books[s], Opposite(side)) != [] && TopId(a, s, side) in a.orders
    ensures WellFormed(r) && BookSorted(r, s) && uid in r.users
    ensures var ids := Ids(a.books[s], Opposite(side));
            var t := TopTrade(a, s, side, uid, remaining, now, tseq);
            && |Ids(r.books[s], Opposite(side))| <= |ids|
            && (|Ids(r.books[s], Opposite(side))| == |ids| - 1 || t.qty == remaining)
  {
    var r1 := TradeTop(a, s, side, uid, remaining, now, tseq);
    FillTop(r1, s, side, remaining)
  }

  /**
   * `Take` in terms of what the execution loop keeps: one trade appended, of
   * a positive quantity, whose cost by the walk is what the walk no longer
   * charges for the rest; the same users, orders and symbols.
   */
  lemma TakeCosts(a: Agency, s: Symbol, side: Side, uid: UserId, remaining: int, now: int, tseq: nat, rest: int)
    requires WellFormed(a) && BookSorted(a, s) && uid in a.users && remaining > 0
    requires Ids(a.books[s], Opposite(side)) != [] && TopId(a, s, side) in a.orders
    requires rest == remaining - TopTrade(a, s, side, uid, remaining, now, tseq).qty
    ensures var r := Take(a, s, side, uid, remaining, now, tseq);
            var t := TopTrade(a, s, side, uid, remaining, now, tseq);
            && 0 < t.qty <= remaining
            && Cost(r.orders, Ids(r.books[s], Opposite(side)), rest) + t.qty * t.price
               == Cost(a.orders, Ids(a.books[s], Opposite(side)), remaining)
            && r.trades == a.trades + [Stamp(t, a.mode, a.tPlusDelaySeconds, now)]
            && r.books.Keys == a.books.Keys && (forall x :: x in a.books && x != s ==> r.books[x] == a.books[x])
            && r.users.Keys == a.users.Keys && r.orders.Keys == a.orders.Keys && Kept(a, r)
  {
    var r1 := TradeTop(a, s, side, uid, remaining, now, tseq);
    FillTopFills(r1, s, side, remaining);
    FillTopCost(r1, s, side, remaining, rest);
    KeptTrans(a, r1, FillTop(r1, s, side, remaining));
    assert TopTrade(r1, s, side, uid, remaining, now, tseq) == TopTrade(a, s, side, uid, remaining, now, tseq);
  }

  /** `Take` does what `Taken` says. */
  lemma TakeIsTaken(a: Agency, s: Symbol, side: Side, uid: UserId, remaining: int, now: int, tseq: nat)
    requires WellFormed(a) && BookSorted(a, s) && uid in a.users && remaining > 0
    requires Ids(a.books[s], Opposite(side)) != [] && TopId(a, s, side) in a.orders
    ensures Taken(a, s, side, uid, remaining, now, tseq, Take(a, s, side, uid, remaining, now, tseq))
  {
    var r1 := TradeTop(a, s, side, uid, remaining, now, tseq);
    FillTopFills(r1, s, side, remaining);
    assert TopTrade(r1, s, side, uid, remaining, now, tseq) == TopTrade(a, s, side, uid, remaining, now, tseq);
  }

  /**
   * A take only credits: every user, the taker included, is paid for the
   * trade out of what was reserved, and the filled top stays covered, so the
   * take is `Safe`; the trade it records is a trade of `s` at `now`.
   */
  lemma TakeSafe(a: Agency, s: Symbol, side: Side, uid: UserId, remaining: int, now: int, tseq: nat)
    requires WellFormed(a) && BookSorted(a, s) && uid in a.users && remaining > 0
    requires Ids(a.books[s], Opposite(side)) != [] && TopId(a, s, side) in a.orders
    ensures var r := Take(a, s, side, uid, remaining, now, tseq);
            && Safe(a, r) && |r.trades| == |a.trades| + 1
            && r.trades[|a.trades|].tradeId == tseq && MatchedAt(r.trades[|a.trades|], s, now)
  {
    TakeIsTaken(a, s, side, uid, remaining, now, tseq);
    TakenIsSafe(a, s, side, uid, remaining, now, tseq, Take(a, s, side, uid, remaining, now, tseq));
    HeadsResting(a, s);
    assert RestingOk(a, s, TopId(a, s, side), Opposite(side));
  }

  /** What `Taken` describes is `Safe`. */
  lemma TakenIsSafe(a: Agency, s: Symbol, side: Side, uid: UserId, remaining: int, now: int, tseq: nat, r: Agency)
    requires WellFormed(a) && remaining > 0
    requires Ids(a.books[s], Opposite(side)) != [] && TopId(a, s, side) in a.orders
    requires Taken(a, s, side, uid, remaining, now, tseq, r)
    ensures Safe(a, r)
  {
    HeadsResting(a, s);
    assert RestingOk(a, s, TopId(a, s, side), Opposite(side));
    PaidAndFilledIsSafe(a, r, TopTrade(a, s, side, uid, remaining, now, tseq), TopId(a, s, side), now);
  }

  /**
   * Users paid for a trade with no refund, and one order filled by the trade
   * quantity with every other order unchanged: nobody holds less, and a
   * solvent agency stays solvent.
   */
  lemma PaidAndFilledIsSafe(a: Agency, r: Agency, t: Trade, top: OrderId, now: int)
    requires StepUsers(a.users, r.users, t, 0, a.mode == Instant, now) && t.qty > 0 && t.price > 0
    requires top in a.orders && t.qty <= a.orders[top].remaining
    requires r.orders.Keys == a.orders.Keys && r.orders[top] == AfterFill(a.orders[top], t.qty)
    requires forall id :: id in a.orders && id != top ==> r.orders[id] == a.orders[id]
    ensures Safe(a, r)
  {
    StepUsersNoLess(a.users, r.users, t, 0, a.mode == Instant, now);
    if Solvent(a) {
      StepUsersKeepSolvent(a.users, r.users, t, 0, a.mode == Instant, now);
      FillKeepsReserve(a.orders[top], t.qty);
      forall id | id in r.orders ensures OrderReserveOk(r.orders[id]) {
        if id != top {
          assert r.orders[id] == a.orders[id];
        }
      }
    }
  }

  /**
   * A take of the execution loop, in terms of what the loop keeps: taking the
   * top is `Take`, keeps `Progress`, and shortens the opposite side or fills
   * the order.
   */
  method Advance(ghost a: Agency, s: Symbol, side: Side, uid: UserId, ghost qty: int, now: int, tseq: nat,
                 r: Agency, remaining: int, trades: seq<Trade>, n: nat)
    returns (r': Agency, remaining': int, trades': seq<Trade>)
    requires Progress(a, s, side, uid, qty, tseq, r, remaining, trades) && remaining > 0 && n == tseq + |trades|
    requires Ids(r.books[s], Opposite(side)) != [] && TopId(r, s, side) in r.orders
    ensures Progress(a, s, side, uid, qty, tseq, r', remaining', trades') && Kept(r, r') && Safe(r, r')
    ensures r.trades <= r'.trades && |r'.trades| == |r.trades| + 1
    ensures r'.trades[|r.trades|].tradeId == n && MatchedAt(r'.trades[|r.trades|], s, now)
    ensures |trades'| == |trades| + 1
    ensures Work(r', s, side, remaining') < Work(r, s, side, remaining)
    ensures r' == Take(r, s, side, uid, remaining, now, n)
    ensures remaining' == Rest(r, s, side, remaining)
  {
    var t := TopTrade(r, s, side, uid, remaining, now, n);
    r' := Take(r, s, side, uid, remaining, now, n);
    trades' := trades + [Stamp(t, r.mode, r.tPlusDelaySeconds, now)];
    remaining' := remaining - t.qty;
    TakeProgress(a, s, side, uid, qty, tseq, r, remaining, trades, now, n, r', remaining', trades');
    TakeSafe(r, s, side, uid, remaining, now, n);
  }

  /** Taking the top with the next trade number `n` keeps `Progress`. */
  lemma TakeProgress(a: Agency, s: Symbol, side: Side, uid: UserId, qty: int, tseq: nat,
                     r: Agency, remaining: int, trades: seq<Trade>, now: int, n: nat,
                     r': Agency, remaining': int, trades': seq<Trade>)
    requires Progress(a, s, side, uid, qty, tseq, r, remaining, trades) && remaining > 0 && n == tseq + |trades|
    requires Ids(r.books[s], Opposite(side)) != [] && TopId(r, s, side) in r.orders
    requires r' == Take(r, s, side, uid, remaining, now, n)
    requires var t := TopTrade(r, s, side, uid, remaining, now, n);
             remaining' == remaining - t.qty && trades' == trades + [Stamp(t, r.mode, r.tPlusDelaySeconds, now)]
    ensures Progress(a, s, side, uid, qty, tseq, r', remaining', trades') && Kept(r, r')
  {
    var t := TopTrade(r, s, side, uid, remaining, now, n);
    TakeCosts(r, s, side, uid, remaining, now, n, remaining');
    ProgressSnoc(a, s, side, uid, qty, tseq, r, remaining, trades, r', remaining', t, now);
  }

  /** One more trade, stamped as `settleOrQueue` leaves it, at the price the walk charges for it keeps `Progress`. */
  lemma ProgressSnoc(a: Agency, s: Symbol, side: Side, uid: UserId, qty: int, tseq: nat,
                     r: Agency, remaining: int, trades: seq<Trade>, r': Agency, remaining': int, t: Trade, now: int)
    requires Progress(a, s, side, uid, qty, tseq, r, remaining, trades)
    requires WellFormed(r') && BookSorted(r', s)
    requires 0 < t.qty <= remaining && remaining' == remaining - t.qty
    requires t.tradeId == tseq + |trades| && Taker(t, side) == uid
    requires r'.trades == r.trades + [Stamp(t, r.mode, r.tPlusDelaySeconds, now)]
    requires Cost(r'.orders, Ids(r'.books[s], Opposite(side)), remaining') + t.qty * t.price
             == Cost(r.orders, Ids(r.books[s], Opposite(side)), remaining)
    requires r'.books.Keys == r.books.Keys && forall x :: x in r.books && x != s ==> r'.books[x] == r.books[x]
    requires r'.users.Keys == r.users.Keys && r'.orders.Keys == r.orders.Keys
    ensures Progress(a, s, side, uid, qty, tseq, r', remaining', trades + [Stamp(t, r.mode, r.tPlusDelaySeconds, now)])
  {
    var opp := Opposite(side);
    var t' := Stamp(t, r.mode, r.tPlusDelaySeconds, now);
    var w, w' := Cost(r.orders, Ids(r.books[s], opp), remaining), Cost(r'.orders, Ids(r'.books[s], opp), remaining');
    Accounting(trades, t', w, w', t.qty, t.price);
    TakerSnoc(trades, t', side, uid, tseq);
    SnocAssoc(a.trades, trades, t');
  }

  /** A take leaves the agency well formed with its book sorted, and shortens the opposite side or fills the order. */
  lemma TakeShrinks(a: Agency, s: Symbol, side: Side, uid: UserId, remaining: int, now: int, tseq: nat)
    requires WellFormed(a) && BookSorted(a, s) && uid in a.users && remaining > 0
    requires Ids(a.books[s], Opposite(side)) != [] && TopId(a, s, side) in a.orders
    ensures var r := Take(a, s, side, uid, remaining, now, tseq);
            var rest := Rest(a, s, side, remaining);
            && WellFormed(r) && BookSorted(r, s) && uid in r.users
            && Work(r, s, side, rest) < Work(a, s, side, remaining)
  {
  }

  /**
   * What the execution loop computes, as a recursion: stop when nothing is
   * wanted, the opposite side is empty or the symbol is halted; otherwise take
   * the top (`AfterTake`) and carry on, `tseq` being the next trade number.
   * The result is the agency afterwards and what is still wanted.
   */
  ghost function SweepOutcome(a: Agency, s: Symbol, side: Side, uid: UserId, remaining: int, now: int, tseq: nat)
    : (Agency, int)
    requires WellFormed(a) && BookSorted(a, s) && uid in a.users
    decreases Work(a, s, side, remaining), 1
  {
    HeadsResting(a, s);
    if remaining <= 0 || Ids(a.books[s], Opposite(side)) == [] || Halted(a, s, now) then (a, remaining)
    else AfterTake(a, s, side, uid, remaining, now, tseq)
  }

  /** Take the top once, then carry on executing with what is still wanted. */
  ghost function AfterTake(a: Agency, s: Symbol, side: Side, uid: UserId, remaining: int, now: int, tseq: nat)
    : (Agency, int)
    requires WellFormed(a) && BookSorted(a, s) && uid in a.users && remaining > 0
    requires Ids(a.books[s], Opposite(side)) != [] && TopId(a, s, side) in a.orders
    decreases |Ids(a.books[s], Opposite(side))| + 1, 0
  {
    TakeShrinks(a, s, side, uid, remaining, now, tseq);
    SweepOutcome(Take(a, s, side, uid, remaining, now, tseq), s, side, uid,
                 Rest(a, s, side, remaining), now, tseq + 1)
  }

  /**
   * What the execution loop computes from `a`, with `remaining` still wanted
   * and `tseq` the next trade number: `SweepOutcome`, the recursion, from there.
   */
  ghost function SweepResult(a: Agency, s: Symbol, side: Side, uid: UserId, remaining: int, now: int, tseq: nat)
    : (Agency, int)
    requires WellFormed(a) && BookSorted(a, s) && uid in a.users
  {
    SweepOutcome(a, s, side, uid, remaining, now, tseq)
  }

  /** Where execution may go on, `SweepOutcome` is `AfterTake`. */
  lemma OutcomeTakes(a: Agency, s: Symbol, side: Side, uid: UserId, remaining: int, now: int, tseq: nat)
    requires WellFormed(a) && BookSorted(a, s) && uid in a.users && remaining > 0
    requires Ids(a.books[s], Opposite(side)) != [] && s in a.halts && !Halted(a, s, now)
    ensures TopId(a, s, side) in a.orders
    ensures SweepOutcome(a, s, side, uid, remaining, now, tseq) == AfterTake(a, s, side, uid, remaining, now, tseq)
  {
    HeadsResting(a, s);
  }

  /** `AfterTake` is execution carried on from the taken agency. */
  lemma AfterTakeUnfolds(a: Agency, s: Symbol, side: Side, uid: UserId, remaining: int, now: int, tseq: nat)
    requires WellFormed(a) && BookSorted(a, s) && uid in a.users && remaining > 0
    requires Ids(a.books[s], Opposite(side)) != [] && TopId(a, s, side) in a.orders
    ensures AfterTake(a, s, side, uid, remaining, now, tseq)
            == SweepOutcome(Take(a, s, side, uid, remaining, now, tseq), s, side, uid,
                            Rest(a, s, side, remaining), now, tseq + 1)
  {
  }

  /** Execution from an agency where it may go on is execution from its `Take`. */
  lemma SweepTakes(a: Agency, s: Symbol, side: Side, uid: UserId, remaining: int, now: int, tseq: nat, next: nat)
    requires WellFormed(a) && BookSorted(a, s) && uid in a.users && remaining > 0
    requires Ids(a.books[s], Opposite(side)) != [] && s in a.halts && !Halted(a, s, now)
    requires next == tseq + 1
    ensures TopId(a, s, side) in a.orders
    ensures var r := Take(a, s, side, uid, remaining, now, tseq);
            && WellFormed(r) && BookSorted(r, s) && uid in r.users
            && SweepResult(a, s, side, uid, remaining, now, tseq)
               == SweepResult(r, s, side, uid, Rest(a, s, side, remaining), now, next)
  {
    OutcomeTakes(a, s, side, uid, remaining, now, tseq);
    AfterTakeUnfolds(a, s, side, uid, remaining, now, tseq);
    TakeShrinks(a, s, side, uid, remaining, now, tseq);
  }

  /** One take of the execution loop, from `r` to `r'`, leaves what `SweepResult` computes unchanged. */
  lemma TakeStep(r: Agency, s: Symbol, side: Side, uid: UserId, remaining: int, now: int, tseq: nat,
                  r': Agency, remaining': int, next: nat)
    requires WellFormed(r) && BookSorted(r, s) && uid in r.users && remaining > 0
    requires Ids(r.books[s], Opposite(side)) != [] && s in r.halts && !Halted(r, s, now)
    requires TopId(r, s, side) in r.orders && r' == Take(r, s, side, uid, remaining, now, tseq)
    requires remaining' == Rest(r, s, side, remaining) && next == tseq + 1
    ensures SweepResult(r', s, side, uid, remaining', now, next) == SweepResult(r, s, side, uid, remaining, now, tseq)
  {
    SweepTakes(r, s, side, uid, remaining, now, tseq, next);
  }

  /** Where the execution loop stops (`Stopped`), `SweepResult` is the agency as it stands. */
  lemma SweepStops(a: Agency, s: Symbol, side: Side, uid: UserId, remaining: int, now: int, tseq: nat)
    requires WellFormed(a) && BookSorted(a, s) && uid in a.users && Stopped(a, s, side, remaining, now)
    ensures SweepResult(a, s, side, uid, remaining, now, tseq) == (a, remaining)
  {
    HeadsResting(a, s);
  }

  /**
   * What execution promises of its result `r` from `b`: the trades made are
   * appended, each a positive trade of `s` at `now`, numbered on from `tseq`;
   * the orders and settings are kept; the agency stays solvent and nobody
   * holds less.
   */
  ghost predicate SweepFacts(b: Agency, r: Agency, s: Symbol, now: int, tseq: nat) {
    && b.trades <= r.trades && Logged(r.trades, |b.trades|, tseq, s, now) && Kept(b, r) && Safe(b, r)
  }

  /** A `Take` is one trade. */
  lemma TakeOneTrade(a: Agency, s: Symbol, side: Side, uid: UserId, remaining: int, now: int, tseq: nat)
    requires WellFormed(a) && BookSorted(a, s) && uid in a.users && remaining > 0
    requires Ids(a.books[s], Opposite(side)) != [] && TopId(a, s, side) in a.orders
    ensures OneTrade(a, Take(a, s, side, uid, remaining, now, tseq), s, now, tseq)
  {
    TakeSafe(a, s, side, uid, remaining, now, tseq);
    TakeCosts(a, s, side, uid, remaining, now, tseq, remaining - TopTrade(a, s, side, uid, remaining, now, tseq).qty);
  }

  /** One more trade in front of a run that meets `SweepFacts` gives a run that meets it. */
  lemma SweepFactsCons(b: Agency, b': Agency, r: Agency, s: Symbol, now: int, tseq: nat)
    requires OneTrade(b, b', s, now, tseq) && SweepFacts(b', r, s, now, tseq + 1)
    ensures SweepFacts(b, r, s, now, tseq)
  {
    KeptSafeTrans(b, b', r);
    assert r.trades[|b.trades|] == b'.trades[|b.trades|];
  }

  /**
   * Where execution may go on from `b`, it takes the top once: the agency
   * `b'` afterwards (the `Take`) is one trade on from `b`, `wanted` is what is
   * still wanted, and execution from there computes what it computes from `b`.
   */
  lemma TakeOnce(b: Agency, s: Symbol, side: Side, uid: UserId, remaining: int, now: int, tseq: nat)
    returns (b': Agency, wanted: int)
    requires WellFormed(b) && BookSorted(b, s) && uid in b.users && remaining > 0
    requires Ids(b.books[s], Opposite(side)) != [] && s in b.halts && !Halted(b, s, now)
    ensures WellFormed(b') && BookSorted(b', s) && uid in b'.users && OneTrade(b, b', s, now, tseq)
    ensures SweepResult(b', s, side, uid, wanted, now, tseq + 1) == SweepResult(b, s, side, uid, remaining, now, tseq)
    ensures Work(b', s, side, wanted) < Work(b, s, side, remaining)
  {
    SweepTakes(b, s, side, uid, remaining, now, tseq, tseq + 1);
    TakeShrinks(b, s, side, uid, remaining, now, tseq);
    TakeOneTrade(b, s, side, uid, remaining, now, tseq);
    b', wanted := Take(b, s, side, uid, remaining, now, tseq), Rest(b, s, side, remaining);
  }

  /** What `SweepResult` computes from `b` meets `SweepFacts`. */
  lemma {:induction false} OutcomeSweepFacts(b: Agency, s: Symbol, side: Side, uid: UserId, remaining: int, now: int,
                                             tseq: nat, r: Agency, rest: int)
    requires WellFormed(b) && BookSorted(b, s) && uid in b.users
    requires (r, rest) == SweepResult(b, s, side, uid, remaining, now, tseq)
    ensures SweepFacts(b, r, s, now, tseq)
    decreases Work(b, s, side, remaining)
  {
    HeadsResting(b, s);
    if remaining <= 0 || Ids(b.books[s], Opposite(side)) == [] || Halted(b, s, now) {
      SweepStops(b, s, side, uid, remaining, now, tseq);
    } else {
      var b', wanted := TakeOnce(b, s, side, uid, remaining, now, tseq);
      OutcomeSweepFacts(b', s, side, uid, wanted, now, tseq + 1, r, rest);
      SweepFactsCons(b, b', r, s, now, tseq);
    }
  }

  /**
   * Where the execution loop stops at `r` with `remaining` still wanted and
   * `n` the next trade number, having kept what `SweepResult` computes from
   * `a`: that is `(r, remaining)`, and it meets `SweepFacts`.
   */
  lemma SweepEnds(a: Agency, s: Symbol, side: Side, uid: UserId, qty: int, now: int, tseq: nat,
                  r: Agency, remaining: int, n: nat)
    requires WellFormed(a) && BookSorted(a, s) && uid in a.users
    requires WellFormed(r) && BookSorted(r, s) && uid in r.users && Stopped(r, s, side, remaining, now)
    requires SweepResult(r, s, side, uid, remaining, now, n) == SweepResult(a, s, side, uid, qty, now, tseq)
    ensures SweepResult(a, s, side, uid, qty, now, tseq) == (r, remaining)
    ensures Kept(a, r) && Logged(r.trades, |a.trades|, tseq, s, now) && Safe(a, r)
  {
    SweepStops(r, s, side, uid, remaining, now, n);
    OutcomeSweepFacts(a, s, side, uid, qty, now, tseq, r, remaining);
  }

  /**
   * A take of the execution loop, where the opposite side has a top and the
   * symbol is not halted: `Advance`, which leaves what `SweepResult` computes
   * unchanged and shortens the opposite side or fills the order.
   */
  method Round(ghost a: Agency, s: Symbol, side: Side, uid: UserId, ghost qty: int, now: int, tseq: nat,
               r: Agency, remaining: int, trades: seq<Trade>, n: nat)
    returns (r': Agency, remaining': int, trades': seq<Trade>, n': nat)
    requires Progress(a, s, side, uid, qty, tseq, r, remaining, trades) && remaining > 0 && n == tseq + |trades|
    requires Ids(r.books[s], Opposite(side)) != [] && s in r.halts && !Halted(r, s, now)
    ensures Progress(a, s, side, uid, qty, tseq, r', remaining', trades') && n' == tseq + |trades'|
    ensures SweepResult(r', s, side, uid, remaining', now, n') == SweepResult(r, s, side, uid, remaining, now, n)
    ensures Work(r', s, side, remaining') < Work(r, s, side, remaining)
  {
    HeadsResting(r, s);
    r', remaining', trades' := Advance(a, s, side, uid, qty, now, tseq, r, remaining, trades, n);
    n' := n + 1;
    TakeStep(r, s, side, uid, remaining, now, n, r', remaining', n');
  }

  /**
   * The execution loop of `placeMarketOrder`: while something is wanted, stop
   * when the opposite side is empty or the symbol is halted, otherwise take
   * the top (`Round`) and stop when that take tripped the breaker. `trades`
   * are the trades made, as the engine returns them.
   */
  method Sweep(a: Agency, s: Symbol, side: Side, uid: UserId, qty: int, now: int, tseq: nat)
    returns (r: Agency, remaining: int, trades: seq<Trade>)
    requires WellFormed(a) && BookSorted(a, s) && uid in a.users
    ensures Progress(a, s, side, uid, qty, tseq, r, remaining, trades) && Kept(a, r)
    ensures Stopped(r, s, side, remaining, now)
    ensures Logged(r.trades, |a.trades|, tseq, s, now) && Safe(a, r)
    ensures SweepResult(a, s, side, uid, qty, now, tseq) == (r, remaining)
  {
    r, remaining, trades := a, qty, [];
    var n: nat := tseq;
    ghost var result := SweepResult(a, s, side, uid, qty, now, tseq);
    while remaining > 0
      invariant Progress(a, s, side, uid, qty, tseq, r, remaining, trades) && n == tseq + |trades|
      invariant SweepResult(r, s, side, uid, remaining, now, n) == result
      decreases Work(r, s, side, remaining)
    {
      // `sortBooks(ob)` leaves a book in priority order as it is (`SortBookSorted`),
      // and `Progress` keeps this one in that order.
      HeadsResting(r, s);
      if Ids(r.books[s], Opposite(side)) == [] || Halted(r, s, now) {
        break;
      }
      r, remaining, trades, n := Round(a, s, side, uid, qty, now, tseq, r, remaining, trades, n);
      HeadsResting(r, s);
      if Halted(r, s, now) {
        break;
      }
    }
    SweepEnds(a, s, side, uid, qty, now, tseq, r, remaining, n);
  }

  // ---------------------------------------------------------------------------
  // Checks, reservation and release

  /**
   * The checks `placeMarketOrder` makes before it reserves anything, in its
   * order: the symbol is tradable; the opposite side holds the whole quantity;
   * the user exists; then for a buy the account may trade, has at least one
   * dollar and covers the estimated cost, and for a sell the account may sell
   * the quantity at a placeholder price of 1.
   */
  function MarketCheckAsWritten(a: Agency, uid: UserId, s: Symbol, side: Side, qty: int, now: int): (r: Outcome<Error>)
    requires WellFormed(a) && BookSorted(a, s)
    ensures s in a.halts
    ensures var halted := now < a.halts[s].haltedUntil;
            var levels := Ids(a.books[s], Opposite(side));
            var depth := Depth(a.orders, levels);
            && (r == Fail(TradingHalted(s, a.halts[s].haltedUntil)) <==> halted)
            && (r == Fail(InsufficientLiquidity) <==> !halted && qty > depth)
            && (r == Fail(UserNotFound) <==> !halted && qty <= depth && uid !in a.users)
            && (r == Fail(KycRequired) <==> !halted && qty <= depth && uid in a.users && !a.users[uid].verified)
            && (r.Pass? <==>
                  && !halted && qty <= depth && uid in a.users
                  && a.users[uid].verified && !a.users[uid].frozen
                  && (side.Buy? ==> a.users[uid].usd >= 1 && a.users[uid].usd >= Cost(a.orders, levels, qty))
                  && (side.Sell? ==> qty > 0 && Holding(a.users[uid], s) >= qty))
  {
    HeadsResting(a, s);
    RestingLevels(a, s, Opposite(side));
    var levels := Ids(a.books[s], Opposite(side));
    DepthNonNegative(a.orders, levels);
    if qty > 0 then
      LiquidityIsDepth(a.orders, levels, qty);
      Checks(a, uid, s, side, qty, now, levels)
    else
      Checks(a, uid, s, side, qty, now, levels)
  }

  /** The checks of `placeMarketOrder` over the given levels. */
  function Checks(a: Agency, uid: UserId, s: Symbol, side: Side, qty: int, now: int, levels: seq<OrderId>): Outcome<Error>
    requires s in a.halts && Known(a.orders, levels)
  {
    if AssertTradable(a, s, now).Fail? then AssertTradable(a, s, now)
    else if Shortfall(a.orders, levels, qty) > 0 then Fail(InsufficientLiquidity)
    else if uid !in a.users then Fail(UserNotFound)
    else if side.Buy? then
      var c := CanPlace(a.users[uid], Buy, s, 1, 1);
      if c.Fail? then c
      else if a.users[uid].usd < Cost(a.orders, levels, qty) then Fail(InsufficientUsd)
      else Pass
    else
      CanPlace(a.users[uid], Sell, s, qty, 1)
  }

  /**
   * The checks as the engine evidently means them: a market order for no
   * positive quantity is refused as invalid. A sell is already refused by
   * `canPlace`; a buy passes the checks as written.
   */
  function MarketCheck(a: Agency, uid: UserId, s: Symbol, side: Side, qty: int, now: int): (r: Outcome<Error>)
    requires WellFormed(a) && BookSorted(a, s)
    ensures r.Pass? <==> MarketCheckAsWritten(a, uid, s, side, qty, now).Pass? && qty > 0
    ensures MarketCheckAsWritten(a, uid, s, side, qty, now).Fail? ==> r == MarketCheckAsWritten(a, uid, s, side, qty, now)
  {
    HeadsResting(a, s);
    Corrected(a, uid, s, side, qty, now, Ids(a.books[s], Opposite(side)))
  }

  /** `Checks` followed by the refusal of a quantity that is not positive. */
  function Corrected(a: Agency, uid: UserId, s: Symbol, side: Side, qty: int, now: int, levels: seq<OrderId>): Outcome<Error>
    requires s in a.halts && Known(a.orders, levels)
  {
    var w := Checks(a, uid, s, side, qty, now, levels);
    if w.Pass? && qty <= 0 then Fail(InvalidParams) else w
  }

  /**
   * As written, a market buy for zero or a negative quantity passes every
   * check of an unhalted symbol when the buyer may trade and has a dollar: the
   * walk wants nothing and costs nothing. The corrected checks refuse it.
   */
  lemma MarketBuyOfNothingAccepted(a: Agency, uid: UserId, s: Symbol, qty: int, now: int)
    requires WellFormed(a) && BookSorted(a, s) && qty <= 0 && uid in a.users
    requires a.users[uid].verified && !a.users[uid].frozen && a.users[uid].usd >= 1
    requires s in a.halts && a.halts[s].haltedUntil <= now
    ensures MarketCheckAsWritten(a, uid, s, Buy, qty, now).Pass?
    ensures MarketCheck(a, uid, s, Buy, qty, now) == Fail(InvalidParams)
  {
    RestingLevels(a, s, Sell);
    var levels := Ids(a.books[s], Sell);
    DepthNonNegative(a.orders, levels);
    WalkNothing(a.orders, levels, qty);
  }

  /**
   * The release after execution: a buy gets back whatever of the reserved
   * estimate the trades did not spend, a sell gets back the tokens of the
   * unfilled remainder. What the user holds plus what stays reserved is kept,
   * and for a buy that spent no more than it reserved exactly the amount spent
   * stays reserved.
   */
  function Unreserve(u: User, side: Side, s: Symbol, ri: ReserveInfo, spent: int, leftover: int): (r: (User, ReserveInfo))
    requires s in u.tokens
    ensures r.0 == u.(usd := r.0.usd, tokens := r.0.tokens) && r.0.tokens.Keys == u.tokens.Keys
    ensures NoLess(u, r.0)
    ensures r.0.usd + r.1.usdReserved == u.usd + ri.usdReserved
    ensures r.0.tokens[s] + r.1.tokensReserved == u.tokens[s] + ri.tokensReserved
    ensures forall t :: t in u.tokens && t != s ==> r.0.tokens[t] == u.tokens[t]
    ensures side.Buy? ==> r.0.tokens == u.tokens && r.0.usd >= u.usd && r.1.tokensReserved == ri.tokensReserved
    ensures side.Buy? && spent <= ri.usdReserved ==> r.1.usdReserved == spent
    ensures side.Buy? && spent >= ri.usdReserved ==> r == (u, ri)
    ensures side.Sell? ==> r.0.usd == u.usd && r.1.usdReserved == ri.usdReserved
    ensures side.Sell? && leftover > 0 ==> r.0.tokens[s] == u.tokens[s] + leftover
    ensures side.Sell? && leftover <= 0 ==> r == (u, ri)
  {
    if side.Buy? then
      var refund := Max(0, ri.usdReserved - spent);
      (u.(usd := u.usd + refund), ri.(usdReserved := ri.usdReserved - refund))
    else
      Release(u, Sell, s, leftover, 0, ri)
  }

  /** What a market order returns: the agency afterwards, the order's public view and its trades. */
  datatype Placed = Placed(agency: Agency, order: PublicOrder, trades: seq<Trade>)

  /**
   * What an accepted market order promises: the agency stays well formed; the
   * order is a MARKET order at the placeholder price (the largest safe integer
   * for a buy, 0 for a sell) whose remainder lies in [0, qty] and which is
   * FILLED exactly when nothing remains and PARTIAL otherwise; its trades are
   * appended to the agency's, are numbered from `tseq` with the user as taker,
   * add up to the quantity filled, and cost no more than the estimate (exactly
   * the estimate when the order filled); execution stopped only because the
   * order filled, the opposite side emptied or the symbol halted.
   */
  ghost predicate MarketPlaced(a: Agency, agencyId: string, uid: UserId, s: Symbol, side: Side, qty: int,
                               now: int, oseq: nat, tseq: nat, p: Placed) {
    && BookSorted(a, s)
    && var o := p.order;
       var est := Cost(a.orders, Ids(a.books[s], Opposite(side)), qty);
       && WellFormed(p.agency)
       && o == PublicOrder(oseq, now, agencyId, uid, s, side, Market,
                           if side.Buy? then MAX_SAFE_INTEGER else 0, qty, o.remaining, o.status)
       && 0 <= o.remaining < qty + 1
       && (o.status == Filled <==> o.remaining == 0) && (o.status == Filled || o.status == Partial)
       && p.agency.trades == a.trades + p.trades && TakenBy(p.trades, side, uid, tseq)
       && Volume(p.trades) == qty - o.remaining
       && Value(p.trades) <= est && (o.remaining == 0 ==> Value(p.trades) == est)
       && Stopped(p.agency, s, side, o.remaining, now)
       && p.agency.users.Keys == a.users.Keys && Kept(a, p.agency)
  }

  /** What `placeMarketOrder` reserves for an accepted order: the estimated cost of a buy, the quantity of a sell. */
  function MarketReserve(a: Agency, s: Symbol, side: Side, qty: int): (ri: ReserveInfo)
    requires BookSorted(a, s)
    ensures side.Buy? ==> ri.tokensReserved == 0 && ri.usdReserved == Cost(a.orders, Ids(a.books[s], Opposite(side)), qty)
    ensures side.Sell? ==> ri.usdReserved == 0 && ri.tokensReserved == qty
  {
    if side.Buy? then ReserveInfo(Cost(a.orders, Ids(a.books[s], Opposite(side)), qty), 0) else ReserveInfo(0, qty)
  }

  /** The taker once the reservation is taken off their balances. */
  function Held(u: User, s: Symbol, ri: ReserveInfo): (r: User)
    requires s in u.tokens
    ensures r.tokens.Keys == u.tokens.Keys
  {
    u.(usd := u.usd - ri.usdReserved, tokens := u.tokens[s := u.tokens[s] - ri.tokensReserved])
  }

  /**
   * What an accepted market order does: the reservation comes off the taker
   * first; execution from there, with trades numbered from `tseq`, is
   * `SweepResult`, which leaves the agency `swept` and the quantity the order
   * still wants, and appends the trades the order reports; it only credits, makers and taker alike, and
   * keeps a solvent agency solvent (`Safe`); last the taker gets back what the
   * reservation did not pay for (`Unreserve`), and nothing else changes.
   */
  ghost predicate MarketSettled(a: Agency, uid: UserId, s: Symbol, side: Side, qty: int, now: int, tseq: nat, p: Placed) {
    && BookSorted(a, s) && uid in a.users && s in a.users[uid].tokens
    && var ri := MarketReserve(a, s, side, qty);
       var a2 := a.(users := a.users[uid := Held(a.users[uid], s, ri)]);
       && WellFormed(a2) && BookSorted(a2, s)
       && var (swept, left) := SweepResult(a2, s, side, uid, qty, now, tseq);
          && left == p.order.remaining && swept.trades == a.trades + p.trades && Safe(a2, swept)
          && uid in swept.users && s in swept.users[uid].tokens
          && p.agency == swept.(users := swept.users[uid := Unreserve(swept.users[uid], side, s, ri, Value(p.trades), left).0])
  }

  /**
   * The pieces of an accepted market order make up `MarketSettled`, and since
   * the checks made sure the reservation was there to take, a solvent agency
   * stays solvent.
   */
  lemma Settles(a: Agency, uid: UserId, s: Symbol, side: Side, qty: int, now: int, tseq: nat, ri: ReserveInfo,
                a2: Agency, swept: Agency, p: Placed)
    requires WellFormed(a) && BookSorted(a, s) && uid in a.users && s in a.users[uid].tokens
    requires MarketCheck(a, uid, s, side, qty, now).Pass? && ri == MarketReserve(a, s, side, qty)
    requires a2 == a.(users := a.users[uid := Held(a.users[uid], s, ri)]) && Safe(a2, swept)
    requires WellFormed(a2) && BookSorted(a2, s)
    requires SweepResult(a2, s, side, uid, qty, now, tseq) == (swept, p.order.remaining)
    requires swept.trades == a.trades + p.trades
    requires uid in swept.users && s in swept.users[uid].tokens
    requires p.agency == swept.(users := swept.users[uid := Unreserve(swept.users[uid], side, s, ri, Value(p.trades), p.order.remaining).0])
    ensures MarketSettled(a, uid, s, side, qty, now, tseq, p)
    ensures Solvent(a) ==> Solvent(p.agency)
  {
    if Solvent(a) {
      HeldSolvent(a, uid, s, side, qty, now);
      UpdatedSolvent(a, uid, a2.users[uid]);
      var v := Unreserve(swept.users[uid], side, s, ri, Value(p.trades), p.order.remaining).0;
      UpdatedSolvent(swept, uid, v);
    }
  }

  /** The checks make sure a solvent taker can spare the reservation. */
  lemma HeldSolvent(a: Agency, uid: UserId, s: Symbol, side: Side, qty: int, now: int)
    requires WellFormed(a) && BookSorted(a, s) && uid in a.users && s in a.users[uid].tokens
    requires MarketCheck(a, uid, s, side, qty, now).Pass? && UserSolvent(a.users[uid])
    ensures UserSolvent(Held(a.users[uid], s, MarketReserve(a, s, side, qty)))
  {
  }

  /** Replacing one user of a solvent agency by a solvent user keeps it solvent. */
  lemma UpdatedSolvent(a: Agency, uid: UserId, v: User)
    requires Solvent(a) && uid in a.users && UserSolvent(v)
    ensures Solvent(a.(users := a.users[uid := v]))
  {
  }

  /**
   * `placeMarketOrder` with the corrected checks: check, sort the book, reserve
   * the estimate, run the execution loop, release what was not used and report
   * the order. The order id is `oseq`; the trades are numbered from `tseq` on.
   */
  method PlaceMarket(a: Agency, agencyId: string, uid: UserId, s: Symbol, side: Side, qty: int,
                     now: int, oseq: nat, tseq: nat) returns (res: Result<Placed, Error>)
    requires WellFormed(a) && BookSorted(a, s)
    ensures res.Failure? <==> MarketCheck(a, uid, s, side, qty, now).Fail?
    ensures res.Failure? ==> res.error == MarketCheck(a, uid, s, side, qty, now).error
    ensures res.Success? ==> MarketPlaced(a, agencyId, uid, s, side, qty, now, oseq, tseq, res.value)
    ensures res.Success? ==> MarketSettled(a, uid, s, side, qty, now, tseq, res.value)
    ensures res.Success? && Solvent(a) ==> Solvent(res.value.agency)
  {
    HeadsResting(a, s);
    if uid in a.users {
      assert UserOk(a.users[uid]);
    }
    var admitted, ri := Admit(a, uid, s, side, qty, now);
    if admitted.Failure? {
      return Failure(admitted.error);
    }
    var p := Execute(a, agencyId, uid, s, side, qty, now, oseq, tseq, admitted.value, ri);
    res := Success(p);
  }

  /**
   * `placeMarketOrder` once the checks passed and `u` is the taker with the
   * reservation `ri` taken off: run the execution loop, release what was not
   * used and report the order.
   */
  method Execute(a: Agency, agencyId: string, uid: UserId, s: Symbol, side: Side, qty: int,
                 now: int, oseq: nat, tseq: nat, u: User, ri: ReserveInfo) returns (p: Placed)
    requires WellFormed(a) && BookSorted(a, s) && uid in a.users && s in a.users[uid].tokens
    requires MarketCheck(a, uid, s, side, qty, now).Pass? && qty > 0
    requires ri == MarketReserve(a, s, side, qty) && u == Held(a.users[uid], s, ri)
    ensures MarketPlaced(a, agencyId, uid, s, side, qty, now, oseq, tseq, p)
    ensures MarketSettled(a, uid, s, side, qty, now, tseq, p)
    ensures Solvent(a) ==> Solvent(p.agency)
  {
    var a2 := WithUser(a, uid, u);
    var r, remaining, trades := Sweep(a2, s, side, uid, qty, now, tseq);
    p := Finish(a, a2, agencyId, uid, s, side, qty, now, oseq, tseq, r, remaining, trades, ri);
    Settles(a, uid, s, side, qty, now, tseq, ri, a2, r, p);
  }

  /**
   * The end of `placeMarketOrder`: release the unused reservation and build
   * the order, FILLED when nothing remains and PARTIAL otherwise.
   */
  method Finish(ghost a: Agency, ghost a2: Agency, agencyId: string, uid: UserId, s: Symbol, side: Side, qty: int,
                now: int, oseq: nat, tseq: nat, r: Agency, remaining: int, trades: seq<Trade>, ri: ReserveInfo)
    returns (p: Placed)
    requires Progress(a2, s, side, uid, qty, tseq, r, remaining, trades) && Stopped(r, s, side, remaining, now)
    requires Kept(a2, r)
    requires qty > 0 && a2.orders == a.orders && a2.books == a.books && a2.trades == a.trades
    requires a2.users.Keys == a.users.Keys && Kept(a, a2)
    ensures MarketPlaced(a, agencyId, uid, s, side, qty, now, oseq, tseq, p)
    ensures uid in r.users && s in r.users[uid].tokens && p.trades == trades && p.order.remaining == remaining
    ensures r.trades == a.trades + p.trades
    ensures p.agency == r.(users := r.users[uid := Unreserve(r.users[uid], side, s, ri, Value(trades), remaining).0])
  {
    var r', ri' := ReleaseUnused(r, uid, s, side, ri, Value(trades), remaining);
    RestingLevels(r, s, Opposite(side));
    CostPositive(r.orders, Ids(r.books[s], Opposite(side)), remaining);
    if remaining == 0 {
      WalkNothing(r.orders, Ids(r.books[s], Opposite(side)), remaining);
    }
    assert Stopped(r', s, side, remaining, now);
    KeptTrans(a2, r, r');
    KeptTrans(a, a2, r');
    var order := Order(oseq, now, agencyId, uid, s, side, Market, if side.Buy? then MAX_SAFE_INTEGER else 0,
                       qty, remaining, if remaining == 0 then Filled else Partial, ri');
    p := Placed(r', StripOrder(order), trades);
  }

  /** The agency after the taker's unused reservation is released (`Unreserve`). */
  method ReleaseUnused(r: Agency, uid: UserId, s: Symbol, side: Side, ri: ReserveInfo, spent: int, remaining: int)
    returns (r': Agency, ri': ReserveInfo)
    requires WellFormed(r) && uid in r.users
    ensures WellFormed(r') && r' == r.(users := r'.users) && r'.users.Keys == r.users.Keys
    ensures s in r.users[uid].tokens
    ensures (r'.users[uid], ri') == Unreserve(r.users[uid], side, s, ri, spent, remaining)
    ensures r'.users == r.users[uid := r'.users[uid]]
  {
    HeadsResting(r, s);
    assert UserOk(r.users[uid]);
    var u;
    u, ri' := Unreserve(r.users[uid], side, s, ri, spent, remaining).0, Unreserve(r.users[uid], side, s, ri, spent, remaining).1;
    r' := WithUser(r, uid, u);
  }

  /** The agency with one user's balances replaced: `Object.assign`-style updates of `ob.users[userId]`. */
  method WithUser(a: Agency, uid: UserId, u: User) returns (r: Agency)
    requires WellFormed(a) && uid in a.users && u.tokens.Keys == a.users[uid].tokens.Keys
    ensures WellFormed(r) && r == a.(users := r.users) && r.users.Keys == a.users.Keys
    ensures r.users == a.users[uid := u]
  {
    r := a.(users := a.users[uid := u]);
    assert SameShape(a, r);
    SameShapeKeepsWellFormed(a, r);
  }

  /**
   * The part of `placeMarketOrder` before execution: the checks in the
   * engine's order, with the book sorted and the estimate walked between the
   * halt check and the liquidity check, then the reservation of the estimated
   * cost for a buy or of the quantity for a sell.
   */
  method Admit(a: Agency, uid: UserId, s: Symbol, side: Side, qty: int, now: int)
    returns (r: Result<User, Error>, ri: ReserveInfo)
    requires BookSorted(a, s) && s in a.halts && (uid in a.users ==> s in a.users[uid].tokens)
    ensures var c := Corrected(a, uid, s, side, qty, now, Ids(a.books[s], Opposite(side)));
            && (r.Failure? <==> c.Fail?) && (r.Failure? ==> r.error == c.error)
    ensures r.Success? ==> qty > 0 && uid in a.users && r.value.tokens.Keys == a.users[uid].tokens.Keys
    ensures r.Success? ==> ri == MarketReserve(a, s, side, qty) && r.value == Held(a.users[uid], s, ri)
    ensures r.Success? && side.Buy? ==>
              && ri == ReserveInfo(Cost(a.orders, Ids(a.books[s], Opposite(side)), qty), 0)
              && r.value == a.users[uid].(usd := a.users[uid].usd - ri.usdReserved)
    ensures r.Success? && side.Sell? ==>
              && ri == ReserveInfo(0, qty)
              && r.value == a.users[uid].(tokens := a.users[uid].tokens[s := a.users[uid].tokens[s] - qty])
  {
    ri := ReserveInfo(0, 0);
    var tradable := AssertTradable(a, s, now);
    if tradable.Fail? {
      return Failure(tradable.error), ri;
    }
    // `sortBooks(ob)` changes nothing here: the book is in priority order (`SortBookSorted`).
    var short, estCost := Estimate(a.orders, Ids(a.books[s], Opposite(side)), qty);
    if short > 0 {
      return Failure(InsufficientLiquidity), ri;
    }
    if uid !in a.users {
      return Failure(UserNotFound), ri;
    }
    var u := a.users[uid];
    if side.Buy? {
      var c := CanPlace(u, Buy, s, 1, 1);
      if c.Fail? {
        return Failure(c.error), ri;
      }
      if u.usd < estCost {
        return Failure(InsufficientUsd), ri;
      }
      if qty <= 0 {
        return Failure(InvalidParams), ri;
      }
      u, ri := u.(usd := u.usd - estCost), ReserveInfo(estCost, 0);
    } else {
      var c := CanPlace(u, Sell, s, qty, 1);
      if c.Fail? {
        return Failure(c.error), ri;
      }
      u, ri := u.(tokens := u.tokens[s := u.tokens[s] - qty]), ReserveInfo(0, qty);
    }
    r := Success(u);
  }
}

=== FILE: matching.dfy ===
/**
 * Continuous matching of one symbol's book (`match`, engine.js).
 *
 * While the best bid reaches the best ask, the two head orders trade: the
 * earlier of the two (the maker) sets the price, the quantity is the smaller of
 * the two remainders, a buyer who bid above the trade price gets the difference
 * back, both parties' risk signals are updated, the circuit breaker looks at the
 * price, the trade is recorded and settled or queued, filled orders leave the
 * book, and matching stops early when the trade halted the symbol.
 */
module Matching {
  import opened Wrappers
  import opened Store
  import opened OrderBook
  import opened Accounts
  import opened Breaker
  import opened Settlement

  function Min(x: int, y: int): (m: int)
    ensures m <= x && m <= y && (m == x || m == y)
  {
    if x <= y then x else y
  }

  /** The ids on one side of a book. */
  function Ids(b: Book, side: Side): seq<OrderId> {
    if side.Buy? then b.bids else b.asks
  }

  /** The book with one side replaced. */
  function WithIds(b: Book, side: Side, ids: seq<OrderId>): (r: Book)
    ensures Ids(r, side) == ids
    ensures forall other: Side :: other != side ==> Ids(r, other) == Ids(b, other)
  {
    if side.Buy? then b.(bids := ids) else b.(asks := ids)
  }

  /** The head of each non-empty side of a well-formed book is a resting order of that side. */
  lemma HeadsResting(a: Agency, s: Symbol)
    requires WellFormed(a)
    ensures s in a.books && s in a.halts
    ensures a.books[s].bids != [] ==> RestingOk(a, s, a.books[s].bids[0], Buy)
    ensures a.books[s].asks != [] ==> RestingOk(a, s, a.books[s].asks[0], Sell)
  {
    if a.books[s].bids != [] {
      assert a.books[s].bids[0] in a.books[s].bids;
    }
    if a.books[s].asks != [] {
      assert a.books[s].asks[0] in a.books[s].asks;
    }
  }

  /** Both sides are non-empty and the best bid reaches the best ask: the loop condition of `match`. */
  predicate Crossed(a: Agency, s: Symbol)
    requires WellFormed(a)
  {
    HeadsResting(a, s);
    var b := a.books[s];
    b.bids != [] && b.asks != [] && a.orders[b.bids[0]].price >= a.orders[b.asks[0]].price
  }

  /** The symbol is halted at `now` (`a.halts[symbol].haltedUntil > now()`). */
  predicate Halted(a: Agency, s: Symbol, now: int)
    requires s in a.halts
  {
    a.halts[s].haltedUntil > now
  }

  // ---------------------------------------------------------------------------
  // Shape: what the structural invariant depends on

  /** The fields of an order that decide whether it may rest in a book. */
  function Shape(o: Order): (OrderId, UserId, Symbol, Side, OrderKind, OrderStatus, int, int, int) {
    (o.orderId, o.userId, o.symbol, o.side, o.kind, o.status, o.remaining, o.qty, o.price)
  }

  /** The fields of an order that never change once it is placed. */
  function Static(o: Order): (OrderId, int, string, UserId, Symbol, Side, OrderKind, int, int) {
    (o.orderId, o.ts, o.agencyId, o.userId, o.symbol, o.side, o.kind, o.price, o.qty)
  }

  /** The agency keeps its identity and configuration, and every order keeps its static fields. */
  ghost predicate Kept(a: Agency, r: Agency) {
    && r.id == a.id && r.name == a.name && r.mode == a.mode && r.tPlusDelaySeconds == a.tPlusDelaySeconds
    && r.cbPct == a.cbPct && r.cbHaltSeconds == a.cbHaltSeconds
    && r.orders.Keys == a.orders.Keys
    && (forall id :: id in a.orders ==> Static(r.orders[id]) == Static(a.orders[id]))
  }

  lemma KeptTrans(a: Agency, b: Agency, c: Agency)
    requires Kept(a, b) && Kept(b, c)
    ensures Kept(a, c)
  {
  }

  /** The fields of a trade the structural invariant depends on. */
  function Parties(t: Trade): (UserId, UserId, int, int) {
    (t.buyerId, t.sellerId, t.qty, t.price)
  }

  /**
   * `a'` differs from `a` only in balances, flags, reservations, circuit-breaker
   * state, trade statuses and the settlement queue.
   */
  ghost predicate SameShape(a: Agency, a': Agency) {
    && a'.books == a.books && a'.halts.Keys == a.halts.Keys
    && a'.users.Keys == a.users.Keys
    && (forall uid :: uid in a.users ==> a'.users[uid].tokens.Keys == a.users[uid].tokens.Keys)
    && a'.orders.Keys == a.orders.Keys
    && (forall id :: id in a.orders ==> Shape(a'.orders[id]) == Shape(a.orders[id]))
    && |a'.trades| == |a.trades|
    && (forall i :: 0 <= i < |a.trades| ==> Parties(a'.trades[i]) == Parties(a.trades[i]))
  }

  lemma SameShapeKeepsWellFormed(a: Agency, a': Agency)
    requires WellFormed(a) && SameShape(a, a')
    requires forall i :: 0 <= i < |a'.pending| ==> a'.pending[i] < |a'.trades|
    ensures WellFormed(a')
  {
    ShapesKeepBooksOk(a.books, a.orders, a'.orders);
    TokensKeepUsersOk(a.users, a'.users);
    forall id | id in a.orders ensures a'.orders[id].userId == a.orders[id].userId {
      assert Shape(a'.orders[id]) == Shape(a.orders[id]);
    }
    OwnersKeepOrdersOk(a.orders, a'.orders, a.users.Keys);
    PartiesKeepTradesOk(a.users.Keys, a.trades, a'.trades, a.pending, a'.pending);
  }

  /** Orders whose shape is unchanged still rest where they rested. */
  lemma ShapesKeepBooksOk(books: map<Symbol, Book>, orders: map<OrderId, Order>, orders': map<OrderId, Order>)
    requires BooksOk(books, orders) && orders'.Keys == orders.Keys
    requires forall id :: id in orders ==> Shape(orders'[id]) == Shape(orders[id])
    ensures BooksOk(books, orders')
  {
    forall s, id | s in books && id in books[s].bids ensures RestingIn(orders', s, id, Buy) {
      assert RestingIn(orders, s, id, Buy);
      assert Shape(orders'[id]) == Shape(orders[id]);
    }
    forall s, id | s in books && id in books[s].asks ensures RestingIn(orders', s, id, Sell) {
      assert RestingIn(orders, s, id, Sell);
      assert Shape(orders'[id]) == Shape(orders[id]);
    }
  }

  lemma TokensKeepUsersOk(users: map<UserId, User>, users': map<UserId, User>)
    requires UsersOk(users) && users'.Keys == users.Keys
    requires forall uid :: uid in users ==> users'[uid].tokens.Keys == users[uid].tokens.Keys
    ensures UsersOk(users')
  {
    forall uid | uid in users' ensures UserOk(users'[uid]) {
      assert UserOk(users[uid]);
    }
  }

  lemma OwnersKeepOrdersOk(orders: map<OrderId, Order>, orders': map<OrderId, Order>, uids: set<UserId>)
    requires OrdersOk(orders, uids) && orders'.Keys == orders.Keys
    requires forall id :: id in orders ==> orders'[id].userId == orders[id].userId
    ensures OrdersOk(orders', uids)
  {
  }

  lemma PartiesKeepTradesOk(uids: set<UserId>, trades: seq<Trade>, trades': seq<Trade>, pending: seq<nat>, pending': seq<nat>)
    requires TradesOk(uids, trades, pending) && |trades'| == |trades|
    requires forall i :: 0 <= i < |trades| ==> Parties(trades'[i]) == Parties(trades[i])
    requires forall i :: 0 <= i < |pending'| ==> pending'[i] < |trades'|
    ensures TradesOk(uids, trades', pending')
  {
    forall i | 0 <= i < |trades'| ensures TradeIn(uids, trades'[i]) {
      assert TradeIn(uids, trades[i]);
      assert Parties(trades'[i]) == Parties(trades[i]);
    }
  }

  // ---------------------------------------------------------------------------
  // What one matching step does to a user and to an order

  /** The cash a buyer gets back when a fill trades below the bid: the difference on the filled quantity. */
  function Improvement(bidPrice: int, price: int, fill: int): int {
    if price < bidPrice then (bidPrice - price) * fill else 0
  }

  /** An order whose cash reservation gave up `amount`. */
  function Drawn(o: Order, amount: int): Order {
    o.(reserveInfo := o.reserveInfo.(usdReserved := o.reserveInfo.usdReserved - amount))
  }

  /** An order after a fill: the remainder drops by `fill`, and an order with nothing left is FILLED. */
  function AfterFill(o: Order, fill: int): Order {
    o.(remaining := o.remaining - fill, status := if o.remaining == fill then Filled else o.status)
  }

  /** A user after the risk signals of trade `t`: once for taking the buy side, once for taking the sell side. */
  function Signalled(u: User, uid: UserId, t: Trade, now: int): (r: User)
    ensures r == u.(ordersLastMinute := r.ordersLastMinute, flags := r.flags)
    ensures uid != t.buyerId && uid != t.sellerId ==> r == u
  {
    var u1 := if uid == t.buyerId then ApplyRiskSignals(u, t.qty, t.price, now) else u;
    if uid == t.sellerId then ApplyRiskSignals(u1, t.qty, t.price, now) else u1
  }

  /** The risk signals read no balance. */
  lemma SignalledIgnoresCash(u: User, uid: UserId, t: Trade, now: int, cash: int)
    ensures Signalled(u.(usd := cash), uid, t, now) == Signalled(u, uid, t, now).(usd := cash)
  {
  }

  /**
   * User `uid` after trade `t`: the risk signals of each side they took, the
   * buyer's price-improvement refund, and under instant settlement the buyer's
   * tokens and the seller's proceeds. Nothing else about the user changes.
   */
  ghost predicate Paid(u: User, r: User, uid: UserId, t: Trade, refund: int, instant: bool, now: int) {
    && r == Signalled(u, uid, t, now).(usd := r.usd, tokens := r.tokens)
    && r.usd == u.usd + (if uid == t.buyerId then refund else 0) + (if instant && uid == t.sellerId then t.qty * t.price else 0)
    && (if instant && uid == t.buyerId
        then t.symbol in u.tokens && r.tokens == u.tokens[t.symbol := u.tokens[t.symbol] + t.qty]
        else r.tokens == u.tokens)
  }

  /** A user who took neither side of the trade is left exactly as they were. */
  lemma PaidOnlyParties(u: User, r: User, uid: UserId, t: Trade, refund: int, instant: bool, now: int)
    requires Paid(u, r, uid, t, refund, instant, now) && uid != t.buyerId && uid != t.sellerId
    ensures r == u
  {
  }

  /** The refund, the signals and the settlement, one after the other, pay the user as `Paid` says. */
  lemma PaidByParts(u: User, uid: UserId, t: Trade, refund: int, instant: bool, now: int)
    requires uid == t.buyerId ==> t.symbol in u.tokens
    ensures var u1 := Signalled(u, uid, t, now).(usd := u.usd + (if uid == t.buyerId then refund else 0));
            Paid(u, if instant then CreditUser(u1, uid, t) else u1, uid, t, refund, instant, now)
  {
  }

  /** Every user of the agency is paid for trade `t` as `Paid` says. */
  ghost predicate StepUsers(users: map<UserId, User>, users': map<UserId, User>, t: Trade, refund: int, instant: bool, now: int) {
    && users'.Keys == users.Keys
    && forall uid :: uid in users ==> Paid(users[uid], users'[uid], uid, t, refund, instant, now)
  }

  /**
   * The two heads after their trade: each filled by `fill`, the bid's
   * reservation reduced by the refund; every other order is unchanged.
   */
  ghost predicate StepOrders(orders: map<OrderId, Order>, orders': map<OrderId, Order>, bidId: OrderId, askId: OrderId,
                             fill: int, refund: int) {
    && orders'.Keys == orders.Keys && bidId in orders && askId in orders
    && orders'[bidId] == AfterFill(Drawn(orders[bidId], refund), fill)
    && orders'[askId] == AfterFill(orders[askId], fill)
    && forall id :: id in orders && id != bidId && id != askId ==> orders'[id] == orders[id]
  }

  /**
   * The symbol's book after the trade: a head with nothing left is gone from
   * its side, every other id stays, and both sides are in priority order
   * again; no other book changes.
   */
  ghost predicate StepBooks(books: map<Symbol, Book>, books': map<Symbol, Book>, orders': map<OrderId, Order>,
                            s: Symbol, bidId: OrderId, askId: OrderId) {
    && s in books && books'.Keys == books.Keys && bidId in orders' && askId in orders'
    && (forall x :: x in books && x != s ==> books'[x] == books[x])
    && multiset(books'[s].bids) == multiset(books[s].bids) - (if orders'[bidId].remaining == 0 then multiset{bidId} else multiset{})
    && multiset(books'[s].asks) == multiset(books[s].asks) - (if orders'[askId].remaining == 0 then multiset{askId} else multiset{})
    && Known(orders', books'[s].bids) && Sorted(Buy, orders', books'[s].bids)
    && Known(orders', books'[s].asks) && Sorted(Sell, orders', books'[s].asks)
  }

  /**
   * One pass of the `match` loop on a crossed book, whole: the heads trade at
   * the maker's price for the smaller remainder; users, orders and the book
   * change as `StepUsers`, `StepOrders` and `StepBooks` say; the trade is
   * appended SETTLED or PENDING, and in the second case queued; the circuit
   * breaker has looked at the price; the agency's settings are unchanged.
   */
  ghost predicate Stepped(a: Agency, s: Symbol, now: int, tseq: nat, r: Agency)
    requires WellFormed(a) && Crossed(a, s)
  {
    HeadsResting(a, s);
    var bidId, askId := a.books[s].bids[0], a.books[s].asks[0];
    var t := HeadTrade(a, s, now, tseq);
    var refund := Improvement(a.orders[bidId].price, t.price, t.qty);
    && r.id == a.id && r.name == a.name && r.mode == a.mode && r.tPlusDelaySeconds == a.tPlusDelaySeconds
    && r.cbPct == a.cbPct && r.cbHaltSeconds == a.cbHaltSeconds
    && StepUsers(a.users, r.users, t, refund, a.mode == Instant, now)
    && StepOrders(a.orders, r.orders, bidId, askId, t.qty, refund)
    && StepBooks(a.books, r.books, r.orders, s, bidId, askId)
    && r.trades == a.trades + [Stamp(t, a.mode, a.tPlusDelaySeconds, now)]
    && r.pending == a.pending + (if a.mode == Instant then [] else [|a.trades|])
    && r.halts == CircuitBreakerCheck(a, s, t.price, now).halts
  }

  // ---------------------------------------------------------------------------
  // The pieces of one matching step

  /** Price improvement: a buyer whose bid is above the trade price gets the difference on the filled quantity back. */
  function Refund(a: Agency, bid: OrderId, price: int, fill: int): (r: Agency)
    requires bid in a.orders && a.orders[bid].userId in a.users
    ensures price >= a.orders[bid].price ==> r == a
    ensures price < a.orders[bid].price ==>
              var o := a.orders[bid];
              var amount := (o.price - price) * fill;
              && r == a.(users := r.users, orders := r.orders)
              && r.users == a.users[o.userId := a.users[o.userId].(usd := a.users[o.userId].usd + amount)]
              && r.orders == a.orders[bid := o.(reserveInfo := o.reserveInfo.(usdReserved := o.reserveInfo.usdReserved - amount))]
    ensures var amount := Improvement(a.orders[bid].price, price, fill);
            && r.orders.Keys == a.orders.Keys && r.users.Keys == a.users.Keys
            && r.orders[bid] == Drawn(a.orders[bid], amount)
            && (forall id :: id in a.orders && id != bid ==> r.orders[id] == a.orders[id])
            && (forall uid :: uid in a.users ==>
                  r.users[uid] == a.users[uid].(usd := a.users[uid].usd + (if uid == a.orders[bid].userId then amount else 0)))
  {
    var o := a.orders[bid];
    if price < o.price then
      var refund := (o.price - price) * fill;
      var u := a.users[o.userId];
      a.(users := a.users[o.userId := u.(usd := u.usd + refund)],
         orders := a.orders[bid := o.(reserveInfo := o.reserveInfo.(usdReserved := o.reserveInfo.usdReserved - refund))])
    else
      a
  }

  lemma RefundKeepsWellFormed(a: Agency, bid: OrderId, price: int, fill: int)
    requires WellFormed(a) && bid in a.orders
    ensures a.orders[bid].userId in a.users
    ensures var r := Refund(a, bid, price, fill);
            WellFormed(r) && BooksKept(a, r) && r.users.Keys == a.users.Keys && r.trades == a.trades && r.halts == a.halts
  {
    var r := Refund(a, bid, price, fill);
    var o := a.orders[bid];
    if price < o.price {
      var amount := (o.price - price) * fill;
      UpdateKeepsShapes(a.orders, bid, o.(reserveInfo := o.reserveInfo.(usdReserved := o.reserveInfo.usdReserved - amount)));
      ShapesKeepBooksOk(a.books, a.orders, r.orders);
      OwnersKeepOrdersOk(a.orders, r.orders, a.users.Keys);
      var u := a.users[o.userId];
      UpdateKeepsTokens(a.users, o.userId, u.(usd := u.usd + amount));
      TokensKeepUsersOk(a.users, r.users);
      assert r.books == a.books && r.halts == a.halts && r.trades == a.trades && r.pending == a.pending;
      assert SymbolsOk(r.books, r.halts) && TradesOk(r.users.Keys, r.trades, r.pending);
    }
  }

  /** The refund touches no order's static part and no setting of the agency. */
  lemma RefundKept(a: Agency, bid: OrderId, price: int, fill: int)
    requires bid in a.orders && a.orders[bid].userId in a.users
    ensures Kept(a, Refund(a, bid, price, fill))
  {
    var r := Refund(a, bid, price, fill);
    assert forall id :: id in a.orders ==> Static(r.orders[id]) == Static(a.orders[id]);
  }

  /** Replacing one order by one of the same shape keeps every order's shape. */
  lemma UpdateKeepsShapes(orders: map<OrderId, Order>, id: OrderId, o: Order)
    requires id in orders && Shape(o) == Shape(orders[id])
    ensures orders[id := o].Keys == orders.Keys
    ensures forall id' :: id' in orders ==> Shape(orders[id := o][id']) == Shape(orders[id'])
    ensures forall id' :: id' in orders ==> orders[id := o][id'].userId == orders[id'].userId
  {
  }

  /** Replacing one user by one with the same token keys keeps every user's token keys. */
  lemma UpdateKeepsTokens(users: map<UserId, User>, uid: UserId, u: User)
    requires uid in users && u.tokens.Keys == users[uid].tokens.Keys
    ensures users[uid := u].Keys == users.Keys
    ensures forall uid' :: uid' in users ==> users[uid := u][uid'].tokens.Keys == users[uid'].tokens.Keys
  {
  }

  /** `applyUserRiskSignals` on one user of the agency. */
  function Risk(a: Agency, uid: UserId, qty: int, price: int, now: int): (r: Agency)
    requires uid in a.users
    ensures r == a.(users := r.users) && r.users.Keys == a.users.Keys
  {
    a.(users := a.users[uid := ApplyRiskSignals(a.users[uid], qty, price, now)])
  }

  lemma RiskKeepsWellFormed(a: Agency, uid: UserId, qty: int, price: int, now: int)
    requires WellFormed(a) && uid in a.users
    ensures var r := Risk(a, uid, qty, price, now);
            WellFormed(r) && BooksKept(a, r) && r.users.Keys == a.users.Keys && r.trades == a.trades && r.halts == a.halts
  {
    var r := Risk(a, uid, qty, price, now);
    assert SameShape(a, r);
    SameShapeKeepsWellFormed(a, r);
  }

  lemma BreakerKeepsWellFormed(a: Agency, s: Symbol, price: int, now: int)
    requires WellFormed(a)
    ensures s in a.halts
    ensures var r := CircuitBreakerCheck(a, s, price, now);
            WellFormed(r) && BooksKept(a, r) && r.users == a.users && r.trades == a.trades
  {
    HeadsResting(a, s);
    var r := CircuitBreakerCheck(a, s, price, now);
    assert SameShape(a, r);
    SameShapeKeepsWellFormed(a, r);
  }

  lemma SettleKeepsWellFormed(a: Agency, i: nat, now: int)
    requires WellFormed(a) && i < |a.trades|
    ensures TradeParties(a.users, a.trades[i])
    ensures var r := SettleOrQueue(a, i, now);
            WellFormed(r) && BooksKept(a, r)
  {
    var t := a.trades[i];
    assert TradeIn(a.users.Keys, t);
    assert UserOk(a.users[t.buyerId]) && UserOk(a.users[t.sellerId]);
    var r := SettleOrQueue(a, i, now);
    forall j | 0 <= j < |a.trades| ensures Parties(r.trades[j]) == Parties(a.trades[j]) {
    }
    if a.mode == Instant {
      forall uid | uid in a.users ensures r.users[uid].tokens.Keys == a.users[uid].tokens.Keys {
        assert r.users[uid] == CreditUser(a.users[uid], uid, t);
      }
      TokensKeepUsersOk(a.users, r.users);
      PartiesKeepTradesOk(a.users.Keys, a.trades, r.trades, a.pending, r.pending);
    } else {
      forall j | 0 <= j < |r.pending| ensures r.pending[j] < |r.trades| {
        if j < |a.pending| {
          assert r.pending[j] == a.pending[j];
        }
      }
      PartiesKeepTradesOk(a.users.Keys, a.trades, r.trades, a.pending, r.pending);
    }
  }

  /** Recording a trade between two users of the agency keeps it well formed. */
  lemma RecordKeepsWellFormed(a: Agency, t: Trade)
    requires WellFormed(a) && TradeOk(a, t)
    ensures WellFormed(a.(trades := a.trades + [t])) && BooksKept(a, a.(trades := a.trades + [t]))
  {
    var trades := a.trades + [t];
    forall i | 0 <= i < |trades| ensures TradeIn(a.users.Keys, trades[i]) {
      if i < |a.trades| {
        assert trades[i] == a.trades[i];
      }
    }
  }

  /**
   * The fill of one head order: its remainder drops by `fill`, and when nothing
   * is left it becomes FILLED and leaves the book (`shift()`).
   */
  function Fill(a: Agency, s: Symbol, side: Side, fill: int): (r: Agency)
    requires s in a.books && Ids(a.books[s], side) != [] && Ids(a.books[s], side)[0] in a.orders
    ensures var head := Ids(a.books[s], side)[0];
            && r == a.(orders := r.orders, books := r.books)
            && r.orders.Keys == a.orders.Keys && r.books.Keys == a.books.Keys
            && (forall id :: id in a.orders && id != head ==> r.orders[id] == a.orders[id])
            && r.orders[head].remaining == a.orders[head].remaining - fill
            && r.orders[head] == a.orders[head].(remaining := r.orders[head].remaining, status := r.orders[head].status)
            && (r.orders[head].remaining == 0 ==> r.orders[head].status == Filled && r.books[s] == WithIds(a.books[s], side, Ids(a.books[s], side)[1..]))
            && (r.orders[head].remaining != 0 ==> r.orders[head].status == a.orders[head].status && r.books == a.books)
            && (forall t :: t in a.books && t != s ==> r.books[t] == a.books[t])
  {
    var ids := Ids(a.books[s], side);
    var o := a.orders[ids[0]].(remaining := a.orders[ids[0]].remaining - fill);
    if o.remaining == 0 then
      a.(orders := a.orders[ids[0] := o.(status := Filled)], books := a.books[s := WithIds(a.books[s], side, ids[1..])])
    else
      a.(orders := a.orders[ids[0] := o])
  }

  /** After a fill the head is `AfterFill` of itself; its side loses it when nothing is left of it, and the other side stays. */
  lemma FillHead(a: Agency, s: Symbol, side: Side, fill: int)
    requires s in a.books && Ids(a.books[s], side) != [] && Ids(a.books[s], side)[0] in a.orders
    ensures var ids := Ids(a.books[s], side);
            var r := Fill(a, s, side, fill);
            && r.orders[ids[0]] == AfterFill(a.orders[ids[0]], fill)
            && Ids(r.books[s], side) == (if a.orders[ids[0]].remaining == fill then ids[1..] else ids)
            && (side.Buy? ==> r.books[s].asks == a.books[s].asks)
            && (side.Sell? ==> r.books[s].bids == a.books[s].bids)
  {
  }

  /** A fill changes only the remainder and status of the head. */
  lemma FillKept(a: Agency, s: Symbol, side: Side, fill: int)
    requires s in a.books && Ids(a.books[s], side) != [] && Ids(a.books[s], side)[0] in a.orders
    ensures Kept(a, Fill(a, s, side, fill))
  {
  }

  /** The head of a side without duplicates does not occur again behind it. */
  lemma HeadNotInTail(ids: seq<OrderId>)
    requires ids != [] && NoDup(ids)
    ensures ids[0] !in ids[1..] && NoDup(ids[1..])
    ensures forall id :: id in ids[1..] ==> id in ids
  {
    assert ids == [ids[0]] + ids[1..];
    assert multiset(ids)[ids[0]] == 1 + multiset(ids[1..])[ids[0]];
    forall id ensures multiset(ids[1..])[id] <= 1 {
      assert multiset(ids)[id] == multiset([ids[0]])[id] + multiset(ids[1..])[id];
    }
  }

  /** Filling a head by less than its remainder keeps the agency well formed. */
  lemma PartialFillKeepsWellFormed(a: Agency, s: Symbol, side: Side, fill: int)
    requires WellFormed(a) && Ids(a.books[s], side) != []
    requires RestingOk(a, s, Ids(a.books[s], side)[0], side)
    requires 0 < fill < a.orders[Ids(a.books[s], side)[0]].remaining
    ensures WellFormed(Fill(a, s, side, fill))
  {
    var head := Ids(a.books[s], side)[0];
    var r := Fill(a, s, side, fill);
    OneOrderKeepsBooksOk(a.books, a.orders, r.orders, head);
    OwnersKeepOrdersOk(a.orders, r.orders, a.users.Keys);
  }

  /** Changing one order within the shape a book needs keeps the books valid. */
  lemma OneOrderKeepsBooksOk(books: map<Symbol, Book>, orders: map<OrderId, Order>, orders': map<OrderId, Order>, head: OrderId)
    requires BooksOk(books, orders) && orders'.Keys == orders.Keys && head in orders
    requires forall id :: id in orders && id != head ==> orders'[id] == orders[id]
    requires orders'[head] == orders[head].(remaining := orders'[head].remaining)
    requires 0 < orders'[head].remaining <= orders[head].remaining
    ensures BooksOk(books, orders')
  {
    forall s, id | s in books && id in books[s].bids ensures RestingIn(orders', s, id, Buy) {
      assert RestingIn(orders, s, id, Buy);
    }
    forall s, id | s in books && id in books[s].asks ensures RestingIn(orders', s, id, Sell) {
      assert RestingIn(orders, s, id, Sell);
    }
  }

  /** Filling a head completely takes it out of the book and keeps the agency well formed. */
  lemma CompleteFillKeepsWellFormed(a: Agency, s: Symbol, side: Side, fill: int)
    requires WellFormed(a) && Ids(a.books[s], side) != []
    requires RestingOk(a, s, Ids(a.books[s], side)[0], side)
    requires fill == a.orders[Ids(a.books[s], side)[0]].remaining
    ensures WellFormed(Fill(a, s, side, fill))
  {
    var ids := Ids(a.books[s], side);
    var r := Fill(a, s, side, fill);
    assert NoDup(ids);
    HeadNotInTail(ids);
    DropHeadKeepsBooksOk(a.books, a.orders, r.books, r.orders, s, side);
    OwnersKeepOrdersOk(a.orders, r.orders, a.users.Keys);
  }

  /** Taking the head out of one side and changing only that order keeps the books valid. */
  lemma DropHeadKeepsBooksOk(books: map<Symbol, Book>, orders: map<OrderId, Order>,
                             books': map<Symbol, Book>, orders': map<OrderId, Order>, s: Symbol, side: Side)
    requires BooksOk(books, orders) && s in books && Ids(books[s], side) != []
    requires var ids := Ids(books[s], side); ids[0] !in ids[1..] && NoDup(ids[1..])
    requires books'.Keys == books.Keys && (forall t :: t in books && t != s ==> books'[t] == books[t])
    requires books'[s] == WithIds(books[s], side, Ids(books[s], side)[1..])
    requires orders'.Keys == orders.Keys
    requires forall id :: id in orders && id != Ids(books[s], side)[0] ==> orders'[id] == orders[id]
    ensures BooksOk(books', orders')
  {
    var ids := Ids(books[s], side);
    assert ids[0] in Ids(books[s], side);
    assert RestingIn(orders, s, ids[0], side);
    forall t, id | t in books' && id in books'[t].bids ensures RestingIn(orders', t, id, Buy) {
      if t == s && side.Buy? {
        assert id in ids[1..];
      }
      assert RestingIn(orders, t, id, Buy);
      assert id != ids[0];
    }
    forall t, id | t in books' && id in books'[t].asks ensures RestingIn(orders', t, id, Sell) {
      if t == s && side.Sell? {
        assert id in ids[1..];
      }
      assert RestingIn(orders, t, id, Sell);
      assert id != ids[0];
    }
  }

  /** Filling a head by at most its remainder keeps the agency well formed. */
  lemma FillKeepsWellFormed(a: Agency, s: Symbol, side: Side, fill: int)
    requires WellFormed(a) && Ids(a.books[s], side) != []
    requires RestingOk(a, s, Ids(a.books[s], side)[0], side)
    requires 0 < fill <= a.orders[Ids(a.books[s], side)[0]].remaining
    ensures WellFormed(Fill(a, s, side, fill))
  {
    if fill == a.orders[Ids(a.books[s], side)[0]].remaining {
      CompleteFillKeepsWellFormed(a, s, side, fill);
    } else {
      PartialFillKeepsWellFormed(a, s, side, fill);
    }
  }

  /** `sortBooks` on the symbol's book. */
  function SortBook(a: Agency, s: Symbol): (r: Agency)
    requires s in a.books && Known(a.orders, a.books[s].bids) && Known(a.orders, a.books[s].asks)
    ensures r == a.(books := r.books) && r.books.Keys == a.books.Keys
    ensures forall t :: t in a.books && t != s ==> r.books[t] == a.books[t]
    ensures Known(a.orders, r.books[s].bids) && Sorted(Buy, a.orders, r.books[s].bids)
    ensures Known(a.orders, r.books[s].asks) && Sorted(Sell, a.orders, r.books[s].asks)
    ensures multiset(r.books[s].bids) == multiset(a.books[s].bids)
    ensures multiset(r.books[s].asks) == multiset(a.books[s].asks)
    ensures |r.books[s].bids| == |a.books[s].bids| && |r.books[s].asks| == |a.books[s].asks|
  {
    var b := a.books[s];
    a.(books := a.books[s := Book(Sort(Buy, a.orders, b.bids), Sort(Sell, a.orders, b.asks))])
  }

  /** The ids of a well-formed book all resolve to orders. */
  lemma BookKnown(a: Agency, s: Symbol)
    requires WellFormed(a)
    ensures s in a.books && Known(a.orders, a.books[s].bids) && Known(a.orders, a.books[s].asks)
  {
    forall i | 0 <= i < |a.books[s].bids| ensures a.books[s].bids[i] in a.orders {
      assert RestingOk(a, s, a.books[s].bids[i], Buy);
    }
    forall i | 0 <= i < |a.books[s].asks| ensures a.books[s].asks[i] in a.orders {
      assert RestingOk(a, s, a.books[s].asks[i], Sell);
    }
  }

  /** Sorting permutes the book, so a well-formed agency stays well formed. */
  lemma SortKeepsWellFormed(a: Agency, s: Symbol)
    requires WellFormed(a)
    ensures s in a.books && Known(a.orders, a.books[s].bids) && Known(a.orders, a.books[s].asks)
    ensures WellFormed(SortBook(a, s))
  {
    BookKnown(a, s);
    var r := SortBook(a, s);
    assert r.books == a.books[s := r.books[s]];
    PermutedBookOk(a.books, a.orders, s, r.books[s]);
    assert SymbolsOk(r.books, r.halts);
  }

  /** Replacing a book by a permutation of each of its sides keeps the books resolvable and free of duplicates. */
  lemma PermutedBookOk(books: map<Symbol, Book>, orders: map<OrderId, Order>, s: Symbol, nb: Book)
    requires BooksOk(books, orders) && s in books
    requires multiset(nb.bids) == multiset(books[s].bids) && multiset(nb.asks) == multiset(books[s].asks)
    ensures BooksOk(books[s := nb], orders)
  {
    var r := books[s := nb];
    forall t, id | t in r && id in r[t].bids ensures RestingIn(orders, t, id, Buy) {
      assert id in multiset(r[t].bids);
    }
    forall t, id | t in r && id in r[t].asks ensures RestingIn(orders, t, id, Sell) {
      assert id in multiset(r[t].asks);
    }
  }

  /** The trade the two heads make: the maker's price and the smaller remainder. */
  function HeadTrade(a: Agency, s: Symbol, now: int, tseq: nat): (t: Trade)
    requires WellFormed(a) && Crossed(a, s)
  {
    HeadsResting(a, s);
    var bid := a.orders[a.books[s].bids[0]];
    var ask := a.orders[a.books[s].asks[0]];
    var price := if bid.ts <= ask.ts then bid.price else ask.price;
    Trade(tseq, now, a.id, s, Min(bid.remaining, ask.remaining), price, bid.userId, ask.userId, Matched, None)
  }

  /** The books and the book-relevant fields of every order are as they were. */
  ghost predicate BooksKept(a: Agency, r: Agency) {
    && r.books == a.books
    && r.orders.Keys == a.orders.Keys
    && (forall id :: id in a.orders ==> Shape(r.orders[id]) == Shape(a.orders[id]))
  }

  /**
   * The part of a step before the trade is recorded: price-improvement refund,
   * then the signals of the trade.
   */
  function PreTrade(a: Agency, s: Symbol, bidId: OrderId, t: Trade, now: int): (r: Agency)
    requires WellFormed(a) && bidId in a.orders && TradeOk(a, t) && a.orders[bidId].userId == t.buyerId
    ensures WellFormed(r) && BooksKept(a, r) && Kept(a, r)
    ensures r.trades == a.trades && r.pending == a.pending && r.users.Keys == a.users.Keys
    ensures s in a.halts && r.halts == CircuitBreakerCheck(a, s, t.price, now).halts
  {
    RefundKeepsWellFormed(a, bidId, t.price, t.qty);
    var a1 := Refund(a, bidId, t.price, t.qty);
    RefundKept(a, bidId, t.price, t.qty);
    BreakerSeesOnlyHalts(a, a1, s, t.price, now);
    var r := Signals(a1, s, t, now);
    KeptTrans(a, a1, r);
    r
  }

  /** What `PreTrade` does to the users and to the orders: the buyer's refund comes out of its bid. */
  lemma PreTradeRefunds(a: Agency, s: Symbol, bidId: OrderId, t: Trade, now: int)
    requires WellFormed(a) && bidId in a.orders && TradeOk(a, t) && a.orders[bidId].userId == t.buyerId
    ensures var r := PreTrade(a, s, bidId, t, now);
            var refund := Improvement(a.orders[bidId].price, t.price, t.qty);
            && Refunded(a.users, r.users, t, refund, now)
            && r.orders[bidId] == Drawn(a.orders[bidId], refund)
            && forall id :: id in a.orders && id != bidId ==> r.orders[id] == a.orders[id]
  {
    RefundKeepsWellFormed(a, bidId, t.price, t.qty);
    var a1 := Refund(a, bidId, t.price, t.qty);
    var r := Signals(a1, s, t, now);
    assert r == PreTrade(a, s, bidId, t, now);
    RefundedSignalled(a.users, a1.users, r.users, t, Improvement(a.orders[bidId].price, t.price, t.qty), now);
  }

  /** Every user after the buyer's refund and the signals of trade `t`. */
  ghost predicate Refunded(users: map<UserId, User>, users': map<UserId, User>, t: Trade, refund: int, now: int) {
    && users'.Keys == users.Keys
    && forall uid :: uid in users ==>
         users'[uid] == Signalled(users[uid], uid, t, now).(usd := users[uid].usd + (if uid == t.buyerId then refund else 0))
  }

  /** Every user after trade `t` is settled, or left for later when `instant` is false. */
  ghost predicate Credited(users: map<UserId, User>, users': map<UserId, User>, t: Trade, instant: bool) {
    && users'.Keys == users.Keys
    && forall uid :: uid in users ==>
         && (uid == t.buyerId ==> t.symbol in users[uid].tokens)
         && users'[uid] == (if instant then CreditUser(users[uid], uid, t) else users[uid])
  }

  /** The refund goes to the buyer, and the signals that follow read no balance. */
  lemma RefundedSignalled(users: map<UserId, User>, users1: map<UserId, User>, users2: map<UserId, User>,
                          t: Trade, refund: int, now: int)
    requires users1.Keys == users.Keys && users2.Keys == users.Keys
    requires forall uid :: uid in users ==> users1[uid] == users[uid].(usd := users[uid].usd + (if uid == t.buyerId then refund else 0))
    requires forall uid :: uid in users1 ==> users2[uid] == Signalled(users1[uid], uid, t, now)
    ensures Refunded(users, users2, t, refund, now)
  {
    forall uid | uid in users
      ensures users2[uid] == Signalled(users[uid], uid, t, now).(usd := users[uid].usd + (if uid == t.buyerId then refund else 0))
    {
      var u, cash := users[uid], users[uid].usd + (if uid == t.buyerId then refund else 0);
      assert users1[uid] == u.(usd := cash);
      SignalledIgnoresCash(u, uid, t, now, cash);
    }
  }

  /** Risk signals of buyer then seller, then the circuit breaker on the trade price. */
  function Signals(a: Agency, s: Symbol, t: Trade, now: int): (r: Agency)
    requires WellFormed(a) && TradeOk(a, t)
    ensures WellFormed(r) && BooksKept(a, r) && r == a.(users := r.users, halts := r.halts)
    ensures r.trades == a.trades && r.users.Keys == a.users.Keys
    ensures s in a.halts && r.halts == CircuitBreakerCheck(a, s, t.price, now).halts
    ensures forall uid :: uid in a.users ==> r.users[uid] == Signalled(a.users[uid], uid, t, now)
  {
    RiskKeepsWellFormed(a, t.buyerId, t.qty, t.price, now);
    var a1 := Risk(a, t.buyerId, t.qty, t.price, now);
    RiskKeepsWellFormed(a1, t.sellerId, t.qty, t.price, now);
    var a2 := Risk(a1, t.sellerId, t.qty, t.price, now);
    BreakerKeepsWellFormed(a2, s, t.price, now);
    BreakerSeesOnlyHalts(a, a2, s, t.price, now);
    CircuitBreakerCheck(a2, s, t.price, now)
  }

  /** The circuit breaker reads only the halts and its two parameters. */
  lemma BreakerSeesOnlyHalts(a: Agency, a': Agency, s: Symbol, price: int, now: int)
    requires s in a.halts && a'.halts == a.halts && a'.cbPct == a.cbPct && a'.cbHaltSeconds == a.cbHaltSeconds
    ensures CircuitBreakerCheck(a', s, price, now).halts == CircuitBreakerCheck(a, s, price, now).halts
  {
  }

  /** `a.trades.push(trade)` followed by `settleOrQueue`. */
  function RecordAndSettle(a: Agency, t: Trade, now: int): (r: Agency)
    requires WellFormed(a) && TradeOk(a, t)
    ensures WellFormed(r) && BooksKept(a, r) && r.orders == a.orders && r.halts == a.halts && r.users.Keys == a.users.Keys
    ensures Kept(a, r)
    ensures |r.trades| == |a.trades| + 1 && a.trades <= r.trades
    ensures r.trades[|a.trades|] == t.(status := r.trades[|a.trades|].status, settleAt := r.trades[|a.trades|].settleAt)
    ensures r.trades == a.trades + [Stamp(t, a.mode, a.tPlusDelaySeconds, now)]
    ensures r.pending == a.pending + (if a.mode == Instant then [] else [|a.trades|])
    ensures Credited(a.users, r.users, t, a.mode == Instant)
  {
    RecordKeepsWellFormed(a, t);
    var a' := a.(trades := a.trades + [t]);
    SettleKeepsWellFormed(a', |a.trades|, now);
    var r := SettleOrQueue(a', |a.trades|, now);
    assert r.trades == a.trades + [Stamp(t, a.mode, a.tPlusDelaySeconds, now)] by {
      forall j | 0 <= j < |a.trades| ensures r.trades[j] == a.trades[j] {
        assert r.trades[j] == a'.trades[j];
      }
    }
    r
  }

  /** Everything a step does before the fills. */
  function Execute(a: Agency, s: Symbol, bidId: OrderId, t: Trade, now: int): (r: Agency)
    requires WellFormed(a) && bidId in a.orders && TradeOk(a, t) && a.orders[bidId].userId == t.buyerId
    ensures WellFormed(r) && BooksKept(a, r) && r.users.Keys == a.users.Keys && Kept(a, r)
    ensures s in a.halts && r.halts == CircuitBreakerCheck(a, s, t.price, now).halts
    ensures |r.trades| == |a.trades| + 1 && a.trades <= r.trades
    ensures r.trades == a.trades + [Stamp(t, a.mode, a.tPlusDelaySeconds, now)]
    ensures r.pending == a.pending + (if a.mode == Instant then [] else [|a.trades|])
    ensures StepUsers(a.users, r.users, t, Improvement(a.orders[bidId].price, t.price, t.qty), a.mode == Instant, now)
    ensures r.orders[bidId] == Drawn(a.orders[bidId], Improvement(a.orders[bidId].price, t.price, t.qty))
    ensures forall id :: id in a.orders && id != bidId ==> r.orders[id] == a.orders[id]
  {
    var a1 := PreTrade(a, s, bidId, t, now);
    PreTradeRefunds(a, s, bidId, t, now);
    var r := RecordAndSettle(a1, t, now);
    KeptTrans(a, a1, r);
    ExecutePays(a.users, a1.users, r.users, t, Improvement(a.orders[bidId].price, t.price, t.qty), a.mode == Instant, now);
    r
  }

  /** The users after the refund and signals, then the settlement, are paid as `StepUsers` says. */
  lemma ExecutePays(users: map<UserId, User>, users1: map<UserId, User>, users2: map<UserId, User>,
                    t: Trade, refund: int, instant: bool, now: int)
    requires Refunded(users, users1, t, refund, now) && Credited(users1, users2, t, instant)
    ensures StepUsers(users, users2, t, refund, instant, now)
  {
    forall uid | uid in users ensures Paid(users[uid], users2[uid], uid, t, refund, instant, now) {
      var u, u1 := users[uid], users1[uid];
      assert u1 == Signalled(u, uid, t, now).(usd := u.usd + (if uid == t.buyerId then refund else 0));
      assert users2[uid] == (if instant then CreditUser(u1, uid, t) else u1);
      PaidByParts(u, uid, t, refund, instant, now);
    }
  }

  /** The two heads' trade is a valid trade of the agency that fills at most each head's remainder. */
  lemma HeadTradeOk(a: Agency, s: Symbol, now: int, tseq: nat)
    requires WellFormed(a) && Crossed(a, s)
    ensures s in a.books && a.books[s].bids != [] && a.books[s].asks != []
    ensures a.books[s].bids[0] in a.orders && a.books[s].asks[0] in a.orders
    ensures var t := HeadTrade(a, s, now, tseq);
            && TradeOk(a, t)
            && 0 < t.qty <= a.orders[a.books[s].bids[0]].remaining
            && t.qty <= a.orders[a.books[s].asks[0]].remaining
            && (t.qty == a.orders[a.books[s].bids[0]].remaining || t.qty == a.orders[a.books[s].asks[0]].remaining)
            && a.books[s].bids[0] != a.books[s].asks[0]
  {
    HeadsResting(a, s);
  }

  /** Both heads filled by the trade quantity: the bid first, then the ask. */
  function FillBoth(a: Agency, s: Symbol, fill: int): (r: Agency)
    requires WellFormed(a) && a.books[s].bids != [] && a.books[s].asks != []
    requires a.books[s].bids[0] != a.books[s].asks[0]
    requires RestingOk(a, s, a.books[s].bids[0], Buy) && RestingOk(a, s, a.books[s].asks[0], Sell)
    requires 0 < fill <= a.orders[a.books[s].bids[0]].remaining && fill <= a.orders[a.books[s].asks[0]].remaining
    requires fill == a.orders[a.books[s].bids[0]].remaining || fill == a.orders[a.books[s].asks[0]].remaining
    ensures WellFormed(r) && Kept(a, r)
    ensures r == a.(books := r.books, orders := r.orders) && r.orders.Keys == a.orders.Keys
    ensures r.books.Keys == a.books.Keys && forall t :: t in a.books && t != s ==> r.books[t] == a.books[t]
    ensures |r.books[s].bids| + |r.books[s].asks| < |a.books[s].bids| + |a.books[s].asks|
    ensures var bidId, askId := a.books[s].bids[0], a.books[s].asks[0];
            && r.orders[bidId] == AfterFill(a.orders[bidId], fill) && r.orders[askId] == AfterFill(a.orders[askId], fill)
            && (forall id :: id in a.orders && id != bidId && id != askId ==> r.orders[id] == a.orders[id])
            && r.books[s].bids == (if a.orders[bidId].remaining == fill then a.books[s].bids[1..] else a.books[s].bids)
            && r.books[s].asks == (if a.orders[askId].remaining == fill then a.books[s].asks[1..] else a.books[s].asks)
  {
    var bidId, askId := a.books[s].bids[0], a.books[s].asks[0];
    FillKeepsWellFormed(a, s, Buy, fill);
    var a1 := Fill(a, s, Buy, fill);
    FillHead(a, s, Buy, fill);
    FillKept(a, s, Buy, fill);
    assert a1.books[s].asks == a.books[s].asks && a1.orders[askId] == a.orders[askId];
    FillKeepsWellFormed(a1, s, Sell, fill);
    var r := Fill(a1, s, Sell, fill);
    FillHead(a1, s, Sell, fill);
    FillKept(a1, s, Sell, fill);
    assert r.books[s].bids == a1.books[s].bids && r.orders[bidId] == a1.orders[bidId];
    KeptTrans(a, a1, r);
    r
  }

  /**
   * One iteration of the matching loop, without the halt test that ends it: the
   * two heads trade at the maker's price for the smaller remainder, the refund,
   * risk signals and circuit breaker follow, the trade is recorded and settled
   * or queued, both heads are filled and the book is sorted again.
   */
  function Step(a: Agency, s: Symbol, now: int, tseq: nat): (r: Agency)
    requires WellFormed(a) && Crossed(a, s)
    ensures WellFormed(r)
    ensures r.books.Keys == a.books.Keys && forall t :: t in a.books && t != s ==> r.books[t] == a.books[t]
    ensures |r.books[s].bids| + |r.books[s].asks| < |a.books[s].bids| + |a.books[s].asks|
    ensures r.users.Keys == a.users.Keys && Kept(a, r)
    ensures var t := HeadTrade(a, s, now, tseq);
            && r.halts == CircuitBreakerCheck(a, s, t.price, now).halts
            && |r.trades| == |a.trades| + 1 && a.trades <= r.trades
            && r.trades[|a.trades|] == t.(status := r.trades[|a.trades|].status, settleAt := r.trades[|a.trades|].settleAt)
  {
    HeadsResting(a, s);
    HeadTradeOk(a, s, now, tseq);
    var t := HeadTrade(a, s, now, tseq);
    var r1 := Execute(a, s, a.books[s].bids[0], t, now);
    assert r1.books == a.books;
    HeadsResting(r1, s);
    var r2 := FillBoth(r1, s, t.qty);
    KeptTrans(a, r1, r2);
    SortKeepsWellFormed(r2, s);
    var r := SortBook(r2, s);
    KeptTrans(a, r2, r);
    r
  }

  /** `Step` does what `Stepped` says: the whole effect of one trade of the two heads. */
  lemma StepIsStepped(a: Agency, s: Symbol, now: int, tseq: nat)
    requires WellFormed(a) && Crossed(a, s)
    ensures Stepped(a, s, now, tseq, Step(a, s, now, tseq))
  {
    StepLedger(a, s, now, tseq);
    StepFills(a, s, now, tseq);
    StepSorts(a, s, now, tseq);
  }

  /**
   * The half of `Stepped` about the settings, the accounts, the trade log and
   * the halts: what `Execute` leaves, since the fills and the sort change only
   * orders and books.
   */
  lemma StepLedger(a: Agency, s: Symbol, now: int, tseq: nat)
    requires WellFormed(a) && Crossed(a, s)
    ensures (HeadsResting(a, s);
             var r := Step(a, s, now, tseq);
             var t := HeadTrade(a, s, now, tseq);
             var refund := Improvement(a.orders[a.books[s].bids[0]].price, t.price, t.qty);
             && r.id == a.id && r.name == a.name && r.mode == a.mode && r.tPlusDelaySeconds == a.tPlusDelaySeconds
             && r.cbPct == a.cbPct && r.cbHaltSeconds == a.cbHaltSeconds
             && StepUsers(a.users, r.users, t, refund, a.mode == Instant, now)
             && r.trades == a.trades + [Stamp(t, a.mode, a.tPlusDelaySeconds, now)]
             && r.pending == a.pending + (if a.mode == Instant then [] else [|a.trades|])
             && r.halts == CircuitBreakerCheck(a, s, t.price, now).halts)
  {
    HeadsResting(a, s);
    HeadTradeOk(a, s, now, tseq);
    var t := HeadTrade(a, s, now, tseq);
    var bidId := a.books[s].bids[0];
    var r1 := Execute(a, s, bidId, t, now);
    assert r1.books == a.books;
    HeadsResting(r1, s);
    var r2 := FillBoth(r1, s, t.qty);
    SortKeepsWellFormed(r2, s);
    assert SortBook(r2, s) == Step(a, s, now, tseq);
  }

  /** The part of `Stepped` about the orders: the bid drawn by the refund, both heads filled, every other order as it was. */
  lemma StepFills(a: Agency, s: Symbol, now: int, tseq: nat)
    requires WellFormed(a) && Crossed(a, s)
    ensures (HeadsResting(a, s);
             var t := HeadTrade(a, s, now, tseq);
             var bidId := a.books[s].bids[0];
             StepOrders(a.orders, Step(a, s, now, tseq).orders, bidId, a.books[s].asks[0], t.qty,
                        Improvement(a.orders[bidId].price, t.price, t.qty)))
  {
    HeadsResting(a, s);
    HeadTradeOk(a, s, now, tseq);
    var t := HeadTrade(a, s, now, tseq);
    var bidId, askId := a.books[s].bids[0], a.books[s].asks[0];
    var r1 := Execute(a, s, bidId, t, now);
    assert r1.books == a.books;
    HeadsResting(r1, s);
    var r2 := FillBoth(r1, s, t.qty);
    SortKeepsWellFormed(r2, s);
    assert SortBook(r2, s) == Step(a, s, now, tseq);
    StepOrdersCompose(a.orders, r1.orders, r2.orders, bidId, askId, t.qty, Improvement(a.orders[bidId].price, t.price, t.qty));
  }

  /** The part of `Stepped` about the book: the exhausted heads gone and both sides in priority order. */
  lemma StepSorts(a: Agency, s: Symbol, now: int, tseq: nat)
    requires WellFormed(a) && Crossed(a, s)
    ensures (HeadsResting(a, s);
             var r := Step(a, s, now, tseq);
             StepBooks(a.books, r.books, r.orders, s, a.books[s].bids[0], a.books[s].asks[0]))
  {
    HeadsResting(a, s);
    HeadTradeOk(a, s, now, tseq);
    var t := HeadTrade(a, s, now, tseq);
    var bidId, askId := a.books[s].bids[0], a.books[s].asks[0];
    var r1 := Execute(a, s, bidId, t, now);
    assert r1.books == a.books;
    HeadsResting(r1, s);
    var r2 := FillBoth(r1, s, t.qty);
    SortKeepsWellFormed(r2, s);
    var r := SortBook(r2, s);
    assert r == Step(a, s, now, tseq);
    StepBooksCompose(a.books, r2.books, r.books, r.orders, s, bidId, askId, t.qty,
                     a.orders[bidId].remaining, a.orders[askId].remaining);
  }

  /** The refund on the bid followed by the fills of both heads changes the orders as `StepOrders` says. */
  lemma StepOrdersCompose(orders: map<OrderId, Order>, orders1: map<OrderId, Order>, orders2: map<OrderId, Order>,
                          bidId: OrderId, askId: OrderId, fill: int, refund: int)
    requires bidId in orders && askId in orders && bidId != askId
    requires orders1.Keys == orders.Keys && orders2.Keys == orders.Keys
    requires orders1[bidId] == Drawn(orders[bidId], refund)
    requires forall id :: id in orders && id != bidId ==> orders1[id] == orders[id]
    requires orders2[bidId] == AfterFill(orders1[bidId], fill) && orders2[askId] == AfterFill(orders1[askId], fill)
    requires forall id :: id in orders1 && id != bidId && id != askId ==> orders2[id] == orders1[id]
    ensures StepOrders(orders, orders2, bidId, askId, fill, refund)
  {
  }

  /**
   * Dropping each exhausted head, then sorting, leaves each side of the book
   * without exactly the exhausted heads.
   */
  lemma StepBooksCompose(books: map<Symbol, Book>, books2: map<Symbol, Book>, books3: map<Symbol, Book>,
                         orders: map<OrderId, Order>, s: Symbol, bidId: OrderId, askId: OrderId,
                         fill: int, bidLeft: int, askLeft: int)
    requires s in books && books[s].bids != [] && books[s].asks != []
    requires bidId == books[s].bids[0] && askId == books[s].asks[0] && bidId in orders && askId in orders
    requires orders[bidId].remaining == bidLeft - fill && orders[askId].remaining == askLeft - fill
    requires books2.Keys == books.Keys && books3.Keys == books.Keys
    requires forall x :: x in books && x != s ==> books2[x] == books[x]
    requires forall x :: x in books && x != s ==> books3[x] == books2[x]
    requires books2[s].bids == (if bidLeft == fill then books[s].bids[1..] else books[s].bids)
    requires books2[s].asks == (if askLeft == fill then books[s].asks[1..] else books[s].asks)
    requires multiset(books3[s].bids) == multiset(books2[s].bids) && multiset(books3[s].asks) == multiset(books2[s].asks)
    requires Known(orders, books3[s].bids) && Sorted(Buy, orders, books3[s].bids)
    requires Known(orders, books3[s].asks) && Sorted(Sell, orders, books3[s].asks)
    ensures StepBooks(books, books3, orders, s, bidId, askId)
  {
    DropHead(books[s].bids);
    DropHead(books[s].asks);
  }

  /** Taking the head off a sequence takes one copy of it out of the multiset. */
  lemma DropHead(ids: seq<OrderId>)
    requires ids != []
    ensures multiset(ids[1..]) == multiset(ids) - multiset{ids[0]}
  {
    assert ids == [ids[0]] + ids[1..];
  }

  /** How many orders rest on the two sides of the symbol's book. */
  function BookSize(a: Agency, s: Symbol): nat {
    if s in a.books then |a.books[s].bids| + |a.books[s].asks| else 0
  }

  /** A trade the `match` loop recorded for `s` at `now`: of positive size and price. */
  ghost predicate MatchedAt(t: Trade, s: Symbol, now: int) {
    t.symbol == s && t.ts == now && t.qty > 0 && t.price > 0
  }

  /** From position `from` on, `trades` holds trades of `s` at `now`, numbered on from `tseq`. */
  ghost predicate Logged(trades: seq<Trade>, from: nat, tseq: nat, s: Symbol, now: int) {
    forall i :: from <= i < |trades| ==> trades[i].tradeId == tseq + (i - from) && MatchedAt(trades[i], s, now)
  }

  lemma LoggedSnoc(trades: seq<Trade>, trades': seq<Trade>, from: nat, tseq: nat, n: nat, s: Symbol, now: int)
    requires Logged(trades, from, tseq, s, now) && from <= |trades| && n == tseq + (|trades| - from)
    requires trades <= trades' && |trades'| == |trades| + 1
    requires trades'[|trades|].tradeId == n && MatchedAt(trades'[|trades|], s, now)
    ensures Logged(trades', from, tseq, s, now)
  {
  }

  /** Going from `a` to `r` keeps an agency solvent, keeps its users and takes nothing from any of them. */
  ghost predicate Safe(a: Agency, r: Agency) {
    && (Solvent(a) ==> Solvent(r))
    && r.users.Keys == a.users.Keys
    && forall uid :: uid in a.users ==> NoLess(a.users[uid], r.users[uid])
  }

  lemma SafeTrans(a: Agency, b: Agency, c: Agency)
    requires Safe(a, b) && Safe(b, c)
    ensures Safe(a, c)
  {
  }

  /** One step records trade `tseq`, a trade of `s` at `now`. */
  lemma StepRecords(a: Agency, s: Symbol, now: int, tseq: nat)
    requires WellFormed(a) && Crossed(a, s)
    ensures var r := Step(a, s, now, tseq);
            r.trades[|a.trades|].tradeId == tseq && MatchedAt(r.trades[|a.trades|], s, now)
  {
    StepIsStepped(a, s, now, tseq);
    HeadTradeOk(a, s, now, tseq);
  }

  /** One step is `Safe`. */
  lemma StepSafe(a: Agency, s: Symbol, now: int, tseq: nat)
    requires WellFormed(a) && Crossed(a, s)
    ensures Safe(a, Step(a, s, now, tseq))
  {
    StepOnlyCredits(a, s, now, tseq);
    if Solvent(a) {
      StepKeepsSolvent(a, s, now, tseq);
    }
  }

  /** A step shrinks the book and leaves the symbol's halt record in place. */
  lemma StepShrinks(a: Agency, s: Symbol, now: int, tseq: nat)
    requires WellFormed(a) && Crossed(a, s)
    ensures var r := Step(a, s, now, tseq); WellFormed(r) && s in r.halts && BookSize(r, s) < BookSize(a, s)
  {
    HeadsResting(Step(a, s, now, tseq), s);
  }

  /**
   * What `match` computes, as a recursion: while the book is crossed, one
   * `Step` (`AfterStep`), stopping right after a step that halted the symbol
   * (`stepped` says a step was made, so the halt seen is one this run may
   * have caused). The result is the agency afterwards and the next trade number.
   */
  ghost function MatchOutcome(a: Agency, s: Symbol, now: int, tseq: nat, stepped: bool): (Agency, nat)
    requires WellFormed(a) && (stepped ==> s in a.halts)
    decreases BookSize(a, s), 1
  {
    if !Crossed(a, s) || (stepped && Halted(a, s, now)) then (a, tseq)
    else AfterStep(a, s, now, tseq)
  }

  /** Trade the heads of a crossed book once, then carry on matching. */
  ghost function AfterStep(a: Agency, s: Symbol, now: int, tseq: nat): (Agency, nat)
    requires WellFormed(a) && Crossed(a, s)
    decreases BookSize(a, s), 0
  {
    StepShrinks(a, s, now, tseq);
    MatchOutcome(Step(a, s, now, tseq), s, now, tseq + 1, true)
  }

  /** What `match` computes: sort the book, then `MatchOutcome` from no step made. */
  ghost function MatchResult(a: Agency, s: Symbol, now: int, tseq: nat): (Agency, nat)
    requires WellFormed(a)
  {
    SortKeepsWellFormed(a, s);
    MatchOutcome(SortBook(a, s), s, now, tseq, false)
  }

  /** A crossed book not halted by an earlier step of this run takes one more `Step`. */
  lemma OutcomeSteps(a: Agency, s: Symbol, now: int, tseq: nat, stepped: bool)
    requires WellFormed(a) && Crossed(a, s) && (stepped ==> s in a.halts && !Halted(a, s, now))
    ensures MatchOutcome(a, s, now, tseq, stepped) == AfterStep(a, s, now, tseq)
  {
  }

  /** `AfterStep` is matching on from the stepped book. */
  lemma AfterStepUnfolds(a: Agency, s: Symbol, now: int, tseq: nat)
    requires WellFormed(a) && Crossed(a, s)
    ensures AfterStep(a, s, now, tseq) == MatchOutcome(Step(a, s, now, tseq), s, now, tseq + 1, true)
  {
  }

  /** A book that is not crossed, or that a step of this run halted, is where the recursion stops. */
  lemma OutcomeStops(a: Agency, s: Symbol, now: int, tseq: nat, stepped: bool)
    requires WellFormed(a) && (stepped ==> s in a.halts)
    requires !Crossed(a, s) || (stepped && Halted(a, s, now))
    ensures MatchOutcome(a, s, now, tseq, stepped) == (a, tseq)
  {
  }

  /** One pass of the `match` loop: `Step`, one trade (`OneTrade`), whose whole effect `StepIsStepped` states. */
  method TradeHeads(a: Agency, s: Symbol, now: int, tseq: nat) returns (r: Agency)
    requires WellFormed(a) && Crossed(a, s)
    ensures r == Step(a, s, now, tseq) && OneTrade(a, r, s, now, tseq)
  {
    r := Step(a, s, now, tseq);
    StepOneTrade(a, s, now, tseq);
  }

  /**
   * What `match` promises of its result `r`, `t` from `a`: the trades made
   * are positive trades of `s` at `now` numbered on from `tseq`, one per
   * trade number used; only the book of `s` changes; the agency stays
   * solvent and nobody holds less; and the book is left uncrossed or halted.
   */
  ghost predicate MatchFacts(a: Agency, r: Agency, t: nat, s: Symbol, now: int, tseq: nat) {
    && WellFormed(r) && s in r.halts && (!Crossed(r, s) || Halted(r, s, now))
    && t >= tseq && |r.trades| == |a.trades| + (t - tseq) && a.trades <= r.trades
    && Logged(r.trades, |a.trades|, tseq, s, now)
    && r.books.Keys == a.books.Keys && (forall u :: u in a.books && u != s ==> r.books[u] == a.books[u])
    && Kept(a, r) && Safe(a, r)
  }

  /** The trades of a run after one more trade in front: numbered on from `tseq`, all of `s` at `now`. */
  lemma TradesCons(a: Agency, a': Agency, r: Agency, t: nat, s: Symbol, now: int, tseq: nat)
    requires t >= tseq + 1 && |r.trades| == |a'.trades| + (t - (tseq + 1)) && a'.trades <= r.trades
    requires Logged(r.trades, |a'.trades|, tseq + 1, s, now)
    requires |a'.trades| == |a.trades| + 1 && a.trades <= a'.trades
    requires a'.trades[|a.trades|].tradeId == tseq && MatchedAt(a'.trades[|a.trades|], s, now)
    ensures t >= tseq && |r.trades| == |a.trades| + (t - tseq) && a.trades <= r.trades
    ensures Logged(r.trades, |a.trades|, tseq, s, now)
  {
    assert r.trades[|a.trades|] == a'.trades[|a.trades|];
  }

  /** `Kept` and `Safe` compose. */
  lemma KeptSafeTrans(a: Agency, a': Agency, r: Agency)
    requires Kept(a, a') && Safe(a, a') && Kept(a', r) && Safe(a', r)
    ensures Kept(a, r) && Safe(a, r)
  {
    KeptTrans(a, a', r);
    SafeTrans(a, a', r);
  }

  /** Leaving every book but that of `s` alone composes. */
  lemma BooksTrans(a: Agency, a': Agency, r: Agency, s: Symbol)
    requires a'.books.Keys == a.books.Keys && (forall u :: u in a.books && u != s ==> a'.books[u] == a.books[u])
    requires r.books.Keys == a'.books.Keys && (forall u :: u in a'.books && u != s ==> r.books[u] == a'.books[u])
    ensures r.books.Keys == a.books.Keys && (forall u :: u in a.books && u != s ==> r.books[u] == a.books[u])
  {
  }

  /** `a'` is `a` after one trade of `s` at `now` numbered `tseq`: what the loop keeps of a `Step`. */
  ghost predicate OneTrade(a: Agency, a': Agency, s: Symbol, now: int, tseq: nat) {
    && a'.books.Keys == a.books.Keys && (forall u :: u in a.books && u != s ==> a'.books[u] == a.books[u])
    && Kept(a, a') && Safe(a, a') && |a'.trades| == |a.trades| + 1 && a.trades <= a'.trades
    && a'.trades[|a.trades|].tradeId == tseq && MatchedAt(a'.trades[|a.trades|], s, now)
  }

  /** A `Step` is one trade. */
  lemma StepOneTrade(a: Agency, s: Symbol, now: int, tseq: nat)
    requires WellFormed(a) && Crossed(a, s)
    ensures OneTrade(a, Step(a, s, now, tseq), s, now, tseq)
  {
    StepRecords(a, s, now, tseq);
    StepSafe(a, s, now, tseq);
  }

  /** One more trade in front of a run that meets `MatchFacts` gives a run that meets it. */
  lemma FactsCons(a: Agency, a': Agency, r: Agency, t: nat, s: Symbol, now: int, tseq: nat)
    requires WellFormed(a) && MatchFacts(a', r, t, s, now, tseq + 1) && OneTrade(a, a', s, now, tseq)
    ensures MatchFacts(a, r, t, s, now, tseq)
  {
    TradesCons(a, a', r, t, s, now, tseq);
    KeptSafeTrans(a, a', r);
    BooksTrans(a, a', r, s);
  }

  /** Stopping at once meets `MatchFacts`. */
  lemma StopFacts(a: Agency, s: Symbol, now: int, tseq: nat)
    requires WellFormed(a) && s in a.halts && (!Crossed(a, s) || Halted(a, s, now))
    ensures MatchFacts(a, a, tseq, s, now, tseq)
  {
  }

  /** Sorting the book of `s` changes nothing but that book. */
  lemma SortKept(a: Agency, s: Symbol)
    requires s in a.books && Known(a.orders, a.books[s].bids) && Known(a.orders, a.books[s].asks)
    ensures var b := SortBook(a, s); Kept(a, b) && Safe(a, b) && b.trades == a.trades
    ensures var b := SortBook(a, s); b.books.Keys == a.books.Keys && forall u :: u in a.books && u != s ==> b.books[u] == a.books[u]
  {
    var b := SortBook(a, s);
    assert b.users == a.users && b.orders == a.orders;
  }

  /** Sorting the book first does not change what `MatchFacts` says of a run. */
  lemma SortFacts(a: Agency, s: Symbol, now: int, tseq: nat, r: Agency, t: nat)
    requires s in a.books && Known(a.orders, a.books[s].bids) && Known(a.orders, a.books[s].asks)
    requires MatchFacts(SortBook(a, s), r, t, s, now, tseq)
    ensures MatchFacts(a, r, t, s, now, tseq)
  {
    var b := SortBook(a, s);
    SortKept(a, s);
    KeptSafeTrans(a, b, r);
    BooksTrans(a, b, r, s);
  }

  /** What `MatchOutcome` computes from `a` meets `MatchFacts`. */
  lemma {:induction false} OutcomeFacts(a: Agency, s: Symbol, now: int, tseq: nat, stepped: bool, r: Agency, t: nat)
    requires WellFormed(a) && (stepped ==> s in a.halts) && (r, t) == MatchOutcome(a, s, now, tseq, stepped)
    ensures MatchFacts(a, r, t, s, now, tseq)
    decreases BookSize(a, s)
  {
    if !Crossed(a, s) || (stepped && Halted(a, s, now)) {
      HeadsResting(a, s);
      StopFacts(a, s, now, tseq);
    } else {
      StepShrinks(a, s, now, tseq);
      StepOneTrade(a, s, now, tseq);
      OutcomeFacts(Step(a, s, now, tseq), s, now, tseq + 1, true, r, t);
      FactsCons(a, Step(a, s, now, tseq), r, t, s, now, tseq);
    }
  }

  /** Matching on from a crossed book, not halted by this run, is matching on from its `Step`. */
  lemma MatchSteps(a: Agency, s: Symbol, now: int, tseq: nat, stepped: bool)
    requires WellFormed(a) && Crossed(a, s) && (stepped ==> s in a.halts && !Halted(a, s, now))
    ensures WellFormed(Step(a, s, now, tseq)) && s in Step(a, s, now, tseq).halts
    ensures MatchOutcome(a, s, now, tseq, stepped) == MatchOutcome(Step(a, s, now, tseq), s, now, tseq + 1, true)
  {
    OutcomeSteps(a, s, now, tseq, stepped);
    AfterStepUnfolds(a, s, now, tseq);
    StepShrinks(a, s, now, tseq);
  }

  /** Where the `match` loop stops, it has computed `MatchResult`, and `MatchFacts` holds of it. */
  lemma MatchEnds(a: Agency, s: Symbol, now: int, tseq: nat, r: Agency, t: nat, stepped: bool)
    requires WellFormed(a) && WellFormed(r) && (stepped ==> s in r.halts)
    requires !Crossed(r, s) || (stepped && Halted(r, s, now))
    requires MatchOutcome(r, s, now, t, stepped) == MatchResult(a, s, now, tseq)
    ensures (r, t) == MatchResult(a, s, now, tseq) && MatchFacts(a, r, t, s, now, tseq)
  {
    OutcomeStops(r, s, now, t, stepped);
    SortKeepsWellFormed(a, s);
    OutcomeFacts(SortBook(a, s), s, now, tseq, false, r, t);
    SortFacts(a, s, now, tseq, r, t);
  }

  /**
   * `match`: sort the book, then trade the heads while the book is crossed,
   * stopping right after a trade that halted the symbol. `tseq` is the next
   * trade number; `tseq'` is the next one afterwards, one per trade made.
   * The loop computes `MatchResult`: every trade made is a positive trade of
   * `s` at `now`, numbered in order; the agency stays solvent and no user
   * ends up holding less.
   */
  method Match(a: Agency, s: Symbol, now: int, tseq: nat) returns (r: Agency, tseq': nat)
    requires WellFormed(a)
    ensures (r, tseq') == MatchResult(a, s, now, tseq)
    ensures MatchFacts(a, r, tseq', s, now, tseq)
  {
    SortKeepsWellFormed(a, s);
    r := SortBook(a, s);
    tseq' := tseq;
    ghost var stepped := false;
    ghost var result := MatchResult(a, s, now, tseq);
    while Crossed(r, s)
      invariant WellFormed(r) && (stepped ==> s in r.halts && !Halted(r, s, now))
      invariant MatchOutcome(r, s, now, tseq', stepped) == result
      decreases BookSize(r, s)
    {
      MatchSteps(r, s, now, tseq', stepped);
      r := TradeHeads(r, s, now, tseq');
      tseq', stepped := tseq' + 1, true;
      if Halted(r, s, now) {
        break;
      }
    }
    MatchEnds(a, s, now, tseq, r, tseq', stepped);
  }

  // ---------------------------------------------------------------------------
  // Solvency: no balance goes negative and every open order stays covered

  /** A party paid for a trade of positive size and price, with no negative refund, keeps non-negative balances. */
  lemma PaidKeepsSolvent(u: User, r: User, uid: UserId, t: Trade, refund: int, instant: bool, now: int)
    requires Paid(u, r, uid, t, refund, instant, now) && UserSolvent(u)
    requires refund >= 0 && t.qty > 0 && t.price > 0
    ensures UserSolvent(r)
  {
    assert t.qty * t.price > 0;
  }

  /** Every user paid for such a trade keeps non-negative balances. */
  lemma StepUsersKeepSolvent(users: map<UserId, User>, users': map<UserId, User>, t: Trade, refund: int, instant: bool, now: int)
    requires StepUsers(users, users', t, refund, instant, now) && forall uid :: uid in users ==> UserSolvent(users[uid])
    requires refund >= 0 && t.qty > 0 && t.price > 0
    ensures forall uid :: uid in users' ==> UserSolvent(users'[uid])
  {
    forall uid | uid in users' ensures UserSolvent(users'[uid]) {
      PaidKeepsSolvent(users[uid], users'[uid], uid, t, refund, instant, now);
    }
  }

  /** A fill of no more than an order has left keeps what it reserved covering the rest. */
  lemma FillKeepsReserve(o: Order, fill: int)
    requires OrderReserveOk(o) && 0 < fill <= o.remaining && o.price >= 0
    ensures OrderReserveOk(AfterFill(o, fill))
  {
    if o.status == Open && o.side == Buy {
      assert o.remaining * o.price == (o.remaining - fill) * o.price + fill * o.price;
      assert fill * o.price >= 0;
    }
  }

  /**
   * The bid of a trade at or below its price: what the refund takes from its
   * reservation is at most what the filled part had reserved, so the rest
   * stays covered and nothing goes negative.
   */
  lemma RefundedFillKeepsReserve(o: Order, price: int, fill: int)
    requires OrderReserveOk(o) && o.status == Open && o.side == Buy
    requires 0 < fill <= o.remaining && 0 < price <= o.price
    ensures Improvement(o.price, price, fill) >= 0
    ensures OrderReserveOk(AfterFill(Drawn(o, Improvement(o.price, price, fill)), fill))
  {
    var refund := Improvement(o.price, price, fill);
    assert refund == o.price * fill - price * fill;
    assert o.remaining * o.price == (o.remaining - fill) * o.price + fill * o.price;
    assert price * fill > 0;
    assert (o.remaining - fill) * o.price >= 0;
  }

  /** One matching step keeps an agency solvent. */
  lemma SteppedKeepsSolvent(a: Agency, s: Symbol, now: int, tseq: nat, r: Agency)
    requires WellFormed(a) && Crossed(a, s) && Solvent(a) && Stepped(a, s, now, tseq, r)
    ensures Solvent(r)
  {
    HeadTradeOk(a, s, now, tseq);
    HeadsResting(a, s);
    var bidId, askId := a.books[s].bids[0], a.books[s].asks[0];
    var t := HeadTrade(a, s, now, tseq);
    var bid, ask := a.orders[bidId], a.orders[askId];
    var refund := Improvement(bid.price, t.price, t.qty);
    assert 0 < t.price <= bid.price;
    RefundedFillKeepsReserve(bid, t.price, t.qty);
    FillKeepsReserve(ask, t.qty);
    StepUsersKeepSolvent(a.users, r.users, t, refund, a.mode == Instant, now);
    forall id | id in r.orders ensures OrderReserveOk(r.orders[id]) {
      if id != bidId && id != askId {
        assert r.orders[id] == a.orders[id];
      }
    }
  }

  /** One matching step keeps an agency solvent. */
  lemma StepKeepsSolvent(a: Agency, s: Symbol, now: int, tseq: nat)
    requires WellFormed(a) && Crossed(a, s) && Solvent(a)
    ensures Solvent(Step(a, s, now, tseq))
  {
    StepIsStepped(a, s, now, tseq);
    SteppedKeepsSolvent(a, s, now, tseq, Step(a, s, now, tseq));
  }

  // ---------------------------------------------------------------------------
  // Matching only credits: reservations were taken when the orders were placed

  /** A party paid for a trade of positive size and price, with no negative refund, loses nothing. */
  lemma PaidNoLess(u: User, r: User, uid: UserId, t: Trade, refund: int, instant: bool, now: int)
    requires Paid(u, r, uid, t, refund, instant, now) && refund >= 0 && t.qty > 0 && t.price > 0
    ensures NoLess(u, r)
  {
    assert t.qty * t.price > 0;
  }

  /** One matching step takes nothing from any user. */
  lemma SteppedOnlyCredits(a: Agency, s: Symbol, now: int, tseq: nat, r: Agency)
    requires WellFormed(a) && Crossed(a, s) && Stepped(a, s, now, tseq, r)
    ensures r.users.Keys == a.users.Keys && forall uid :: uid in a.users ==> NoLess(a.users[uid], r.users[uid])
  {
    HeadTradeOk(a, s, now, tseq);
    HeadsResting(a, s);
    var t := HeadTrade(a, s, now, tseq);
    var bp := a.orders[a.books[s].bids[0]].price;
    assert t.price <= bp;
    ImprovementSplits(bp, t.price, t.qty);
    StepUsersNoLess(a.users, r.users, t, Improvement(bp, t.price, t.qty), a.mode == Instant, now);
  }

  /** At or below the bid's price, the refund is not negative, and with the price paid it makes up the bid's price. */
  lemma ImprovementSplits(bidPrice: int, price: int, fill: int)
    requires 0 < price <= bidPrice && fill > 0
    ensures 0 <= Improvement(bidPrice, price, fill)
    ensures Improvement(bidPrice, price, fill) + fill * price == bidPrice * fill
  {
  }

  /** Every user paid for a trade of positive size and price, with no negative refund, loses nothing. */
  lemma StepUsersNoLess(users: map<UserId, User>, users': map<UserId, User>, t: Trade, refund: int, instant: bool, now: int)
    requires StepUsers(users, users', t, refund, instant, now) && refund >= 0 && t.qty > 0 && t.price > 0
    ensures forall uid :: uid in users ==> NoLess(users[uid], users'[uid])
  {
    forall uid | uid in users ensures NoLess(users[uid], users'[uid]) {
      PaidNoLess(users[uid], users'[uid], uid, t, refund, instant, now);
    }
  }

  /** One matching step takes nothing from any user. */
  lemma StepOnlyCredits(a: Agency, s: Symbol, now: int, tseq: nat)
    requires WellFormed(a) && Crossed(a, s)
    ensures var r := Step(a, s, now, tseq);
            r.users.Keys == a.users.Keys && forall uid :: uid in a.users ==> NoLess(a.users[uid], r.users[uid])
  {
    StepIsStepped(a, s, now, tseq);
    SteppedOnlyCredits(a, s, now, tseq, Step(a, s, now, tseq));
  }

  /**
   * Under instant settlement, when buyer and seller differ, the buyer's refund
   * and the seller's proceeds add up to the bid's price on the quantity
   * filled: exactly the part of the buyer's reservation the fill used up.
   */
  lemma SteppedSplitsReservation(a: Agency, s: Symbol, now: int, tseq: nat, r: Agency)
    requires WellFormed(a) && Crossed(a, s) && Stepped(a, s, now, tseq, r) && a.mode == Instant
    ensures s in a.books && a.books[s].bids != [] && a.books[s].bids[0] in a.orders
    ensures var t := HeadTrade(a, s, now, tseq);
            t.buyerId in a.users && t.sellerId in a.users && t.buyerId in r.users && t.sellerId in r.users
    ensures var t := HeadTrade(a, s, now, tseq);
            t.buyerId != t.sellerId ==>
              (r.users[t.buyerId].usd - a.users[t.buyerId].usd) + (r.users[t.sellerId].usd - a.users[t.sellerId].usd)
              == a.orders[a.books[s].bids[0]].price * t.qty
  {
    HeadTradeOk(a, s, now, tseq);
    HeadsResting(a, s);
    var t := HeadTrade(a, s, now, tseq);
    var bp := a.orders[a.books[s].bids[0]].price;
    assert t.price <= bp;
    if t.buyerId != t.sellerId {
      ImprovementSplits(bp, t.price, t.qty);
      StepUsersSplit(a.users, r.users, t, bp, now);
    }
  }

  /** The instant payments of a trade below or at `bp`, with the refund `Improvement` gives, add up to `bp` per unit. */
  lemma StepUsersSplit(users: map<UserId, User>, users': map<UserId, User>, t: Trade, bp: int, now: int)
    requires StepUsers(users, users', t, Improvement(bp, t.price, t.qty), true, now)
    requires t.buyerId in users && t.sellerId in users && t.buyerId != t.sellerId
    requires Improvement(bp, t.price, t.qty) + t.qty * t.price == bp * t.qty
    ensures (users'[t.buyerId].usd - users[t.buyerId].usd) + (users'[t.sellerId].usd - users[t.sellerId].usd) == bp * t.qty
  {
    assert Paid(users[t.buyerId], users'[t.buyerId], t.buyerId, t, Improvement(bp, t.price, t.qty), true, now);
    assert Paid(users[t.sellerId], users'[t.sellerId], t.sellerId, t, Improvement(bp, t.price, t.qty), true, now);
  }
}

=== FILE: orderbook.dfy ===
/**
 * Price-time priority of an order book side (`sortBooks`, engine.js).
 *
 * Bids are ordered by price, highest first, asks by price, lowest first; orders
 * at the same price keep time order (earlier `ts` first). The engine sorts with
 * JavaScript's stable `Array.prototype.sort`; here that sort is an insertion sort
 * over order ids whose keys live in the agency's order map.
 */
module OrderBook {
  import opened Store

  /** `x` may stand before `y` on this side: the comparator of `sortBooks` is not positive. */
  predicate Before(side: Side, x: Order, y: Order) {
    if side == Buy then x.price > y.price || (x.price == y.price && x.ts <= y.ts)
    else x.price < y.price || (x.price == y.price && x.ts <= y.ts)
  }

  /** Every id of the side resolves to an order. */
  predicate Known(orders: map<OrderId, Order>, ids: seq<OrderId>) {
    forall i :: 0 <= i < |ids| ==> ids[i] in orders
  }

  predicate Sorted(side: Side, orders: map<OrderId, Order>, ids: seq<OrderId>)
    requires Known(orders, ids)
  {
    forall i, j :: 0 <= i < j < |ids| ==> Before(side, orders[ids[i]], orders[ids[j]])
  }

  /** A side stays sorted when an order that may precede all of it is put in front. */
  lemma SortedCons(side: Side, orders: map<OrderId, Order>, y: OrderId, ids: seq<OrderId>)
    requires y in orders && Known(orders, ids) && Sorted(side, orders, ids)
    requires forall z :: z in ids ==> Before(side, orders[y], orders[z])
    ensures Known(orders, [y] + ids) && Sorted(side, orders, [y] + ids)
  {
    var r := [y] + ids;
    forall i, j | 0 <= i < j < |r| ensures Before(side, orders[r[i]], orders[r[j]]) {
      assert r[j] == ids[j - 1];
      if i > 0 {
        assert r[i] == ids[i - 1];
      }
    }
  }

  /** Places `x` in front of the first order it may precede, so that equal keys keep their order. */
  function Insert(side: Side, orders: map<OrderId, Order>, x: OrderId, ids: seq<OrderId>): (r: seq<OrderId>)
    requires x in orders && Known(orders, ids) && Sorted(side, orders, ids)
    ensures Known(orders, r) && Sorted(side, orders, r)
    ensures multiset(r) == multiset(ids) + multiset{x}
    ensures |r| == |ids| + 1
    ensures forall z :: z in r ==> z == x || z in ids
  {
    if ids == [] then
      [x]
    else if Before(side, orders[x], orders[ids[0]]) then
      assert forall z :: z in ids ==> Before(side, orders[x], orders[z]) by {
        forall z | z in ids ensures Before(side, orders[x], orders[z]) {
          var j :| 0 <= j < |ids| && ids[j] == z;
          if j > 0 {
            assert Before(side, orders[ids[0]], orders[ids[j]]);
          }
        }
      }
      SortedCons(side, orders, x, ids);
      [x] + ids
    else
      assert ids == [ids[0]] + ids[1..];
      var rest := Insert(side, orders, x, ids[1..]);
      assert forall z :: z in rest ==> Before(side, orders[ids[0]], orders[z]) by {
        forall z | z in rest ensures Before(side, orders[ids[0]], orders[z]) {
          if z != x {
            var j :| 1 <= j < |ids| && ids[j] == z;
          }
        }
      }
      SortedTail(side, orders, ids);
      SortedCons(side, orders, ids[0], rest);
      [ids[0]] + rest
  }

  /** The stable sort `sortBooks` applies to one side of a book. */
  function Sort(side: Side, orders: map<OrderId, Order>, ids: seq<OrderId>): (r: seq<OrderId>)
    requires Known(orders, ids)
    ensures Known(orders, r) && Sorted(side, orders, r)
    ensures multiset(r) == multiset(ids)
  {
    if ids == [] then []
    else
      assert ids == [ids[0]] + ids[1..];
      Insert(side, orders, ids[0], Sort(side, orders, ids[1..]))
  }

  /** Sorting a side that is already in priority order leaves it as it is. */
  lemma {:induction false} SortSortedUnchanged(side: Side, orders: map<OrderId, Order>, ids: seq<OrderId>)
    requires Known(orders, ids) && Sorted(side, orders, ids)
    ensures Sort(side, orders, ids) == ids
  {
    if ids != [] {
      SortedTail(side, orders, ids);
      SortSortedUnchanged(side, orders, ids[1..]);
      var tail := Sort(side, orders, ids[1..]);
      assert tail == ids[1..];
      if tail != [] {
        assert Before(side, orders[ids[0]], orders[ids[1]]);
        assert tail[0] == ids[1];
      }
      assert Insert(side, orders, ids[0], tail) == [ids[0]] + tail;
      assert [ids[0]] + ids[1..] == ids;
    }
  }

  /** Dropping the best order keeps a side sorted. */
  lemma SortedTail(side: Side, orders: map<OrderId, Order>, ids: seq<OrderId>)
    requires ids != [] && Known(orders, ids) && Sorted(side, orders, ids)
    ensures Known(orders, ids[1..]) && Sorted(side, orders, ids[1..])
  {
    forall i, j | 0 <= i < j < |ids[1..]|
      ensures Before(side, orders[ids[1..][i]], orders[ids[1..][j]])
    {
      assert ids[1..][i] == ids[i + 1] && ids[1..][j] == ids[j + 1];
    }
  }

  /** Removing any one order keeps a side sorted. */
  lemma SortedRemove(side: Side, orders: map<OrderId, Order>, ids: seq<OrderId>, k: nat)
    requires k < |ids| && Known(orders, ids) && Sorted(side, orders, ids)
    ensures Known(orders, ids[..k] + ids[k + 1..]) && Sorted(side, orders, ids[..k] + ids[k + 1..])
  {
    var r := ids[..k] + ids[k + 1..];
    assert forall i :: 0 <= i < |r| ==> r[i] == if i < k then ids[i] else ids[i + 1];
  }

  /** Priority depends only on price and time, so updating other fields of orders keeps a side sorted. */
  lemma SortedSameKeys(side: Side, orders: map<OrderId, Order>, orders': map<OrderId, Order>, ids: seq<OrderId>)
    requires Known(orders, ids) && Sorted(side, orders, ids)
    requires forall i :: 0 <= i < |ids| ==>
               ids[i] in orders' && orders'[ids[i]].price == orders[ids[i]].price && orders'[ids[i]].ts == orders[ids[i]].ts
    ensures Known(orders', ids) && Sorted(side, orders', ids)
  {
  }

  /** The head of a sorted side is at least as good as every other order on it. */
  lemma SortedHeadBest(side: Side, orders: map<OrderId, Order>, ids: seq<OrderId>, j: nat)
    requires Known(orders, ids) && Sorted(side, orders, ids) && 0 < j < |ids|
    ensures side == Buy ==> orders[ids[0]].price >= orders[ids[j]].price
    ensures side == Sell ==> orders[ids[0]].price <= orders[ids[j]].price
    ensures orders[ids[0]].price == orders[ids[j]].price ==> orders[ids[0]].ts <= orders[ids[j]].ts
  {
    assert Before(side, orders[ids[0]], orders[ids[j]]);
  }
}

=== FILE: settlement.dfy ===
/**
 * Settlement of matched trades (engine.js): `settleOrQueue` either credits the
 * parties at once (INSTANT) or queues the trade for later (T_PLUS_1), and the
 * settlement sweep of `processAllAgencies` settles the queued trades that are
 * due, netting the credits per user before applying them.
 *
 * Queued trades are the same objects as the agency's trade history, so the
 * queue holds positions in `Agency.trades` and settling a queued trade updates
 * the history too.
 */
module Settlement {
  import opened Wrappers
  import opened Store

  // ---------------------------------------------------------------------------
  // Per-trade credits

  /** Every trade at the given positions exists and both its parties hold an account for every symbol. */
  ghost predicate PartiesKnown(users: map<UserId, User>, trades: seq<Trade>, due: seq<nat>) {
    forall k :: 0 <= k < |due| ==>
      && due[k] < |trades|
      && trades[due[k]].buyerId in users && UserOk(users[trades[due[k]].buyerId])
      && trades[due[k]].sellerId in users && UserOk(users[trades[due[k]].sellerId])
  }

  /** Both parties of the trade hold an account for every symbol. */
  ghost predicate TradeParties(users: map<UserId, User>, t: Trade) {
    t.buyerId in users && UserOk(users[t.buyerId]) && t.sellerId in users && UserOk(users[t.sellerId])
  }

  /** Every position in `pos` is a position of a history of length `n`. */
  predicate InRange(pos: seq<nat>, n: nat) {
    forall k :: 0 <= k < |pos| ==> pos[k] < n
  }

  /** What settling one trade credits to one user: tokens if they bought, cash if they sold. */
  function CreditUser(u: User, uid: UserId, t: Trade): (r: User)
    requires uid == t.buyerId ==> t.symbol in u.tokens
    ensures r == u.(usd := r.usd, tokens := r.tokens) && r.tokens.Keys == u.tokens.Keys
  {
    var u1 := if uid == t.buyerId then u.(tokens := u.tokens[t.symbol := u.tokens[t.symbol] + t.qty]) else u;
    if uid == t.sellerId then u1.(usd := u1.usd + t.qty * t.price) else u1
  }

  /** Instant settlement of one trade: tokens to the buyer, then cash to the seller. */
  function Credit(users: map<UserId, User>, t: Trade): (r: map<UserId, User>)
    requires t.buyerId in users && UserOk(users[t.buyerId])
    requires t.sellerId in users
    ensures r.Keys == users.Keys
    ensures forall uid :: uid in r ==> r[uid] == CreditUser(users[uid], uid, t)
  {
    var b := users[t.buyerId];
    var users1 := users[t.buyerId := b.(tokens := b.tokens[t.symbol := b.tokens[t.symbol] + t.qty])];
    var sl := users1[t.sellerId];
    users1[t.sellerId := sl.(usd := sl.usd + t.qty * t.price)]
  }

  /** The trade as `settleOrQueue` leaves it: SETTLED under instant settlement, otherwise PENDING until the deadline. */
  function Stamp(t: Trade, mode: Mode, delay: int, now: int): (r: Trade)
    ensures r == t.(status := r.status, settleAt := r.settleAt)
    ensures mode == Instant <==> r.status == Settled
  {
    if mode == Instant then t.(status := Settled) else t.(status := Pending, settleAt := Some(now + delay * 1000))
  }

  /** `settleOrQueue`: settle the trade at position `i` now, or queue it until `now + tPlusDelaySeconds`. */
  function SettleOrQueue(a: Agency, i: nat, now: int): (r: Agency)
    requires i < |a.trades| && TradeParties(a.users, a.trades[i])
    ensures |r.trades| == |a.trades|
    ensures forall j :: 0 <= j < |a.trades| && j != i ==> r.trades[j] == a.trades[j]
    ensures a.mode == Instant ==>
              && r == a.(users := r.users, trades := r.trades)
              && r.users == Credit(a.users, a.trades[i])
              && r.trades[i] == a.trades[i].(status := Settled)
    ensures a.mode == TPlus1 ==>
              && r == a.(trades := r.trades, pending := r.pending)
              && r.trades[i] == a.trades[i].(status := Pending, settleAt := Some(now + a.tPlusDelaySeconds * 1000))
              && r.pending == a.pending + [i]
  {
    var t := a.trades[i];
    if a.mode == Instant then
      a.(users := Credit(a.users, t), trades := a.trades[i := t.(status := Settled)])
    else
      a.(trades := a.trades[i := t.(status := Pending, settleAt := Some(now + a.tPlusDelaySeconds * 1000))],
         pending := a.pending + [i])
  }

  // ---------------------------------------------------------------------------
  // The settlement sweep: specification

  /** A queued trade that is due at `now`. */
  predicate IsDue(t: Trade, now: int) {
    t.status == Pending && t.settleAt.Some? && t.settleAt.value <= now
  }

  /** The queued positions whose trades are due (`pendingSettlements.filter(...)`), in queue order. */
  function Due(trades: seq<Trade>, pending: seq<nat>, now: int): (r: seq<nat>)
    requires InRange(pending, |trades|)
    ensures forall j :: j in r <==> j in pending && j < |trades| && IsDue(trades[j], now)
    ensures |r| <= |pending|
    ensures InRange(r, |trades|)
  {
    if pending == [] then []
    else
      var rest := Due(trades, pending[1..], now);
      assert forall j :: j in pending <==> j == pending[0] || j in pending[1..];
      assert InRange(rest, |trades|) by {
        forall k | 0 <= k < |rest| ensures rest[k] < |trades| {
          assert rest[k] in rest;
        }
      }
      if IsDue(trades[pending[0]], now) then [pending[0]] + rest else rest
  }

  /** Due positions are queued positions, so their parties are known too. */
  lemma DuePartiesKnown(users: map<UserId, User>, trades: seq<Trade>, pending: seq<nat>, now: int)
    requires PartiesKnown(users, trades, pending)
    ensures InRange(pending, |trades|)
    ensures PartiesKnown(users, trades, Due(trades, pending, now))
  {
    var due := Due(trades, pending, now);
    forall k | 0 <= k < |due|
      ensures due[k] < |trades|
      ensures trades[due[k]].buyerId in users && UserOk(users[trades[due[k]].buyerId])
      ensures trades[due[k]].sellerId in users && UserOk(users[trades[due[k]].sellerId])
    {
      assert due[k] in due;
      var i :| 0 <= i < |pending| && pending[i] == due[k];
    }
  }

  /** The cash a user receives from the trades at the given positions. */
  function NetUsd(trades: seq<Trade>, due: seq<nat>, uid: UserId): int
    requires InRange(due, |trades|)
  {
    if due == [] then 0
    else
      var last := due[|due| - 1];
      NetUsd(trades, due[..|due| - 1], uid) + (if trades[last].sellerId == uid then trades[last].qty * trades[last].price else 0)
  }

  /** The tokens of one symbol a user receives from the trades at the given positions. */
  function NetTokens(trades: seq<Trade>, due: seq<nat>, uid: UserId, s: Symbol): int
    requires InRange(due, |trades|)
  {
    if due == [] then 0
    else
      var last := due[|due| - 1];
      NetTokens(trades, due[..|due| - 1], uid, s) + (if trades[last].buyerId == uid && trades[last].symbol == s then trades[last].qty else 0)
  }

  /** One user after receiving the net of the given trades. */
  function NetUser(u: User, uid: UserId, trades: seq<Trade>, due: seq<nat>): (r: User)
    requires InRange(due, |trades|)
    ensures r == u.(usd := r.usd, tokens := r.tokens) && r.tokens.Keys == u.tokens.Keys
  {
    u.(usd := u.usd + NetUsd(trades, due, uid),
       tokens := map s | s in u.tokens :: u.tokens[s] + NetTokens(trades, due, uid, s))
  }

  /** All users after receiving the net of the given trades. */
  function ApplyNet(users: map<UserId, User>, trades: seq<Trade>, due: seq<nat>): (r: map<UserId, User>)
    requires InRange(due, |trades|)
    ensures r.Keys == users.Keys
    ensures forall uid :: uid in r ==> r[uid] == NetUser(users[uid], uid, trades, due)
  {
    map uid | uid in users :: NetUser(users[uid], uid, trades, due)
  }

  /** Settling the given trades one by one, each as an instant settlement would. */
  function SequentialCredit(users: map<UserId, User>, trades: seq<Trade>, due: seq<nat>): (r: map<UserId, User>)
    requires PartiesKnown(users, trades, due)
    ensures r.Keys == users.Keys
    ensures forall uid :: uid in r ==> r[uid].tokens.Keys == users[uid].tokens.Keys
  {
    if due == [] then users
    else
      var before := SequentialCredit(users, trades, due[..|due| - 1]);
      var t := trades[due[|due| - 1]];
      assert UserOk(users[t.buyerId]);
      Credit(before, t)
  }

  lemma PartiesKnownPrefix(users: map<UserId, User>, trades: seq<Trade>, due: seq<nat>, k: nat)
    requires PartiesKnown(users, trades, due) && k <= |due|
    ensures PartiesKnown(users, trades, due[..k])
  {
    assert forall i :: 0 <= i < k ==> due[..k][i] == due[i];
  }

  /** A user netted over no trades is unchanged. */
  lemma NetUserNone(u: User, uid: UserId, trades: seq<Trade>)
    ensures NetUser(u, uid, trades, []) == u
  {
    assert (map s | s in u.tokens :: u.tokens[s] + 0) == u.tokens;
  }

  /** Netting one more trade is crediting that trade on top of the net so far. */
  lemma NetUserSnoc(u: User, uid: UserId, trades: seq<Trade>, due: seq<nat>)
    requires InRange(due, |trades|) && due != []
    requires uid == trades[due[|due| - 1]].buyerId ==> trades[due[|due| - 1]].symbol in u.tokens
    ensures NetUser(u, uid, trades, due) == CreditUser(NetUser(u, uid, trades, due[..|due| - 1]), uid, trades[due[|due| - 1]])
  {
    var init := due[..|due| - 1];
    var t := trades[due[|due| - 1]];
    var before := NetUser(u, uid, trades, init);
    var lhs := NetUser(u, uid, trades, due);
    var rhs := CreditUser(before, uid, t);
    assert lhs.usd == rhs.usd;
    forall s | s in u.tokens ensures lhs.tokens[s] == rhs.tokens[s] {
      assert NetTokens(trades, due, uid, s) == NetTokens(trades, init, uid, s) + (if t.buyerId == uid && t.symbol == s then t.qty else 0);
    }
  }

  /**
   * Netting is only a different order of the same additions: settling due trades
   * one by one credits every user exactly the per-user sums the sweep applies.
   */
  lemma {:induction false} NettingIsSequentialSettlement(users: map<UserId, User>, trades: seq<Trade>, due: seq<nat>)
    requires PartiesKnown(users, trades, due)
    ensures SequentialCredit(users, trades, due) == ApplyNet(users, trades, due)
  {
    if due == [] {
      forall uid | uid in users ensures ApplyNet(users, trades, due)[uid] == users[uid] {
        NetUserNone(users[uid], uid, trades);
      }
    } else {
      var init := due[..|due| - 1];
      assert PartiesKnown(users, trades, init) by { PartiesKnownPrefix(users, trades, due, |due| - 1); }
      NettingIsSequentialSettlement(users, trades, init);
      NettingOneMore(users, trades, due);
    }
  }

  /** The inductive step: crediting the last due trade on top of the net of the others. */
  lemma NettingOneMore(users: map<UserId, User>, trades: seq<Trade>, due: seq<nat>)
    requires PartiesKnown(users, trades, due) && due != []
    requires PartiesKnown(users, trades, due[..|due| - 1])
    requires SequentialCredit(users, trades, due[..|due| - 1]) == ApplyNet(users, trades, due[..|due| - 1])
    ensures SequentialCredit(users, trades, due) == ApplyNet(users, trades, due)
  {
    var t := trades[due[|due| - 1]];
    assert t.buyerId in users && UserOk(users[t.buyerId]) && t.sellerId in users;
    var lhs := SequentialCredit(users, trades, due);
    var rhs := ApplyNet(users, trades, due);
    assert lhs == Credit(ApplyNet(users, trades, due[..|due| - 1]), t);
    forall uid | uid in lhs ensures lhs[uid] == rhs[uid] {
      CreditOnNet(users, trades, due, uid);
    }
    MapsEqual(lhs, rhs);
  }

  /** Two maps with the same keys and the same value at every key are equal. */
  lemma MapsEqual<K, V>(m1: map<K, V>, m2: map<K, V>)
    requires m1.Keys == m2.Keys
    requires forall k :: k in m1 ==> m1[k] == m2[k]
    ensures m1 == m2
  {
  }

  /** One user's share of the inductive step. */
  lemma CreditOnNet(users: map<UserId, User>, trades: seq<Trade>, due: seq<nat>, uid: UserId)
    requires InRange(due, |trades|) && due != [] && uid in users
    requires var t := trades[due[|due| - 1]]; t.buyerId in users && UserOk(users[t.buyerId]) && t.sellerId in users
    ensures Credit(ApplyNet(users, trades, due[..|due| - 1]), trades[due[|due| - 1]])[uid] == ApplyNet(users, trades, due)[uid]
  {
    NetUserSnoc(users[uid], uid, trades, due);
  }

  /** The trade history after the given positions are marked settled. */
  function MarkSettled(trades: seq<Trade>, due: seq<nat>): (r: seq<Trade>)
    ensures |r| == |trades|
    ensures forall j :: 0 <= j < |trades| && j in due ==> r[j] == trades[j].(status := Settled)
    ensures forall j :: 0 <= j < |trades| && j !in due ==> r[j] == trades[j]
  {
    seq(|trades|, j requires 0 <= j < |trades| => if j in due then trades[j].(status := Settled) else trades[j])
  }

  /** The queue without the trades that are now settled (`filter(t => t.status !== "SETTLED")`). */
  function Unsettled(trades: seq<Trade>, pending: seq<nat>): (r: seq<nat>)
    requires InRange(pending, |trades|)
    ensures forall j :: j in r <==> j in pending && trades[j].status != Settled
  {
    if pending == [] then []
    else
      var rest := Unsettled(trades, pending[1..]);
      assert forall j :: j in pending ==> j < |trades|;
      assert forall j :: j in pending <==> j == pending[0] || j in pending[1..];
      if trades[pending[0]].status != Settled then [pending[0]] + rest else rest
  }

  /** What one pass of the sweep does to a T_PLUS_1 agency that has trades due. */
  function SettleDue(a: Agency, now: int): (r: Agency)
    requires InRange(a.pending, |a.trades|)
  {
    var due := Due(a.trades, a.pending, now);
    var trades := MarkSettled(a.trades, due);
    a.(users := ApplyNet(a.users, a.trades, due), trades := trades, pending := Unsettled(trades, a.pending))
  }

  /**
   * After the sweep every due trade is settled and off the queue, every other
   * queued trade is still queued and unchanged, and no trade outside the due
   * ones changed.
   */
  lemma SettleDueOutcome(a: Agency, now: int)
    requires InRange(a.pending, |a.trades|)
    requires forall j :: j in a.pending ==> a.trades[j].status == Pending
    ensures var r := SettleDue(a, now);
            && |r.trades| == |a.trades|
            && (forall j :: j in a.pending && IsDue(a.trades[j], now) ==> r.trades[j].status == Settled && j !in r.pending)
            && (forall j :: j in a.pending && !IsDue(a.trades[j], now) ==> r.trades[j] == a.trades[j] && j in r.pending)
            && (forall j :: 0 <= j < |a.trades| && j !in a.pending ==> r.trades[j] == a.trades[j])
            && (forall j :: j in r.pending ==> j in a.pending)
  {
  }

  /** Every recorded trade moved a positive quantity at a positive price. */
  ghost predicate AllPositive(trades: seq<Trade>) {
    forall i :: 0 <= i < |trades| ==> trades[i].qty > 0 && trades[i].price > 0
  }

  /** Netting positive trades only ever credits: no user's net cash or tokens is negative. */
  lemma {:induction false} NetIsCredit(trades: seq<Trade>, due: seq<nat>, uid: UserId, s: Symbol)
    requires InRange(due, |trades|) && AllPositive(trades)
    ensures NetUsd(trades, due, uid) >= 0 && NetTokens(trades, due, uid, s) >= 0
  {
    if due != [] {
      var last := due[|due| - 1];
      NetIsCredit(trades, due[..|due| - 1], uid, s);
      assert trades[last].qty * trades[last].price > 0;
    }
  }

  /**
   * The sweep takes nothing from anybody: every user ends up with no less cash
   * and no less of any token, and the orders are untouched, so a solvent
   * agency stays solvent.
   */
  lemma SettleDueOnlyCredits(a: Agency, now: int)
    requires InRange(a.pending, |a.trades|) && AllPositive(a.trades)
    ensures var r := SettleDue(a, now);
            && r.users.Keys == a.users.Keys && r.orders == a.orders
            && (forall uid :: uid in a.users ==> NoLess(a.users[uid], r.users[uid]))
            && (Solvent(a) ==> Solvent(r))
  {
    var due := Due(a.trades, a.pending, now);
    var r := SettleDue(a, now);
    forall uid | uid in a.users ensures NoLess(a.users[uid], r.users[uid]) {
      forall t | t in a.users[uid].tokens ensures r.users[uid].tokens[t] >= a.users[uid].tokens[t] {
        NetIsCredit(a.trades, due, uid, t);
      }
      NetIsCredit(a.trades, due, uid, AAPL);
    }
  }

  // ---------------------------------------------------------------------------
  // The settlement sweep: the engine's loops

  /** Token amounts for each listed symbol (`Object.fromEntries(SYMBOLS.map(s => [s, 0]))`). */
  datatype SymbolAmounts = SymbolAmounts(aapl: int, msft: int, tsla: int)

  function Amount(m: SymbolAmounts, s: Symbol): int {
    match s
    case AAPL => m.aapl
    case MSFT => m.msft
    case TSLA => m.tsla
  }

  /** `m[s] += q`. */
  function AddAmount(m: SymbolAmounts, s: Symbol, q: int): (r: SymbolAmounts)
    ensures Amount(r, s) == Amount(m, s) + q
    ensures forall s' :: s' != s ==> Amount(r, s') == Amount(m, s')
  {
    match s
    case AAPL => m.(aapl := m.aapl + q)
    case MSFT => m.(msft := m.msft + q)
    case TSLA => m.(tsla := m.tsla + q)
  }

  /** One user's entry in the netting map: cash and tokens per symbol still to be credited. */
  datatype NetEntry = NetEntry(usd: int, tokens: SymbolAmounts)

  /** The entry `ensureNet` creates for a user seen for the first time. */
  const ZERO_ENTRY := NetEntry(0, SymbolAmounts(0, 0, 0))

  /** A netting-map entry holds exactly the user's net over the given trades. */
  ghost predicate EntryIsNet(e: NetEntry, uid: UserId, trades: seq<Trade>, due: seq<nat>)
    requires InRange(due, |trades|)
  {
    e.usd == NetUsd(trades, due, uid)
    && forall s: Symbol :: Amount(e.tokens, s) == NetTokens(trades, due, uid, s)
  }

  /** What one trade adds to one user's netting entry: tokens if they bought, cash if they sold. */
  function CreditEntry(e: NetEntry, uid: UserId, t: Trade): (r: NetEntry)
    ensures r.usd == e.usd + (if uid == t.sellerId then t.qty * t.price else 0)
    ensures forall s :: Amount(r.tokens, s) == Amount(e.tokens, s) + (if uid == t.buyerId && s == t.symbol then t.qty else 0)
  {
    var e1 := if uid == t.buyerId then e.(tokens := AddAmount(e.tokens, t.symbol, t.qty)) else e;
    if uid == t.sellerId then e1.(usd := e1.usd + t.qty * t.price) else e1
  }

  /**
   * The body of the netting loop for one trade: create the buyer's and the
   * seller's entries if missing, add the buyer's tokens, then the seller's cash.
   */
  function AddTrade(net: map<UserId, NetEntry>, t: Trade): (r: map<UserId, NetEntry>)
    ensures r.Keys == net.Keys + {t.buyerId, t.sellerId}
    ensures forall uid :: uid in r ==> r[uid] == CreditEntry(if uid in net then net[uid] else ZERO_ENTRY, uid, t)
  {
    var net1 := if t.buyerId in net then net else net[t.buyerId := ZERO_ENTRY];
    var net2 := if t.sellerId in net1 then net1 else net1[t.sellerId := ZERO_ENTRY];
    var bn := net2[t.buyerId];
    var net3 := net2[t.buyerId := bn.(tokens := AddAmount(bn.tokens, t.symbol, t.qty))];
    var sn := net3[t.sellerId];
    net3[t.sellerId := sn.(usd := sn.usd + t.qty * t.price)]
  }

  /** The netting map holds exactly each party's net over the given trades, and nobody else has anything coming. */
  ghost predicate Netted(users: map<UserId, User>, trades: seq<Trade>, due: seq<nat>, net: map<UserId, NetEntry>)
    requires InRange(due, |trades|)
  {
    && (forall uid :: uid in net ==> uid in users && EntryIsNet(net[uid], uid, trades, due))
    && (forall uid :: uid !in net ==> EntryIsNet(ZERO_ENTRY, uid, trades, due))
  }

  /** The running sums of the netting loop grow by exactly the next trade. */
  lemma NetStep(trades: seq<Trade>, due: seq<nat>, k: nat)
    requires k < |due| && InRange(due, |trades|)
    ensures forall uid :: NetUsd(trades, due[..k + 1], uid) ==
              NetUsd(trades, due[..k], uid) + (if trades[due[k]].sellerId == uid then trades[due[k]].qty * trades[due[k]].price else 0)
    ensures forall uid, s :: NetTokens(trades, due[..k + 1], uid, s) ==
              NetTokens(trades, due[..k], uid, s) + (if trades[due[k]].buyerId == uid && trades[due[k]].symbol == s then trades[due[k]].qty else 0)
  {
    assert due[..k + 1][..k] == due[..k];
  }

  /** One user's entry after one more trade is their net over one more trade. */
  lemma EntryStep(e: NetEntry, uid: UserId, trades: seq<Trade>, due: seq<nat>, k: nat)
    requires k < |due| && InRange(due, |trades|)
    requires EntryIsNet(e, uid, trades, due[..k])
    ensures EntryIsNet(CreditEntry(e, uid, trades[due[k]]), uid, trades, due[..k + 1])
  {
    NetStep(trades, due, k);
  }

  /** A user who is not a party to the next trade gets nothing from it. */
  lemma UntouchedStep(uid: UserId, trades: seq<Trade>, due: seq<nat>, k: nat)
    requires k < |due| && InRange(due, |trades|)
    requires EntryIsNet(ZERO_ENTRY, uid, trades, due[..k])
    requires uid != trades[due[k]].buyerId && uid != trades[due[k]].sellerId
    ensures EntryIsNet(ZERO_ENTRY, uid, trades, due[..k + 1])
  {
    NetStep(trades, due, k);
  }

  /** The netting loop keeps its invariant. */
  lemma NettedStep(users: map<UserId, User>, trades: seq<Trade>, due: seq<nat>, k: nat, net: map<UserId, NetEntry>)
    requires k < |due| && PartiesKnown(users, trades, due)
    requires Netted(users, trades, due[..k], net)
    ensures Netted(users, trades, due[..k + 1], AddTrade(net, trades[due[k]]))
  {
    var t := trades[due[k]];
    var r := AddTrade(net, t);
    forall uid | uid in r ensures uid in users && EntryIsNet(r[uid], uid, trades, due[..k + 1]) {
      EntryStep(if uid in net then net[uid] else ZERO_ENTRY, uid, trades, due, k);
    }
    forall uid | uid !in r ensures EntryIsNet(ZERO_ENTRY, uid, trades, due[..k + 1]) {
      UntouchedStep(uid, trades, due, k);
    }
  }

  /** Marking one more due trade settled. */
  lemma MarkSettledStep(trades: seq<Trade>, due: seq<nat>, k: nat)
    requires k < |due| && InRange(due, |trades|)
    ensures MarkSettled(trades, due[..k + 1]) == MarkSettled(trades, due[..k])[due[k] := MarkSettled(trades, due[..k])[due[k]].(status := Settled)]
  {
    assert due[..k + 1] == due[..k] + [due[k]];
  }

  /**
   * The first loop of the sweep: for each due trade, add the buyer's tokens and
   * the seller's cash to their netting entries and mark the trade settled.
   */
  method NetDue(users: map<UserId, User>, trades: seq<Trade>, due: seq<nat>) returns (net: map<UserId, NetEntry>, settled: seq<Trade>)
    requires PartiesKnown(users, trades, due)
    ensures Netted(users, trades, due, net)
    ensures settled == MarkSettled(trades, due)
  {
    net := map[];
    settled := trades;
    var k := 0;
    while k < |due|
      invariant k <= |due|
      invariant Netted(users, trades, due[..k], net)
      invariant settled == MarkSettled(trades, due[..k])
    {
      NettedStep(users, trades, due, k, net);
      MarkSettledStep(trades, due, k);
      net := AddTrade(net, trades[due[k]]);
      settled := settled[due[k] := settled[due[k]].(status := Settled)];
      k := k + 1;
    }
    assert due[..k] == due;
  }

  /** Adds one netting entry to a user: the cash, then each symbol in turn (`for(const s of SYMBOLS)`). */
  method ApplyEntry(u: User, e: NetEntry) returns (r: User)
    requires UserOk(u)
    ensures r == u.(usd := u.usd + e.usd, tokens := map s | s in u.tokens :: u.tokens[s] + Amount(e.tokens, s))
  {
    r := u.(usd := u.usd + e.usd);
    var j := 0;
    while j < |SYMBOLS|
      invariant j <= |SYMBOLS|
      invariant r == u.(usd := u.usd + e.usd, tokens := r.tokens)
      invariant r.tokens.Keys == u.tokens.Keys
      invariant forall s :: s in r.tokens ==> r.tokens[s] == u.tokens[s] + (if s in SYMBOLS[..j] then Amount(e.tokens, s) else 0)
    {
      var s := SYMBOLS[j];
      r := r.(tokens := r.tokens[s := r.tokens[s] + Amount(e.tokens, s)]);
      assert SYMBOLS[..j + 1] == SYMBOLS[..j] + [s];
      j := j + 1;
    }
    AllSymbolsListed();
    assert SYMBOLS[..j] == SYMBOLS;
  }

  /** A user's net entry applied to the user is the user netted over the due trades. */
  lemma ApplyEntryIsNet(u: User, uid: UserId, e: NetEntry, trades: seq<Trade>, due: seq<nat>)
    requires InRange(due, |trades|) && EntryIsNet(e, uid, trades, due)
    ensures u.(usd := u.usd + e.usd, tokens := map s | s in u.tokens :: u.tokens[s] + Amount(e.tokens, s)) == NetUser(u, uid, trades, due)
  {
  }

  /**
   * The second loop of the sweep: apply each user's net. The engine visits the
   * users in the order their entries were created; every user is visited once.
   */
  method ApplyNets(users: map<UserId, User>, net: map<UserId, NetEntry>, trades: seq<Trade>, due: seq<nat>)
    returns (r: map<UserId, User>)
    requires InRange(due, |trades|)
    requires forall uid :: uid in users ==> UserOk(users[uid])
    requires Netted(users, trades, due, net)
    ensures r == ApplyNet(users, trades, due)
  {
    r := users;
    var todo := net.Keys;
    while todo != {}
      invariant todo <= net.Keys
      invariant r.Keys == users.Keys
      invariant forall uid :: uid in r && uid in net && uid !in todo ==> r[uid] == NetUser(users[uid], uid, trades, due)
      invariant forall uid :: uid in r && (uid !in net || uid in todo) ==> r[uid] == users[uid]
      decreases todo
    {
      var uid :| uid in todo;
      var u := ApplyEntry(r[uid], net[uid]);
      ApplyEntryIsNet(users[uid], uid, net[uid], trades, due);
      r := r[uid := u];
      todo := todo - {uid};
    }
    ApplyNetsDone(users, net, trades, due, r);
  }

  /** A user with nothing coming is unchanged by the netting. */
  lemma NothingToApply(u: User, uid: UserId, trades: seq<Trade>, due: seq<nat>)
    requires InRange(due, |trades|) && EntryIsNet(ZERO_ENTRY, uid, trades, due)
    ensures NetUser(u, uid, trades, due) == u
  {
    assert NetUser(u, uid, trades, due).tokens == u.tokens;
  }

  /** Once every entry is applied, the users are the netted users. */
  lemma ApplyNetsDone(users: map<UserId, User>, net: map<UserId, NetEntry>, trades: seq<Trade>, due: seq<nat>, r: map<UserId, User>)
    requires InRange(due, |trades|)
    requires Netted(users, trades, due, net)
    requires r.Keys == users.Keys
    requires forall uid :: uid in r && uid in net ==> r[uid] == NetUser(users[uid], uid, trades, due)
    requires forall uid :: uid in r && uid !in net ==> r[uid] == users[uid]
    ensures r == ApplyNet(users, trades, due)
  {
    var target := ApplyNet(users, trades, due);
    forall uid | uid in r ensures r[uid] == target[uid] {
      if uid !in net {
        NothingToApply(users[uid], uid, trades, due);
      }
    }
    MapsEqual(r, target);
  }

  /**
   * The body `processAllAgencies` runs for one agency: due trades are netted per
   * user, marked settled, the nets applied, and the settled trades dropped from
   * the queue. Agencies in INSTANT mode, or with nothing due, are left alone.
   */
  method ProcessAgency(a: Agency, now: int) returns (r: Agency, changed: bool)
    requires PartiesKnown(a.users, a.trades, a.pending)
    requires forall uid :: uid in a.users ==> UserOk(a.users[uid])
    ensures InRange(a.pending, |a.trades|)
    ensures changed <==> a.mode == TPlus1 && Due(a.trades, a.pending, now) != []
    ensures !changed ==> r == a
    ensures changed ==> r == SettleDue(a, now)
    ensures AllPositive(a.trades) ==> r.users.Keys == a.users.Keys && forall uid :: uid in a.users ==> NoLess(a.users[uid], r.users[uid])
    ensures AllPositive(a.trades) && Solvent(a) ==> Solvent(r)
  {
    DuePartiesKnown(a.users, a.trades, a.pending, now);
    if AllPositive(a.trades) {
      SettleDueOnlyCredits(a, now);
    }
    if a.mode != TPlus1 {
      return a, false;
    }
    var due := Due(a.trades, a.pending, now);
    if due == [] {
      return a, false;
    }
    var net, trades := NetDue(a.users, a.trades, due);
    var users := ApplyNets(a.users, net, a.trades, due);
    r := a.(users := users, trades := trades, pending := Unsettled(trades, a.pending));
    changed := true;
  }
}

=== FILE: store.dfy ===
/**
 * The in-memory data model of the exchange (store.js): tenants ("agencies"), their
 * users, order books, orders, trades and per-symbol circuit-breaker state, with the
 * registry that creates agencies on first reference.
 *
 * JavaScript objects that the engine shares by reference are represented by keys:
 * an order book holds order ids that index `Agency.orders`, and the pending-settlement
 * queue holds positions in `Agency.trades`.
 */
module Store {
  import opened Wrappers

  type UserId = string
  type OrderId = nat

  /** The tradable instruments of every agency. */
  datatype Symbol = AAPL | MSFT | TSLA

  /** The instruments in the order the source lists them. */
  const SYMBOLS: seq<Symbol> := [AAPL, MSFT, TSLA]

  lemma AllSymbolsListed()
    ensures forall s: Symbol :: s in SYMBOLS
  {
    forall s: Symbol ensures s in SYMBOLS {
      match s
      case AAPL => assert SYMBOLS[0] == s;
      case MSFT => assert SYMBOLS[1] == s;
      case TSLA => assert SYMBOLS[2] == s;
    }
  }

  function SymbolName(s: Symbol): string {
    match s
    case AAPL => "AAPL"
    case MSFT => "MSFT"
    case TSLA => "TSLA"
  }

  /** Reads a symbol from a request; any name outside the list is unknown. */
  function ParseSymbol(name: string): (r: Option<Symbol>)
    ensures r.Some? <==> (name == "AAPL" || name == "MSFT" || name == "TSLA")
    ensures r.Some? ==> SymbolName(r.value) == name
  {
    if name == "AAPL" then Some(AAPL)
    else if name == "MSFT" then Some(MSFT)
    else if name == "TSLA" then Some(TSLA)
    else None
  }

  /** The largest safe JavaScript integer, the price cap of a market BUY. */
  const MAX_SAFE_INTEGER: int := 9007199254740991

  /** Reference price a fresh agency starts its circuit breaker with. */
  function DefaultRefPrice(symbol: string): (p: int)
    ensures p > 0
    ensures symbol == "AAPL" ==> p == 150
    ensures symbol == "MSFT" ==> p == 320
    ensures symbol == "TSLA" ==> p == 220
    ensures ParseSymbol(symbol).None? ==> p == 100
  {
    if symbol == "AAPL" then 150
    else if symbol == "MSFT" then 320
    else if symbol == "TSLA" then 220
    else 100
  }

  /** Any side string other than "BUY" is treated as a sell by the engine. */
  datatype Side = Buy | Sell
  datatype OrderKind = Limit | Market
  datatype OrderStatus = Open | Filled | Partial | Canceled
  /** A trade has no status until `settleOrQueue` settles or queues it. */
  datatype TradeStatus = Matched | Pending | Settled
  datatype Mode = Instant | TPlus1

  datatype Flags = Flags(suspicious: bool, highVelocity: bool, oversizedOrders: bool)

  datatype User = User(
    agencyId: string,
    id: UserId,
    name: string,
    verified: bool,
    frozen: bool,
    flags: Flags,
    usd: int,
    tokens: map<Symbol, int>,
    ordersLastMinute: seq<int>)

  /** What an order took out of its owner's balances when it was placed. */
  datatype ReserveInfo = ReserveInfo(usdReserved: int, tokensReserved: int)

  datatype Order = Order(
    orderId: OrderId,
    ts: int,
    agencyId: string,
    userId: UserId,
    symbol: Symbol,
    side: Side,
    kind: OrderKind,
    price: int,
    qty: int,
    remaining: int,
    status: OrderStatus,
    reserveInfo: ReserveInfo)

  /** The view of an order that leaves the engine: every field except the reservation. */
  datatype PublicOrder = PublicOrder(
    orderId: OrderId,
    ts: int,
    agencyId: string,
    userId: UserId,
    symbol: Symbol,
    side: Side,
    kind: OrderKind,
    price: int,
    qty: int,
    remaining: int,
    status: OrderStatus)

  datatype Trade = Trade(
    tradeId: nat,
    ts: int,
    agencyId: string,
    symbol: Symbol,
    qty: int,
    price: int,
    buyerId: UserId,
    sellerId: UserId,
    status: TradeStatus,
    settleAt: Option<int>)

  datatype Book = Book(bids: seq<OrderId>, asks: seq<OrderId>)

  /** Why a symbol was halted: the trade price and the reference it was measured against. */
  datatype HaltReason = NoReason | Volatility(tradePrice: int, refPrice: int, cbPct: int)

  datatype Halt = Halt(haltedUntil: int, reason: HaltReason, refPrice: int)

  datatype Agency = Agency(
    id: string,
    name: string,
    mode: Mode,
    tPlusDelaySeconds: int,
    cbPct: int,
    cbHaltSeconds: int,
    users: map<UserId, User>,
    books: map<Symbol, Book>,
    orders: map<OrderId, Order>,
    trades: seq<Trade>,
    pending: seq<nat>,
    halts: map<Symbol, Halt>)

  datatype Error =
    | AgencyIdRequired
    | UserAlreadyExists
    | UserNotFound
    | UnknownSymbol
    | TradingHalted(symbol: Symbol, until: int)
    | KycRequired
    | AccountFrozen
    | InvalidParams
    | InsufficientUsd
    | InsufficientTokens
    | InsufficientLiquidity
    | OrderNotFound
    | Forbidden
    | NotOpen
    | UnknownFlag
    | InvalidMode

  /** A new agency: instant settlement, 30 s delay, 10 % breaker for 30 s, empty books. */
  function NewAgency(agencyId: string, name: string): (a: Agency)
    ensures a.id == agencyId && a.name == (if name == "" then agencyId else name)
    ensures a.mode == Instant && a.tPlusDelaySeconds == 30
    ensures a.cbPct == 10 && a.cbHaltSeconds == 30
    ensures a.users == map[] && a.orders == map[] && a.trades == [] && a.pending == []
    ensures forall s: Symbol :: s in a.books && a.books[s] == Book([], [])
    ensures forall s: Symbol :: s in a.halts && a.halts[s] == Halt(0, NoReason, DefaultRefPrice(SymbolName(s)))
  {
    AllSymbolsListed();
    Agency(
      agencyId,
      if name == "" then agencyId else name,
      Instant, 30, 10, 30,
      map[], map s | s in SYMBOLS :: Book([], []), map[], [], [],
      map s | s in SYMBOLS :: Halt(0, NoReason, DefaultRefPrice(SymbolName(s))))
  }

  /** A new user: unverified, unfrozen, unflagged, with no cash and no tokens of any symbol. */
  function NewUser(agencyId: string, id: UserId, name: string): (u: User)
    ensures u.agencyId == agencyId && u.id == id && u.name == name
    ensures !u.verified && !u.frozen
    ensures u.flags == Flags(false, false, false)
    ensures u.usd == 0 && u.ordersLastMinute == []
    ensures forall s: Symbol :: s in u.tokens && u.tokens[s] == 0
  {
    AllSymbolsListed();
    User(agencyId, id, name, false, false, Flags(false, false, false), 0,
         map s | s in SYMBOLS :: 0, [])
  }

  /** The characters JavaScript's String.prototype.trim removes. */
  predicate IsJsSpace(c: char) {
    || c == '\t' || c == '\n' || c == '\U{000B}' || c == '\U{000C}' || c == '\r' || c == ' '
    || c == '\U{00A0}' || c == '\U{1680}' || ('\U{2000}' <= c <= '\U{200A}')
    || c == '\U{2028}' || c == '\U{2029}' || c == '\U{202F}' || c == '\U{205F}'
    || c == '\U{3000}' || c == '\U{FEFF}'
  }

  function TrimStart(s: string): (r: string)
    ensures |r| <= |s| && r == s[|s| - |r|..]
    ensures r == [] || !IsJsSpace(r[0])
    ensures forall i :: 0 <= i < |s| - |r| ==> IsJsSpace(s[i])
  {
    if s != [] && IsJsSpace(s[0]) then TrimStart(s[1..]) else s
  }

  function TrimEnd(s: string): (r: string)
    ensures |r| <= |s| && r == s[..|r|]
    ensures r == [] || !IsJsSpace(r[|r| - 1])
    ensures forall i :: |r| <= i < |s| ==> IsJsSpace(s[i])
  {
    if s != [] && IsJsSpace(s[|s| - 1]) then TrimEnd(s[..|s| - 1]) else s
  }

  function Trim(s: string): string {
    TrimEnd(TrimStart(s))
  }

  lemma TrimStartFixed(s: string)
    requires s == [] || !IsJsSpace(s[0])
    ensures TrimStart(s) == s
  {
  }

  lemma TrimEndFixed(s: string)
    requires s == [] || !IsJsSpace(s[|s| - 1])
    ensures TrimEnd(s) == s
  {
  }

  /** The trimmed id neither starts nor ends with white space. */
  lemma TrimNoSurroundingSpace(s: string)
    ensures Trim(s) == [] || (!IsJsSpace(Trim(s)[0]) && !IsJsSpace(Trim(s)[|Trim(s)| - 1]))
  {
    var t := TrimStart(s);
    var r := TrimEnd(t);
    if r != [] {
      assert r[0] == t[0];
    }
  }

  /** Trimming twice is trimming once. */
  lemma TrimIdempotent(s: string)
    ensures Trim(Trim(s)) == Trim(s)
  {
    var r := Trim(s);
    TrimNoSurroundingSpace(s);
    TrimStartFixed(r);
    TrimEndFixed(r);
  }

  /** The trimmed id is a contiguous piece of the original. */
  lemma TrimIsSubstring(s: string)
    ensures exists i, j :: 0 <= i <= j <= |s| && Trim(s) == s[i..j]
  {
    var t := TrimStart(s);
    PrefixOfSuffix(s, t, TrimEnd(t));
  }

  lemma PrefixOfSuffix(s: string, t: string, r: string)
    requires |t| <= |s| && t == s[|s| - |t|..]
    requires |r| <= |t| && r == t[..|r|]
    ensures exists i, j :: 0 <= i <= j <= |s| && r == s[i..j]
  {
    var i := |s| - |t|;
    assert r == s[i..i + |r|];
  }

  function LookupUser(a: Agency, userId: UserId): (r: Result<User, Error>)
    ensures r.Success? <==> userId in a.users
    ensures r.Success? ==> r.value == a.users[userId]
    ensures r.Failure? ==> r.error == UserNotFound
  {
    if userId in a.users then Success(a.users[userId]) else Failure(UserNotFound)
  }

  function LookupBook(a: Agency, symbol: Symbol): (r: Result<Book, Error>)
    ensures r.Success? <==> symbol in a.books
    ensures r.Success? ==> r.value == a.books[symbol]
    ensures r.Failure? ==> r.error == UnknownSymbol
  {
    if symbol in a.books then Success(a.books[symbol]) else Failure(UnknownSymbol)
  }

  /** The public view of an order: the eleven public fields, never the reservation. */
  function StripOrder(o: Order): (p: PublicOrder)
    ensures p.orderId == o.orderId && p.ts == o.ts && p.agencyId == o.agencyId
    ensures p.userId == o.userId && p.symbol == o.symbol && p.side == o.side
    ensures p.kind == o.kind && p.price == o.price && p.qty == o.qty
    ensures p.remaining == o.remaining && p.status == o.status
  {
    PublicOrder(o.orderId, o.ts, o.agencyId, o.userId, o.symbol, o.side, o.kind,
                o.price, o.qty, o.remaining, o.status)
  }

  // ---------------------------------------------------------------------------
  // Structural invariants of an agency

  ghost predicate UserOk(u: User) {
    forall s: Symbol :: s in u.tokens
  }

  /** An order that may rest in a book under id `id`: an open limit order of that symbol and side, partly unfilled. */
  predicate Resting(o: Order, id: OrderId, s: Symbol, side: Side) {
    && o.orderId == id
    && o.symbol == s
    && o.side == side
    && o.kind == Limit
    && o.status == Open
    && 0 < o.remaining <= o.qty
    && o.price > 0
  }

  ghost predicate RestingOk(a: Agency, s: Symbol, id: OrderId, side: Side) {
    RestingIn(a.orders, s, id, side)
  }

  ghost predicate RestingIn(orders: map<OrderId, Order>, s: Symbol, id: OrderId, side: Side) {
    id in orders && Resting(orders[id], id, s, side)
  }

  ghost predicate NoDup(ids: seq<OrderId>) {
    forall id :: multiset(ids)[id] <= 1
  }

  /** A recorded trade: both parties are users of the agency and it moved a positive amount at a positive price. */
  ghost predicate TradeOk(a: Agency, t: Trade) {
    TradeIn(a.users.Keys, t)
  }

  ghost predicate TradeIn(uids: set<UserId>, t: Trade) {
    t.buyerId in uids && t.sellerId in uids && t.qty > 0 && t.price > 0
  }

  /**
   * The shape every agency keeps: known symbols, resolvable ids, no order twice
   * in a book. Each part reads only the fields it is about.
   */
  ghost predicate WellFormed(a: Agency) {
    && SymbolsOk(a.books, a.halts)
    && BooksOk(a.books, a.orders)
    && UsersOk(a.users)
    && OrdersOk(a.orders, a.users.Keys)
    && TradesOk(a.users.Keys, a.trades, a.pending)
  }

  ghost predicate SymbolsOk(books: map<Symbol, Book>, halts: map<Symbol, Halt>) {
    forall s: Symbol :: s in books && s in halts
  }

  ghost predicate BooksOk(books: map<Symbol, Book>, orders: map<OrderId, Order>) {
    && (forall s, id :: s in books && id in books[s].bids ==> RestingIn(orders, s, id, Buy))
    && (forall s, id :: s in books && id in books[s].asks ==> RestingIn(orders, s, id, Sell))
    && (forall s :: s in books ==> NoDup(books[s].bids) && NoDup(books[s].asks))
  }

  ghost predicate UsersOk(users: map<UserId, User>) {
    forall uid :: uid in users ==> UserOk(users[uid])
  }

  ghost predicate OrdersOk(orders: map<OrderId, Order>, uids: set<UserId>) {
    forall id :: id in orders ==> orders[id].userId in uids
  }

  ghost predicate TradesOk(uids: set<UserId>, trades: seq<Trade>, pending: seq<nat>) {
    && (forall i :: 0 <= i < |pending| ==> pending[i] < |trades|)
    && (forall i :: 0 <= i < |trades| ==> TradeIn(uids, trades[i]))
  }

  /** Balances are never negative and every open order still covers what it may release. */
  ghost predicate Solvent(a: Agency) {
    && (forall uid :: uid in a.users ==> UserSolvent(a.users[uid]))
    && (forall id :: id in a.orders ==> OrderReserveOk(a.orders[id]))
  }

  ghost predicate UserSolvent(u: User) {
    u.usd >= 0 && forall s :: s in u.tokens ==> u.tokens[s] >= 0
  }

  ghost predicate OrderReserveOk(o: Order) {
    && 0 <= o.remaining <= o.qty
    && o.reserveInfo.usdReserved >= 0
    && o.reserveInfo.tokensReserved >= 0
    && (o.status == Open && o.side == Buy ==> o.reserveInfo.usdReserved >= o.remaining * o.price)
    && (o.status == Open && o.side == Sell ==> o.reserveInfo.tokensReserved >= o.remaining)
    && o.price >= 0
  }

  /** `v` holds at least what `u` held: no less cash and no less of any token. */
  ghost predicate NoLess(u: User, v: User) {
    && v.usd >= u.usd && v.tokens.Keys == u.tokens.Keys
    && forall t :: t in u.tokens ==> v.tokens[t] >= u.tokens[t]
  }

  lemma NoLessTrans(u: User, v: User, w: User)
    requires NoLess(u, v) && NoLess(v, w)
    ensures NoLess(u, w)
  {
  }

  /** A fresh agency is well formed and solvent. */
  lemma NewAgencyValid(agencyId: string, name: string)
    ensures WellFormed(NewAgency(agencyId, name)) && Solvent(NewAgency(agencyId, name))
  {
  }

  /** Adding a new user who holds an entry for every symbol keeps an agency well formed. */
  lemma AddUserKeepsWellFormed(a: Agency, u: User)
    requires WellFormed(a) && u.id !in a.users && UserOk(u)
    ensures WellFormed(a.(users := a.users[u.id := u]))
  {
    var a' := a.(users := a.users[u.id := u]);
    forall i | 0 <= i < |a'.trades| ensures TradeIn(a'.users.Keys, a'.trades[i]) {
      assert TradeIn(a.users.Keys, a.trades[i]);
    }
  }

  /** Adding a new user with empty balances keeps an agency solvent. */
  lemma AddUserKeepsSolvent(a: Agency, u: User)
    requires Solvent(a) && u.usd == 0 && (forall s: Symbol :: s in u.tokens && u.tokens[s] == 0)
    ensures Solvent(a.(users := a.users[u.id := u]))
  {
  }

  /** An agency registered under key `k`. */
  ghost predicate AgencyOk(k: string, a: Agency) {
    a.id == k && WellFormed(a)
  }

  lemma RegistryUpdate(m: map<string, Agency>, m': map<string, Agency>, k: string, a: Agency)
    requires forall k' :: k' in m ==> AgencyOk(k', m[k'])
    requires AgencyOk(k, a) && m' == m[k := a]
    ensures forall k' :: k' in m' ==> AgencyOk(k', m'[k'])
  {
  }

  lemma MapUpdateSame<K, V>(m: map<K, V>, k: K)
    requires k in m
    ensures m[k := m[k]] == m
  {
  }

  lemma MapUpdateTwice<K, V>(m: map<K, V>, k: K, x: V, y: V)
    ensures m[k := x][k := y] == m[k := y]
  {
  }

  /** The agency registered under `k`, or the one `ensureAgency` would create for it. */
  function AgencyOrNew(agencies: map<string, Agency>, k: string): Agency {
    if k in agencies then agencies[k] else NewAgency(k, "")
  }

  // ---------------------------------------------------------------------------
  // The process-wide registry of agencies

  class Registry {
    var agencies: map<string, Agency>

    ghost predicate Valid()
      reads this
    {
      forall k :: k in agencies ==> AgencyOk(k, agencies[k])
    }

    constructor ()
      ensures agencies == map[] && Valid()
    {
      agencies := map[];
    }

    /**
     * Looks up an agency by its trimmed id, creating it on first reference.
     * Returns the trimmed id, which keys the agency.
     */
    method EnsureAgency(agencyId: string, name: string) returns (r: Result<string, Error>)
      requires Valid()
      modifies this
      ensures Valid()
      ensures r.Failure? <==> Trim(agencyId) == []
      ensures r.Failure? ==> r.error == AgencyIdRequired && agencies == old(agencies)
      ensures r.Success? ==> r.value == Trim(agencyId) && r.value in agencies
      ensures r.Success? && r.value in old(agencies) ==> agencies == old(agencies)
      ensures r.Success? && r.value !in old(agencies) ==>
                agencies == old(agencies)[r.value := NewAgency(r.value, name)]
      ensures r.Success? && name == "" ==> agencies == old(agencies)[r.value := AgencyOrNew(old(agencies), r.value)]
    {
      var id := Trim(agencyId);
      if id == [] {
        return Failure(AgencyIdRequired);
      }
      if id !in agencies {
        NewAgencyValid(id, name);
        agencies := agencies[id := NewAgency(id, name)];
      } else {
        MapUpdateSame(agencies, id);
      }
      return Success(id);
    }

    /** Stores a consistent agency under its key. */
    method Put(k: string, a: Agency)
      requires Valid() && AgencyOk(k, a)
      modifies this
      ensures Valid() && agencies == old(agencies)[k := a]
    {
      ghost var before := agencies;
      agencies := agencies[k := a];
      RegistryUpdate(before, agencies, k, a);
    }

    /** Stores a user with empty balances in a registered agency that does not have it yet. */
    method AddUser(k: string, u: User)
      requires Valid() && k in agencies && u.id !in agencies[k].users
      requires u.usd == 0 && (forall s: Symbol :: s in u.tokens && u.tokens[s] == 0)
      modifies this
      ensures Valid()
      ensures agencies == old(agencies)[k := old(agencies)[k].(users := old(agencies)[k].users[u.id := u])]
    {
      var a := agencies[k];
      assert AgencyOk(k, a);
      AddUserKeepsWellFormed(a, u);
      Put(k, a.(users := a.users[u.id := u]));
    }

    /** Adds a fresh user to an agency; an id already taken in that agency is rejected. */
    method CreateUser(agencyId: string, id: UserId, name: string) returns (r: Result<User, Error>)
      requires Valid()
      modifies this
      ensures Valid()
      ensures Trim(agencyId) == [] ==> r == Failure(AgencyIdRequired) && agencies == old(agencies)
      ensures Trim(agencyId) != [] ==>
                var k := Trim(agencyId);
                var a := AgencyOrNew(old(agencies), k);
                if id in a.users then
                  r == Failure(UserAlreadyExists) && agencies == old(agencies)[k := a]
                else
                  r == Success(NewUser(agencyId, id, name))
                  && agencies == old(agencies)[k := a.(users := a.users[id := r.value])]
    {
      var ea := EnsureAgency(agencyId, "");
      if ea.Failure? {
        return Failure(ea.error);
      }
      var k := ea.value;
      var a := agencies[k];
      if id in a.users {
        return Failure(UserAlreadyExists);
      }
      var u := NewUser(agencyId, id, name);
      ghost var mid := agencies;
      AddUser(k, u);
      MapUpdateTwice(old(agencies), k, a, a.(users := a.users[id := u]));
      return Success(u);
    }

    /** `user(agencyId, userId)`: ensures the agency exists, then looks the user up. */
    method GetUser(agencyId: string, userId: UserId) returns (r: Result<User, Error>)
      requires Valid()
      modifies this
      ensures Valid()
      ensures Trim(agencyId) == [] ==> r == Failure(AgencyIdRequired) && agencies == old(agencies)
      ensures Trim(agencyId) != [] ==> Trim(agencyId) in agencies && r == LookupUser(agencies[Trim(agencyId)], userId)
      ensures Trim(agencyId) != [] ==>
                agencies == old(agencies)[Trim(agencyId) := AgencyOrNew(old(agencies), Trim(agencyId))]
      ensures Trim(agencyId) in old(agencies) ==> agencies == old(agencies)
    {
      var ea := EnsureAgency(agencyId, "");
      if ea.Failure? {
        return Failure(ea.error);
      }
      r := LookupUser(agencies[ea.value], userId);
    }

    /** `book(agencyId, symbol)`: ensures the agency exists, then looks the order book up. */
    method GetBook(agencyId: string, symbol: Symbol) returns (r: Result<Book, Error>)
      requires Valid()
      modifies this
      ensures Valid()
      ensures Trim(agencyId) == [] ==> r == Failure(AgencyIdRequired) && agencies == old(agencies)
      ensures Trim(agencyId) != [] ==> Trim(agencyId) in agencies && r == LookupBook(agencies[Trim(agencyId)], symbol)
      ensures Trim(agencyId) != [] ==>
                agencies == old(agencies)[Trim(agencyId) := AgencyOrNew(old(agencies), Trim(agencyId))]
      ensures Trim(agencyId) in old(agencies) ==> agencies == old(agencies)
    {
      var ea := EnsureAgency(agencyId, "");
      if ea.Failure? {
        return Failure(ea.error);
      }
      r := LookupBook(agencies[ea.value], symbol);
    }
  }

  /** A second `ensureAgency` with the same id changes nothing and yields the same agency. */
  method EnsureAgencyTwice(reg: Registry, agencyId: string, name1: string, name2: string)
    returns (r1: Result<string, Error>, r2: Result<string, Error>)
    requires reg.Valid() && Trim(agencyId) != []
    modifies reg
    ensures reg.Valid()
    ensures r1.Success? && r1 == r2 && r1.value in reg.agencies
    ensures r1.value in old(reg.agencies) ==> reg.agencies == old(reg.agencies)
    ensures r1.value !in old(reg.agencies) ==> reg.agencies == old(reg.agencies)[r1.value := NewAgency(r1.value, name1)]
  {
    r1 := reg.EnsureAgency(agencyId, name1);
    ghost var afterFirst := reg.agencies;
    r2 := reg.EnsureAgency(agencyId, name2);
    assert reg.agencies == afterFirst;
  }
}

=== FILE: wrappers.dfy ===
/** Failure-compatible wrappers used for the exchange's error returns. */
module Wrappers {

  datatype Option<+T> = None | Some(value: T)

  /** The result of an operation that either succeeds with a value or fails with an error code. */
  datatype Result<+R, +E> = Success(value: R) | Failure(error: E) {
    predicate IsFailure() {
      Failure?
    }

    function PropagateFailure<U>(): Result<U, E>
      requires Failure?
    {
      Failure(error)
    }

    function Extract(): R
      requires Success?
    {
      value
    }
  }

  /** A check that either passes or fails with an error code. */
  datatype Outcome<+E> = Pass | Fail(error: E) {
    predicate IsFailure() {
      Fail?
    }

    function PropagateFailure<U>(): Result<U, E>
      requires Fail?
    {
      Failure(error)
    }
  }
}
